=== FILE: README.md ===
# GR Race Guardian strategy core in Dafny

This project models the strategy-decision layer of the GR Race Guardian
Python backend (`backend-python/grracing/`) and proves properties of it. The
layer is a set of pure threshold-and-scoring functions over reals and small
integers, plus the deterministic skeletons of the two race simulators:

- the advanced pit-decision engine: five weighted factors, a clamped
  confidence, and the `PIT_NOW` / `PIT_LATER` / `EXTEND_STINT` priority chain;
- the strategy optimizer and the strategy console: pit windows, undercut and
  overcut analysis, risk scores, tyre life, the window timeline;
- the leaf models: pit rejoin, traffic density, overtake probability,
  weather, tyre degradation and fuel effect, the rule-based traffic-loss
  model, and the untrained fallback paths of the ML models (tyre
  degradation, traffic loss, stint optimizer, lap-time predictor);
- the Race Twin and Monte Carlo simulators, with every random draw passed in
  as a parameter: per-lap re-ranking into positions 1..n, pit rules,
  overtakes, aggregation of finishing positions into distributions, the
  clamp on the number of simulations, and the tyre-cliff and pit-window
  summaries;
- the driver twin: its post-processing (clips, step functions, buckets, the
  default twin) and the update loop's per-driver history window;
- the per-lap classifier, the request validators, and the ranking,
  overtake and anomaly detection of the two replay builders.

One Dafny module models one Python file. Shared pieces are `Wrappers`
(`Option`, `Result`, Python's exception kinds), `Numerics` (clamp, min/max,
truncation toward zero, the fractional part, sums and means), `Ranking`
(Python's stable `sorted` on index keys), `Counter` (`collections.Counter` in
first-occurrence order), `Text` (ASCII case mapping, substring search,
splitting and `str.strip`), `Labels` and `PyValue`
(dynamic JSON values with `float()`, `int()`, `len()` and truthiness).

Python floats are modelled as Dafny `real`. Randomness, numpy and scipy
results, and transcendental operations (`exp`, `log`, `sqrt`, real powers)
are parameters or inputs. Where a lemma needs a fact about one of them
(non-negative, monotone), that fact is a precondition of the lemma.

## Model

| member | source | states |
|---|---|---|
| Numerics.Clamp | backend-python/grracing/overtake.py:78 | `max(lo, min(hi, x))` lands in [lo, hi], leaves a value already there alone, and sends one outside to the nearer bound |
| Numerics.Trunc | backend-python/grracing/strategy_optimizer.py:125 | `int(x)` truncates toward zero: the result has the sign of x and lies within one of it, never farther from zero |
| Numerics.FracPart | backend-python/grracing/real_race_replay.py:465 | `x % 1.0` lies in [0, 1) and differs from x by a whole number |
| Numerics.TruncQuotient | backend-python/grracing/strategy_optimizer.py:125 | for a nonnegative amount and a positive rate, `int(amount / rate)` is the number of whole rates that fit in the amount |
| Numerics.ArgMin | backend-python/grracing/pit_rejoin.py:242 | `min(..., key=...)` picks an element of least key, and the first of several such |
| Numerics.SeqMin | backend-python/grracing/driver_twin.py:90 | `min` of a nonempty list is one of its elements and no element is smaller |
| Numerics.SeqMax | backend-python/grracing/monte_carlo.py:232-233 | `max` of a nonempty list is one of its elements and no element is larger |
| Numerics.MeanBetween | backend-python/grracing/driver_twin.py:90-93 | the mean of values that all lie in [lo, hi] lies in [lo, hi] |
| Ranking.Insert | backend-python/grracing/race_twin.py:184-187 | inserting one more entry into a sorted order keeps it sorted and adds exactly that entry |
| Ranking.SortPrefix | backend-python/grracing/race_twin.py:184-187 | sorting the first n entries yields a sorted permutation of them |
| Ranking.StableOrder | backend-python/grracing/race_twin.py:184-187 | `sorted(..., key=...)` is a permutation of the entries in nondecreasing key order in which entries with equal keys keep their original order |
| Ranking.Positions | backend-python/grracing/race_twin.py:188-189 | positions 1..n are assigned in sorted order: each entry's position points back to it in the sorted order |
| Ranking.PositionsDistinct | backend-python/grracing/race_twin.py:188-189 | no two entries share a position |
| Ranking.PositionsRespectKeys | backend-python/grracing/race_twin.py:184-189 | an entry that sorts before another gets the smaller position |
| Ranking.RankByTime | backend-python/grracing/monte_carlo.py:173-177 | ranking by cumulative time gives distinct positions 1..n, the faster driver always ahead, and ties in input order |
| Ranking.RankByTimeOnto | backend-python/grracing/monte_carlo.py:177 | every position 1..n is taken by some driver |
| Counter.Count | backend-python/grracing/race_twin.py:477 | a key's count is positive exactly when it occurs |
| Counter.Keys | backend-python/grracing/race_twin.py:477-490 | a counter's keys are the distinct values, each once, and exactly those that occur |
| Counter.CountsAddUp | backend-python/grracing/race_twin.py:477-491 | the counts over all keys add up to the number of observations |
| Counter.MostCommon | backend-python/grracing/race_twin.py:480 | `most_common(1)` picks an observed value of greatest count, and the first such value in order of first occurrence |
| Counter.Shares | backend-python/grracing/race_twin.py:488-491 | each key's share is its count over the number of simulations |
| Counter.SharesSumToOne | backend-python/grracing/race_twin.py:488-491 | when every simulation recorded a position among the keys, the position distribution sums to one |
| Text.Lower | backend-python/grracing/pit_decision_engine.py:445 | `str.lower` keeps the length and maps each character on its own |
| Text.Upper | backend-python/grracing/lap_classification.py:198 | `str.upper` keeps the length and maps each character on its own |
| Text.ContainsIffOccurs | backend-python/grracing/pit_decision_engine.py:446 | `p in s` holds exactly when p occurs in s at some offset |
| Text.Split | backend-python/grracing/lap_classification.py:67 | `str.split(sep)` yields at least one part and no part contains the separator |
| Text.JoinSplit | backend-python/grracing/lap_classification.py:67 | joining the parts of a split with the separator gives back the original string |
| Text.SplitCount | backend-python/grracing/lap_classification.py:67 | a split yields one more part than there are separators |
| Text.StripStart | backend-python/grracing/real_race_replay.py:185 | the leading-whitespace cut leaves a suffix that starts with a non-space, having dropped only whitespace |
| Text.StripEnd | backend-python/grracing/real_race_replay.py:185 | the trailing-whitespace cut leaves a prefix that ends with a non-space, having dropped only whitespace |
| Text.Strip | backend-python/grracing/real_race_replay.py:185 | a stripped string neither starts nor ends with whitespace |
| Text.StripIsTrim | backend-python/grracing/real_race_replay.py:188 | stripping keeps one contiguous run of the string and drops only whitespace on either side of it |
| Text.StripIdempotent | backend-python/grracing/real_race_replay.py:188-189 | stripping an already stripped string changes nothing |
| Text.StripEmptyIff | backend-python/grracing/real_race_replay.py:185-186 | a string strips to nothing exactly when it is all whitespace |
| TireDegradation.DefaultRate | backend-python/grracing/models/tire_degradation.py:171-179 | SOFT wears at 0.003, HARD at 0.0015, and every other compound name, MEDIUM included, falls back to 0.002 |
| TireDegradation.DefaultDegradation | backend-python/grracing/models/tire_degradation.py:167-185 | the fallback curve is exponential with exponent 1.2, base pace 95 s, the compound's default rate, confidence 0.5 and r² 0.7 |
| TireDegradation.FitDegradationCurve | backend-python/grracing/models/tire_degradation.py:26-106 | fewer than three laps or ages returns the default curve and leaves the cache alone; otherwise the result is cached under the compound; an exponential fit reports its rate, exponent and R², confidence min(n/20, 1) and the mean of the first three laps as base pace; the linear fallback reports the slope as rate, exponent 1, R² 0.7 and confidence 0.6; a total fitting failure falls back to the default |
| TireDegradation.PredictDegradation | backend-python/grracing/models/tire_degradation.py:108-150 | explicit parameters win over the cached curve, which wins over the default; predicted pace is base pace × (1 + degradation); a tyre of age 20 or less is never at the cliff, an older one is exactly when its marginal rate exceeds 0.003 |
| TireDegradation.CliffLapFromIsFirst | backend-python/grracing/models/tire_degradation.py:160-165 | the scan from a given age returns the least age below 50 whose marginal rate exceeds 0.003, or 30 when none does |
| TireDegradation.PredictCliffLapIsFirst | backend-python/grracing/models/tire_degradation.py:152-165 | the predicted cliff lap is the first age in 1..49 past the 0.003 marginal-rate threshold, or 30 when there is none |
| TireDegradation.CompoundMultiplier | backend-python/grracing/models/tire_degradation.py:201-206 | the quick estimate scales the base rate by 1.5 for SOFT, 0.7 for HARD and 1.0 for anything else |
| TireDegradation.CalculateDegradation | backend-python/grracing/models/tire_degradation.py:187-215 | the estimate never exceeds the 10% cap, is zero for a new tyre, and below the cap equals the temperature-adjusted compound rate times the age |
| TireDegradation.CalculateDegradationMonotoneInAge | backend-python/grracing/models/tire_degradation.py:198-215 | at any track temperature from -75 °C up, an older tyre never has a lower estimate |
| TireDegradation.CalculateDegradationMonotoneInTemp | backend-python/grracing/models/tire_degradation.py:198-215 | for a nonnegative age, a hotter track never lowers the estimate |
| Traffic.InSector | backend-python/grracing/traffic.py:35 | the drivers kept are exactly those whose sector field equals the queried sector |
| Traffic.MaxPosition | backend-python/grracing/traffic.py:42-43 | the value is a position some driver in the sector holds and no driver there holds a larger one (a missing position counts as 0) |
| Traffic.MinPosition | backend-python/grracing/traffic.py:42-43 | the value is a position some driver in the sector holds and no driver there holds a smaller one |
| Traffic.ProximityFactor | backend-python/grracing/traffic.py:44 | the factor lies in (0, 1] and is 1 when all cars in the sector share one position |
| Traffic.Share | backend-python/grracing/traffic.py:38 | the share of the field in the sector lies in [0, 1], is 0 with nobody there and 1/n with one car there; an empty field does not divide by zero |
| Traffic.RawDensity | backend-python/grracing/traffic.py:38-45 | the proximity boost at most doubles the share and never lowers it |
| Traffic.TrafficDensity | backend-python/grracing/traffic.py:23-50 | the density lies in [0, 1], is 0 for an empty sector, 1/n for a lone car, and at most twice the sector's share of the field |
| Traffic.AllInSectorIsSaturated | backend-python/grracing/traffic.py:35-48 | when every driver of a nonempty field is in the queried sector the density is exactly 1 |
| Traffic.AllInSectorKeepsAll | backend-python/grracing/traffic.py:35 | the sector filter keeps the whole field when every driver is in that sector |
| Traffic.SectorLossBase | backend-python/grracing/traffic.py:64 | the base loss is 0.3 s in S1, 0.5 s in S2 and 0.4 s in S3 or any other sector |
| Traffic.EstimateTimeLost | backend-python/grracing/traffic.py:52-69 | no density costs nothing, and the loss is at most 0.5 s times density^1.5 |
| Weather.DetermineCondition | backend-python/grracing/weather.py:36-57 | each condition holds exactly on its region: wet above 0.5 mm/h of rain, damp for light rain or humidity above 80, mixed for a track below 15 or above 50 °C, otherwise dry |
| Weather.BasePaceModifier | backend-python/grracing/weather.py:18-23 | no condition makes the car faster than dry (every multiplier is at least 1) |
| Weather.BaseDegradationModifier | backend-python/grracing/weather.py:26-31 | wet, damp and mixed wear the tyre less than dry, never below 0.7 of it |
| Weather.PaceModifier | backend-python/grracing/weather.py:59-78 | the temperature term can only slow the car further than the condition's base, and has no effect at 27.5 °C |
| Weather.TempWearEffect | backend-python/grracing/weather.py:93-94 | the temperature wear effect is clipped to [0.5, 2] |
| Weather.DegradationModifier | backend-python/grracing/weather.py:80-98 | the wear modifier is the condition's base times the clipped temperature effect, hence always within [0.35, 2] |
| Weather.AdjustLapTime | backend-python/grracing/weather.py:100-116 | weather never makes a nonnegative lap time faster |
| Weather.AdjustDegradationRate | backend-python/grracing/weather.py:118-134 | a nonnegative wear rate is scaled into [0.35, 2] times itself |
| Weather.PredictWeatherEvolution | backend-python/grracing/weather.py:136-168 | the forecast track stays at least 15 °C and never warms above the current (default 25), rain never goes negative, humidity is carried over (default 50), and the condition is recomputed from the forecast values |
| Overtake.SectorFactor | backend-python/grracing/overtake.py:63 | the sector bonus is 0.3 in S1, 0.5 in S2 and 0.4 in S3 or any other sector |
| Overtake.SpeedAdvantage | backend-python/grracing/overtake.py:52-53 | a defender speed that is not positive gives no speed advantage instead of a division by zero |
| Overtake.Proximity | backend-python/grracing/overtake.py:56 | equal positions give no proximity bonus; distinct positions give a bonus in (0, 1] |
| Overtake.TireAdvantage | backend-python/grracing/overtake.py:59-60 | the tyre bonus is capped at 0.5 and turns into a penalty when the attacker's tyres are older |
| Overtake.OvertakeProbability | backend-python/grracing/overtake.py:28-80 | the probability always lies in [0, 1] and equals the weighted sum whenever that sum is already in range |
| Overtake.ProbabilityMonotoneInAttackerSpeed | backend-python/grracing/overtake.py:52-78 | against a defender with positive speed, a faster attacker never has a lower chance |
| Overtake.PairsFor | backend-python/grracing/overtake.py:98-116 | for one attacker, the predictions are exactly the defenders it is strictly behind, each once and in index order, with the model's probability and `likely` exactly above 0.5; a defender without a position raises KeyError, and only then |
| Overtake.PairsFrom | backend-python/grracing/overtake.py:97-116 | the nested loops score pairs in loop order, every scored pair having its attacker strictly behind its defender; they raise KeyError exactly when some driver lacks a position and the field has two or more drivers |
| Overtake.PairsFromComplete | backend-python/grracing/overtake.py:97-99 | every pair with the attacker strictly behind the defender is scored |
| Overtake.Store | backend-python/grracing/overtake.py:110-116 | writing the predictions into the dict leaves exactly the keys that some prediction wrote |
| Overtake.StoreLast | backend-python/grracing/overtake.py:110-116 | a key holds the entry of the last prediction written under it |
| Overtake.PredictOvertake | backend-python/grracing/overtake.py:82-118 | raises KeyError('position') exactly when a driver has no position and there is a second driver; otherwise every key is `"<attacker id>_vs_<defender id>"` of a pair with the attacker strictly behind |
| Overtake.PredictOvertakeEntries | backend-python/grracing/overtake.py:97-118 | every such pair's key is present, and it holds that pair's probability, ids and `likely` unless a later pair in loop order wrote the same key |
| Overtake.OnlyNoneKey | backend-python/grracing/overtake.py:110 | with no ids, every key is "None_vs_None" |
| Overtake.MissingIdsOverwrite | backend-python/grracing/overtake.py:97-118 | three drivers without ids at positions 1, 2, 3 leave a single entry "None_vs_None", holding third place against second, the last pair scored |
| PitRejoin.RejoinSectorMultiplier | backend-python/grracing/pit_rejoin.py:119-124 | rejoining costs 0.8× in S1, 1.2× in S2 and 1.0× in S3 or any other sector |
| PitRejoin.TimeLostStrictlyIncreasing | backend-python/grracing/pit_rejoin.py:112-129 | more traffic always costs strictly more time at the rejoin |
| PitRejoin.TimeToPositions | backend-python/grracing/pit_rejoin.py:131-143 | positions lost are never negative, and a nonnegative time loss converts one second per position |
| PitRejoin.GhostPosition | backend-python/grracing/pit_rejoin.py:145-172 | the no-stop ghost loses at most five places and none at all before lap 25 |
| PitRejoin.ImpactSectorMultiplier | backend-python/grracing/pit_rejoin.py:192-197 | traffic after rejoining costs 0.8× in S1, 1.3× in S2 and 1.0× in S3 or any other sector |
| PitRejoin.CalculateTrafficImpact | backend-python/grracing/pit_rejoin.py:174-211 | the cars ahead are the rejoin position minus one (never negative), the window is clear exactly when the loss is under 0.2 s a lap, and a leader rejoining loses nothing |
| PitRejoin.SimulatePitRejoin | backend-python/grracing/pit_rejoin.py:28-95 | the stop costs the pit time plus the traffic-scaled rejoin penalty; the rejoin position never passes the last car nor improves on the position before the stop; the ghost stays within five places; traffic impact is judged at the unrounded rejoin position |
| PitRejoin.TrafficForecast | backend-python/grracing/pit_rejoin.py:231-239 | the forecast covers each lap from the current one up to ten ahead, stopping at the race end, one entry per lap |
| PitRejoin.LeastTrafficLap | backend-python/grracing/pit_rejoin.py:232-242 | the lap chosen lies in the forecast range, no forecast lap has less traffic, and every earlier lap has strictly more |
| PitRejoin.PredictOptimalPitWindow | backend-python/grracing/pit_rejoin.py:213-256 | with no lap left to forecast the `min` raises; otherwise the optimal lap is the first lap of least forecast traffic, the window around it stays within the current lap and the race end, and PIT_NOW is recommended exactly for a tyre older than 20 laps or wearing faster than 0.003 |
| StrategyOptimizer.CriticalLap | backend-python/grracing/strategy_optimizer.py:124-125 | with a positive wear rate the critical lap is as many whole laps ahead as fit into the 2% threshold; without one it is 20 laps ahead |
| StrategyOptimizer.TrafficAdjustment | backend-python/grracing/strategy_optimizer.py:128-132 | heavy traffic (above 0.7) brings the stop two laps earlier, light traffic (below 0.3) lets it slip two laps, anything between changes nothing |
| StrategyOptimizer.AgeUrgency | backend-python/grracing/strategy_optimizer.py:140 | urgency is high exactly past 20 laps, medium exactly for 16..20 laps, low otherwise |
| StrategyOptimizer.OptimalPitWindow | backend-python/grracing/strategy_optimizer.py:112-141 | the optimal lap is never before next lap, is either next lap or the traffic-adjusted critical lap capped ten laps before the end, and the window opens no earlier than next lap, no later than the optimal lap, and closes within two laps after it and five before the end |
| StrategyOptimizer.OptimalPitWindowWellFormed | backend-python/grracing/strategy_optimizer.py:134-139 | every computed window opens two laps before its optimal lap (but not before next lap) and closes at most two laps after it |
| StrategyOptimizer.AnalyzeUndercut | backend-python/grracing/strategy_optimizer.py:143-199 | an opponent pitting no later than the undercut lap rules it out; otherwise the undercut is viable exactly when the fresh-tyre gain minus the traffic penalty exceeds 1 s in traffic below 0.5, the reported gain is never negative, and the recommended lap is the undercut lap only when viable |
| StrategyOptimizer.UndercutAlwaysAnalysed | backend-python/grracing/strategy_optimizer.py:169-175 | for any window the optimizer computes, the opponent always pits at least three laps after the undercut lap, so the early "not viable" return never fires |
| StrategyOptimizer.AnalyzeOvercut | backend-python/grracing/strategy_optimizer.py:201-255 | an overcut lap past the window's end is not viable; a viable overcut needs a tyre younger than 18 laps and a gain above 0.5 s; the reported gain is never negative |
| StrategyOptimizer.OvercutNeverViable | backend-python/grracing/strategy_optimizer.py:223-233 | for any window the optimizer computes, the overcut lap (optimal + 5) always lies beyond the window's end (optimal + 2 at most), so the overcut is never viable and never gains |
| StrategyOptimizer.DegradationAwareDecision | backend-python/grracing/strategy_optimizer.py:257-294 | the four decisions partition the inputs by the priority chain: pit now above 5% wear, pit in the window if 4% will be reached by the optimal lap, pit early for a rate above 0.003, extend the stint otherwise; each decision carries its fixed urgency |
| StrategyOptimizer.CalculateRiskScore | backend-python/grracing/strategy_optimizer.py:296-336 | the score lies in [0, 1]; the level is high above 0.6, medium above 0.3, low otherwise; each risk is listed exactly when its trigger holds (tyre older than 25 or 21..25 laps, rate above 0.004, traffic above 0.7, podium position) |
| StrategyOptimizer.GenerateRecommendation | backend-python/grracing/strategy_optimizer.py:338-379 | undercut wins when viable with more than 2 s, else overcut when viable with more than 1.5 s, else pit now on a pit-now decision, else a standard stop; only the two cut strategies name a lap |
| StrategyOptimizer.OptimizePitStrategy | backend-python/grracing/strategy_optimizer.py:29-110 | the plan always analyses the undercut, never finds the overcut viable, so it never recommends an overcut |
| PitDecisionEngine.Outlook | backend-python/grracing/pit_decision_engine.py:169-180 | the degradation outlook always covers exactly the next five laps |
| PitDecisionEngine.Urgency | backend-python/grracing/pit_decision_engine.py:183-197 | the four urgencies partition the inputs: critical from 5% wear, high from 3%, medium when one of the next three laps reaches 5%, low otherwise |
| PitDecisionEngine.FindCriticalLap | backend-python/grracing/pit_decision_engine.py:630-635 | no lap is reported exactly when no outlook lap reaches the threshold; otherwise the lap reported is the first that does |
| PitDecisionEngine.DegradationFactorFrom | backend-python/grracing/pit_decision_engine.py:186-217 | the score is one of the fixed urgency scores, raised by 0.1 (capped at 1) only when the driver's own profile wears faster than the given rate; a critical urgency scores at least 0.9, and without the profile boost a non-critical one scores at most 0.7 |
| PitDecisionEngine.AnalyzeDegradationFactorWith | backend-python/grracing/pit_decision_engine.py:151-217 | with the compound-coefficient class the code imports, the call fails (that class has no `calculate_degradation`); with the production model the current wear and the outlook are its quick estimates at 25 °C |
| PitDecisionEngine.TrafficWindow | backend-python/grracing/pit_decision_engine.py:246-255 | the traffic window always covers exactly the next five laps |
| PitDecisionEngine.AnalyzeTrafficFactor | backend-python/grracing/pit_decision_engine.py:219-277 | a race of zero laps divides by zero; otherwise the score is 0.3, 0.5 or 0.8 for heavy, moderate or light traffic, a window is clear now exactly in light traffic, the window lists laps current+1..current+5, and the best window lap is the first least-dense lap when that lap is clear, so it lies within the next five laps |
| PitDecisionEngine.WindowScore | backend-python/grracing/pit_decision_engine.py:302-322 | the window score is 0.8 exactly inside the recommended window, 0.4 exactly before it and 0.3 exactly past it; a window without bounds holds the current lap |
| PitDecisionEngine.RaceTwinScore | backend-python/grracing/pit_decision_engine.py:297-349 | the race-twin score lies in [0.3, 1]; a strong undercut or a cliff within three laps gives 0.9, a moderate undercut 0.7, and otherwise the window score (0.5 with no recommendations); a clear window adds 0.1 to each |
| PitDecisionEngine.ClearWindowBonus | backend-python/grracing/pit_decision_engine.py:345-349 | a clear window raises the score by 0.1 over the same insights without it, capped at 1 |
| PitDecisionEngine.AnalyzeRaceTwinFactor | backend-python/grracing/pit_decision_engine.py:279-360 | missing race-twin data is unavailable with a neutral 0.5; present data is available with a score in [0.3, 1] |
| PitDecisionEngine.Closest | backend-python/grracing/pit_decision_engine.py:380-387 | the chosen opponent has the least absolute gap (a missing gap counts as 0) and is the first such opponent |
| PitDecisionEngine.OpponentScore | backend-python/grracing/pit_decision_engine.py:399-413 | an opponent who just pitted scores 0.7; otherwise 0.3 exactly when our tyres are more than five laps younger and 0.8 exactly when more than five laps older |
| PitDecisionEngine.AnalyzeOpponentFactor | backend-python/grracing/pit_decision_engine.py:362-425 | the factor is available exactly when there are opponents and the closest one is not the empty dict `{}`; a dict holding only keys the engine does not read, such as `{"position": 3}`, still counts; an unavailable factor scores a neutral 0.5 |
| PitDecisionEngine.OtherKeysOnlyOpponentAvailable | backend-python/grracing/pit_decision_engine.py:380-396 | an opponent dict with only keys the engine does not read is truthy, so the factor is available with the neutral score 0.5 |
| PitDecisionEngine.WeatherScore | backend-python/grracing/pit_decision_engine.py:442-460 | the weather score lies in [0.3, 0.7], is at least 0.6 on a track above 35 °C, and is 0.4 or 0.5 at moderate track temperatures |
| PitDecisionEngine.AnalyzeWeatherFactor | backend-python/grracing/pit_decision_engine.py:427-470 | missing weather data is unavailable with a neutral 0.5; present data is available with a score in [0.3, 0.7] |
| PitDecisionEngine.AvailableFactors | backend-python/grracing/pit_decision_engine.py:491-497 | degradation and traffic always count, so between two and five factors are available, and exactly two when none of the optional ones is |
| PitDecisionEngine.ConfidenceScore | backend-python/grracing/pit_decision_engine.py:472-504 | the confidence lies in [0, 1], the availability multiplier in [0.82, 1], and for factor scores in [0, 1] the confidence is the weighted total times that multiplier without clipping |
| PitDecisionEngine.ProductInUnit | backend-python/grracing/pit_decision_engine.py:502-504 | a weighted total and a multiplier in [0, 1] give a product in [0, 1], so the final clip never changes the confidence |
| PitDecisionEngine.MakeDecision | backend-python/grracing/pit_decision_engine.py:506-574 | pit now exactly for a critical urgency or a confidence of at least 0.75, at the current lap; extend the stint exactly below 0.55 without critical urgency, with no lap; pit later at the best traffic lap when it is within five laps, else two laps from now |
| PitDecisionEngine.ConfidenceLevel | backend-python/grracing/pit_decision_engine.py:637-648 | the five confidence bands partition the scores at 0.2, 0.4, 0.6 and 0.8 |
| PitDecisionEngine.MakePitDecisionWith | backend-python/grracing/pit_decision_engine.py:39-175 | with the degradation class the module imports, every decision request fails with an AttributeError; with the production model only a race of zero laps fails |
| PitDecisionEngine.MakePitDecision | backend-python/grracing/pit_decision_engine.py:39-149 | only a race of zero laps fails; the confidence lies in [0, 1]; urgency is critical exactly when the tyre is at 5% wear, and then the decision is to pit this lap; a later stop falls within the next five laps and extending names no lap |
| PitDecisionEngine.MakePitDecisionAsWrittenRaises | backend-python/grracing/pit_decision_engine.py:162-175 | as written, every request raises an AttributeError before any factor is scored, while the corrected engine succeeds on every race with laps |
| PitDecisionEngine.ConfidenceWithoutOptionalInputs | backend-python/grracing/pit_decision_engine.py:472-504 | with no race twin, opponents or weather, and a non-critical tyre, the confidence never exceeds 0.5289 |
| PitDecisionEngine.NoOptionalInputsExtendsStint | backend-python/grracing/pit_decision_engine.py:506-560 | with no optional inputs and a tyre below 5% wear, the engine always extends the stint and names no lap, since the confidence cannot reach the 0.55 bar |
| StrategyConsole.TireRisk | backend-python/grracing/strategy_console.py:488-497 | the tyre risk is 0.5 exactly past 90% of the compound's maximum age, 0.1 exactly up to 70% of it, and 0.3 between |
| StrategyConsole.DegradationRisk | backend-python/grracing/strategy_console.py:499-505 | the wear-rate risk lies in [0.1, 0.4] and exceeds 0.3 exactly for a rate above 0.004 |
| StrategyConsole.TrafficRisk | backend-python/grracing/strategy_console.py:507-513 | the traffic risk never exceeds 0.3, so it never enters the list of risks |
| StrategyConsole.PositionRisk | backend-python/grracing/strategy_console.py:515-521 | the position risk peaks at 0.3 exactly for a podium place with fewer than ten laps left, and never exceeds it |
| StrategyConsole.CalculateRiskScore | backend-python/grracing/strategy_console.py:196-252 | the averaged score lies in [0.1, 0.375], so the level is always low and the advice always MONITOR; the tyre and wear risks are listed exactly when they exceed 0.3, and the traffic and position risks never are |
| StrategyConsole.StintLength | backend-python/grracing/strategy_console.py:390-391 | a stint is 15, 25 or 35 laps long |
| StrategyConsole.EstimateNumStops | backend-python/grracing/strategy_console.py:388-392 | at least one stop is planned, and more than one only when the stints between them fit in the race |
| StrategyConsole.PredictTireLifeLaps | backend-python/grracing/strategy_console.py:394-401 | remaining tyre life is never negative, and a tyre already at its compound's lifespan has none left at a moderate wear rate |
| StrategyConsole.PredictTrafficAtLap | backend-python/grracing/strategy_console.py:403-408 | the forecast density lies in [0, 1] and at the current lap is the clipped current density |
| StrategyConsole.WindowRiskOf | backend-python/grracing/strategy_console.py:410-432 | the window risk lies in [0, 1], is high above 0.6 and medium in (0.3, 0.6], and cannot be high while the tyre is at most 25 laps old and wears at most 0.004 a lap |
| StrategyConsole.WindowRecommendation | backend-python/grracing/strategy_console.py:434-442 | AVOID exactly for a high risk, else URGENT exactly with under five laps of tyre life, else CAUTION for a medium risk and RECOMMENDED otherwise |
| StrategyConsole.PitWindowTimeline | backend-python/grracing/strategy_console.py:33-116 | one entry per estimated stop, numbered from 1; each window opens no earlier than the current lap and closes no later than the race end, with its optimal lap at the midpoint and the tyre age there counted from now |
| StrategyConsole.TimelineOrdered | backend-python/grracing/strategy_console.py:59-62 | later stops never have earlier window starts, ends or optimal laps |
| StrategyConsole.CurveFrom | backend-python/grracing/strategy_console.py:299-308 | the curve lists laps in increasing order, each from the current age on and within the adjusted lifespan, with degradation rate × lap × (1 + lap/100) |
| StrategyConsole.CurveFromComplete | backend-python/grracing/strategy_console.py:299-302 | every lap in the scanned range that lies within the adjusted lifespan appears on the curve |
| StrategyConsole.AdjustedLifespan | backend-python/grracing/strategy_console.py:280-289 | the lifespan adjustment fails exactly at a track temperature of -225 °C, where the temperature factor is zero |
| StrategyConsole.PredictTireLife | backend-python/grracing/strategy_console.py:254-321 | only the zero temperature factor fails (a ZeroDivisionError); otherwise remaining laps are nonnegative and within the adjusted lifespan left, the critical lap is no earlier than the current age, the curve has at most 20 points inside the lifespan, and confidence is 0.9 exactly for a positive rate |
| StrategyConsole.CurveLength | backend-python/grracing/strategy_console.py:299 | the curve has no more points than laps scanned |
| StrategyConsole.CalculateRejoinWindow | backend-python/grracing/strategy_console.py:323-384 | the rejoin is the simulator's with a 22 s stop; the window is clear exactly in traffic below 0.4 with a rejoin ahead of 70% of the field, PIT_NOW is advised exactly then, and the ghost comparison is never an advantage |
| StrategyConsole.ScenarioOf | backend-python/grracing/strategy_console.py:444-466 | a scenario copies viability and gain from the analysis and gains a position exactly when the gain exceeds its threshold |
| StrategyConsole.CompareStrategies | backend-python/grracing/strategy_console.py:468-486 | undercut exactly when viable and gaining more than the overcut, otherwise overcut exactly when that is viable, otherwise standard |
| StrategyConsole.SimulateUndercutOvercut | backend-python/grracing/strategy_console.py:118-194 | the overcut scenario is never viable and gains nothing, so the console never advises an overcut and advises the undercut exactly when it is viable |
| Degradation.Coefficient | backend-python/grracing/degradation.py:40-73 | every compound degrades at a positive rate, and a compound outside the table falls back to 0.05 |
| Degradation.PowMonotone | backend-python/grracing/degradation.py:76 | for a base of at least one, the power grows with the exponent and stays at least one |
| Degradation.ExponentialDegradation | backend-python/grracing/degradation.py:59-77 | lap 0 is the base time, and the curve is the base compounded by (1 + rate) per lap, the rate defaulting to the compound coefficient |
| Degradation.ExponentialMonotone | backend-python/grracing/degradation.py:72-77 | with nonnegative rate and base, the exponential curve never predicts a faster lap later in the stint, nor one faster than the base |
| Degradation.LinearDegradation | backend-python/grracing/degradation.py:79-95 | lap 0 is the base time, and by default the time grows by the compound coefficient times the base per lap |
| Degradation.LinearStep | backend-python/grracing/degradation.py:95 | each further lap adds exactly the per-lap degradation |
| Degradation.OptimalTemp | backend-python/grracing/degradation.py:53-57 | the optimum is the midpoint of the compound's window: 40 °C for MEDIUM, 45 °C for HARD, 35 °C for SOFT and any other compound |
| Degradation.TemperatureAdjusted | backend-python/grracing/degradation.py:97-121 | the default linear time is scaled by 0.2% per degree from the optimum, and by a further 1.2 more than five degrees away |
| Degradation.TemperatureAdjustedAtOptimum | backend-python/grracing/degradation.py:114-121 | at the optimal temperature the adjustment leaves the linear time unchanged |
| Degradation.TemperatureAdjustedAtLeastLinear | backend-python/grracing/degradation.py:115-119 | a nonnegative lap time is never made faster by the temperature adjustment |
| Degradation.PredictStintDegradation | backend-python/grracing/degradation.py:183-206 | one predicted time per lap of the stint (none for a nonpositive length), lap i taken from the chosen curve at lap i |
| Degradation.FitDegradationCurve | backend-python/grracing/degradation.py:123-181 | fewer than three lap times is an error, and so are lap numbers `linregress` rejects (none, all identical, or a different count from the times), whose ValueError the outer `except` returns; otherwise the reported R² is the better of the two fits, a linear result reports the regression slope as its rate, and a failed exponential fit always yields the linear model |
| Degradation.FitDegradationCurveAsWritten | backend-python/grracing/degradation.py:133-181 | as written, the fit fails exactly for fewer than three lap times or lap numbers `linregress` rejects, and every successful fit is the linear regression with its slope, intercept and R², since the exponential fit always fails |
| Degradation.LapNumbers | backend-python/grracing/degradation.py:133-134 | without lap numbers the regression runs on 0..n-1; given ones are used as they are |
| Degradation.DefaultLapNumbersAccepted | backend-python/grracing/degradation.py:133-145 | with the default lap numbers the fit fails only for fewer than three lap times |
| Degradation.IdenticalLapNumbersFail | backend-python/grracing/degradation.py:139-181 | lap times [90.0, 90.5, 91.0] at laps [5, 5, 5] return `linregress`'s identical-x error instead of a curve |
| Degradation.AsWrittenFitIsAlwaysLinear | backend-python/grracing/degradation.py:152-170 | even on data an exponential curve explains better than the line, the fit as written reports the linear model, where the intended fit picks the exponential one |
| Degradation.FitPicksBetterModel | backend-python/grracing/degradation.py:163-170 | with the exponential fit running, the exponential model is chosen exactly when its R² beats the linear one, and the chosen model's rate and base time are reported |
| Degradation.FirstBeneficialLap | backend-python/grracing/degradation.py:231-239 | the search only ever answers a lap between its start lap and 99 |
| Degradation.FirstBeneficialLapIsFirst | backend-python/grracing/degradation.py:231-239 | the lap found is the first from the start lap below 100 whose gain from fresh tyres exceeds the pit loss; none is found exactly when no such lap exists |
| Degradation.CalculatePitWindow | backend-python/grracing/degradation.py:208-247 | the call fails exactly at a rate of -1 (division by zero); otherwise the fresher time is the current time with one lap of wear removed, the per-lap gain is the rate times that time, and the pit lap is searched from lap 1 |
| Degradation.PitLapBeatsLoss | backend-python/grracing/degradation.py:227-247 | the window's pit lap is the first lap in 1..99 whose gain from fresh tyres beats the pit loss, and there is none exactly when no lap in 1..99 does |
| Degradation.GainIsLinear | backend-python/grracing/degradation.py:232-235 | after n laps, fresh tyres gain n times the per-lap loss over worn ones |
| Degradation.FuelEffect | backend-python/grracing/degradation.py:262-279 | the effect is minus the fuel burned (laps × consumption) in tens of kilograms times the per-10 kg effect |
| Degradation.FuelEffectProperties | backend-python/grracing/degradation.py:273-279 | the effect does not depend on the starting fuel and never slows the car for nonnegative inputs |
| Degradation.CompoundModelLacksCalculateDegradation | backend-python/grracing/degradation.py:17-247 | on the compound-coefficient class the call always raises an AttributeError, while the production model always answers |
| MonteCarlo.SimulateLapTime | backend-python/grracing/monte_carlo.py:50-86 | a lap is the (optionally) linearly degraded base time, made 0.006 s per stint lap faster by burned fuel, times the drawn noise factor |
| MonteCarlo.LapTimeWithinNoise | backend-python/grracing/monte_carlo.py:83-84 | a noise draw within the configured band keeps a nonnegative lap time within that fraction of the noiseless time |
| MonteCarlo.CompoundFor | backend-python/grracing/monte_carlo.py:127-150 | the compound of a stint is the listed one; past the end of the list the last listed compound stays on, and an empty list means SOFT |
| MonteCarlo.CompoundLists | backend-python/grracing/monte_carlo.py:113-127 | without a compound plan every driver runs SOFT; with one, the lookup succeeds exactly when every driver is in it, and otherwise raises a KeyError for the first driver missing |
| MonteCarlo.DriverLap | backend-python/grracing/monte_carlo.py:135-170 | a lap appends one lap time and adds it to the total; on a planned lap it also records the stop, adds the pit loss and starts the next stint on the planned compound |
| MonteCarlo.PlannedLaps | backend-python/grracing/monte_carlo.py:139-141 | the stops made in n laps are exactly the planned laps below n, each once, in increasing order |
| MonteCarlo.DriverLapKeeps | backend-python/grracing/monte_carlo.py:135-170 | one more lap keeps the driver's record consistent: lap count, stops so far, stint number, compound, and total = lap times + pit losses |
| MonteCarlo.Times | backend-python/grracing/monte_carlo.py:174 | the standings list each driver's cumulative time in field order |
| MonteCarlo.RunLaps | backend-python/grracing/monte_carlo.py:132-178 | after n laps there is one standings snapshot and one ranking per lap, each lap's ranking being the time ranking of that lap's standings |
| MonteCarlo.RunsKeep | backend-python/grracing/monte_carlo.py:132-170 | after any number of laps every driver's record is consistent with its pit plan and compounds |
| MonteCarlo.LapAll | backend-python/grracing/monte_carlo.py:135-166 | every driver runs the lap with its own base pace, plan, compounds and noise draw |
| MonteCarlo.LapAllKeeps | backend-python/grracing/monte_carlo.py:135-170 | a lap run by the whole field keeps every driver's record consistent |
| MonteCarlo.RaceFrom | backend-python/grracing/monte_carlo.py:88-190 | a race has one ranking per lap, each the time ranking of that lap's standings; the final positions rank the final times and equal the last lap's ranking; every driver's record matches its plan |
| MonteCarlo.SimulateOneRace | backend-python/grracing/monte_carlo.py:88-190 | a race fails exactly when a compound plan omits a driver, and otherwise has a record per driver and a ranking per lap |
| MonteCarlo.OneRaceRanked | backend-python/grracing/monte_carlo.py:173-187 | in every simulated race each lap's positions and the final positions rank the drivers by cumulative time |
| MonteCarlo.OneRaceDriver | backend-python/grracing/monte_carlo.py:139-170 | each driver stops exactly on its planned laps within the race, its total is its lap times plus one pit loss per stop, and it ends on the compound of its last stint |
| MonteCarlo.Places | backend-python/grracing/monte_carlo.py:240 | the places scored are 1..n |
| MonteCarlo.Stats | backend-python/grracing/monte_carlo.py:228-234 | the minimum and maximum are observed final times bounding all of them, and the mean lies between them |
| MonteCarlo.MostLikely | backend-python/grracing/monte_carlo.py:248-251 | the most likely place has the greatest probability, and is the first such place |
| MonteCarlo.FinalTimesOf | backend-python/grracing/monte_carlo.py:227 | a driver's final time in every race, in race order |
| MonteCarlo.FinalPlacesOf | backend-python/grracing/monte_carlo.py:221-222 | a driver's final place in every race, in race order |
| MonteCarlo.Summarize | backend-python/grracing/monte_carlo.py:225-255 | each place 1..n gets probability (races finished there) / (races), the most likely place is the first of greatest probability, and the time statistics are those of the driver's final times |
| MonteCarlo.MonteCarloSimulation | backend-python/grracing/monte_carlo.py:192-263 | no iterations with drivers raises the `statistics` error; otherwise it fails exactly on a compound plan missing a driver; a result has one summary per driver in order, computed from the iterated races, and keeps at most ten races |
| MonteCarlo.Races | backend-python/grracing/monte_carlo.py:214-218 | one race per iteration, each with its own random draws |
| MonteCarlo.Summaries | backend-python/grracing/monte_carlo.py:225-255 | one summary per driver, in field order |
| MonteCarlo.ProbabilitiesSumToOne | backend-python/grracing/monte_carlo.py:221-243 | a driver's place probabilities always sum to one, since each race places it exactly once in 1..n |
| MonteCarlo.PlacesInRange | backend-python/grracing/monte_carlo.py:185-240 | every final place lies in 1..n, and the scored places are distinct |
| MonteCarlo.MostLikelyInRange | backend-python/grracing/monte_carlo.py:246-255 | the most likely place is a real place 1..n |
| MonteCarlo.SimulationProbabilities | backend-python/grracing/monte_carlo.py:192-263 | in every successful simulation each driver's probabilities sum to one, the most likely place is in 1..n, and mean time lies between min and max |
| MonteCarlo.FirstGainfulLap | backend-python/grracing/monte_carlo.py:296-304 | the stop found is the first lap of the search whose stint gain beats the pit loss; none is found exactly when no lap before the end does |
| MonteCarlo.SearchStops | backend-python/grracing/monte_carlo.py:287-304 | at most the allowed number of stops, the first at lap 10 or later, each before the end, stints at least ten laps, each stint the shortest whose gain beats the pit loss |
| MonteCarlo.SearchedAppend | backend-python/grracing/monte_carlo.py:289-304 | a stop found by the next round keeps all the guarantees of the stops before it |
| MonteCarlo.OptimizePitStrategy | backend-python/grracing/monte_carlo.py:265-311 | the plan has at most the allowed stops, the first no earlier than lap 10, all before the end and at least ten laps apart; wear per lap is the compound coefficient times the pace, and the expected gain is 20 laps of wear minus the pit loss |
| MonteCarlo.RecommendedStintsPayOff | backend-python/grracing/monte_carlo.py:296-304 | every recommended stint is the shortest of at least ten laps whose accumulated wear beats the pit loss |
| MonteCarlo.StopsEvenlySpaced | backend-python/grracing/monte_carlo.py:289-304 | all recommended stints have the length of the first, because the search restarts from each stop with the same rule |
| RaceTwin.NumSimulations | backend-python/grracing/race_twin.py:30-31 | the number of simulations is the requested one when it lies in 100..500 and is otherwise pinned to the nearer end of that range |
| RaceTwin.LastIndex | backend-python/grracing/race_twin.py:64-67 | when a driver id repeats, the twin dictionary keeps the entry of its last occurrence |
| RaceTwin.InitialState | backend-python/grracing/race_twin.py:126-138 | the race state holds one entry per distinct driver id in first-occurrence order, each with no time and no stops yet |
| RaceTwin.ValidId | backend-python/grracing/race_twin.py:126-138 | every key of the race state is the id of some entry in the driver list |
| RaceTwin.ApplyOutcome | backend-python/grracing/race_twin.py:151-178 | a lap adds its lap time to the driver's total, and a pit stop additionally appends exactly one stop record and adds its nonnegative stop time |
| RaceTwin.AdvanceLap | backend-python/grracing/race_twin.py:143-189 | after a lap every driver keeps their id, their total grows by at least the lap time, and the positions are re-ranked by total time, with tied drivers kept in dict order |
| RaceTwin.RerankRanks | backend-python/grracing/race_twin.py:184-189 | assigning positions 1..n in stable order of total time gives distinct ranks 1..n, the faster driver ahead, and tied drivers in dict order as the stable `sorted` keeps them |
| RaceTwin.SimulateLaps | backend-python/grracing/race_twin.py:141-189 | running the laps from the current lap to the last keeps every driver and leaves the field ranked by total time, ties in dict order; with no laps left the state is unchanged |
| RaceTwin.FinishingOrder | backend-python/grracing/race_twin.py:192-198 | the finishing order lists the drivers by nondecreasing total race time |
| RaceTwin.FinishingOrderCovers | backend-python/grracing/race_twin.py:192-198 | every driver in the race state appears in the finishing order |
| RaceTwin.FinishingOrderDistinct | backend-python/grracing/race_twin.py:192-198 | no driver appears twice in the finishing order |
| RaceTwin.SimulateSingleRace | backend-python/grracing/race_twin.py:111-201 | one simulated race returns as many finishers as there are distinct drivers |
| RaceTwin.FinishingOrderIsPermutation | backend-python/grracing/race_twin.py:111-201 | the finishing order of one simulated race is a permutation of the distinct driver ids |
| RaceTwin.SimulateSingleRaceAsWritten | backend-python/grracing/race_twin.py:141-160 | whenever the race as written finishes, it agrees with the corrected simulation |
| RaceTwin.SimulateSingleRaceAsWrittenRaises | backend-python/grracing/race_twin.py:141-160 | the race as written raises AttributeError exactly when at least one lap is left to run and there is at least one driver |
| RaceTwin.CriticalAge | backend-python/grracing/race_twin.py:292-297 | tyres turn critical at 20 laps when the degradation rate is below 0.003 and at 15 laps otherwise |
| RaceTwin.ShouldPit | backend-python/grracing/race_twin.py:272-309 | a driver pits on any planned lap, and on a critical tyre age with at least 10 laps to go; otherwise only tyres older than 25 laps can pit, with a 10% draw |
| RaceTwin.ShouldPitIgnoresDrawOnYoungTyres | backend-python/grracing/race_twin.py:306-307 | on tyres at most 25 laps old the random draw never changes the decision |
| RaceTwin.CompoundIndex | backend-python/grracing/race_twin.py:323-325 | a known compound maps to its place in SOFT, MEDIUM, HARD and an unknown one counts as MEDIUM |
| RaceTwin.NextCompound | backend-python/grracing/race_twin.py:324-333 | the new compound is the same as before or one step harder; it is one step harder (capped at HARD) exactly when the draw is below 0.7 |
| RaceTwin.SimulatePitStop | backend-python/grracing/race_twin.py:311-366 | a stop takes 20 to 24 s, records its lap and the old and new compounds, rejoins no higher than before and no lower than last, and loses at least the stop time |
| RaceTwin.PitStopLosesFixedMargin | backend-python/grracing/race_twin.py:346-364 | with a non-empty field the time lost at a stop is the stop time plus 2.7 s |
| RaceTwin.SectorOf | backend-python/grracing/race_twin.py:255 | the sector of a lap is one of S1, S2 and S3 |
| RaceTwin.FindAt | backend-python/grracing/race_twin.py:377-381 | the search finds the first driver at the wanted position, and finds none exactly when no driver holds it |
| RaceTwin.SimulateOvertake | backend-python/grracing/race_twin.py:368-413 | an overtake attempt keeps the multiset of positions; the leader never moves, and otherwise either nothing changes or the driver swaps with the one directly ahead |
| RaceTwin.SwapKeepsMultiset | backend-python/grracing/race_twin.py:413 | swapping two positions keeps the multiset of positions |
| RaceTwin.OvertakeTouchesOnlyTwo | backend-python/grracing/race_twin.py:411-413 | an overtake attempt leaves every driver other than the attacker and the car directly ahead where they were |
| RaceTwin.TrafficPenalty | backend-python/grracing/race_twin.py:415-457 | the traffic penalty is never negative, is zero for the leader, and otherwise costs at least 0.05 s per car ahead when the draw and the density loss are nonnegative |
| RaceTwin.LapTime | backend-python/grracing/race_twin.py:203-270 | a lap never takes under 90 s, and above that floor it is the tyre- and weather-adjusted pace plus the traffic penalty plus the noise |
| RaceTwin.LapTimeMonotoneInPenalty | backend-python/grracing/race_twin.py:256-270 | a larger traffic penalty never gives a faster lap |
| RaceTwin.ConcatMembers | backend-python/grracing/race_twin.py:466-470 | a value occurs in the flattened results exactly when it occurs in one of them |
| RaceTwin.PlacesIn | backend-python/grracing/race_twin.py:467-470 | the places recorded for a driver in one race are as many as their occurrences and lie between 1 and the field size |
| RaceTwin.PlacesOf | backend-python/grracing/race_twin.py:464-470 | a driver has recorded places exactly when they appear in some result, and one place per race when they finish each race once |
| RaceTwin.EntryFor | backend-python/grracing/race_twin.py:476-491 | a driver's expected position is a most frequent place, and its probability is that place's count over the number of simulations |
| RaceTwin.EntryDistribution | backend-python/grracing/race_twin.py:481-490 | no place in the distribution is likelier than the expected position, and the distribution sums to the driver's share of recorded places |
| RaceTwin.DistributionSumsToOne | backend-python/grracing/race_twin.py:473-490 | a driver who finishes every simulated race exactly once has a position distribution summing to 1 |
| RaceTwin.SeenDrivers | backend-python/grracing/race_twin.py:464-470 | the analysed drivers are distinct and are exactly the drivers that appear in some result |
| RaceTwin.SortByPosition | backend-python/grracing/race_twin.py:494 | sorting the entries by expected position yields a reordering of them in nondecreasing position |
| RaceTwin.AnalyzeFinishingPositions | backend-python/grracing/race_twin.py:459-496 | the analysis holds one entry per driver seen, each the driver's own entry, sorted by expected position |
| RaceTwin.EntriesAreEntryFor | backend-python/grracing/race_twin.py:476-491 | every analysed entry is the one computed for its driver from all results |
| RaceTwin.FinishingPositionsCoverDrivers | backend-python/grracing/race_twin.py:459-496 | every driver appearing in some result has an entry in the analysis |
| RaceTwin.SumProbabilitiesGrows | backend-python/grracing/race_twin.py:101-103 | summing nonnegative probabilities over a longer prefix never gives less |
| RaceTwin.MonteCarloOutcomes | backend-python/grracing/race_twin.py:100-104 | with no entries every probability is 0, and with nonnegative probabilities win is at most podium and podium at most points |
| RaceTwin.AnalyzePitStrategies | backend-python/grracing/race_twin.py:498-570 | with no stops the window is 18-22; otherwise it is the most common stop lap minus 2 (at least 1) to plus 2, with the stops per race, and an overcut is never reported viable |
| RaceTwin.Earliest | backend-python/grracing/race_twin.py:588 | the earliest critical lap is one of the laps and no later than any of them |
| RaceTwin.PredictTireCliff | backend-python/grracing/race_twin.py:572-597 | the cliff is the earliest critical lap over the twins (20 laps ahead by default) and is critical exactly when it is at most 10 laps ahead |
| RaceTwin.UndercutGains | backend-python/grracing/race_twin.py:640-649 | the undercut gains are at most one per stop and all positive |
| RaceTwin.MeanOfPositives | backend-python/grracing/race_twin.py:651-652 | the mean of positive gains is positive exactly when there is a gain, and a mean above a bound implies some gain above it |
| RaceTwin.MeanAboveHasMember | backend-python/grracing/race_twin.py:651-652 | a mean above a bound has some element above that bound |
| RaceTwin.SumAtMost | backend-python/grracing/race_twin.py:651 | a sum of values each at most a bound is at most the count times that bound |
| RaceTwin.SuccessRate | backend-python/grracing/race_twin.py:658 | the success rate is nonnegative and at most 1 when the gains do not outnumber the simulations |
| RaceTwin.AnalyzeUndercutOutcomes | backend-python/grracing/race_twin.py:632-659 | an undercut is viable exactly when the mean gain exceeds 1 s, which needs some gain above 1 s; confidence is high above 2 s, medium above 1 s, and low otherwise |
| RaceTwin.TwinConfidence | backend-python/grracing/race_twin.py:106 | confidence grows with the current lap and reaches exactly 1 from lap 10 on |
| TrafficLoss.SectorMultiplier | backend-python/grracing/models/traffic_loss.py:23-27 | the sector multiplier lies between 1.0 and 1.2, and a sector other than S1, S2 and S3 counts as 1.0 |
| TrafficLoss.CalculateTrafficLoss | backend-python/grracing/models/traffic_loss.py:29-87 | the breakdown is produced exactly when the field is non-empty (otherwise the division raises); clean air is lost exactly when a car is ahead, and the total loss is the varied sum of the sector, density and position penalties, never negative |
| TrafficLoss.Varied | backend-python/grracing/models/traffic_loss.py:71-75 | the varied loss is never negative |
| TrafficLoss.VariationWithinTenPercent | backend-python/grracing/models/traffic_loss.py:71-75 | a draw within plus or minus 10% keeps a nonnegative loss within 10% of its unvaried value |
| TrafficLoss.TrendMultiplier | backend-python/grracing/models/traffic_loss.py:121-126 | the trend multiplier lies between 0.8 and 1.2, and an unknown trend counts as 1.0 |
| TrafficLoss.WeightedMultiplier | backend-python/grracing/models/traffic_loss.py:112-115 | without a sector distribution every sector weighs 0.33 |
| TrafficLoss.PredictStintTrafficLoss | backend-python/grracing/models/traffic_loss.py:89-137 | the stint loss is the per-lap loss times the stint length, and the per-lap loss scales the cars ahead by the sector and trend multipliers |
| TrafficLoss.TrendOrdersStintLoss | backend-python/grracing/models/traffic_loss.py:121-126 | with cars ahead, an improving trend costs strictly less per lap than a stable one, which costs strictly less than a degrading one |
| TrafficLoss.CleanAirDelta | backend-python/grracing/models/traffic_loss.py:139-150 | the clean-air advantage is 0.2 s exactly for the leader, 0.1 s exactly for second and third, and nothing further back |
| MLTireDegradation.CompoundCode | backend-python/grracing/models/ml_tire_degradation.py:221-222 | a compound is encoded 0..4, with SOFT and SUPER_SOFT (and only they) as 0 and any unknown name as MEDIUM's 1 |
| MLTireDegradation.SurfaceCode | backend-python/grracing/models/ml_tire_degradation.py:225-226 | a surface is encoded 0..3, with any unknown surface as smooth's 0 |
| MLTireDegradation.PrepareFeatures | backend-python/grracing/models/ml_tire_degradation.py:209-243 | the feature vector carries the inputs and the two encodings unchanged, and its temperature delta is track minus ambient |
| MLTireDegradation.BaseRate | backend-python/grracing/models/ml_tire_degradation.py:250-251 | the base wear rate lies between 0.0015 and 0.005, and an unknown compound code wears at 0.002 |
| MLTireDegradation.SurfaceEffect | backend-python/grracing/models/ml_tire_degradation.py:260-261 | the surface effect lies between 1.0 and 1.2, and an unknown surface code has none |
| MLTireDegradation.FallbackDegradation | backend-python/grracing/models/ml_tire_degradation.py:245-266 | the fallback rate is the product of the effects capped at 1% per lap: it never exceeds either the cap or the uncapped product, and equals one of them |
| MLTireDegradation.PredictDegradation | backend-python/grracing/models/ml_tire_degradation.py:143-207 | an untrained model predicts the fallback rate with confidence 0.7; the pace loss grows with rate and tyre age, a cliff is flagged exactly for rates above 0.003 beyond 20 laps, and the cliff lap is how many whole rate steps fit in 20 (30 when the rate is not positive) |
| MLTireDegradation.CliffLapBeyondRace | backend-python/grracing/models/ml_tire_degradation.py:204 | because the rate is capped at 0.01, any positive predicted rate puts the cliff lap at 2000 or later |
| MLTireDegradation.StepsUnderCap | backend-python/grracing/models/ml_tire_degradation.py:204 | with a rate of at most 0.01, truncating 20 divided by the rate gives at least 2000 |
| MLTireDegradation.SofterWearsFaster | backend-python/grracing/models/ml_tire_degradation.py:250-266 | with positive temperature and aggression effects, HARD wears no faster than MEDIUM, which wears no faster than SOFT |
| MLTireDegradation.HotterWearsFaster | backend-python/grracing/models/ml_tire_degradation.py:254-266 | a hotter track never lowers the fallback wear rate |
| MLTrafficLoss.SectorCode | backend-python/grracing/models/ml_traffic_loss.py:174-175 | a sector is encoded 0..2, and every name other than S1 and S3 is encoded as S2 |
| MLTrafficLoss.TrackCode | backend-python/grracing/models/ml_traffic_loss.py:177-178 | a track type is encoded 0..2, with any unknown type as a road course |
| MLTrafficLoss.PrepareFeatures | backend-python/grracing/models/ml_traffic_loss.py:164-192 | the position ratio is the position over the field size, or 0.5 for an empty field, and the other features carry the inputs and encodings unchanged |
| MLTrafficLoss.SectorMultiplier | backend-python/grracing/models/ml_traffic_loss.py:200-201 | the sector multiplier lies between 1.0 and 1.2, and an unknown code counts as 1.0 |
| MLTrafficLoss.FallbackTrafficLoss | backend-python/grracing/models/ml_traffic_loss.py:194-207 | the fallback loss is the sector-weighted penalty for the cars ahead plus the density penalty, floored at zero |
| MLTrafficLoss.PredictTrafficLoss | backend-python/grracing/models/ml_traffic_loss.py:140-162 | an untrained model reports the nonnegative fallback loss with confidence 0.7, and a 0.2 s clean-air gain exactly when no car is ahead |
| MLTrafficLoss.FallbackMatchesRuleBased | backend-python/grracing/models/ml_traffic_loss.py:194-207 | on the three named sectors the fallback loss equals the rule-based sector and density penalties, floored at zero |
| MLTrafficLoss.UnknownSectorChargedAsS2 | backend-python/grracing/models/ml_traffic_loss.py:174-175 | an unknown sector is charged exactly as S2, at 1.2, while the rule-based model charges it 1.0 |
| MLTrafficLoss.FallbackMonotone | backend-python/grracing/models/ml_traffic_loss.py:194-207 | in the same sector, more cars ahead and a denser field never lower the fallback loss |
| StintOptimizer.FuelLimitedStint | backend-python/grracing/models/stint_optimizer.py:260 | with a positive consumption the fuel-limited stint burns exactly the capacity; otherwise it is 30 laps |
| StintOptimizer.DegradationLimitedStint | backend-python/grracing/models/stint_optimizer.py:263 | with a positive rate the degradation-limited stint is the positive lap count at which 20 rate steps accrue; otherwise it is 30 laps |
| StintOptimizer.PrepareFeatures | backend-python/grracing/models/stint_optimizer.py:240-290 | the features carry the inputs, the compound code, the laps remaining, the pit-window centre and the two stint limits |
| StintOptimizer.TrafficFactor | backend-python/grracing/models/stint_optimizer.py:302-305 | the stint is stretched by 10% exactly in light traffic (below 0.4), shortened by 10% exactly in heavy traffic (above 0.7), and left alone otherwise |
| StintOptimizer.SnapToWindow | backend-python/grracing/models/stint_optimizer.py:308-312 | a stint ending before the pit window is extended to its start, one ending after it is cut to its end, and one ending inside it is kept |
| StintOptimizer.ClampStint | backend-python/grracing/models/stint_optimizer.py:315 | the stint is kept between 5 and 30 laps and within the laps remaining (unless fewer than 5 remain), and is unchanged when it already fits |
| StintOptimizer.StintRule | backend-python/grracing/models/stint_optimizer.py:299-315 | the rule-based stint lies between 5 and 30 laps and within the laps remaining (unless fewer than 5 remain) |
| StintOptimizer.FallbackOptimization | backend-python/grracing/models/stint_optimizer.py:292-317 | the fallback stint lies between 5 and 30 laps and within the laps remaining (unless fewer than 5 remain) |
| StintOptimizer.FallbackLandsInWindow | backend-python/grracing/models/stint_optimizer.py:308-315 | when the pit window starts at least 5 laps ahead and ends within both the race and 30 laps, the fallback stint ends inside the window |
| StintOptimizer.LighterTrafficLongerStint | backend-python/grracing/models/stint_optimizer.py:299-315 | lighter traffic never gives a shorter fallback stint |
| StintOptimizer.StintRuleTrafficMonotone | backend-python/grracing/models/stint_optimizer.py:299-315 | heavier traffic never lengthens the rule-based stint |
| StintOptimizer.TrafficFactorMonotone | backend-python/grracing/models/stint_optimizer.py:302-305 | heavier traffic never raises the traffic factor |
| StintOptimizer.SnapMonotone | backend-python/grracing/models/stint_optimizer.py:308-312 | snapping to the pit window preserves the order of two stints |
| StintOptimizer.ClampMonotone | backend-python/grracing/models/stint_optimizer.py:315 | clamping preserves the order of two stints |
| StintOptimizer.SnapClampMonotone | backend-python/grracing/models/stint_optimizer.py:308-315 | snapping then clamping preserves the order of two stints |
| StintOptimizer.Reasoning | backend-python/grracing/models/stint_optimizer.py:319-358 | the reasoning opens with the degradation line, mentions fuel exactly when fuel limits the stint and traffic exactly when it is light or heavy, and closes with the pit-window line |
| StintOptimizer.StintFrom | backend-python/grracing/models/stint_optimizer.py:212 | the whole-lap stint lies between 5 and 30 laps and within the laps remaining when at least 5 remain |
| StintOptimizer.OptimizeStintLengthAsWritten | backend-python/grracing/models/stint_optimizer.py:212-238 | the plan as written raises ZeroDivisionError exactly when the fuel consumption is zero, and otherwise flags fuel as limiting when the capacity lasts fewer laps than the stint |
| StintOptimizer.AsWrittenAgreesWhenDefined | backend-python/grracing/models/stint_optimizer.py:227-238 | with a non-zero consumption the plan as written equals the corrected plan |
| StintOptimizer.ZeroConsumptionRaises | backend-python/grracing/models/stint_optimizer.py:215-234 | for zero consumption the feature step defaults the fuel stint to 30 laps while the plan as written raises, and the corrected plan reports no fuel limit |
| StintOptimizer.OptimizeStintLength | backend-python/grracing/models/stint_optimizer.py:150-238 | the plan pits after a 5 to 30 lap stint within the race, with confidence 0.7, and each factor flag holds exactly when its condition does |
| StintOptimizer.PlanLandsInWindow | backend-python/grracing/models/stint_optimizer.py:150-238 | when the pit window starts at least 5 laps ahead and ends within both the race and 30 laps, the recommended pit lap falls inside it |
| LapTimePredictor.ConditionCode | backend-python/grracing/models/lap_time_predictor.py:238-239 | a track condition is encoded 0..3, with any unknown condition as dry's 0 |
| LapTimePredictor.ConditionMultiplier | backend-python/grracing/models/lap_time_predictor.py:290-291 | a condition slows the lap by between 0% and 15%, and an unknown code not at all |
| LapTimePredictor.SectorTime | backend-python/grracing/models/lap_time_predictor.py:242-244 | a sector time is the given one, or 0 when there are no sector times or the sector is missing |
| LapTimePredictor.PrepareFeatures | backend-python/grracing/models/lap_time_predictor.py:221-262 | the features carry the inputs, the condition code, the three sector times, and the fuel load as a fraction of 100 |
| LapTimePredictor.FallbackPrediction | backend-python/grracing/models/lap_time_predictor.py:264-300 | the fallback raises ValueError exactly when the consistency exceeds 1 (a negative noise scale); otherwise it is at least 90 s and at least the formula plus the noise, and with perfect consistency it is the formula floored at 90 s |
| LapTimePredictor.Predict | backend-python/grracing/models/lap_time_predictor.py:151-219 | an untrained predictor fails exactly when the fallback does; otherwise it reports a lap of at least 90 s with confidence 0.7, the given base lap time and the reported factors |
| LapTimePredictor.ReportedFactorsDriveFallback | backend-python/grracing/models/lap_time_predictor.py:209-300 | with perfect consistency the predicted lap is the base lap scaled by exactly the reported temperature, tyre and fuel factors, the condition and the pace vector, floored at 90 s |
| LapTimePredictor.OlderTyresNotFaster | backend-python/grracing/models/lap_time_predictor.py:282-283 | with nonnegative scaling factors, older tyres never predict a faster lap |
| DriverTwin.PaceVector | backend-python/grracing/driver_twin.py:80-98 | a numeric pace vector lies in [-0.1, 0.1]; fewer than two laps give 0, and a zero best lap with a slower mean gives the clipped +inf, 0.1 |
| DriverTwin.PaceVectorNaNIffAllZero | backend-python/grracing/driver_twin.py:87-96 | the pace vector is NaN (0 divided by 0) exactly when there are at least two laps and all of them are 0 |
| DriverTwin.PaceVectorNonnegative | backend-python/grracing/driver_twin.py:90-96 | with positive lap times the mean is never below the best lap, so the pace vector is a number and never negative |
| DriverTwin.Within | backend-python/grracing/driver_twin.py:129-130 | the values kept by the outlier filter lie within the bounds and come from the input |
| DriverTwin.IqrFiltered | backend-python/grracing/driver_twin.py:124-130 | the interquartile filter keeps only values from the input |
| DriverTwin.ConsistencySample | backend-python/grracing/driver_twin.py:123-133 | the sample used for consistency has at least two laps, all taken from the input, and is the whole input below five laps |
| DriverTwin.ConsistencyIndex | backend-python/grracing/driver_twin.py:100-145 | the consistency index lies in [0, 1] and defaults to 0.7 for fewer than two laps or a zero mean |
| DriverTwin.IdenticalLapsPerfectlyConsistent | backend-python/grracing/driver_twin.py:136-145 | identical positive lap times give perfect consistency 1.0 |
| DriverTwin.VarianceConstant | backend-python/grracing/driver_twin.py:136 | a constant sample has zero variance |
| DriverTwin.Signal | backend-python/grracing/driver_twin.py:167-171 | a telemetry channel collects at most one reading per sample and is empty exactly when no sample carries that channel |
| DriverTwin.Rises | backend-python/grracing/driver_twin.py:179-180 | only the positive throttle changes are kept |
| DriverTwin.RisesEmptyIff | backend-python/grracing/driver_twin.py:179-180 | no throttle change is positive exactly when the throttle never rises above its previous reading |
| DriverTwin.ThrottleFactor | backend-python/grracing/driver_twin.py:176-183 | a numeric throttle factor lies in (0, 1], and a single reading gives 0.5 |
| DriverTwin.AggressionScore | backend-python/grracing/driver_twin.py:147-233 | a numeric aggression score lies in [0, 1], and it is the default 0.5 without telemetry or without a throttle channel |
| DriverTwin.AggressionNaNIffFlatThrottle | backend-python/grracing/driver_twin.py:176-233 | the score is NaN (the mean of no rises) exactly when there are two or more throttle readings and the throttle never rises |
| DriverTwin.FlatThrottleIsNaN | backend-python/grracing/driver_twin.py:176-233 | two samples with throttle 1.0 give a NaN score |
| DriverTwin.AggressionAtCaps | backend-python/grracing/driver_twin.py:224-233 | telemetry whose five factors are all at their cap of 1 scores exactly 1, since the weights sum to one |
| DriverTwin.CompoundMultiplier | backend-python/grracing/driver_twin.py:329-334 | the compound scales the wear rate by between 0.7 and 1.5, and an unknown compound leaves it unchanged |
| DriverTwin.CappedRate | backend-python/grracing/driver_twin.py:319-322 | the fallback wear rate is the measured slope clamped to [0, 0.01] |
| DriverTwin.DegradationProfileOf | backend-python/grracing/driver_twin.py:235-346 | below three laps the profile is the linear 0.002 default with confidence 0.5; otherwise the rate is capped at 1% per lap times the compound factor, and the confidence is at least the lap count over 20 (at most 1) |
| DriverTwin.PositiveTimes | backend-python/grracing/driver_twin.py:364-366 | only positive sector times are kept |
| DriverTwin.Strength | backend-python/grracing/driver_twin.py:400-407 | a sector strength lies in [0.8, 1.2] |
| DriverTwin.FasterSectorStronger | backend-python/grracing/driver_twin.py:400-407 | a faster sector average never gives a lower strength |
| DriverTwin.SectorStrengthsOf | backend-python/grracing/driver_twin.py:348-413 | every sector strength lies in [0.8, 1.2], and all are 1.0 with fewer than two laps or when a sector has no positive time |
| DriverTwin.FatigueTrend | backend-python/grracing/driver_twin.py:501-508 | the fatigue trend is improving below 0.01, stable below 0.02, degrading below 0.035 and critical from there on |
| DriverTwin.FatigueDropoffOf | backend-python/grracing/driver_twin.py:415-515 | below five laps the fatigue model is the stable default; otherwise the factor is in [0, 0.05], the time constant in [10, 100], the trend follows the factor, and a factor of at most 0.02 puts the critical lap 30 laps ahead |
| DriverTwin.CriticalFatigueLap | backend-python/grracing/driver_twin.py:490-498 | a fatigue factor of at most 0.02 puts the critical lap 30 laps ahead |
| DriverTwin.FatigueCriticalLapAhead | backend-python/grracing/driver_twin.py:484-498 | when the logarithm is negative below 1, the critical fatigue lap is never before the current lap |
| DriverTwin.Confidence | backend-python/grracing/driver_twin.py:517-530 | confidence is 0.5 below 5 laps, 0.7 below 10, 0.85 below 20 and 0.95 from 20 laps, each exactly in its band |
| DriverTwin.ConfidenceMonotone | backend-python/grracing/driver_twin.py:517-530 | more laps never lower the confidence |
| DriverTwin.DefaultTwin | backend-python/grracing/driver_twin.py:532-561 | the default twin has neutral pace, consistency 0.7, aggression 0.5, rate 0.002, unit sector strengths, confidence 0.5, no laps, a critical lap 20 ahead and a note |
| DriverTwin.GenerateDriverTwin | backend-python/grracing/driver_twin.py:33-78 | below five laps the twin is the default one; otherwise it records the lap count and its confidence; every numeric metric stays within its documented range, and the pace vector is NaN exactly when five or more laps are all 0 |
| DriverTwinLoop.LastN | backend-python/grracing/driver_twin_loop.py:74-82 | trimming keeps the whole history when it is at most the limit long, and otherwise exactly its last limit entries |
| DriverTwinLoop.Record | backend-python/grracing/driver_twin_loop.py:60-82 | recording a lap appends its lap and sector times, grows the history by one up to 50 laps, and keeps the last 50 laps of the extended history |
| DriverTwinLoop.CalculateChanges | backend-python/grracing/driver_twin_loop.py:106-141 | a driver without a previous twin is new with zero deltas and no sector changes; otherwise a delta is NaN exactly when either value is, and a numeric delta added to the previous value gives the new value |
| DriverTwinLoop.UpdateDriverTwin | backend-python/grracing/driver_twin_loop.py:36-104 | an update records the lap in the driver's trimmed history, caches the returned twin, marks it new exactly when no twin was cached, and leaves every other driver's history and twin untouched |
| DriverTwinLoop.GetDriverTwin | backend-python/grracing/driver_twin_loop.py:175-179 | the lookup returns the cached twin exactly when the driver has one |
| DriverTwinLoop.ResetDriver | backend-python/grracing/driver_twin_loop.py:187-195 | a reset forgets the driver's history and cached twin and leaves every other driver untouched |
| DriverTwinLoop.GetAfterUpdate | backend-python/grracing/driver_twin_loop.py:96-104 | right after an update the lookup returns the twin that the update returned |
| DriverTwinLoop.ResetStartsOver | backend-python/grracing/driver_twin_loop.py:187-195 | after a reset the next update is new and its history holds just that lap |
| DriverTwinLoop.Replay | backend-python/grracing/driver_twin_loop.py:36-104 | feeding laps one by one keeps the loop well formed and, for at least one lap, gives the driver a history |
| DriverTwinLoop.ReplayKeepsLastFifty | backend-python/grracing/driver_twin_loop.py:74-82 | feeding any sequence of laps into a fresh loop leaves exactly its last 50 laps in the history |
| DriverTwinLoop.LastNAppend | backend-python/grracing/driver_twin_loop.py:74-82 | trimming before appending a lap and trimming again gives the same history as trimming once after appending |
| LapClassification.Name | backend-python/grracing/lap_classification.py:18-28 | every lap type has a non-empty name |
| LapClassification.NameInjective | backend-python/grracing/lap_classification.py:18-28 | two lap types with the same name are the same type, so the name lookup back to the type is well defined |
| LapClassification.FirstPresent | backend-python/grracing/lap_classification.py:89-94 | the first listed name present among the columns is chosen, and none exactly when no listed name is present |
| LapClassification.LapTimeColumn | backend-python/grracing/lap_classification.py:89-94 | the lap-time column is one of the five known names present in the frame, and there is none exactly when none is present |
| LapClassification.Combine | backend-python/grracing/lap_classification.py:68-73 | a clock reading is NaN exactly when one of its parts is NaN |
| LapClassification.ParseAllFloats | backend-python/grracing/lap_classification.py:69-72 | converting the pieces succeeds exactly when every piece parses, giving their values in order, and otherwise raises ValueError |
| LapClassification.ParseLapTime | backend-python/grracing/lap_classification.py:60-78 | a missing cell is NaN and a number is itself; a string that is not a clock reading is its float value or NaN; only a malformed clock reading raises ValueError |
| LapClassification.ClockReadings | backend-python/grracing/lap_classification.py:67-73 | "M:S" reads as M*60+S seconds and "H:M:S" as H*3600+M*60+S |
| LapClassification.SplitTwo | backend-python/grracing/lap_classification.py:67 | two colon-free pieces joined by a colon split back into those two pieces |
| LapClassification.SplitWithout | backend-python/grracing/lap_classification.py:67 | a string without a colon splits into itself |
| LapClassification.SplitAfter | backend-python/grracing/lap_classification.py:67 | splitting after a colon-free head gives the head followed by the split of the rest |
| LapClassification.PaceClass | backend-python/grracing/lap_classification.py:141-150 | with a non-zero best lap a lap is hot exactly within the hot threshold; slower laps are error laps exactly from the error threshold and cool laps exactly from the cool threshold below it |
| LapClassification.ParseColumn | backend-python/grracing/lap_classification.py:101 | parsing the lap-time column succeeds exactly when every cell parses, giving their values in order, and otherwise raises ValueError |
| LapClassification.FiniteTimes | backend-python/grracing/lap_classification.py:105 | the valid times are exactly the finite parsed times |
| LapClassification.ClassifyTimes | backend-python/grracing/lap_classification.py:114-152 | every row gets one lap type, and none of them is IN_LAP |
| LapClassification.ClassifyLaps | backend-python/grracing/lap_classification.py:80-159 | classification labels every row and never yields IN_LAP; without a lap-time column every row is a race lap; it fails (ValueError) exactly when some lap-time cell is a malformed clock reading |
| LapClassification.Times | backend-python/grracing/lap_classification.py:101-152 | the classification is the one computed from the parsed lap-time column |
| LapClassification.MissingTimeIsErrorLap | backend-python/grracing/lap_classification.py:116-119 | when some lap has a valid time, a lap without a time is an error lap |
| LapClassification.PitActivityFirst | backend-python/grracing/lap_classification.py:122-129 | a timed lap with pit activity is an out lap when the previous lap also had pit activity and a pit lap otherwise |
| LapClassification.VscFlagSaysSafetyCar | backend-python/grracing/lap_classification.py:193-211 | a "VSC" flag matches both the safety-car and the virtual-safety-car tests, because it contains "SC" |
| LapClassification.VscFlagIsSafetyCar | backend-python/grracing/lap_classification.py:132-138 | a timed lap without pit activity under a "VSC" flag is classified SAFETY_CAR, not VIRTUAL_SAFETY_CAR |
| LapClassification.VirtualSafetyCarOnlyWithoutSafetyWords | backend-python/grracing/lap_classification.py:114-138 | a lap is a virtual-safety-car lap only if it is timed, has no pit activity, and no flag mentions SC, SAFETY or CAUTION |
| LapClassification.BestLapIsHot | backend-python/grracing/lap_classification.py:105-144 | with the default thresholds, a lap with the best non-zero time and no pit activity or flags is a hot lap |
| LapClassification.Select | backend-python/grracing/lap_classification.py:224-239 | the selected rows are in increasing order and are exactly the rows the filter keeps |
| LapClassification.LapTypeColumn | backend-python/grracing/lap_classification.py:215-229 | an existing lap_type column is used as is; otherwise the laps are classified, and the column holds each row's type name |
| LapClassification.FilterRaceLaps | backend-python/grracing/lap_classification.py:226-239 | the race laps are, in order, exactly the rows whose type is not error, pit, in, out or safety car |
| LapClassification.FilterHotLaps | backend-python/grracing/lap_classification.py:220-224 | the hot laps are exactly the rows typed HOT_LAP |
| LapClassification.LapTypeCounts | backend-python/grracing/lap_classification.py:213-218 | the counts have a key for exactly the non-missing lap types that occur |
| LapClassification.RaceLapsAreTheUnflaggedOnes | backend-python/grracing/lap_classification.py:226-239 | after classification, a row is kept as a race lap exactly when it is hot, cool, race or virtual-safety-car |
| LapClassification.CountsCoverEveryRow | backend-python/grracing/lap_classification.py:213-218 | after classification the type counts add up to the number of rows, each count being that type's occurrences |
| PyValue.Get | backend-python/grracing/data_validator.py:33 | a dictionary lookup gives the stored value, or None when the key is missing |
| PyValue.ToFloat | backend-python/grracing/data_validator.py:43-50 | float() fails exactly on None, lists, dicts and unparsable strings, with TypeError for non-strings and ValueError for strings, and keeps numbers (NaN included) |
| PyValue.ToInt | backend-python/grracing/data_validator.py:76-82 | int() fails exactly on None, lists, dicts, NaN and unparsable strings, keeps integers, and truncates a finite float toward zero |
| PyValue.Minus | backend-python/grracing/driver_twin_loop.py:123-128 | a difference is NaN exactly when an operand is, and otherwise adds back to the minuend |
| PyValue.Len | backend-python/grracing/data_validator.py:281-287 | len() succeeds exactly on strings, lists and dicts, raising TypeError otherwise, and a length is zero exactly when the value is falsy |
| DataValidator.VerdictOf | backend-python/grracing/data_validator.py:84 | a request is valid exactly when no error was collected |
| DataValidator.PerItem | backend-python/grracing/data_validator.py:42-50 | the per-item errors are exactly the errors of the individual items |
| DataValidator.LapTimeIssues | backend-python/grracing/data_validator.py:42-50 | a lap time is reported as not a number exactly when float() fails on it, as not positive exactly when it is at most 0, and as unreasonably high exactly when it exceeds 300 s |
| DataValidator.SectorIssue | backend-python/grracing/data_validator.py:61-68 | a present sector time is reported as not a number exactly when float() fails, and as not positive exactly when it is at most 0; an absent one is not checked |
| DataValidator.SectorIssues | backend-python/grracing/data_validator.py:57-68 | a sector entry is reported as not a dictionary exactly when it is not one, and each present sector is checked as a positive number |
| DataValidator.RequiredIssues | backend-python/grracing/data_validator.py:33-34 | a required field is reported exactly when its value is missing or falsy |
| DataValidator.ListIssues | backend-python/grracing/data_validator.py:36-50 | the field is reported as not a non-empty list exactly when it is not one; the "cannot be empty" error is never produced; a non-empty list gets exactly its items' errors |
| DataValidator.CompoundIssues | backend-python/grracing/data_validator.py:71-73 | a compound is reported exactly when it is present and not one of the five valid compounds |
| DataValidator.SectorTimesIssues | backend-python/grracing/data_validator.py:53-68 | truthy sector times are reported as not a list exactly when they are not one, and a list gets exactly its entries' errors |
| DataValidator.CurrentLapIssues | backend-python/grracing/data_validator.py:76-82 | a given current lap is reported exactly when int() fails on it or it is negative |
| DataValidator.LapTimesIssues | backend-python/grracing/data_validator.py:36-50 | lap times are reported as not a non-empty list exactly when they are not one, never as empty, and a non-empty list gets exactly its items' errors |
| DataValidator.ValidateDriverTwinRequest | backend-python/grracing/data_validator.py:23-84 | a driver-twin request is valid exactly when there are no errors, and every error concerns one of its five fields |
| DataValidator.PerItemAt | backend-python/grracing/data_validator.py:42-50 | an error about item i is reported exactly when item i's own check reports it |
| DataValidator.LapTimesSection | backend-python/grracing/data_validator.py:36-50 | an error about lap times is in the verdict exactly when the lap-times check reports it |
| DataValidator.LapTimeBounds | backend-python/grracing/data_validator.py:42-50 | a numeric lap time is flagged exactly when it is at most 0 or above 300 s, and either makes the request invalid |
| DataValidator.UnknownCompoundRejected | backend-python/grracing/data_validator.py:71-73 | an unknown compound is reported exactly when one is given, and it makes the request invalid |
| DataValidator.EmptyLapListNeverReportedAsEmpty | backend-python/grracing/data_validator.py:36-39 | the "cannot be empty" branch is dead: an empty list is reported as not a non-empty list instead |
| DataValidator.DriverIssues | backend-python/grracing/data_validator.py:101-113 | a driver entry is reported as not a dictionary exactly when it is not one, and its id is reported exactly when it is missing or falsy |
| DataValidator.TotalLapsIssues | backend-python/grracing/data_validator.py:116-126 | total laps are reported as required exactly when they are missing or falsy; an integer count is too high exactly above 200 and too low exactly below 1 |
| DataValidator.RaceCurrentLapIssues | backend-python/grracing/data_validator.py:129-137 | a missing current lap is not checked |
| DataValidator.DriversIssues | backend-python/grracing/data_validator.py:95-113 | the drivers section reports only drivers problems, says "non-empty list" exactly when drivers is not a non-empty list, and otherwise checks each driver in turn |
| DataValidator.ValidateRaceTwinRequest | backend-python/grracing/data_validator.py:86-139 | a race-twin request is valid exactly when there are no errors, and every error concerns one of its four fields |
| DataValidator.RaceTwinSection | backend-python/grracing/data_validator.py:116-137 | the total-laps and current-lap errors in the verdict are exactly those of their own checks |
| DataValidator.TotalLapsRules | backend-python/grracing/data_validator.py:116-126 | total laps are required and at most 200, and a request without them is invalid |
| DataValidator.CurrentLapAgainstTotal | backend-python/grracing/data_validator.py:129-137 | a current lap beyond a valid total is reported as exceeding it, and a malformed total makes the current lap be reported as not an integer |
| DataValidator.MissingFields | backend-python/grracing/data_validator.py:147-150 | each listed field is reported as required exactly when it is absent |
| DataValidator.RangeIssues | backend-python/grracing/data_validator.py:178-193 | a present value is reported out of range exactly when it is a number outside the bounds, and as not a number exactly when float() fails |
| DataValidator.TireAgeIssues | backend-python/grracing/data_validator.py:153-161 | a present tyre age is reported as not an integer exactly when int() fails, as negative exactly when below 0 and as too high exactly when above 100 |
| DataValidator.PositionIssues | backend-python/grracing/data_validator.py:164-170 | a position is reported exactly when it is present and either int() fails on it or it is below 1 |
| DataValidator.PitValueIssues | backend-python/grracing/data_validator.py:153-175 | the tyre-age, position and compound checks report only those fields, and the compound exactly when it is present and not a valid compound |
| DataValidator.ValidatePitDecisionRequest | backend-python/grracing/data_validator.py:141-195 | a pit-decision request is valid exactly when no check reports an error |
| DataValidator.PitRequiredFields | backend-python/grracing/data_validator.py:147-150 | a required pit field is reported exactly when it is absent, and its absence makes the request invalid |
| DataValidator.DegradationSection | backend-python/grracing/data_validator.py:178-184 | the degradation-rate errors are exactly those of its 0..0.1 range check |
| DataValidator.DensitySection | backend-python/grracing/data_validator.py:187-193 | the traffic-density errors are exactly those of its 0..1 range check |
| DataValidator.NotAmongPitChecks | backend-python/grracing/data_validator.py:147-193 | the rate and density errors come from their own range checks only |
| DataValidator.PitRanges | backend-python/grracing/data_validator.py:178-193 | the rate must lie in [0, 0.1] and the density in [0, 1], and NaN passes both range checks |
| DataValidator.LapEntryIssues | backend-python/grracing/data_validator.py:207-228 | a lap entry has no error exactly when it is a dictionary whose present lap time is a positive number and whose present lap number is an integer of at least 1 |
| DataValidator.PerItemEmpty | backend-python/grracing/data_validator.py:207-230 | a list yields no errors exactly when none of its items does |
| DataValidator.ValidateLapData | backend-python/grracing/data_validator.py:197-230 | lap data that is not a non-empty list is rejected with that single error; otherwise it is valid exactly when every entry is |
| DataValidator.ValidateWeatherData | backend-python/grracing/data_validator.py:232-258 | a non-string condition raises AttributeError; a non-dictionary is rejected with that single error; a condition is reported exactly when its lower-case form is not a known condition |
| DataValidator.ConditionIgnoresCase | backend-python/grracing/data_validator.py:252-256 | an upper-case "DRY" condition is accepted |
| DataValidator.TrackTemperatureBounds | backend-python/grracing/data_validator.py:243-247 | a track temperature below -50 or above 60 makes the weather data invalid |
| DataValidator.ValidateByType | backend-python/grracing/data_validator.py:270-278 | an unknown request type is invalid with the single unknown-type error |
| DataValidator.FewWarning | backend-python/grracing/data_validator.py:281-287 | a truthy field without a length raises TypeError; otherwise the warning is given exactly when the field is truthy and shorter than the minimum |
| DataValidator.ValidateAll | backend-python/grracing/data_validator.py:260-289 | the combined report carries the verdict of the request's own validator, raises only when a truthy lap-times or drivers value has no length, and warns exactly for fewer than 3 lap times or 2 drivers |
| RaceReplayBuilder.Filter | backend-python/grracing/race_replay_builder.py:149-152 | the selected rows are exactly the input rows that meet the condition |
| RaceReplayBuilder.InsertSorted | backend-python/grracing/race_replay_builder.py:141 | inserting a lap number into an increasing list of distinct laps keeps it increasing and adds exactly that lap |
| RaceReplayBuilder.SortedDistinct | backend-python/grracing/race_replay_builder.py:141 | the sorted unique lap numbers are increasing and are exactly the laps that occur |
| RaceReplayBuilder.SortedDistinctOfIncreasing | backend-python/grracing/race_replay_builder.py:201 | sorting lap numbers that are already increasing leaves them unchanged |
| RaceReplayBuilder.InsertLargest | backend-python/grracing/race_replay_builder.py:141 | inserting a lap larger than every lap so far appends it |
| RaceReplayBuilder.Thousandths | backend-python/grracing/race_replay_builder.py:185 | the value scaled to thousandths is rounded to the nearest whole number |
| RaceReplayBuilder.RoundMillis | backend-python/grracing/race_replay_builder.py:185 | rounding a gap to three decimals moves it by at most half a thousandth |
| RaceReplayBuilder.RoundMillisMonotone | backend-python/grracing/race_replay_builder.py:185 | rounding to three decimals preserves the order of two gaps |
| RaceReplayBuilder.RoundMillisZero | backend-python/grracing/race_replay_builder.py:179-185 | the leader's zero gap stays exactly zero after rounding |
| RaceReplayBuilder.LapEntries | backend-python/grracing/race_replay_builder.py:144-166 | the cars listed on a lap are exactly those that crossed the line on it, each once, with at least one lap completed |
| RaceReplayBuilder.Standings | backend-python/grracing/race_replay_builder.py:169-189 | the standings number the cars 1, 2, ... in order of laps completed, most first, and the leader has a zero gap |
| RaceReplayBuilder.StandingsOrdered | backend-python/grracing/race_replay_builder.py:169-185 | among cars with the same laps completed, the gaps never decrease down the order |
| RaceReplayBuilder.StandingsCoverEntries | backend-python/grracing/race_replay_builder.py:169-189 | every car on the lap appears in the standings with its laps completed |
| RaceReplayBuilder.LapEntriesNonEmpty | backend-python/grracing/race_replay_builder.py:143-148 | every lap that occurs in the data has at least one car listed |
| RaceReplayBuilder.CalculateLapPositions | backend-python/grracing/race_replay_builder.py:131-191 | there is one standing per lap that occurs, in increasing lap order, each non-empty and numbered 1, 2, ... |
| RaceReplayBuilder.PositionMap | backend-python/grracing/race_replay_builder.py:207-208 | the position map has a key for exactly the cars in the standing |
| RaceReplayBuilder.PositionMapAt | backend-python/grracing/race_replay_builder.py:207-208 | the map gives a car the position of its last entry in the standing |
| RaceReplayBuilder.Gains | backend-python/grracing/race_replay_builder.py:212-221 | a gain is recorded for exactly the cars that were on the previous lap and now hold a better position, with the new position and the number of places gained |
| RaceReplayBuilder.LapOvertakesExact | backend-python/grracing/race_replay_builder.py:203-221 | between two laps an overtake is reported exactly for each car present on both that moved up, with its positive gain |
| RaceReplayBuilder.EventsAtAppend | backend-python/grracing/race_replay_builder.py:223-224 | recording one more lap's overtakes leaves the other laps' events unchanged |
| RaceReplayBuilder.Collect | backend-python/grracing/race_replay_builder.py:203-224 | the loop records only laps after the first that have at least one overtake; asking for any later lap gives exactly the overtakes found for it, and the first lap gives none |
| RaceReplayBuilder.DetectStep | backend-python/grracing/race_replay_builder.py:203-224 | one more loop iteration keeps every earlier lap's answer and makes the new lap answer its own overtakes |
| RaceReplayBuilder.EventsAtAbsent | backend-python/grracing/race_replay_builder.py:223-224 | a lap without a recorded entry has no events |
| RaceReplayBuilder.DetectOvertakes | backend-python/grracing/race_replay_builder.py:193-226 | every recorded lap has at least one overtake; each lap's events are the overtakes against the previous lap, and the first lap has none |
| RaceReplayBuilder.MedianOfEqual | backend-python/grracing/race_replay_builder.py:256 | the median of equal lap times is that time |
| RaceReplayBuilder.ByLap | backend-python/grracing/race_replay_builder.py:250 | a car's rows sorted by lap are a reordering of them by nondecreasing lap |
| RaceReplayBuilder.LapTimes | backend-python/grracing/race_replay_builder.py:253 | the first lap has no lap time and each later one is the time since the previous crossing |
| RaceReplayBuilder.Present | backend-python/grracing/race_replay_builder.py:256 | the median is taken over the lap times that exist, and there is one whenever some lap has a time |
| RaceReplayBuilder.FlagLaps | backend-python/grracing/race_replay_builder.py:259-267 | a lap is slow exactly when its time exceeds 1.2 times the median, a pit lap exactly when it is slow and exceeds 1.5 times the median, and every pit lap is a slow lap |
| RaceReplayBuilder.AllFlags | backend-python/grracing/race_replay_builder.py:249-267 | every pit lap is a slow lap, and every flagged lap belongs to a listed car |
| RaceReplayBuilder.DetectAnomalies | backend-python/grracing/race_replay_builder.py:228-269 | every pit lap is also a slow lap, every flagged lap belongs to a car in the data, and no safety-car lap is ever reported |
| RaceReplayBuilder.SteadyPaceNeverSlow | backend-python/grracing/race_replay_builder.py:256-260 | a car lapping at a steady nonnegative pace has no slow laps |
| RaceReplayBuilder.PresentAll | backend-python/grracing/race_replay_builder.py:256 | when every existing lap time equals one value, the lap times used for the median are all that value |
| RaceReplayBuilder.NoSlowLaps | backend-python/grracing/race_replay_builder.py:259-263 | without a lap above the slow threshold, no slow lap is reported |
| RaceReplayBuilder.Timeline | backend-python/grracing/race_replay_builder.py:312-331 | the timeline holds one entry per lap in order, carrying that lap's standings and its overtakes |
| RaceReplayBuilder.BuildReplay | backend-python/grracing/race_replay_builder.py:271-341 | the replay's lap count is the timeline's length, and the timeline covers exactly the laps in the data, in increasing order, each with a non-empty standing |
| RaceReplayBuilder.TimelineLapsMatch | backend-python/grracing/race_replay_builder.py:312-319 | the timeline's laps are the laps of the standings, in the same order |
| RaceReplayBuilder.TimelineEvents | backend-python/grracing/race_replay_builder.py:287-331 | the first timeline entry has no events, and every later entry's events are the overtakes between its standing and the previous entry's |
| RaceReplayBuilder.FindEach | backend-python/grracing/race_replay_builder.py:312-313 | looking up a lap in the standings gives that lap's own positions |
| RealRaceReplay.SuffixImpliesContains | backend-python/grracing/real_race_replay.py:191-197 | an id that ends with the car number also contains it, so the suffix test never matches anything the containment test missed |
| RealRaceReplay.MatchesIsContainment | backend-python/grracing/real_race_replay.py:188-197 | an id matches a car number exactly when one contains the other once the id is stripped of surrounding whitespace |
| RealRaceReplay.PaddedIdMatches | backend-python/grracing/real_race_replay.py:188-193 | the id "7 " matches the car number "17", because the id is stripped first |
| RealRaceReplay.FirstMatch | backend-python/grracing/real_race_replay.py:187-197 | a car number is mapped to a lap-time id that matches it, and to none exactly when no id matches |
| RealRaceReplay.FirstMatchIsFirst | backend-python/grracing/real_race_replay.py:187-197 | the id found is the first matching one in dict order, since the loop breaks on the first match |
| RealRaceReplay.FirstWhereIsFirst | backend-python/grracing/real_race_replay.py:187-197 | a left-to-right scan that stops at the first hit finds an element with no earlier hit |
| RealRaceReplay.VehicleMap | backend-python/grracing/real_race_replay.py:179-197 | every mapped id is a lap-time id, mapped to the stripped text of some result number, non-empty and matching it |
| RealRaceReplay.Step | backend-python/grracing/real_race_replay.py:210-250 | each lap adds nothing, the 100 s default, or a plausible lap of strictly between 60 and 300 s; a lap without a readable timestamp adds 100 s, and so does the first timed lap |
| RealRaceReplay.WalkLaps | backend-python/grracing/real_race_replay.py:206-250 | one cumulative time is recorded per lap |
| RealRaceReplay.WalkTotals | backend-python/grracing/real_race_replay.py:206-250 | the cumulative times start at 100 s, never decrease, and grow only by zero, 100 s or a plausible lap time |
| RealRaceReplay.SortByLap | backend-python/grracing/real_race_replay.py:210 | a car's laps sorted by lap number are a reordering of them by nondecreasing lap |
| RealRaceReplay.TotalsByLap | backend-python/grracing/real_race_replay.py:243-247 | a cumulative time is recorded for exactly the laps the car has, each one of the walked totals |
| RealRaceReplay.SortKeepsLaps | backend-python/grracing/real_race_replay.py:210 | sorting a car's laps keeps the same lap numbers |
| RealRaceReplay.LapTotals | backend-python/grracing/real_race_replay.py:206-250 | a car has a cumulative time for exactly its recorded laps, each at least 100 s |
| RealRaceReplay.TallyOf | backend-python/grracing/real_race_replay.py:206-263 | a car's tally keeps its id, shows the mapped result number or else the id, and has a time of at least 100 s for exactly its recorded laps |
| RealRaceReplay.OnLap | backend-python/grracing/real_race_replay.py:260-261 | the cars ranked on a lap are exactly those with a time for that lap |
| RealRaceReplay.Times | backend-python/grracing/real_race_replay.py:265-270 | each ranked car contributes its cumulative time for the lap |
| RealRaceReplay.RankLap | backend-python/grracing/real_race_replay.py:257-284 | a lap's standing lists every car with a time for it, ranked 1, 2, ... by nondecreasing cumulative time |
| RealRaceReplay.RankLapFrom | backend-python/grracing/real_race_replay.py:259-284 | every ranked entry carries the id, number and lap time of a car that has that lap |
| RealRaceReplay.KeepNonEmpty | backend-python/grracing/real_race_replay.py:286-290 | only non-empty standings are kept, in their original order |
| RealRaceReplay.Emit | backend-python/grracing/real_race_replay.py:257-290 | standings are emitted in increasing lap order from 1 up to the last lap, exactly for the laps some car has, each ranked |
| RealRaceReplay.MaxLap | backend-python/grracing/real_race_replay.py:202-212 | the last lap is at least 0 and at least every recorded lap |
| RealRaceReplay.MaxLapOf | backend-python/grracing/real_race_replay.py:210-212 | a car's last lap is at least 0 and at least each of its laps |
| RealRaceReplay.Tallies | backend-python/grracing/real_race_replay.py:206-250 | every car gets its own tally |
| RealRaceReplay.CalculateRacePositions | backend-python/grracing/real_race_replay.py:167-293 | a parse error or an empty lap-time table gives no standings; otherwise the standings come in increasing lap order, each ranked by cumulative time |
| RealRaceReplay.EmittedIffCompleted | backend-python/grracing/real_race_replay.py:257-290 | a lap has a standing exactly when it lies between 1 and the last lap and some car has a time for it |
| RealRaceReplay.CompletedIffRecorded | backend-python/grracing/real_race_replay.py:206-261 | some car has a time for a lap exactly when some car recorded that lap |
| RealRaceReplay.RecordedWithinMax | backend-python/grracing/real_race_replay.py:212 | a recorded lap never exceeds the last lap |
| RealRaceReplay.LapsEmitted | backend-python/grracing/real_race_replay.py:167-293 | with at least one car, a lap has a standing exactly when it is positive and some car recorded it |
| RealRaceReplay.TotalsAtLeastFirstLap | backend-python/grracing/real_race_replay.py:206-290 | every cumulative time in the standings is at least the 100 s of the first lap |
| RealRaceReplay.TalliesAtLeast | backend-python/grracing/real_race_replay.py:206-250 | every car's cumulative times are at least 100 s |
| RealRaceReplay.EmitAtLeast | backend-python/grracing/real_race_replay.py:257-290 | emitting the standings keeps every cumulative time at least 100 s |
| RealRaceReplay.RankLapAtLeast | backend-python/grracing/real_race_replay.py:257-284 | ranking a lap keeps every cumulative time at least 100 s |
| RealRaceReplay.TrackIndex | backend-python/grracing/real_race_replay.py:464-468 | the track index always lies within the track |
| RealRaceReplay.WholeLapsBehindAtStart | backend-python/grracing/real_race_replay.py:464-468 | a car a whole number of 100 s laps behind is drawn at the start of the track |
| RealRaceReplay.FindLap | backend-python/grracing/real_race_replay.py:445 | the lookup finds a standing for the requested lap, and none exactly when no standing has that lap |
| RealRaceReplay.Place | backend-python/grracing/real_race_replay.py:455-479 | without coordinates nothing is placed; otherwise every car is placed once, with its number, position, lap and time gap to the leader |
| RealRaceReplay.DriverTrackPositions | backend-python/grracing/real_race_replay.py:435-481 | no standings, a lap below 1, no coordinates or an unknown lap give nothing; otherwise every car of that lap is placed with its gap to the leader |
| RealRaceReplay.GapsNonNegative | backend-python/grracing/real_race_replay.py:455-460 | on ranked standings no car's gap to the leader is negative |

## Left out

- Randomness: `np.random` and `random` draws are parameters (sequences of draws or single values). Their distributions are not modelled.
- numpy and scipy results are inputs. This covers means of draws, percentiles, standard deviations, `curve_fit`, `linregress` and their R² values.
- Transcendental and real-exponent operations are function-valued parameters: `exp`, `log`, `sqrt`, `density ** 1.5` and `age ** exponent`.
- Floating-point rounding, infinities and overflow are not modelled. A float is a real number or, where the code can meet one, NaN. `round(x, n)` is exact round-half-even.
- Degradation.FitDegradationCurve: the identical-lap-numbers error is the one recent scipy releases raise. Older releases returned NaN statistics instead, and the model follows the newer behaviour. The text of numpy's shape-mismatch message is not modelled.
- StrategyConsole.WindowRiskOf and StrategyOptimizer.CalculateRiskScore: the risk sums are exact here, so a sum of exactly 0.2 + 0.1 is LOW. In doubles, 0.0 + 0.2 + 0.1 is 0.30000000000000004, which is above 0.3, so Python reports MEDIUM. Examples are heavy traffic late in the race, or heavy traffic on the podium. The same happens at the HIGH/MEDIUM edge: 0.0 + 0.4 + 0.2 is 0.6000000000000001, which is above 0.6. With tyre age over 25 and traffic over 0.7 and nothing else, Python reports HIGH and the window timeline advises AVOID. The exact model gives MEDIUM, so CAUTION or URGENT.
- Parsing a string with `float()` or `int()` follows Python's grammar. It is an input (`PyValue.Parsers`), not a model of that grammar.
- `str.upper()` and `str.lower()` map ASCII letters only.
- Exception messages and log messages are not modelled. Errors are modelled by kind (`TypeError`, `ValueError`, `KeyError`, `AttributeError`, `ZeroDivisionError`).
- pandas dataframes and their index are modelled as sequences of row records. CSV reading, file discovery and the file-reading halves of the replay builders are not modelled.
- `datetime` timestamps are reals (seconds). The `timestamp` and `generated_at` fields of returned dicts are dropped.
- The HTTP and RPC plumbing, the race twin cache, persistence, logging and the stability layer are not part of this model.
- driver_twin_loop.py `emit_to_nodejs` is not modelled: it is an asynchronous network call.
- driver_twin_loop.py `get_all_twins` is not modelled: it returns a copy of the twin map.
- driver_twin.py `update_driver_twin` is not modelled: it returns its input unchanged.
- race_twin.py `_simulate_traffic_scenarios` is not modelled: it only averages fields of the pit-stop records with numpy.
- race_twin.py `_generate_twin_from_driver` is not modelled: it only forwards to the driver-twin generator, whose numeric core is modelled in `DriverTwin`.
- race_twin.py `simulate_race` assembles the result dict from the modelled analyses. The dict assembly itself is not modelled.
- traffic.py `analyze_traffic_pattern`, weather.py `load_weather_from_csv` and degradation.py `fit_degradation_from_data` are not modelled: they are pandas and CSV analytics.
- Trained-model paths are not modelled: `train`, `save`, `load` (joblib) and `model.predict`. Only the untrained fallback branches are modelled.
- real_race_replay.py `_parse_lap_times_csv` is not modelled: it is CSV input. The per-vehicle lap records it produces are the input of `RealRaceReplay.CalculateRacePositions`.
- race_replay_builder.py `build_replay_json` also copies driver lists, track information and dates, and converts numpy types to Python types (`_convert_to_native_types`). Only the lap timeline and the overtake and anomaly maps are modelled.
- The overtake `description` f-strings in the replay builder are not modelled.
- Overtake.PredictOvertake returns a map, so the order in which the dict's keys were first inserted is not modelled; ids are modelled as strings (`str()` of a non-string id is taken to be given as that string).
- RaceTwin.SimulateLaps takes each lap's outcome for every driver (lap time and pit stop, if any) as a parameter. `LapTime`, `ShouldPit` and `SimulatePitStop` are modelled separately but are not composed into the loop. In race_twin.py:141-178 each driver's lap time, pit decision and rejoin position depend on the other drivers' state part-way through the lap, including the overtake swaps made earlier in that lap. The contracts of `SimulateLaps` and `SimulateSingleRace` (ids kept, ranking by total time, finishing order a permutation) therefore hold for every choice of outcomes.
- RaceTwin.SimulateSingleRace takes the same per-lap outcomes as parameters, for the reason given for `SimulateLaps`.
- RaceReplayBuilder.ByLap sorts stably, while pandas' default quicksort does not promise stability. The two orders differ only for duplicate (vehicle, lap) rows.
- MonteCarlo.MonteCarloSimulation: the finish-time summary keeps mean, minimum and maximum. The median and standard deviation are numpy results and are left out.

Behaviour of the code that the model keeps as written:
- The ML traffic-loss fallback charges an unknown sector the factor 1.2.
- The ML tyre fallback never predicts a cliff below lap 2000.
- The lap classifier never emits `IN_LAP`: `_is_in_lap` returns False on every path.
- A "VSC" flag is classified as `SAFETY_CAR`, because the safety-car test looks for the substring "SC" first.
- NaN passes every numeric range check in the validators.
- `validate_all` raises TypeError when `lap_times` is truthy but has no length.
- A non-string weather condition raises AttributeError.
- A malformed `total_laps` is reported against `current_lap`.
- The anomalies computed in `build_replay_json` are not used in the output.
- The suffix-match branch at real_race_replay.py:195-197 can never be reached.
- The "cannot be empty" branch of the lap-time validator can never be reached.

## Findings

| source | as written | input that shows it | evidently intended | confidence | as-written member | corrected member |
|---|---|---|---|---|---|---|
| backend-python/grracing/pit_decision_engine.py:162-175 | `self.tire_model.calculate_degradation(...)` is called on `degradation.TireDegradationModel`, which defines no such method | any request: the tyre factor is evaluated on every call | use `calculate_degradation` of `models/tire_degradation.py` (track temperature 25 by default) | not executed | PitDecisionEngine.MakePitDecisionAsWrittenRaises | PitDecisionEngine.MakePitDecision |
| backend-python/grracing/race_twin.py:156 | the per-lap degradation calls the same missing `calculate_degradation` | any simulation with at least one lap left to run | the degradation of `models/tire_degradation.py` | not executed | RaceTwin.SimulateSingleRaceAsWrittenRaises | RaceTwin.FinishingOrderIsPermutation |
| backend-python/grracing/models/stint_optimizer.py:341 | the fuel reasoning (line 341, reached from the call at line 215) and then the fuel flag (line 234) divide by `fuel_consumption_per_lap` with no guard, while line 260 guards the same division | `fuel_consumption_per_lap = 0.0` | no fuel limit when consumption is zero, as at line 260 | not executed | StintOptimizer.ZeroConsumptionRaises | StintOptimizer.OptimizeStintLength |
| backend-python/grracing/degradation.py:153-154 | `curve_fit(..., maxfexp=10000)` passes a misspelled keyword; the TypeError is swallowed by a bare `except`, so the exponential fit never happens | data on which the exponential model has the higher R² | pass `maxfev`, and keep the exponential fit when its R² is higher | not executed | Degradation.AsWrittenFitIsAlwaysLinear | Degradation.FitPicksBetterModel |

=== FILE: counter.dfy ===
/** Python's `collections.Counter` as the simulators use it: counts per key,
    keys in first-occurrence order, and `most_common(1)`, which picks the
    first key (in that order) with the largest count. */
module Counter {
  import opened Numerics

  /** How often `x` occurs in `s`. */
  function Count<T(==,!new)>(s: seq<T>, x: T): (n: nat)
    ensures n <= |s|
    ensures n > 0 <==> x in s
  {
    if |s| == 0 then 0
    else Count(s[..|s| - 1], x) + (if s[|s| - 1] == x then 1 else 0)
  }

  predicate Distinct<T(==,!new)>(s: seq<T>) {
    forall i, j :: 0 <= i < j < |s| ==> s[i] != s[j]
  }

  /** The counter's keys, in the order they were first seen. */
  function Keys<T(==,!new)>(s: seq<T>): (ks: seq<T>)
    ensures Distinct(ks)
    ensures forall x :: x in ks <==> x in s
    ensures |ks| <= |s|
  {
    if |s| == 0 then []
    else
      var prev := Keys(s[..|s| - 1]);
      var x := s[|s| - 1];
      assert forall y :: y in s <==> y in s[..|s| - 1] || y == x by {
        assert s == s[..|s| - 1] + [x];
      }
      if x in prev then prev else prev + [x]
  }

  /** The total of the counts of `ks` in `s`. */
  function CountTotal<T(==,!new)>(ks: seq<T>, s: seq<T>): nat {
    if |ks| == 0 then 0 else CountTotal(ks[..|ks| - 1], s) + Count(s, ks[|ks| - 1])
  }

  /** Appending `x` to `s` adds one to the total iff `x` is among the keys. */
  lemma {:induction false} CountTotalAppend<T(!new)>(ks: seq<T>, s: seq<T>, x: T)
    requires Distinct(ks)
    ensures CountTotal(ks, s + [x]) == CountTotal(ks, s) + (if x in ks then 1 else 0)
  {
    if |ks| > 0 {
      var init := ks[..|ks| - 1];
      assert Distinct(init);
      CountTotalAppend(init, s, x);
      assert (s + [x])[..|s + [x]| - 1] == s;
      assert x in ks <==> x in init || x == ks[|ks| - 1] by {
        assert ks == init + [ks[|ks| - 1]];
      }
      assert x in init ==> x != ks[|ks| - 1];
    }
  }

  /** Appending a key that is not yet counted leaves the other totals alone. */
  lemma {:induction false} CountTotalExtend<T(!new)>(ks: seq<T>, x: T, s: seq<T>)
    ensures CountTotal(ks + [x], s) == CountTotal(ks, s) + Count(s, x)
  {
    assert (ks + [x])[..|ks + [x]| - 1] == ks;
  }

  /** The counts over the keys add up to the length of the sequence: every
      element is counted exactly once. */
  lemma {:induction false} CountsAddUp<T(!new)>(s: seq<T>)
    ensures CountTotal(Keys(s), s) == |s|
  {
    if |s| > 0 {
      var init := s[..|s| - 1];
      var x := s[|s| - 1];
      var prev := Keys(init);
      assert s == init + [x];
      CountsAddUp(init);
      if x in prev {
        CountTotalAppend(prev, init, x);
      } else {
        CountTotalAppend(prev, init, x);
        CountTotalExtend(prev, x, s);
        assert Count(s, x) == 1 by {
          assert x !in init;
          assert Count(init, x) == 0;
        }
      }
    }
  }

  /** When every element of `s` is one of the distinct keys `ks`, the counts
      of `ks` add up to `|s|`. */
  lemma {:induction false} CountTotalCovers<T(!new)>(ks: seq<T>, s: seq<T>)
    requires Distinct(ks)
    requires forall k :: 0 <= k < |s| ==> s[k] in ks
    ensures CountTotal(ks, s) == |s|
  {
    if |s| == 0 {
      CountTotalOfEmpty(ks, s);
    } else {
      var init := s[..|s| - 1];
      assert s == init + [s[|s| - 1]];
      CountTotalCovers(ks, init);
      CountTotalAppend(ks, init, s[|s| - 1]);
    }
  }

  lemma {:induction false} CountTotalOfEmpty<T(!new)>(ks: seq<T>, s: seq<T>)
    requires |s| == 0
    ensures CountTotal(ks, s) == 0
  {
    if |ks| > 0 {
      CountTotalOfEmpty(ks[..|ks| - 1], s);
    }
  }

  /** Counts of the keys, negated so that the first minimum is the first
      most common key. */
  function NegatedCounts<T(==,!new)>(ks: seq<T>, s: seq<T>): (r: seq<real>)
    ensures |r| == |ks|
    ensures forall j :: 0 <= j < |ks| ==> r[j] == -(Count(s, ks[j]) as real)
  {
    seq(|ks|, j requires 0 <= j < |ks| => -(Count(s, ks[j]) as real))
  }

  /** `Counter(s).most_common(1)[0][0]`. */
  function MostCommon<T(==,!new)>(s: seq<T>): (x: T)
    requires |s| > 0
    ensures x in s
    ensures forall y :: Count(s, y) <= Count(s, x)
    ensures forall j :: 0 <= j < |Keys(s)| && Keys(s)[j] == x ==>
      forall k :: 0 <= k < j ==> Count(s, Keys(s)[k]) < Count(s, x)
  {
    var ks := Keys(s);
    assert s[0] in ks;
    var i := ArgMin(NegatedCounts(ks, s));
    forall y
      ensures Count(s, y) <= Count(s, ks[i])
    {
      if y in s {
        var j :| 0 <= j < |ks| && ks[j] == y;
        assert NegatedCounts(ks, s)[i] <= NegatedCounts(ks, s)[j];
      }
    }
    ks[i]
  }

  /** One entry of a position distribution. */
  datatype Share = Share(position: int, probability: real)

  /** `{pos: count / total_sims for pos, count in counter.items()}` over the
      first `ks` keys. */
  function Shares(ks: seq<int>, places: seq<int>, total: nat): (d: seq<Share>)
    requires total > 0
    ensures |d| == |ks|
    ensures forall k :: 0 <= k < |ks| ==>
      d[k] == Share(ks[k], Count(places, ks[k]) as real / total as real)
  {
    if |ks| == 0 then []
    else Shares(ks[..|ks| - 1], places, total) + [Share(ks[|ks| - 1], Count(places, ks[|ks| - 1]) as real / total as real)]
  }

  function SumShares(d: seq<Share>): real {
    if |d| == 0 then 0.0 else SumShares(d[..|d| - 1]) + d[|d| - 1].probability
  }

  lemma {:induction false} SharesSum(ks: seq<int>, places: seq<int>, total: nat)
    requires total > 0
    ensures SumShares(Shares(ks, places, total)) == CountTotal(ks, places) as real / total as real
  {
    if |ks| > 0 {
      var init := ks[..|ks| - 1];
      var x := ks[|ks| - 1];
      SharesSum(init, places, total);
      var d := Shares(ks, places, total);
      var prev := Shares(init, places, total);
      assert d == prev + [Share(x, Count(places, x) as real / total as real)];
      assert d[..|d| - 1] == prev;
      var a := CountTotal(init, places) as real;
      var c := Count(places, x) as real;
      assert CountTotal(ks, places) as real == a + c;
      DivAdd(a, c, total as real);
    }
  }

  lemma DivAdd(a: real, c: real, t: real)
    requires t > 0.0
    ensures a / t + c / t == (a + c) / t
  {
  }

  /** When every counted element is one of the distinct keys, the shares of
      the keys add up to one. */
  lemma SharesSumToOne(ks: seq<int>, places: seq<int>, total: nat)
    requires total > 0 && |places| == total && Distinct(ks)
    requires forall r :: 0 <= r < |places| ==> places[r] in ks
    ensures SumShares(Shares(ks, places, total)) == 1.0
  {
    CountTotalCovers(ks, places);
    SharesSum(ks, places, total);
    DivSelf(total as real);
  }

  lemma DivSelf(t: real)
    requires t > 0.0
    ensures t / t == 1.0
  {
  }
}

=== FILE: data_validator.dfy ===
/** The request validators (grracing/data_validator.py): each inspects a
    decoded JSON request and returns whether it is valid together with the
    list of problems found; a request is valid exactly when that list is
    empty. Problems are identified by where they are (field, list item,
    item field) and what is wrong; the English wording of the messages is
    not modelled. */
module DataValidator {
  import opened Wrappers
  import opened PyValue
  import Text

  /** Where a problem is: a top-level field, item `index` of a list field,
      or a key of such an item. */
  datatype Path = Field(name: string) | Item(list: string, index: nat) | ItemField(list: string, index: nat, key: string)

  datatype Kind =
    | Required | NonEmptyList | CannotBeEmpty | MustBeList | MustBeDictionary | MustBePositive | UnreasonablyHigh
    | MustBeNumber | MustBeInteger | MustBeNonNegative | AtLeastOne | ExceedsTotalLaps | TooHigh | OutOfRange
    | UnknownCompound | UnknownCondition | UnknownRequestType

  datatype Issue = Issue(path: Path, kind: Kind)

  /** `(is_valid, errors)`. */
  datatype Verdict = Verdict(isValid: bool, errors: seq<Issue>)

  function VerdictOf(errors: seq<Issue>): (v: Verdict)
    ensures v.errors == errors
    ensures v.isValid <==> |errors| == 0
  {
    Verdict(|errors| == 0, errors)
  }

  const Compounds := [Str("SOFT"), Str("MEDIUM"), Str("HARD"), Str("INTERMEDIATE"), Str("WET")]
  const Conditions := ["dry", "wet", "damp", "rain", "snow"]

  /** The issues of every item of a list, item by item. */
  function PerItem(items: seq<Value>, check: (nat, Value) -> seq<Issue>): (r: seq<Issue>)
    ensures forall x :: x in r <==> exists i :: 0 <= i < |items| && x in check(i, items[i])
  {
    if |items| == 0 then []
    else
      var n := |items| - 1;
      var prev := PerItem(items[..n], check);
      assert forall i :: 0 <= i < n ==> items[..n][i] == items[i];
      prev + check(n, items[n])
  }

  /** One lap time: it must convert with `float`, be positive and be at
      most 300 seconds. */
  function LapTimeIssues(i: nat, v: Value, p: Parsers): (r: seq<Issue>)
    ensures forall x :: x in r ==> x.path == Item("lap_times", i)
    ensures Issue(Item("lap_times", i), MustBeNumber) in r <==> ToFloat(v, p).Failure?
    ensures Issue(Item("lap_times", i), MustBePositive) in r <==> ToFloat(v, p).Success? && AtMost(ToFloat(v, p).value, 0.0)
    ensures Issue(Item("lap_times", i), UnreasonablyHigh) in r <==> ToFloat(v, p).Success? && Above(ToFloat(v, p).value, 300.0)
  {
    match ToFloat(v, p)
    case Failure(_) => [Issue(Item("lap_times", i), MustBeNumber)]
    case Success(t) =>
      (if AtMost(t, 0.0) then [Issue(Item("lap_times", i), MustBePositive)] else []) +
      (if Above(t, 300.0) then [Issue(Item("lap_times", i), UnreasonablyHigh)] else [])
  }

  /** The sectors of one `sector_times` item: each of S1-S3 that is
      present must convert with `float` and be positive. */
  function SectorIssues(i: nat, v: Value, p: Parsers): (r: seq<Issue>)
    ensures forall x :: x in r ==> !x.path.Field? && x.path.list == "sector_times" && x.path.index == i
    ensures !v.Dict? <==> Issue(Item("sector_times", i), MustBeDictionary) in r
    ensures v.Dict? ==> SectorReported(r, i, v.entries, "S1", p) && SectorReported(r, i, v.entries, "S2", p) &&
                        SectorReported(r, i, v.entries, "S3", p)
  {
    if !v.Dict? then [Issue(Item("sector_times", i), MustBeDictionary)] else DictSectorIssues(i, v.entries, p)
  }

  /** The sectors S1-S3 of one `sector_times` item that is a dictionary. */
  function DictSectorIssues(i: nat, sectors: map<string, Value>, p: Parsers): (r: seq<Issue>)
    ensures forall x :: x in r ==> x.path.ItemField? && x.path.list == "sector_times" && x.path.index == i
    ensures SectorReported(r, i, sectors, "S1", p) && SectorReported(r, i, sectors, "S2", p) &&
            SectorReported(r, i, sectors, "S3", p)
  {
    var s1, s2, s3 := SectorIssue(i, sectors, "S1", p), SectorIssue(i, sectors, "S2", p), SectorIssue(i, sectors, "S3", p);
    SectorKept([], s1, s2 + s3, i, sectors, "S1", p);
    SectorKept(s1, s2, s3, i, sectors, "S2", p);
    SectorKept(s1 + s2, s3, [], i, sectors, "S3", p);
    SectorPaths(s1, s2, s3, i);
    s1 + s2 + s3
  }

  lemma SectorPaths(s1: seq<Issue>, s2: seq<Issue>, s3: seq<Issue>, i: nat)
    requires forall x :: x in s1 ==> x.path == ItemField("sector_times", i, "S1")
    requires forall x :: x in s2 ==> x.path == ItemField("sector_times", i, "S2")
    requires forall x :: x in s3 ==> x.path == ItemField("sector_times", i, "S3")
    ensures forall x :: x in s1 + s2 + s3 ==> x.path.ItemField? && x.path.list == "sector_times" && x.path.index == i
  {
  }

  /** A present sector `key` that is not a number, or not positive, is
      reported as such, and only then. */
  predicate SectorReported(r: seq<Issue>, i: nat, sectors: map<string, Value>, key: string, p: Parsers) {
    key in sectors ==>
      (Issue(ItemField("sector_times", i, key), MustBeNumber) in r <==> ToFloat(sectors[key], p).Failure?) &&
      (Issue(ItemField("sector_times", i, key), MustBePositive) in r <==>
         ToFloat(sectors[key], p).Success? && AtMost(ToFloat(sectors[key], p).value, 0.0))
  }

  /** Issues about other paths around `own` leave sector `key` reported
      alike. */
  lemma SectorKept(before: seq<Issue>, own: seq<Issue>, after: seq<Issue>, i: nat, sectors: map<string, Value>, key: string, p: Parsers)
    requires SectorReported(own, i, sectors, key, p)
    requires forall x :: x in before ==> x.path != ItemField("sector_times", i, key)
    requires forall x :: x in after ==> x.path != ItemField("sector_times", i, key)
    ensures SectorReported(before + own + after, i, sectors, key, p)
  {
  }

  function SectorIssue(i: nat, sectors: map<string, Value>, key: string, p: Parsers): (r: seq<Issue>)
    ensures forall x :: x in r ==> x.path == ItemField("sector_times", i, key)
    ensures key !in sectors ==> r == []
    ensures SectorReported(r, i, sectors, key, p)
  {
    if key !in sectors then []
    else
      match ToFloat(sectors[key], p)
      case Failure(_) => [Issue(ItemField("sector_times", i, key), MustBeNumber)]
      case Success(t) => if AtMost(t, 0.0) then [Issue(ItemField("sector_times", i, key), MustBePositive)] else []
  }

  /** A required field must be truthy. */
  function RequiredIssues(d: map<string, Value>, field: string): (r: seq<Issue>)
    ensures forall x :: x in r ==> x == Issue(Field(field), Required)
    ensures |r| > 0 <==> !Truthy(Get(d, field))
  {
    if Truthy(Get(d, field)) then [] else [Issue(Field(field), Required)]
  }

  /** A list field must be a non-empty list, and then each item is checked. */
  function ListIssues(d: map<string, Value>, field: string, check: (nat, Value) -> seq<Issue>): (r: seq<Issue>)
    ensures Issue(Field(field), NonEmptyList) in r <==> !(Get(d, field).List? && |Get(d, field).items| > 0)
    requires forall i: nat, v: Value, x :: x in check(i, v) ==> !x.path.Field?
    ensures Issue(Field(field), CannotBeEmpty) !in r
    ensures Get(d, field).List? && |Get(d, field).items| > 0 ==> r == PerItem(Get(d, field).items, check)
  {
    var v := Get(d, field);
    if !Truthy(v) || !v.List? then [Issue(Field(field), NonEmptyList)]
    else if |v.items| == 0 then [Issue(Field(field), CannotBeEmpty)]
    else PerItem(v.items, check)
  }

  /** A present compound must be one of the five known ones. */
  function CompoundIssues(present: bool, v: Value): (r: seq<Issue>)
    ensures forall x :: x in r ==> x == Issue(Field("tire_compound"), UnknownCompound)
    ensures |r| > 0 <==> present && v !in Compounds
  {
    if present && v !in Compounds then [Issue(Field("tire_compound"), UnknownCompound)] else []
  }

  /** The field a problem is about: the field itself or the list holding
      the item. */
  function Subject(path: Path): string {
    match path
    case Field(name) => name
    case Item(list, _) => list
    case ItemField(list, _, _) => list
  }

  /** The `sector_times` section: a truthy value must be a list of
      dictionaries whose S1-S3 entries are positive numbers. */
  function SectorTimesIssues(d: map<string, Value>, p: Parsers): (r: seq<Issue>)
    ensures forall x :: x in r ==> Subject(x.path) == "sector_times"
    ensures Issue(Field("sector_times"), MustBeList) in r <==> Truthy(Get(d, "sector_times")) && !Get(d, "sector_times").List?
    ensures Truthy(Get(d, "sector_times")) && Get(d, "sector_times").List? ==>
      r == PerItem(Get(d, "sector_times").items, (i: nat, s: Value) => SectorIssues(i, s, p))
  {
    var sectors := Get(d, "sector_times");
    if !Truthy(sectors) then []
    else if !sectors.List? then [Issue(Field("sector_times"), MustBeList)]
    else PerItem(sectors.items, (i: nat, s: Value) => SectorIssues(i, s, p))
  }

  /** An optional non-negative integer lap number. */
  function CurrentLapIssues(d: map<string, Value>, p: Parsers): (r: seq<Issue>)
    ensures forall x :: x in r ==> x.path == Field("current_lap")
    ensures |r| > 0 <==> !Get(d, "current_lap").Null? &&
                         (ToInt(Get(d, "current_lap"), p).Failure? || ToInt(Get(d, "current_lap"), p).value < 0)
  {
    var currentLap := Get(d, "current_lap");
    if currentLap.Null? then []
    else match ToInt(currentLap, p)
      case Failure(_) => [Issue(Field("current_lap"), MustBeInteger)]
      case Success(n) => if n < 0 then [Issue(Field("current_lap"), MustBeNonNegative)] else []
  }

  function LapTimesIssues(d: map<string, Value>, p: Parsers): (r: seq<Issue>)
    ensures forall x :: x in r ==> Subject(x.path) == "lap_times"
    ensures Issue(Field("lap_times"), NonEmptyList) in r <==> !(Get(d, "lap_times").List? && |Get(d, "lap_times").items| > 0)
    ensures Issue(Field("lap_times"), CannotBeEmpty) !in r
    ensures Get(d, "lap_times").List? && |Get(d, "lap_times").items| > 0 ==>
      r == PerItem(Get(d, "lap_times").items, (i: nat, t: Value) => LapTimeIssues(i, t, p))
  {
    ListIssues(d, "lap_times", (i: nat, t: Value) => LapTimeIssues(i, t, p))
  }

  /** `validate_driver_twin_request`: the driver id, lap times, sector
      times, compound and lap number sections, in that order. */
  function ValidateDriverTwinRequest(d: map<string, Value>, p: Parsers): (v: Verdict)
    ensures v.isValid <==> |v.errors| == 0
    ensures forall x :: x in v.errors ==> Subject(x.path) in {"driver_id", "lap_times", "sector_times", "tire_compound", "current_lap"}
  {
    VerdictOf(RequiredIssues(d, "driver_id") + LapTimesIssues(d, p) + SectorTimesIssues(d, p) +
              CompoundIssues(Truthy(Get(d, "tire_compound")), Get(d, "tire_compound")) + CurrentLapIssues(d, p))
  }

  /** The list index a problem is at; -1 for a top-level field. */
  function IndexOf(path: Path): int {
    match path
    case Field(_) => -1
    case Item(_, index) => index
    case ItemField(_, index, _) => index
  }

  /** When each item's problems are located at that item, a problem at
      index `i` comes from item `i`. */
  lemma PerItemAt(items: seq<Value>, check: (nat, Value) -> seq<Issue>, x: Issue)
    requires forall j: nat, v: Value, y :: y in check(j, v) ==> IndexOf(y.path) == j
    requires 0 <= IndexOf(x.path) < |items|
    ensures x in PerItem(items, check) <==> x in check(IndexOf(x.path), items[IndexOf(x.path)])
  {
    if x in PerItem(items, check) {
      var j :| 0 <= j < |items| && x in check(j, items[j]);
    }
  }

  /** A driver twin request's problems about the lap times are exactly
      those of its lap-times section. */
  lemma LapTimesSection(d: map<string, Value>, p: Parsers, x: Issue)
    requires Subject(x.path) == "lap_times"
    ensures x in ValidateDriverTwinRequest(d, p).errors <==> x in LapTimesIssues(d, p)
  {
    var a, c, e := RequiredIssues(d, "driver_id"), SectorTimesIssues(d, p), CurrentLapIssues(d, p);
    var t := CompoundIssues(Truthy(Get(d, "tire_compound")), Get(d, "tire_compound"));
    assert x !in a && x !in c && x !in t && x !in e;
    InSecond(x, a, LapTimesIssues(d, p), c, t, e);
  }

  /** An element absent from every part but the second is in the
      concatenation exactly when it is in the second part. */
  lemma InSecond<T>(x: T, a: seq<T>, b: seq<T>, c: seq<T>, t: seq<T>, e: seq<T>)
    requires x !in a && x !in c && x !in t && x !in e
    ensures x in a + b + c + t + e <==> x in b
  {
  }

  /** A lap time that is not positive, or above 300 seconds, makes a driver
      twin request invalid and is reported at its index; one that is a
      number in (0, 300] is not reported. */
  lemma LapTimeBounds(d: map<string, Value>, p: Parsers, i: nat)
    requires Get(d, "lap_times").List? && i < |Get(d, "lap_times").items|
    requires ToFloat(Get(d, "lap_times").items[i], p).Success?
    ensures var t := ToFloat(Get(d, "lap_times").items[i], p).value;
      var errors := ValidateDriverTwinRequest(d, p).errors;
      (Issue(Item("lap_times", i), MustBePositive) in errors <==> AtMost(t, 0.0)) &&
      (Issue(Item("lap_times", i), UnreasonablyHigh) in errors <==> Above(t, 300.0)) &&
      (AtMost(t, 0.0) || Above(t, 300.0) ==> !ValidateDriverTwinRequest(d, p).isValid)
  {
    var items := Get(d, "lap_times").items;
    var check := (j: nat, t: Value) => LapTimeIssues(j, t, p);
    assert LapTimesIssues(d, p) == PerItem(items, check);
    var low := Issue(Item("lap_times", i), MustBePositive);
    var high := Issue(Item("lap_times", i), UnreasonablyHigh);
    PerItemAt(items, check, low);
    PerItemAt(items, check, high);
    LapTimesSection(d, p, low);
    LapTimesSection(d, p, high);
  }

  /** A compound outside SOFT, MEDIUM, HARD, INTERMEDIATE and WET makes a
      driver twin request invalid; an absent (falsy) one is not checked. */
  lemma UnknownCompoundRejected(d: map<string, Value>, p: Parsers)
    ensures Issue(Field("tire_compound"), UnknownCompound) in ValidateDriverTwinRequest(d, p).errors <==>
      Truthy(Get(d, "tire_compound")) && Get(d, "tire_compound") !in Compounds
    ensures Truthy(Get(d, "tire_compound")) && Get(d, "tire_compound") !in Compounds ==> !ValidateDriverTwinRequest(d, p).isValid
  {
    var c := CompoundIssues(Truthy(Get(d, "tire_compound")), Get(d, "tire_compound"));
    var before := RequiredIssues(d, "driver_id") + LapTimesIssues(d, p) + SectorTimesIssues(d, p);
    var errors := ValidateDriverTwinRequest(d, p).errors;
    assert errors == before + c + CurrentLapIssues(d, p);
    assert forall x: Issue :: x in before ==> Subject(x.path) != "tire_compound";
    if Truthy(Get(d, "tire_compound")) && Get(d, "tire_compound") !in Compounds {
      assert c[0] in errors;
    }
  }

  /** The "cannot be empty" message is unreachable: an empty list is falsy
      and already reported as not a non-empty list. */
  lemma EmptyLapListNeverReportedAsEmpty(d: map<string, Value>, p: Parsers)
    ensures Issue(Field("lap_times"), CannotBeEmpty) !in ValidateDriverTwinRequest(d, p).errors
    ensures Get(d, "lap_times") == List([]) ==> Issue(Field("lap_times"), NonEmptyList) in ValidateDriverTwinRequest(d, p).errors
  {
    LapTimesSection(d, p, Issue(Field("lap_times"), CannotBeEmpty));
    LapTimesSection(d, p, Issue(Field("lap_times"), NonEmptyList));
  }

  /** One driver of a race twin request: a dictionary with a truthy `id`
      and, if given, an integer position of at least 1. */
  function DriverIssues(i: nat, v: Value, p: Parsers): (r: seq<Issue>)
    ensures forall x :: x in r ==> !x.path.Field? && x.path.list == "drivers" && x.path.index == i
    ensures Issue(Item("drivers", i), MustBeDictionary) in r <==> !v.Dict?
    ensures v.Dict? ==> (Issue(ItemField("drivers", i, "id"), Required) in r <==> !Truthy(Get(v.entries, "id")))
  {
    if !v.Dict? then [Issue(Item("drivers", i), MustBeDictionary)]
    else
      var position := Get(v.entries, "position");
      (if Truthy(Get(v.entries, "id")) then [] else [Issue(ItemField("drivers", i, "id"), Required)]) +
      (if position.Null? then []
       else match ToInt(position, p)
         case Failure(_) => [Issue(ItemField("drivers", i, "position"), MustBeInteger)]
         case Success(n) => if n < 1 then [Issue(ItemField("drivers", i, "position"), AtLeastOne)] else [])
  }

  /** `total_laps`: required (a zero counts as missing), an integer, at
      least 1 and at most 200. */
  function TotalLapsIssues(d: map<string, Value>, p: Parsers): (r: seq<Issue>)
    ensures forall x :: x in r ==> x.path == Field("total_laps")
    ensures Issue(Field("total_laps"), Required) in r <==> !Truthy(Get(d, "total_laps"))
    ensures Truthy(Get(d, "total_laps")) && ToInt(Get(d, "total_laps"), p).Success? ==>
      var t := ToInt(Get(d, "total_laps"), p).value;
      (Issue(Field("total_laps"), TooHigh) in r <==> t > 200) && (Issue(Field("total_laps"), AtLeastOne) in r <==> t < 1)
  {
    var total := Get(d, "total_laps");
    if !Truthy(total) then [Issue(Field("total_laps"), Required)]
    else match ToInt(total, p)
      case Failure(_) => [Issue(Field("total_laps"), MustBeInteger)]
      case Success(t) =>
        (if t < 1 then [Issue(Field("total_laps"), AtLeastOne)] else []) +
        (if t > 200 then [Issue(Field("total_laps"), TooHigh)] else [])
  }

  /** `current_lap` of a race twin request: at least 1 and not beyond the
      total. Converting `total_laps` again happens inside the same `try`,
      so a malformed total is reported as a malformed current lap. */
  function RaceCurrentLapIssues(d: map<string, Value>, p: Parsers): (r: seq<Issue>)
    ensures forall x :: x in r ==> x.path == Field("current_lap")
    ensures Get(d, "current_lap").Null? ==> r == []
  {
    var current := Get(d, "current_lap");
    var total := Get(d, "total_laps");
    if current.Null? then []
    else match ToInt(current, p)
      case Failure(_) => [Issue(Field("current_lap"), MustBeInteger)]
      case Success(n) =>
        (if n < 1 then [Issue(Field("current_lap"), AtLeastOne)] else []) +
        (if !Truthy(total) then []
         else match ToInt(total, p)
           case Failure(_) => [Issue(Field("current_lap"), MustBeInteger)]
           case Success(t) => if n > t then [Issue(Field("current_lap"), ExceedsTotalLaps)] else [])
  }

  /** `validate_race_twin_request`: race id, drivers, total laps and current
      lap, in that order. */
  function ValidateRaceTwinRequest(d: map<string, Value>, p: Parsers): (v: Verdict)
    ensures v.isValid <==> |v.errors| == 0
    ensures forall x :: x in v.errors ==> Subject(x.path) in {"race_id", "drivers", "total_laps", "current_lap"}
  {
    VerdictOf(RequiredIssues(d, "race_id") + DriversIssues(d, p) + TotalLapsIssues(d, p) + RaceCurrentLapIssues(d, p))
  }

  /** The `drivers` section: a non-empty list whose items are checked one
      by one. */
  function DriversIssues(d: map<string, Value>, p: Parsers): (r: seq<Issue>)
    ensures forall x :: x in r ==> Subject(x.path) == "drivers"
    ensures Issue(Field("drivers"), NonEmptyList) in r <==> !(Get(d, "drivers").List? && |Get(d, "drivers").items| > 0)
    ensures Get(d, "drivers").List? && |Get(d, "drivers").items| > 0 ==>
      r == PerItem(Get(d, "drivers").items, (i: nat, v: Value) => DriverIssues(i, v, p))
  {
    var r := ListIssues(d, "drivers", (i: nat, v: Value) => DriverIssues(i, v, p));
    assert forall y :: y in r ==> Subject(y.path) == "drivers" by {
      var items := Get(d, "drivers");
      if items.List? && |items.items| > 0 {
        assert r == PerItem(items.items, (i: nat, v: Value) => DriverIssues(i, v, p));
      }
    }
    r
  }

  /** A race twin request's problems about `subject` are those of its
      section for that subject. */
  lemma RaceTwinSection(d: map<string, Value>, p: Parsers, x: Issue)
    ensures Subject(x.path) == "total_laps" ==> (x in ValidateRaceTwinRequest(d, p).errors <==> x in TotalLapsIssues(d, p))
    ensures Subject(x.path) == "current_lap" ==>
      (x in ValidateRaceTwinRequest(d, p).errors <==> x in RaceCurrentLapIssues(d, p))
  {
    var a, b := RequiredIssues(d, "race_id"), DriversIssues(d, p);
    assert ValidateRaceTwinRequest(d, p).errors == a + b + TotalLapsIssues(d, p) + RaceCurrentLapIssues(d, p);
  }

  /** A missing or zero `total_laps` is reported as required, and an
      integer total above 200 as too high; either makes the request
      invalid. */
  lemma TotalLapsRules(d: map<string, Value>, p: Parsers)
    ensures Issue(Field("total_laps"), Required) in ValidateRaceTwinRequest(d, p).errors <==> !Truthy(Get(d, "total_laps"))
    ensures Truthy(Get(d, "total_laps")) && ToInt(Get(d, "total_laps"), p).Success? ==>
      (Issue(Field("total_laps"), TooHigh) in ValidateRaceTwinRequest(d, p).errors <==>
         ToInt(Get(d, "total_laps"), p).value > 200)
    ensures !Truthy(Get(d, "total_laps")) ==> !ValidateRaceTwinRequest(d, p).isValid
  {
    RaceTwinSection(d, p, Issue(Field("total_laps"), Required));
    RaceTwinSection(d, p, Issue(Field("total_laps"), TooHigh));
  }

  /** A current lap beyond an integer total is reported; and when the total
      is truthy but not an integer, a well-formed current lap is reported
      as "must be an integer". */
  lemma CurrentLapAgainstTotal(d: map<string, Value>, p: Parsers, n: int)
    requires ToInt(Get(d, "current_lap"), p) == Success(n) && !Get(d, "current_lap").Null?
    requires Truthy(Get(d, "total_laps"))
    ensures ToInt(Get(d, "total_laps"), p).Success? ==>
      (Issue(Field("current_lap"), ExceedsTotalLaps) in ValidateRaceTwinRequest(d, p).errors <==>
         n > ToInt(Get(d, "total_laps"), p).value)
    ensures ToInt(Get(d, "total_laps"), p).Failure? ==>
      Issue(Field("current_lap"), MustBeInteger) in ValidateRaceTwinRequest(d, p).errors
  {
    RaceTwinSection(d, p, Issue(Field("current_lap"), ExceedsTotalLaps));
    RaceTwinSection(d, p, Issue(Field("current_lap"), MustBeInteger));
    var r := RaceCurrentLapIssues(d, p);
    if ToInt(Get(d, "total_laps"), p).Failure? {
      assert r[|r| - 1] == Issue(Field("current_lap"), MustBeInteger);
    }
  }

  const PitRequired := ["race_id", "driver_id", "current_lap", "tire_age", "tire_compound", "position"]

  /** Each required field that is absent (by key: a null value counts as
      present). */
  function MissingFields(d: map<string, Value>, fields: seq<string>): (r: seq<Issue>)
    ensures forall x :: x in r ==> x.kind == Required && x.path.Field? && x.path.name in fields
    ensures forall f :: f in fields ==> (Issue(Field(f), Required) in r <==> f !in d)
  {
    if |fields| == 0 then []
    else
      var prev := MissingFields(d, fields[..|fields| - 1]);
      var f := fields[|fields| - 1];
      assert fields == fields[..|fields| - 1] + [f];
      prev + (if f !in d then [Issue(Field(f), Required)] else [])
  }

  /** A present value that must convert with `float` and lie in
      `[lo, hi]`; NaN compares false both ways and passes. */
  function RangeIssues(d: map<string, Value>, field: string, lo: real, hi: real, p: Parsers): (r: seq<Issue>)
    ensures forall x :: x in r ==> x.path == Field(field) && x.kind != Required
    ensures Issue(Field(field), OutOfRange) in r <==>
      field in d && ToFloat(d[field], p).Success? && (Below(ToFloat(d[field], p).value, lo) || Above(ToFloat(d[field], p).value, hi))
    ensures Issue(Field(field), MustBeNumber) in r <==> field in d && ToFloat(d[field], p).Failure?
  {
    if field !in d then []
    else match ToFloat(d[field], p)
      case Failure(_) => [Issue(Field(field), MustBeNumber)]
      case Success(x) => if Below(x, lo) || Above(x, hi) then [Issue(Field(field), OutOfRange)] else []
  }

  /** The checks of `validate_pit_decision_request` after the required
      fields: tyre age in [0, 100], position at least 1, a known compound. */
  function PitValueIssues(d: map<string, Value>, p: Parsers): (r: seq<Issue>)
    ensures forall x :: x in r ==> x.kind != Required && x.path.Field? && x.path.name in {"tire_age", "position", "tire_compound"}
    ensures Issue(Field("tire_compound"), UnknownCompound) in r <==> "tire_compound" in d && d["tire_compound"] !in Compounds
  {
    var c := CompoundIssues("tire_compound" in d, Get(d, "tire_compound"));
    var x := Issue(Field("tire_compound"), UnknownCompound);
    assert x !in TireAgeIssues(d, p) + PositionIssues(d, p);
    TireAgeIssues(d, p) + PositionIssues(d, p) + c
  }

  /** A present tyre age must be an integer in [0, 100]. */
  function TireAgeIssues(d: map<string, Value>, p: Parsers): (r: seq<Issue>)
    ensures forall x :: x in r ==> x.path == Field("tire_age") && x.kind != Required
    ensures "tire_age" in d && ToInt(d["tire_age"], p).Success? ==>
      (Issue(Field("tire_age"), MustBeNonNegative) in r <==> ToInt(d["tire_age"], p).value < 0) &&
      (Issue(Field("tire_age"), TooHigh) in r <==> ToInt(d["tire_age"], p).value > 100)
    ensures Issue(Field("tire_age"), MustBeInteger) in r <==> "tire_age" in d && ToInt(d["tire_age"], p).Failure?
  {
    if "tire_age" !in d then []
    else match ToInt(d["tire_age"], p)
      case Failure(_) => [Issue(Field("tire_age"), MustBeInteger)]
      case Success(n) =>
        (if n < 0 then [Issue(Field("tire_age"), MustBeNonNegative)] else []) +
        (if n > 100 then [Issue(Field("tire_age"), TooHigh)] else [])
  }

  /** A present position must be an integer of at least 1. */
  function PositionIssues(d: map<string, Value>, p: Parsers): (r: seq<Issue>)
    ensures forall x :: x in r ==> x.path == Field("position") && x.kind != Required
    ensures |r| > 0 <==> "position" in d && (ToInt(d["position"], p).Failure? || ToInt(d["position"], p).value < 1)
  {
    if "position" !in d then []
    else match ToInt(d["position"], p)
      case Failure(_) => [Issue(Field("position"), MustBeInteger)]
      case Success(n) => if n < 1 then [Issue(Field("position"), AtLeastOne)] else []
  }

  /** The problems of a pit decision request, in the order they are
      checked: required fields, tyre age, position, compound, degradation
      rate, traffic density. */
  function PitIssues(d: map<string, Value>, p: Parsers): seq<Issue> {
    MissingFields(d, PitRequired) + PitValueIssues(d, p) + RangeIssues(d, "degradation_rate", 0.0, 0.1, p) +
    RangeIssues(d, "traffic_density", 0.0, 1.0, p)
  }

  /** `validate_pit_decision_request`. */
  function ValidatePitDecisionRequest(d: map<string, Value>, p: Parsers): (v: Verdict)
    ensures v.isValid <==> |v.errors| == 0
    ensures v.errors == PitIssues(d, p)
  {
    VerdictOf(PitIssues(d, p))
  }

  /** Each of the six required fields that is absent (by key) is reported,
      and only those. */
  lemma PitRequiredFields(d: map<string, Value>, p: Parsers, f: string)
    requires f in PitRequired
    ensures Issue(Field(f), Required) in ValidatePitDecisionRequest(d, p).errors <==> f !in d
    ensures f !in d ==> !ValidatePitDecisionRequest(d, p).isValid
  {
    var x := Issue(Field(f), Required);
    var b, c, e := PitValueIssues(d, p), RangeIssues(d, "degradation_rate", 0.0, 0.1, p), RangeIssues(d, "traffic_density", 0.0, 1.0, p);
    assert x !in b && x !in c && x !in e;
    InFirst(x, MissingFields(d, PitRequired), b, c, e);
  }

  /** A pit decision request's problems about the degradation rate are
      those of its range check. */
  lemma DegradationSection(d: map<string, Value>, p: Parsers, x: Issue)
    requires x.path == Field("degradation_rate")
    ensures x in PitIssues(d, p) <==> x in RangeIssues(d, "degradation_rate", 0.0, 0.1, p)
  {
    NotAmongPitChecks(d, p, x);
    InThird(x, MissingFields(d, PitRequired), PitValueIssues(d, p), RangeIssues(d, "degradation_rate", 0.0, 0.1, p),
            RangeIssues(d, "traffic_density", 0.0, 1.0, p));
  }

  /** Likewise for the traffic density. */
  lemma DensitySection(d: map<string, Value>, p: Parsers, x: Issue)
    requires x.path == Field("traffic_density")
    ensures x in PitIssues(d, p) <==> x in RangeIssues(d, "traffic_density", 0.0, 1.0, p)
  {
    NotAmongPitChecks(d, p, x);
    InFourth(x, MissingFields(d, PitRequired), PitValueIssues(d, p), RangeIssues(d, "degradation_rate", 0.0, 0.1, p),
             RangeIssues(d, "traffic_density", 0.0, 1.0, p));
  }

  lemma NotAmongPitChecks(d: map<string, Value>, p: Parsers, x: Issue)
    requires x.path == Field("degradation_rate") || x.path == Field("traffic_density")
    ensures x !in MissingFields(d, PitRequired) && x !in PitValueIssues(d, p)
    ensures x.path == Field("degradation_rate") ==> x !in RangeIssues(d, "traffic_density", 0.0, 1.0, p)
    ensures x.path == Field("traffic_density") ==> x !in RangeIssues(d, "degradation_rate", 0.0, 0.1, p)
  {
  }

  lemma InFirst<T>(x: T, a: seq<T>, b: seq<T>, c: seq<T>, e: seq<T>)
    requires x !in b && x !in c && x !in e
    ensures x in a + b + c + e <==> x in a
  {
  }

  lemma InThird<T>(x: T, a: seq<T>, b: seq<T>, c: seq<T>, e: seq<T>)
    requires x !in a && x !in b && x !in e
    ensures x in a + b + c + e <==> x in c
  {
  }

  lemma InFourth<T>(x: T, a: seq<T>, b: seq<T>, c: seq<T>, e: seq<T>)
    requires x !in a && x !in b && x !in c
    ensures x in a + b + c + e <==> x in e
  {
  }

  /** A degradation rate outside [0, 0.1] or a traffic density outside
      [0, 1] makes a pit decision request invalid, and only such values are
      reported as out of range; a NaN passes both checks. */
  lemma PitRanges(d: map<string, Value>, p: Parsers)
    ensures Issue(Field("degradation_rate"), OutOfRange) in ValidatePitDecisionRequest(d, p).errors <==>
      "degradation_rate" in d && ToFloat(d["degradation_rate"], p).Success? &&
      (Below(ToFloat(d["degradation_rate"], p).value, 0.0) || Above(ToFloat(d["degradation_rate"], p).value, 0.1))
    ensures Issue(Field("traffic_density"), OutOfRange) in ValidatePitDecisionRequest(d, p).errors <==>
      "traffic_density" in d && ToFloat(d["traffic_density"], p).Success? &&
      (Below(ToFloat(d["traffic_density"], p).value, 0.0) || Above(ToFloat(d["traffic_density"], p).value, 1.0))
    ensures Get(d, "degradation_rate") == Float(NaN) ==>
      forall k :: Issue(Field("degradation_rate"), k) !in ValidatePitDecisionRequest(d, p).errors
  {
    DegradationSection(d, p, Issue(Field("degradation_rate"), OutOfRange));
    DensitySection(d, p, Issue(Field("traffic_density"), OutOfRange));
    forall k: Kind
      ensures Get(d, "degradation_rate") == Float(NaN) ==>
        Issue(Field("degradation_rate"), k) !in ValidatePitDecisionRequest(d, p).errors
    {
      DegradationSection(d, p, Issue(Field("degradation_rate"), k));
    }
  }

  /** One entry of `validate_lap_data`: a dictionary whose `lap_time`, if
      present, is a positive number and whose `lap`, if present, is an
      integer of at least 1. */
  function LapEntryIssues(i: nat, v: Value, p: Parsers): (r: seq<Issue>)
    ensures forall x :: x in r ==> !x.path.Field? && x.path.list == "lap_data" && x.path.index == i
    ensures r == [] <==>
      (v.Dict? &&
       ("lap_time" in v.entries ==> ToFloat(v.entries["lap_time"], p).Success? &&
                                    !AtMost(ToFloat(v.entries["lap_time"], p).value, 0.0)) &&
       ("lap" in v.entries ==> ToInt(v.entries["lap"], p).Success? && ToInt(v.entries["lap"], p).value >= 1))
  {
    if !v.Dict? then [Issue(Item("lap_data", i), MustBeDictionary)]
    else
      (if "lap_time" !in v.entries then []
       else match ToFloat(v.entries["lap_time"], p)
         case Failure(_) => [Issue(ItemField("lap_data", i, "lap_time"), MustBeNumber)]
         case Success(t) => if AtMost(t, 0.0) then [Issue(ItemField("lap_data", i, "lap_time"), MustBePositive)] else []) +
      (if "lap" !in v.entries then []
       else match ToInt(v.entries["lap"], p)
         case Failure(_) => [Issue(ItemField("lap_data", i, "lap"), MustBeInteger)]
         case Success(n) => if n < 1 then [Issue(ItemField("lap_data", i, "lap"), AtLeastOne)] else [])
  }

  /** `validate_lap_data`: a falsy or non-list input is rejected at once;
      otherwise the data is valid exactly when every entry is. */
  function ValidateLapData(lapData: Value, p: Parsers): (v: Verdict)
    ensures v.isValid <==> |v.errors| == 0
    ensures !(lapData.List? && |lapData.items| > 0) ==> v == Verdict(false, [Issue(Field("lap_data"), NonEmptyList)])
    ensures lapData.List? ==>
      (v.isValid <==> |lapData.items| > 0 && forall i :: 0 <= i < |lapData.items| ==> LapEntryIssues(i, lapData.items[i], p) == [])
  {
    if !Truthy(lapData) || !lapData.List? then Verdict(false, [Issue(Field("lap_data"), NonEmptyList)])
    else
      var check := (i: nat, v: Value) => LapEntryIssues(i, v, p);
      PerItemEmpty(lapData.items, check);
      assert forall i :: 0 <= i < |lapData.items| ==> check(i, lapData.items[i]) == LapEntryIssues(i, lapData.items[i], p);
      VerdictOf(PerItem(lapData.items, check))
  }

  /** No item has a problem exactly when the list of problems is empty. */
  lemma {:induction false} PerItemEmpty(items: seq<Value>, check: (nat, Value) -> seq<Issue>)
    ensures PerItem(items, check) == [] <==> forall i :: 0 <= i < |items| ==> check(i, items[i]) == []
  {
    if |items| > 0 {
      var n := |items| - 1;
      PerItemEmpty(items[..n], check);
      assert forall i :: 0 <= i < n ==> items[..n][i] == items[i];
      assert PerItem(items, check) == PerItem(items[..n], check) + check(n, items[n]);
    }
  }

  /** `validate_weather_data`: a non-dictionary is rejected at once; a
      present track temperature must be a number in [-50, 60]; a present
      condition, lower-cased, must be one of the known ones. A condition
      that is not a string has no `lower` and raises. */
  function ValidateWeatherData(w: Value, p: Parsers): (r: Result<Verdict, PyError>)
    ensures r.Failure? <==> w.Dict? && "condition" in w.entries && !w.entries["condition"].Str?
    ensures r.Failure? ==> r.error.AttributeError?
    ensures r.Success? ==> (r.value.isValid <==> |r.value.errors| == 0)
    ensures !w.Dict? ==> r == Success(Verdict(false, [Issue(Field("weather_data"), MustBeDictionary)]))
    ensures r.Success? && w.Dict? ==>
      (Issue(Field("condition"), UnknownCondition) in r.value.errors <==>
         "condition" in w.entries && Text.Lower(w.entries["condition"].s) !in Conditions)
  {
    if !w.Dict? then Success(Verdict(false, [Issue(Field("weather_data"), MustBeDictionary)]))
    else
      var temperature := RangeIssues(w.entries, "track_temp", -50.0, 60.0, p);
      if "condition" !in w.entries then Success(VerdictOf(temperature))
      else
        var condition := w.entries["condition"];
        if !condition.Str? then Failure(AttributeError("lower"))
        else Success(VerdictOf(temperature + (if Text.Lower(condition.s) !in Conditions
                                             then [Issue(Field("condition"), UnknownCondition)] else [])))
  }

  /** The condition check ignores case: "DRY" is accepted. */
  lemma ConditionIgnoresCase(w: map<string, Value>, p: Parsers)
    requires "condition" in w && w["condition"] == Str("DRY")
    ensures ValidateWeatherData(Dict(w), p).Success?
    ensures Issue(Field("condition"), UnknownCondition) !in ValidateWeatherData(Dict(w), p).value.errors
  {
    assert Text.Lower("DRY") == "dry";
  }

  /** A present track temperature below -50 or above 60 makes weather data
      invalid. */
  lemma TrackTemperatureBounds(w: map<string, Value>, p: Parsers, t: real)
    requires "track_temp" in w && w["track_temp"] == Float(Finite(t)) && (t < -50.0 || t > 60.0)
    requires !("condition" in w) || w["condition"].Str?
    ensures ValidateWeatherData(Dict(w), p).Success? && !ValidateWeatherData(Dict(w), p).value.isValid
  {
    assert Issue(Field("track_temp"), OutOfRange) in RangeIssues(w, "track_temp", -50.0, 60.0, p);
  }

  datatype Warning = FewLapTimes | FewDrivers

  /** `(is_valid, errors, warnings)`. */
  datatype Report = Report(isValid: bool, errors: seq<Issue>, warnings: seq<Warning>)

  /** The validator for a request type; an unknown type is invalid. */
  function ValidateByType(d: map<string, Value>, requestType: string, p: Parsers): (v: Verdict)
    ensures requestType !in {"driver_twin", "race_twin", "pit_decision"} ==>
      !v.isValid && v.errors == [Issue(Field(requestType), UnknownRequestType)]
  {
    if requestType == "driver_twin" then ValidateDriverTwinRequest(d, p)
    else if requestType == "race_twin" then ValidateRaceTwinRequest(d, p)
    else if requestType == "pit_decision" then ValidatePitDecisionRequest(d, p)
    else Verdict(false, [Issue(Field(requestType), UnknownRequestType)])
  }

  /** A warning when a truthy list field has fewer than `least` entries;
      `len` of a truthy value without a length raises. */
  function FewWarning(d: map<string, Value>, field: string, least: nat, w: Warning): (r: Result<seq<Warning>, PyError>)
    ensures r.Failure? <==> Truthy(Get(d, field)) && Len(Get(d, field)).Failure?
    ensures r.Success? ==> (r.value == [w] <==> Truthy(Get(d, field)) && Len(Get(d, field)).value < least)
    ensures r.Success? ==> r.value == [] || r.value == [w]
  {
    var v := Get(d, field);
    if !Truthy(v) then Success([])
    else match Len(v)
      case Failure(e) => Failure(e)
      case Success(n) => Success(if n < least then [w] else [])
  }

  /** `validate_all`: the request type's verdict, plus advisory warnings
      (fewer than 3 lap times, fewer than 2 drivers) that never change it. */
  function ValidateAll(d: map<string, Value>, requestType: string, p: Parsers): (r: Result<Report, PyError>)
    ensures r.Success? ==> r.value.isValid == ValidateByType(d, requestType, p).isValid
    ensures r.Success? ==> r.value.errors == ValidateByType(d, requestType, p).errors
    ensures r.Success? ==> (r.value.isValid <==> |r.value.errors| == 0)
    ensures r.Failure? <==>
      (requestType == "driver_twin" && Truthy(Get(d, "lap_times")) && Len(Get(d, "lap_times")).Failure?) ||
      (requestType == "race_twin" && Truthy(Get(d, "drivers")) && Len(Get(d, "drivers")).Failure?)
    ensures r.Success? ==> (FewLapTimes in r.value.warnings <==>
      requestType == "driver_twin" && Truthy(Get(d, "lap_times")) && Len(Get(d, "lap_times")).value < 3)
    ensures r.Success? ==> (FewDrivers in r.value.warnings <==>
      requestType == "race_twin" && Truthy(Get(d, "drivers")) && Len(Get(d, "drivers")).value < 2)
  {
    var verdict := ValidateByType(d, requestType, p);
    assert verdict.isValid <==> |verdict.errors| == 0;
    var warnings :=
      if requestType == "driver_twin" then FewWarning(d, "lap_times", 3, FewLapTimes)
      else if requestType == "race_twin" then FewWarning(d, "drivers", 2, FewDrivers)
      else Success([]);
    match warnings
    case Failure(e) => Failure(e)
    case Success(ws) => Success(Report(verdict.isValid, verdict.errors, ws))
  }
}

=== FILE: degradation.dfy ===
/** The compound-coefficient tyre model of grracing/degradation.py
    (exponential, linear and temperature-adjusted lap-time curves, stint
    prediction, the pit-window search) and its fuel-effect model. It also
    records which methods the class defines, because the pit-decision engine
    and the race twin call one it does not have. */
module Degradation {
  import opened Wrappers
  import opened Numerics
  import TireDegradation

  /** `TireDegradationModel(compound, track_temp)` of degradation.py. */
  datatype Model = Model(compound: string, trackTemp: real)

  /** Seconds-per-lap coefficient per compound; unknown compounds use 0.05. */
  const Coefficients: map<string, real> :=
    map["SOFT" := 0.08, "MEDIUM" := 0.05, "HARD" := 0.03, "SUPER_SOFT" := 0.10, "INTERMEDIATE" := 0.12, "WET" := 0.15]

  function Coefficient(compound: string): (c: real)
    ensures c > 0.0
    ensures compound !in Coefficients ==> c == 0.05
  {
    if compound in Coefficients then Coefficients[compound] else 0.05
  }

  function Pow(x: real, n: nat): real {
    if n == 0 then 1.0 else x * Pow(x, n - 1)
  }

  /** Powers of a base of at least one are at least one. */
  lemma {:induction false} PowAtLeastOne(x: real, n: nat)
    requires x >= 1.0
    ensures Pow(x, n) >= 1.0
  {
    if n > 0 {
      PowAtLeastOne(x, n - 1);
      var p := Pow(x, n - 1);
      assert (x - 1.0) * p >= 0.0;
    }
  }

  /** `(1 + r)^n` never decreases in `n` when `r >= 0`. */
  lemma {:induction false} PowMonotone(x: real, m: nat, n: nat)
    requires x >= 1.0 && m <= n
    ensures 1.0 <= Pow(x, m) <= Pow(x, n)
    decreases n - m
  {
    PowAtLeastOne(x, m);
    if m < n {
      PowMonotone(x, m + 1, n);
      var p := Pow(x, m);
      assert Pow(x, m + 1) == x * p;
      assert x * p - p == (x - 1.0) * p;
      assert (x - 1.0) * p >= 0.0;
    }
  }

  /** `exponential_degradation`: `base * (1 + rate)^lap`, the rate defaulting
      to the compound coefficient. */
  function ExponentialDegradation(m: Model, lap: nat, baseTime: real, rate: Option<real>): (t: real)
    ensures lap == 0 ==> t == baseTime
    ensures t == baseTime * Pow(1.0 + rate.GetOr(Coefficient(m.compound)), lap)
  {
    var r := rate.GetOr(Coefficient(m.compound));
    baseTime * Pow(1.0 + r, lap)
  }

  /** With a nonnegative rate and base time, the exponential curve never
      predicts a faster lap later in the stint, and never beats the base. */
  lemma ExponentialMonotone(m: Model, l1: nat, l2: nat, baseTime: real, rate: Option<real>)
    requires l1 <= l2 && baseTime >= 0.0 && rate.GetOr(Coefficient(m.compound)) >= 0.0
    ensures baseTime <= ExponentialDegradation(m, l1, baseTime, rate) <= ExponentialDegradation(m, l2, baseTime, rate)
  {
    var x := 1.0 + rate.GetOr(Coefficient(m.compound));
    var e1, e2 := ExponentialDegradation(m, l1, baseTime, rate), ExponentialDegradation(m, l2, baseTime, rate);
    ScaledPowMonotone(baseTime, x, l1, l2);
    assert baseTime <= e1 by {
      assert e1 == baseTime * Pow(x, l1);
    }
    assert e1 <= e2 by {
      assert e1 == baseTime * Pow(x, l1) && e2 == baseTime * Pow(x, l2);
    }
  }

  /** A nonnegative multiple of `x^n` with `x >= 1` grows with `n` from the
      multiple itself. */
  lemma ScaledPowMonotone(b: real, x: real, l1: nat, l2: nat)
    requires b >= 0.0 && x >= 1.0 && l1 <= l2
    ensures b <= b * Pow(x, l1) <= b * Pow(x, l2)
  {
    PowMonotone(x, l1, l2);
    MulMono(b, 1.0, Pow(x, l1));
    MulMono(b, Pow(x, l1), Pow(x, l2));
  }

  /** `linear_degradation`: `base + d * lap`, with `d` defaulting to
      `coefficient * base`. */
  function LinearDegradation(m: Model, lap: int, baseTime: real, perLap: Option<real>): (t: real)
    ensures lap == 0 ==> t == baseTime
    ensures perLap.None? ==> t == baseTime * (1.0 + Coefficient(m.compound) * lap as real)
  {
    match perLap
    case Some(d) => baseTime + d * lap as real
    case None => baseTime + Coefficient(m.compound) * baseTime * lap as real
  }

  /** Each further lap adds exactly the per-lap degradation. */
  lemma LinearStep(m: Model, lap: int, baseTime: real, d: real)
    ensures LinearDegradation(m, lap + 1, baseTime, Some(d)) - LinearDegradation(m, lap, baseTime, Some(d)) == d
  {
  }

  /** Midpoint of the compound's optimal temperature window
      (SOFT 30-40, MEDIUM 35-45, HARD 40-50, otherwise 30-40). */
  function OptimalTemp(compound: string): (t: real)
    ensures compound == "MEDIUM" ==> t == 40.0
    ensures compound == "HARD" ==> t == 45.0
    ensures compound != "MEDIUM" && compound != "HARD" ==> t == 35.0
  {
    var (lo, hi) :=
      if compound == "SOFT" then (30, 40)
      else if compound == "MEDIUM" then (35, 45)
      else if compound == "HARD" then (40, 50)
      else (30, 40);
    (lo + hi) as real / 2.0
  }

  /** `temperature_adjusted_degradation`: the default linear curve scaled by
      `1 + 0.002 * |delta|`, and by a further 1.2 when the temperature is more
      than five degrees from the optimum. */
  function TemperatureAdjusted(m: Model, lap: int, baseTime: real, currentTemp: Option<real>): (t: real)
    ensures var delta := currentTemp.GetOr(m.trackTemp) - OptimalTemp(m.compound);
      var lin := LinearDegradation(m, lap, baseTime, None);
      (-5.0 <= delta <= 5.0 ==> t == lin * (1.0 + Abs(delta) * 0.002)) &&
      (delta > 5.0 || delta < -5.0 ==> t == lin * (1.0 + Abs(delta) * 0.002) * 1.2)
  {
    var temp := currentTemp.GetOr(m.trackTemp);
    var lin := LinearDegradation(m, lap, baseTime, None);
    var delta := temp - OptimalTemp(m.compound);
    var adjusted := lin * (1.0 + Abs(delta) * 0.002);
    if delta > 5.0 || delta < -5.0 then adjusted * 1.2 else adjusted
  }

  /** At the optimal temperature the adjustment is the identity. */
  lemma TemperatureAdjustedAtOptimum(m: Model, lap: int, baseTime: real)
    ensures TemperatureAdjusted(m, lap, baseTime, Some(OptimalTemp(m.compound)))
         == LinearDegradation(m, lap, baseTime, None)
  {
  }

  /** Away from the optimum the adjustment never speeds up a nonnegative lap time. */
  lemma TemperatureAdjustedAtLeastLinear(m: Model, lap: int, baseTime: real, temp: real)
    requires LinearDegradation(m, lap, baseTime, None) >= 0.0
    ensures TemperatureAdjusted(m, lap, baseTime, Some(temp)) >= LinearDegradation(m, lap, baseTime, None)
  {
    var lin := LinearDegradation(m, lap, baseTime, None);
    var delta := temp - OptimalTemp(m.compound);
    assert lin * (1.0 + Abs(delta) * 0.002) >= lin * 1.0;
  }

  /** Which curve `predict_stint_degradation` uses. */
  function StintCurve(m: Model, lap: nat, baseTime: real, modelType: string): real {
    if modelType == "exponential" then ExponentialDegradation(m, lap, baseTime, None)
    else LinearDegradation(m, lap, baseTime, None)
  }

  /** `predict_stint_degradation`: one predicted time per lap of the stint. */
  function PredictStintDegradation(m: Model, baseTime: real, stintLength: int, modelType: string): (ts: seq<real>)
    ensures |ts| == MaxInt(0, stintLength)
    ensures forall i :: 0 <= i < |ts| ==> ts[i] == StintCurve(m, i, baseTime, modelType)
  {
    seq(MaxInt(0, stintLength), (i: nat) => StintCurve(m, i, baseTime, modelType))
  }

  /** Outcome of the curve fit of degradation.py; the statistics themselves
      (scipy's `linregress` and `curve_fit`) are inputs. */
  datatype LinearStats = LinearStats(slope: real, intercept: real, rValue: real)
  datatype ExpFit = ExpFit(a: real, b: real, rSquared: real)
  datatype CurveFit = CurveFit(modelType: string, degradationRate: real, baseTime: real, rSquared: real)

  /** The lap numbers the fit regresses against: the caller's, or
      `range(len(lap_times))` when none are given. */
  function LapNumbers(lapTimes: seq<real>, lapNumbers: Option<seq<int>>): (xs: seq<int>)
    ensures lapNumbers.Some? ==> xs == lapNumbers.value
    ensures lapNumbers.None? ==> |xs| == |lapTimes| && forall i :: 0 <= i < |xs| ==> xs[i] == i
  {
    if lapNumbers.Some? then lapNumbers.value else seq(|lapTimes|, i requires 0 <= i < |lapTimes| => i)
  }

  /** Every lap number is the same. */
  predicate AllSame(xs: seq<int>) {
    forall i :: 0 <= i < |xs| ==> xs[i] == xs[0]
  }

  /** The inputs scipy's `linregress` rejects with a ValueError: no lap
      numbers, lap numbers all identical, or lap numbers and times of
      different lengths (numpy's covariance cannot pair them up). */
  predicate LinregressRaises(xs: seq<int>, times: seq<real>) {
    |xs| == 0 || |xs| != |times| || AllSame(xs)
  }

  /** `linregress`'s error text; the message of numpy's shape mismatch is
      not modelled. */
  function LinregressError(xs: seq<int>, times: seq<real>): string {
    if |xs| == 0 then "Inputs must not be empty."
    else if AllSame(xs) && |xs| > 1 then "Cannot calculate a linear regression if all x values are identical"
    else "shape mismatch"
  }

  /** `fit_degradation_curve`: fewer than three lap times is an error, and
      so are lap numbers that `linregress` rejects, since its ValueError is
      caught and returned; otherwise the model with the better R-squared
      wins, ties going to the linear fit. A failed exponential fit scores 0.
      `lin` and `exp` are scipy's statistics for the accepted inputs. */
  function FitDegradationCurve(lapTimes: seq<real>, lapNumbers: Option<seq<int>>, lin: LinearStats, exp: Option<ExpFit>)
    : (r: Result<CurveFit, string>)
    ensures r.Failure? <==> |lapTimes| < 3 || LinregressRaises(LapNumbers(lapTimes, lapNumbers), lapTimes)
    ensures |lapTimes| < 3 ==> r == Failure("Insufficient data points")
    ensures r.Success? ==> r.value.rSquared == Max(lin.rValue * lin.rValue, if exp.Some? then exp.value.rSquared else 0.0)
    ensures r.Success? && r.value.modelType == "linear" ==> r.value.degradationRate == lin.slope
    ensures r.Success? && exp.None? ==> r.value.modelType == "linear"
  {
    if |lapTimes| < 3 then Failure("Insufficient data points")
    else
      var xs := LapNumbers(lapTimes, lapNumbers);
      if LinregressRaises(xs, lapTimes) then Failure(LinregressError(xs, lapTimes))
      else
        var linR2 := lin.rValue * lin.rValue;
        var expR2 := if exp.Some? then exp.value.rSquared else 0.0;
        var expParams := if exp.Some? then (exp.value.a, exp.value.b) else (lapTimes[0], 0.01);
        if expR2 > linR2 then Success(CurveFit("exponential", expParams.1, expParams.0, Max(linR2, expR2)))
        else Success(CurveFit("linear", lin.slope, lin.intercept, Max(linR2, expR2)))
  }

  /** Without lap numbers the regression runs on 0..n-1, which `linregress`
      always accepts: only fewer than three lap times fail. */
  lemma DefaultLapNumbersAccepted(lapTimes: seq<real>, lin: LinearStats, exp: Option<ExpFit>)
    ensures FitDegradationCurve(lapTimes, None, lin, exp).Failure? <==> |lapTimes| < 3
  {
    if |lapTimes| >= 3 {
      var xs := LapNumbers(lapTimes, None);
      assert xs[1] != xs[0];
    }
  }

  /** Three laps all numbered 5 are a regression `linregress` refuses, so
      the fit returns its error instead of a curve. */
  lemma IdenticalLapNumbersFail(lin: LinearStats, exp: Option<ExpFit>)
    ensures FitDegradationCurve([90.0, 90.5, 91.0], Some([5, 5, 5]), lin, exp)
         == Failure("Cannot calculate a linear regression if all x values are identical")
  {
  }

  /** The fit as written: the exponential `curve_fit` is called with the
      misspelled keyword `maxfexp`, which scipy hands on to its least-squares
      routine; that routine rejects it with a TypeError, the bare `except`
      catches it, and the exponential model scores 0 on every input. */
  function FitDegradationCurveAsWritten(lapTimes: seq<real>, lapNumbers: Option<seq<int>>, lin: LinearStats)
    : (r: Result<CurveFit, string>)
    ensures r.Failure? <==> |lapTimes| < 3 || LinregressRaises(LapNumbers(lapTimes, lapNumbers), lapTimes)
    ensures r.Success? ==> r.value.modelType == "linear" && r.value.degradationRate == lin.slope &&
                           r.value.baseTime == lin.intercept && r.value.rSquared == lin.rValue * lin.rValue
  {
    FitDegradationCurve(lapTimes, lapNumbers, lin, None)
  }

  /** As written, every successful fit is the linear regression, whatever
      the data: even when an exponential curve would explain it better. */
  lemma AsWrittenFitIsAlwaysLinear(lapTimes: seq<real>, lapNumbers: Option<seq<int>>, lin: LinearStats, exp: ExpFit)
    requires |lapTimes| >= 3 && !LinregressRaises(LapNumbers(lapTimes, lapNumbers), lapTimes)
    requires exp.rSquared > lin.rValue * lin.rValue
    ensures FitDegradationCurveAsWritten(lapTimes, lapNumbers, lin).Success?
    ensures FitDegradationCurveAsWritten(lapTimes, lapNumbers, lin).value.modelType == "linear"
    ensures FitDegradationCurve(lapTimes, lapNumbers, lin, Some(exp)).value.modelType == "exponential"
  {
  }

  /** With the exponential fit actually running, the better model wins:
      the exponential curve exactly when its R-squared beats the linear one,
      and its growth rate is then the reported degradation rate. */
  lemma FitPicksBetterModel(lapTimes: seq<real>, lapNumbers: Option<seq<int>>, lin: LinearStats, exp: ExpFit)
    requires |lapTimes| >= 3 && !LinregressRaises(LapNumbers(lapTimes, lapNumbers), lapTimes)
    ensures var r := FitDegradationCurve(lapTimes, lapNumbers, lin, Some(exp));
      r.Success? &&
      (r.value.modelType == "exponential" <==> exp.rSquared > lin.rValue * lin.rValue) &&
      (r.value.modelType == "exponential" ==> r.value.degradationRate == exp.b && r.value.baseTime == exp.a) &&
      (r.value.modelType == "linear" ==> r.value.degradationRate == lin.slope && r.value.baseTime == lin.intercept)
  {
  }

  /** The result of `calculate_pit_window`. */
  datatype PitWindow = PitWindow(optimalPitLap: Option<int>, currentTime: real, fresherTime: real, timeGainPerLap: real, pitLoss: real)

  /** Time gained by a fresh set `lap` laps after the reference lap, the
      worn set losing `perLap` each lap. */
  function GainAt(m: Model, lap: int, baseTime: real, perLap: real): real {
    LinearDegradation(m, lap, baseTime, Some(perLap)) - baseTime
  }

  /** First lap in `lap..99` whose gain beats the pit loss. */
  function FirstBeneficialLap(m: Model, lap: int, baseTime: real, perLap: real, pitLoss: real): (r: Option<int>)
    requires 1 <= lap <= 100
    ensures r.Some? ==> lap <= r.value < 100
    decreases 100 - lap
  {
    if lap == 100 then None
    else if GainAt(m, lap, baseTime, perLap) > pitLoss then Some(lap)
    else FirstBeneficialLap(m, lap + 1, baseTime, perLap, pitLoss)
  }

  /** The lap found beats the pit loss and no earlier lap does; none is
      found exactly when no lap up to 99 does. */
  lemma {:induction false} FirstBeneficialLapIsFirst(m: Model, lap: int, baseTime: real, perLap: real, pitLoss: real)
    requires 1 <= lap <= 100
    ensures var r := FirstBeneficialLap(m, lap, baseTime, perLap, pitLoss);
      (r.Some? ==> GainAt(m, r.value, baseTime, perLap) > pitLoss) &&
      (r.Some? ==> forall l :: lap <= l < r.value ==> GainAt(m, l, baseTime, perLap) <= pitLoss) &&
      (r.None? ==> forall l :: lap <= l < 100 ==> GainAt(m, l, baseTime, perLap) <= pitLoss)
    decreases 100 - lap
  {
    if lap < 100 && GainAt(m, lap, baseTime, perLap) <= pitLoss {
      FirstBeneficialLapIsFirst(m, lap + 1, baseTime, perLap, pitLoss);
    }
  }

  /** `calculate_pit_window`: the reference (fresh) time is the current time
      divided by `1 + rate`, a division that fails at rate -1; the worn set
      loses `rate * fresh` a lap, and the pit lap is the least lap in 1..99
      at which that loss adds up to more than the pit loss. */
  function CalculatePitWindow(m: Model, currentTime: real, rate: real, pitLoss: real): (r: Result<PitWindow, PyError>)
    ensures r.Failure? <==> rate == -1.0
    ensures r.Success? ==> r.value.fresherTime == currentTime / (1.0 + rate)
    ensures r.Success? ==> r.value == WindowFrom(m, currentTime, r.value.fresherTime, rate, pitLoss)
  {
    if 1.0 + rate == 0.0 then Failure(ZeroDivisionError)
    else
      Success(WindowFrom(m, currentTime, currentTime / (1.0 + rate), rate, pitLoss))
  }

  /** The window against a given reference time, the worn set losing
      `rate * base` a lap. */
  function WindowFrom(m: Model, currentTime: real, base: real, rate: real, pitLoss: real): (w: PitWindow)
    ensures w.currentTime == currentTime && w.fresherTime == base && w.pitLoss == pitLoss
    ensures w.timeGainPerLap == rate * base
    ensures w.optimalPitLap == FirstBeneficialLap(m, 1, base, w.timeGainPerLap, pitLoss)
  {
    var perLap := rate * base;
    PitWindow(FirstBeneficialLap(m, 1, base, perLap, pitLoss), currentTime, base, perLap, pitLoss)
  }

  /** The window's pit lap is the first in 1..99 whose gain beats the pit
      loss, and there is none exactly when no such lap exists. */
  lemma PitLapBeatsLoss(m: Model, currentTime: real, rate: real, pitLoss: real)
    requires rate != -1.0
    ensures var w := CalculatePitWindow(m, currentTime, rate, pitLoss).value;
      (w.optimalPitLap.Some? ==>
        var l := w.optimalPitLap.value;
        1 <= l < 100 && GainAt(m, l, w.fresherTime, w.timeGainPerLap) > pitLoss &&
        forall k :: 1 <= k < l ==> GainAt(m, k, w.fresherTime, w.timeGainPerLap) <= pitLoss) &&
      (w.optimalPitLap.None? ==> forall k :: 1 <= k < 100 ==> GainAt(m, k, w.fresherTime, w.timeGainPerLap) <= pitLoss)
  {
    var w := CalculatePitWindow(m, currentTime, rate, pitLoss).value;
    FirstBeneficialLapIsFirst(m, 1, w.fresherTime, w.timeGainPerLap, pitLoss);
  }

  /** The gain after `lap` laps is `lap` times the per-lap loss. */
  lemma GainIsLinear(m: Model, lap: int, baseTime: real, perLap: real)
    ensures GainAt(m, lap, baseTime, perLap) == perLap * lap as real
  {
  }

  /** `FuelEffectModel` with its consumption (kg per lap) and effect (s per 10 kg). */
  datatype FuelModel = FuelModel(consumptionPerLap: real, effectPer10kg: real)

  const DefaultFuelModel := FuelModel(2.0, 0.03)

  /** `calculate_fuel_effect`: the lap-time change from fuel burnt so far. */
  function FuelEffect(f: FuelModel, lap: int, startingFuel: real): (e: real)
    ensures e == -(lap as real * f.consumptionPerLap / 10.0) * f.effectPer10kg
  {
    var remaining := startingFuel - lap as real * f.consumptionPerLap;
    var burned := startingFuel - remaining;
    -(burned / 10.0) * f.effectPer10kg
  }

  /** The effect is independent of the starting load and never slows the car
      when consumption and effect are nonnegative. */
  lemma FuelEffectProperties(f: FuelModel, lap: int, s1: real, s2: real)
    ensures FuelEffect(f, lap, s1) == FuelEffect(f, lap, s2)
    ensures lap >= 0 && f.consumptionPerLap >= 0.0 && f.effectPer10kg >= 0.0 ==> FuelEffect(f, lap, s1) <= 0.0
  {
    if lap >= 0 && f.consumptionPerLap >= 0.0 && f.effectPer10kg >= 0.0 {
      assert lap as real * f.consumptionPerLap >= 0.0;
      assert (lap as real * f.consumptionPerLap / 10.0) * f.effectPer10kg >= 0.0;
    }
  }

  /** The two Python classes both named `TireDegradationModel`. */
  datatype DegradationClass = CompoundCurveModel | ProductionModel

  /** Methods each class defines: degradation.py:59-247 for the compound
      model, models/tire_degradation.py:26-215 for the production model. */
  function MethodsOf(c: DegradationClass): set<string> {
    match c
    case CompoundCurveModel =>
      {"exponential_degradation", "linear_degradation", "temperature_adjusted_degradation",
       "fit_degradation_curve", "predict_stint_degradation", "calculate_pit_window"}
    case ProductionModel =>
      {"fit_degradation_curve", "predict_degradation", "_predict_cliff_lap",
       "_default_degradation", "calculate_degradation"}
  }

  /** `model.calculate_degradation(tire_age=..., compound=...)` dispatched on
      the receiver's class; a missing method raises AttributeError. */
  function CallCalculateDegradation(c: DegradationClass, tireAge: int, compound: string): (r: Result<real, PyError>)
    ensures "calculate_degradation" !in MethodsOf(c) <==> r.Failure?
    ensures r.Success? ==> r.value == TireDegradation.CalculateDegradation(tireAge, compound, 25.0)
  {
    if "calculate_degradation" in MethodsOf(c) then
      Success(TireDegradation.CalculateDegradation(tireAge, compound, 25.0))
    else Failure(AttributeError("calculate_degradation"))
  }

  /** The class the pit-decision engine and the race twin import has no
      `calculate_degradation`, so every such call raises. */
  lemma CompoundModelLacksCalculateDegradation(tireAge: int, compound: string)
    ensures CallCalculateDegradation(CompoundCurveModel, tireAge, compound) == Failure(AttributeError("calculate_degradation"))
    ensures CallCalculateDegradation(ProductionModel, tireAge, compound).Success?
  {
  }
}

=== FILE: driver_twin.dfy ===
/** The driver-twin generator (grracing/driver_twin.py): from a driver's lap
    times, sector times and telemetry it derives a pace vector, a
    consistency index, an aggression score, a tyre-degradation profile,
    sector strengths, a fatigue model and a confidence. numpy's square
    root, quartiles and logarithm and scipy's curve fits are not modelled:
    they reach the model through a `Numpy` value of functions. */
module DriverTwin {
  import opened Wrappers
  import opened Numerics
  import PyValue

  /** The library calls the generator relies on. `quartiles` gives the 25th
      and 75th percentiles, `degradationFit` the result of `curve_fit` on
      the lap times (`None` when scipy is missing or the fit raises), and
      `fatigueFit` likewise for the fatigue model. */
  datatype Numpy = Numpy(
    sqrt: real -> real,
    quartiles: seq<real> -> (real, real),
    ln: real -> real,
    degradationFit: seq<real> -> Option<CurveFit>,
    fatigueFit: seq<real> -> Option<(real, real)>)

  /** What `curve_fit` returns for the degradation model: the rate, the
      exponent and the fit's R-squared (the last two used by the
      exponential fit only). */
  datatype CurveFit = CurveFit(rate: real, exponent: real, rSquared: real)

  /** A telemetry sample: a dict of named readings. */
  type Sample = map<string, real>

  /** A lap's sector times, keyed "S1", "S2", "S3". */
  type SectorLap = map<string, real>

  const MinLapsForTwin := 5

  // ---------------------------------------------------------------- pace

  /** `_calculate_pace_vector`: how far the mean lap is above the best lap,
      relative to the best lap, clipped to [-0.1, 0.1]. The mean is a numpy
      float, so a zero best lap does not raise: a positive excess divides to
      +inf and clips to 0.1, and a zero excess divides to NaN, which the
      clip keeps. */
  function PaceVector(lapTimes: seq<real>): (p: PyValue.Num)
    ensures p.Finite? ==> -0.1 <= p.value <= 0.1
    ensures |lapTimes| < 2 ==> p == PyValue.Finite(0.0)
    ensures |lapTimes| >= 2 && SeqMin(lapTimes) == 0.0 && Average(lapTimes) > 0.0 ==> p == PyValue.Finite(0.1)
  {
    if |lapTimes| < 2 then PyValue.Finite(0.0)
    else
      var best := SeqMin(lapTimes);
      var avg := Average(lapTimes);
      if best == 0.0 then (if avg > 0.0 then PyValue.Finite(0.1) else PyValue.NaN)
      else PyValue.Finite(Clamp((avg - best) / best, -0.1, 0.1))
  }

  /** The pace vector is NaN exactly when there are at least two laps and
      every one of them is 0. */
  lemma PaceVectorNaNIffAllZero(lapTimes: seq<real>)
    ensures PaceVector(lapTimes).NaN? <==> |lapTimes| >= 2 && forall k :: 0 <= k < |lapTimes| ==> lapTimes[k] == 0.0
  {
    if |lapTimes| >= 2 {
      var best := SeqMin(lapTimes);
      MeanBetween(lapTimes, best, SeqMax(lapTimes));
      if best == 0.0 && Average(lapTimes) == 0.0 {
        TermsBelowSum(lapTimes);
        assert Sum(lapTimes) == 0.0 by {
          DivCancel(Sum(lapTimes), |lapTimes| as real);
        }
      }
      if forall k :: 0 <= k < |lapTimes| ==> lapTimes[k] == 0.0 {
        assert best == 0.0;
        AverageConstant(lapTimes, 0.0);
      }
    }
  }

  /** With positive lap times the mean is never below the best lap, so the
      pace vector is a number and never negative. */
  lemma PaceVectorNonnegative(lapTimes: seq<real>)
    requires forall k :: 0 <= k < |lapTimes| ==> lapTimes[k] > 0.0
    ensures PaceVector(lapTimes).Finite? && PaceVector(lapTimes).value >= 0.0
  {
    if |lapTimes| >= 2 {
      var best := SeqMin(lapTimes);
      MeanBetween(lapTimes, best, SeqMax(lapTimes));
      assert best > 0.0;
      assert Average(lapTimes) - best >= 0.0;
      DivNonneg(Average(lapTimes) - best, best);
    }
  }

  lemma DivNonneg(a: real, b: real)
    requires a >= 0.0 && b > 0.0
    ensures a / b >= 0.0
  {
  }

  // --------------------------------------------------------- consistency

  /** The elements of `s` within [lo, hi], in order. */
  function Within(s: seq<real>, lo: real, hi: real): (r: seq<real>)
    ensures |r| <= |s|
    ensures forall k :: 0 <= k < |r| ==> lo <= r[k] <= hi && r[k] in s
  {
    if |s| == 0 then []
    else
      var prev := Within(s[..|s| - 1], lo, hi);
      var x := s[|s| - 1];
      prev + (if lo <= x <= hi then [x] else [])
  }

  /** Tukey's fences: the values within 1.5 interquartile ranges of the
      quartiles. */
  function IqrFiltered(s: seq<real>, np: Numpy): (r: seq<real>)
    ensures |r| <= |s|
    ensures forall k :: 0 <= k < |r| ==> r[k] in s
  {
    var (q1, q3) := np.quartiles(s);
    var iqr := q3 - q1;
    Within(s, q1 - 1.5 * iqr, q3 + 1.5 * iqr)
  }

  /** numpy's population variance: the mean squared deviation. */
  function Variance(s: seq<real>): real
    requires |s| > 0
  {
    var m := Average(s);
    Average(seq(|s|, k requires 0 <= k < |s| => (s[k] - m) * (s[k] - m)))
  }

  /** The laps the coefficient of variation is taken over: with at least
      five laps, those within Tukey's fences, provided more than one
      survives; otherwise all of them. */
  function ConsistencySample(lapTimes: seq<real>, np: Numpy): (s: seq<real>)
    requires |lapTimes| >= 2
    ensures |s| >= 2
    ensures forall k :: 0 <= k < |s| ==> s[k] in lapTimes
    ensures |lapTimes| < 5 ==> s == lapTimes
  {
    var filtered := if |lapTimes| >= 5 then IqrFiltered(lapTimes, np) else lapTimes;
    if |filtered| > 1 then filtered else lapTimes
  }

  /** Standard deviation over mean, or 0 for a nonpositive mean. */
  function VariationCoefficient(sample: seq<real>, np: Numpy): real
    requires |sample| > 0
  {
    var mean := Average(sample);
    if mean > 0.0 then np.sqrt(Variance(sample)) / mean else 0.0
  }

  /** `_calculate_consistency_index`: one minus the coefficient of
      variation, clipped to [0, 1]. With at least five laps the outliers
      beyond Tukey's fences are dropped first, but only if more than one lap
      survives. Fewer than two laps, or a zero mean, give 0.7. */
  function ConsistencyIndex(lapTimes: seq<real>, np: Numpy): (c: real)
    ensures 0.0 <= c <= 1.0
    ensures |lapTimes| < 2 ==> c == 0.7
    ensures |lapTimes| >= 2 && Average(lapTimes) == 0.0 ==> c == 0.7
  {
    if |lapTimes| < 2 then 0.7
    else if Average(lapTimes) == 0.0 then 0.7
    else Clamp(1.0 - VariationCoefficient(ConsistencySample(lapTimes, np), np), 0.0, 1.0)
  }

  /** Identical (positive) lap times are perfectly consistent: whatever the
      quartiles, the filter keeps a constant sample, its variance is zero,
      and the index is 1. */
  lemma IdenticalLapsPerfectlyConsistent(lapTimes: seq<real>, c: real, np: Numpy)
    requires |lapTimes| >= 2 && c > 0.0 && np.sqrt(0.0) == 0.0
    requires forall k :: 0 <= k < |lapTimes| ==> lapTimes[k] == c
    ensures ConsistencyIndex(lapTimes, np) == 1.0
  {
    AverageConstant(lapTimes, c);
    var sample := ConsistencySample(lapTimes, np);
    assert forall k :: 0 <= k < |sample| ==> sample[k] == c;
    AverageConstant(sample, c);
    VarianceConstant(sample, c);
    assert VariationCoefficient(sample, np) == 0.0;
  }

  lemma VarianceConstant(s: seq<real>, c: real)
    requires |s| > 0 && forall k :: 0 <= k < |s| ==> s[k] == c
    ensures Variance(s) == 0.0
  {
    AverageConstant(s, c);
    var d := seq(|s|, k requires 0 <= k < |s| => (s[k] - Average(s)) * (s[k] - Average(s)));
    assert forall k :: 0 <= k < |d| ==> d[k] == 0.0;
    AverageConstant(d, 0.0);
  }

  // ---------------------------------------------------------- aggression

  /** The readings of one signal, from the samples that carry it. */
  function Signal(telemetry: seq<Sample>, name: string): (v: seq<real>)
    ensures |v| <= |telemetry|
    ensures |v| == 0 <==> forall k :: 0 <= k < |telemetry| ==> name !in telemetry[k]
  {
    if |telemetry| == 0 then []
    else
      var prev := Signal(telemetry[..|telemetry| - 1], name);
      var last := telemetry[|telemetry| - 1];
      prev + (if name in last then [last[name]] else [])
  }

  /** The positive steps of a trace (`diffs[diffs > 0]`). */
  function Rises(v: seq<real>): (r: seq<real>)
    ensures forall k :: 0 <= k < |r| ==> r[k] > 0.0
  {
    if |v| < 2 then []
    else
      var d := v[|v| - 1] - v[|v| - 2];
      Rises(v[..|v| - 1]) + (if d > 0.0 then [d] else [])
  }

  /** A trace that never rises: no reading above the one before it. */
  predicate NeverRises(v: seq<real>) {
    forall k :: 0 < k < |v| ==> v[k] <= v[k - 1]
  }

  /** A trace has no positive steps exactly when it never rises. */
  lemma {:induction false} RisesEmptyIff(v: seq<real>)
    ensures |Rises(v)| == 0 <==> NeverRises(v)
  {
    if |v| >= 2 {
      var init := v[..|v| - 1];
      RisesEmptyIff(init);
      assert forall k :: 0 <= k < |init| ==> init[k] == v[k];
      assert NeverRises(v) <==> NeverRises(init) && v[|v| - 1] <= v[|v| - 2];
    }
  }

  /** The throttle factor: ten times the mean rise, capped at 1; 0.5 for a
      single reading. numpy's mean of no rises is NaN, and Python's
      `min(nan, 1.0)` keeps the NaN. */
  function ThrottleFactor(throttle: seq<real>): (f: PyValue.Num)
    ensures f.Finite? ==> 0.0 < f.value <= 1.0
    ensures |throttle| <= 1 ==> f == PyValue.Finite(0.5)
  {
    if |throttle| > 1 then
      var rises := Rises(throttle);
      if |rises| == 0 then PyValue.NaN
      else
        MeanBetween(rises, SeqMin(rises), SeqMax(rises));
        PyValue.Finite(Min(Average(rises) * 10.0, 1.0))
    else PyValue.Finite(0.5)
  }

  function BrakeFactor(brake: seq<real>): real {
    if |brake| > 0 then Min(SeqMax(brake) * 0.5 + Variance(brake) * 5.0, 1.0) else 0.3
  }

  function SpeedFactor(speed: seq<real>): real {
    if |speed| > 1 then
      var top := SeqMax(speed);
      var avg := Average(speed);
      if avg > 0.0 then Min((top - avg) / avg * 0.5 + Variance(speed) / (avg * avg) * 10.0, 1.0) else 0.0
    else 0.3
  }

  function SteeringFactor(steering: seq<real>): real {
    if |steering| > 1 then Min(Variance(steering) * 20.0, 1.0) else 0.2
  }

  function AbsAll(v: seq<real>): (r: seq<real>)
    ensures |r| == |v| && forall k :: 0 <= k < |v| ==> r[k] == Abs(v[k])
  {
    seq(|v|, k requires 0 <= k < |v| => Abs(v[k]))
  }

  function GForceFactor(g: seq<real>): real {
    if |g| > 0 then Min(SeqMax(AbsAll(g)) / 5.0, 1.0) else 0.2
  }

  /** `_calculate_aggression_score`: a 0.25/0.20/0.20/0.15/0.20 blend of
      throttle, brake, speed, steering and g-force factors, each capped at
      1 and defaulting when its signal is missing, clipped to [0, 1]. No
      telemetry, or no throttle readings, gives 0.5. A NaN throttle factor
      makes the blend NaN, and `np.clip` keeps it. */
  function AggressionScore(telemetry: seq<Sample>): (a: PyValue.Num)
    ensures a.Finite? ==> 0.0 <= a.value <= 1.0
    ensures |telemetry| == 0 ==> a == PyValue.Finite(0.5)
    ensures (forall k :: 0 <= k < |telemetry| ==> "throttle" !in telemetry[k]) ==> a == PyValue.Finite(0.5)
  {
    var throttle := Signal(telemetry, "throttle");
    if |telemetry| == 0 || |throttle| == 0 then PyValue.Finite(0.5)
    else
      match ThrottleFactor(throttle)
      case NaN => PyValue.NaN
      case Finite(tf) =>
        PyValue.Finite(Clamp(Blend(tf, BrakeFactor(Signal(telemetry, "brake")), SpeedFactor(Signal(telemetry, "speed")),
                                   SteeringFactor(Signal(telemetry, "steering")), GForceFactor(Signal(telemetry, "g_force"))),
                             0.0, 1.0))
  }

  /** The weighted sum of the five factors. */
  function Blend(throttle: real, brake: real, speed: real, steering: real, gForce: real): real {
    throttle * 0.25 + brake * 0.20 + speed * 0.20 + steering * 0.15 + gForce * 0.20
  }

  /** The score is NaN exactly when there are at least two throttle
      readings and the throttle never rises. */
  lemma AggressionNaNIffFlatThrottle(telemetry: seq<Sample>)
    ensures var throttle := Signal(telemetry, "throttle");
      AggressionScore(telemetry).NaN? <==> |throttle| > 1 && NeverRises(throttle)
  {
    RisesEmptyIff(Signal(telemetry, "throttle"));
  }

  /** Two equal throttle readings give a NaN score. */
  lemma FlatThrottleIsNaN()
    ensures AggressionScore([map["throttle" := 1.0], map["throttle" := 1.0]]).NaN?
  {
    var t: seq<Sample> := [map["throttle" := 1.0], map["throttle" := 1.0]];
    AggressionNaNIffFlatThrottle(t);
    assert Signal(t, "throttle") == [1.0, 1.0] by {
      assert Signal(t[..1], "throttle") == [1.0] by {
        assert t[..1][..0] == [];
      }
      assert t[..|t| - 1] == t[..1];
    }
  }

  /** The weights sum to one: telemetry whose every factor is at its cap
      of 1 scores exactly 1. */
  lemma AggressionAtCaps(telemetry: seq<Sample>)
    requires ThrottleFactor(Signal(telemetry, "throttle")) == PyValue.Finite(1.0)
    requires BrakeFactor(Signal(telemetry, "brake")) == 1.0 && SpeedFactor(Signal(telemetry, "speed")) == 1.0
    requires SteeringFactor(Signal(telemetry, "steering")) == 1.0 && GForceFactor(Signal(telemetry, "g_force")) == 1.0
    ensures AggressionScore(telemetry) == PyValue.Finite(1.0)
  {
    var throttle := Signal(telemetry, "throttle");
    assert |throttle| > 1;
    ScoreOfFactors(telemetry, 1.0, 1.0, 1.0, 1.0, 1.0);
    assert Blend(1.0, 1.0, 1.0, 1.0, 1.0) == 1.0;
    assert Clamp(1.0, 0.0, 1.0) == 1.0;
  }

  /** With a throttle channel and a numeric throttle factor, the score is
      the clipped blend of the five factors. */
  lemma ScoreOfFactors(telemetry: seq<Sample>, tf: real, bf: real, sf: real, stf: real, gf: real)
    requires |Signal(telemetry, "throttle")| > 0 && ThrottleFactor(Signal(telemetry, "throttle")) == PyValue.Finite(tf)
    requires BrakeFactor(Signal(telemetry, "brake")) == bf && SpeedFactor(Signal(telemetry, "speed")) == sf
    requires SteeringFactor(Signal(telemetry, "steering")) == stf && GForceFactor(Signal(telemetry, "g_force")) == gf
    ensures AggressionScore(telemetry) == PyValue.Finite(Clamp(Blend(tf, bf, sf, stf, gf), 0.0, 1.0))
  {
  }

  // --------------------------------------------------------- degradation

  datatype DegradationProfile = DegradationProfile(rate: real, exponent: Option<real>, basePace: Option<real>,
                                                   fitType: string, compound: string, confidence: real)

  /** Compound multipliers on the normalised rate; others use 1.0. */
  function CompoundMultiplier(compound: string): (m: real)
    ensures 0.7 <= m <= 1.5
    ensures compound !in {"SOFT", "MEDIUM", "HARD"} ==> m == 1.0
  {
    if compound == "SOFT" then 1.5 else if compound == "HARD" then 0.7 else 1.0
  }

  /** `max(0.0, min(num / den, 0.01))` as numpy evaluates it: a zero
      denominator gives +inf (capped to 0.01) for a positive numerator, -inf
      (floored to 0) for a negative one, and NaN for zero, which Python's
      `max(0.0, nan)` turns into 0. */
  function CappedRate(num: real, den: real): (r: real)
    ensures 0.0 <= r <= 0.01
    ensures den != 0.0 ==> r == Clamp(num / den, 0.0, 0.01)
  {
    if den == 0.0 then (if num > 0.0 then 0.01 else 0.0)
    else Clamp(num / den, 0.0, 0.01)
  }

  /** `_calculate_degradation_profile`. */
  function DegradationProfileOf(lapTimes: seq<real>, compound: string, np: Numpy): (d: DegradationProfile)
    ensures |lapTimes| < 3 ==> d.rate == 0.002 && d.confidence == 0.5 && d.fitType == "linear"
    ensures |lapTimes| >= 3 ==> 0.0 <= d.rate <= 0.01 * CompoundMultiplier(compound)
    ensures |lapTimes| >= 3 ==> d.confidence >= Min(|lapTimes| as real / 20.0, 1.0)
    ensures 0.0 <= d.rate <= 0.015
    ensures d.compound == compound
  {
    var n := |lapTimes|;
    if n < 3 then
      DegradationProfile(0.002, Some(1.0), Some(if n > 0 then Average(lapTimes) else 95.0), "linear", compound, 0.5)
    else
      var basePace := Average(lapTimes[..3]);
      var (rate, exponent, fitType, confidence) :=
        match np.degradationFit(lapTimes)
        case Some(fit) =>
          if n >= 5 then (fit.rate, fit.exponent, "exponential", Max(0.5, Min(fit.rSquared, 1.0)))
          else (fit.rate, 1.0, "linear", 0.5)
        case None =>
          var rate := if n >= 5 then CappedRate(Average(lapTimes[n - 5..]) - Average(lapTimes[..5]), basePace * n as real)
                      else CappedRate(lapTimes[n - 1] - lapTimes[0], basePace * n as real);
          (rate, 1.0, "linear", 0.5);
      var normalised := Min(Max(0.0, rate), 0.01);
      var m := CompoundMultiplier(compound);
      MulMono(m, 0.0, normalised);
      MulMono(m, normalised, 0.01);
      MulMono(0.01, m, 1.5);
      DegradationProfile(normalised * m, Some(exponent), Some(basePace), fitType, compound,
                         Max(confidence, Min(n as real / 20.0, 1.0)))
  }

  // ------------------------------------------------------------- sectors

  datatype SectorStrengths = SectorStrengths(s1: real, s2: real, s3: real)

  const Unity := SectorStrengths(1.0, 1.0, 1.0)

  /** The positive times recorded for one sector. */
  function PositiveTimes(laps: seq<SectorLap>, sector: string): (v: seq<real>)
    ensures forall k :: 0 <= k < |v| ==> v[k] > 0.0
  {
    if |laps| == 0 then []
    else
      var prev := PositiveTimes(laps[..|laps| - 1], sector);
      var last := laps[|laps| - 1];
      prev + (if sector in last && last[sector] > 0.0 then [last[sector]] else [])
  }

  /** `robust_mean`: the mean, after dropping outliers beyond Tukey's
      fences when there are at least five values and some survive. */
  function RobustMean(values: seq<real>, np: Numpy): real {
    if |values| == 0 then 0.0
    else if |values| >= 5 then
      var filtered := IqrFiltered(values, np);
      if |filtered| > 0 then Average(filtered) else Average(values)
    else Average(values)
  }

  /** `calculate_strength`: the overall mean over the sector's mean,
      clipped to [0.8, 1.2]. */
  function Strength(overall: real, sectorAvg: real): (s: real)
    ensures 0.8 <= s <= 1.2
  {
    if sectorAvg == 0.0 then 1.0 else Clamp(overall / sectorAvg, 0.8, 1.2)
  }

  /** A faster sector (smaller positive mean) never gets a lower strength. */
  lemma FasterSectorStronger(overall: real, faster: real, slower: real)
    requires overall > 0.0 && 0.0 < faster <= slower
    ensures Strength(overall, slower) <= Strength(overall, faster)
  {
    DivAntitone(overall, faster, slower);
  }

  lemma DivAntitone(a: real, x: real, y: real)
    requires a > 0.0 && 0.0 < x <= y
    ensures a / y <= a / x
  {
    var q := a / x;
    var p := a / y;
    assert p * y == a && q * x == a;
    if p > q {
      MulStrict(y, q, p);
      MulMono(q, x, y);
      assert false;
    }
  }

  /** `_calculate_sector_strengths`. */
  function SectorStrengthsOf(laps: seq<SectorLap>, np: Numpy): (s: SectorStrengths)
    ensures 0.8 <= s.s1 <= 1.2 && 0.8 <= s.s2 <= 1.2 && 0.8 <= s.s3 <= 1.2
    ensures |laps| < 2 ==> s == Unity
    ensures |PositiveTimes(laps, "S1")| == 0 || |PositiveTimes(laps, "S2")| == 0 || |PositiveTimes(laps, "S3")| == 0
            ==> s == Unity
  {
    var t1 := PositiveTimes(laps, "S1");
    var t2 := PositiveTimes(laps, "S2");
    var t3 := PositiveTimes(laps, "S3");
    if |laps| < 2 || |t1| == 0 || |t2| == 0 || |t3| == 0 then Unity
    else
      var a1 := RobustMean(t1, np);
      var a2 := RobustMean(t2, np);
      var a3 := RobustMean(t3, np);
      var overall := (a1 + a2 + a3) / 3.0;
      if overall == 0.0 then Unity
      else SectorStrengths(Strength(overall, a1), Strength(overall, a2), Strength(overall, a3))
  }

  // ------------------------------------------------------------- fatigue

  datatype FatigueDropoff = FatigueDropoff(factor: real, constant: Option<real>, criticalLap: int, trend: string)

  /** The fatigue trend buckets on the factor. */
  function FatigueTrend(factor: real): (t: string)
    ensures t == "improving" <==> factor < 0.01
    ensures t == "stable" <==> 0.01 <= factor < 0.02
    ensures t == "degrading" <==> 0.02 <= factor < 0.035
    ensures t == "critical" <==> factor >= 0.035
  {
    if factor < 0.01 then "improving"
    else if factor < 0.02 then "stable"
    else if factor < 0.035 then "degrading"
    else "critical"
  }

  /** The linear-trend fatigue factor: the rise of the last five laps'
      mean over the first five's, per lap, relative to the first five. */
  function LinearFatigue(lapTimes: seq<real>): real
    requires |lapTimes| >= 5
  {
    var n := |lapTimes|;
    var early := Average(lapTimes[..5]);
    var recent := Average(lapTimes[n - 5..]);
    if early > 0.0 then (recent - early) / (early * n as real) else 0.02
  }

  /** `_calculate_fatigue_dropoff`: the fitted (at least eight laps) or
      linear-trend factor, clipped to [0, 0.05], with the time constant
      clipped to [10, 100]. (The short-history default reports factor 0.02
      as "stable", although the trend buckets put 0.02 in "degrading".)
      Past a factor of 0.02 the critical lap solves
      `factor * (1 - exp(-lap / tau)) = 0.02`; otherwise it is 30 laps on. */
  function FatigueDropoffOf(lapTimes: seq<real>, currentLap: int, np: Numpy): (f: FatigueDropoff)
    ensures |lapTimes| < 5 ==> f == FatigueDropoff(0.02, Some(30.0), currentLap + 25, "stable")
    ensures 0.0 <= f.factor <= 0.05
    ensures f.constant.Some? && 10.0 <= f.constant.value <= 100.0
    ensures |lapTimes| >= 5 && f.factor <= 0.02 ==> f.criticalLap == currentLap + 30
    ensures |lapTimes| >= 5 ==> f.trend == FatigueTrend(f.factor)
  {
    if |lapTimes| < 5 then FatigueDropoff(0.02, Some(30.0), currentLap + 25, "stable")
    else
      var fit := if |lapTimes| >= 8 then np.fatigueFit(lapTimes) else None;
      var (raw, tau) := if fit.Some? then fit.value else (LinearFatigue(lapTimes), 30.0);
      var factor := Min(Max(0.0, raw), 0.05);
      var constant := Max(10.0, Min(tau, 100.0));
      FatigueDropoff(factor, Some(constant), CriticalFatigueLap(currentLap, factor, constant, np.ln), FatigueTrend(factor))
  }

  /** Past a factor of 0.02, the lap at which `factor * (1 - exp(-lap /
      tau))` reaches 0.02, i.e. `-tau * ln(1 - 0.02 / factor)` laps on;
      otherwise 30 laps on. */
  function CriticalFatigueLap(currentLap: int, factor: real, tau: real, ln: real -> real): (c: int)
    ensures factor <= 0.02 ==> c == currentLap + 30
  {
    if factor > 0.02 then currentLap + Trunc(-tau * ln(1.0 - 0.02 / factor)) else currentLap + 30
  }

  /** With a logarithm that is negative on (0, 1), a significant fatigue
      factor never puts the critical lap in the past. */
  lemma FatigueCriticalLapAhead(lapTimes: seq<real>, currentLap: int, np: Numpy)
    requires |lapTimes| >= 5
    requires forall x :: 0.0 < x < 1.0 ==> np.ln(x) < 0.0
    ensures FatigueDropoffOf(lapTimes, currentLap, np).criticalLap >= currentLap
  {
    var f := FatigueDropoffOf(lapTimes, currentLap, np);
    if f.factor > 0.02 {
      var x := 1.0 - 0.02 / f.factor;
      assert 0.02 / f.factor < 1.0 by {
        DivAntitone(0.02, 0.02, f.factor);
        assert 0.02 / 0.02 == 1.0;
        assert 0.02 / f.factor != 1.0;
      }
      assert 0.02 / f.factor > 0.0;
      assert np.ln(x) < 0.0;
      var c := f.constant.value;
      MulStrict(c, np.ln(x), 0.0);
      assert -c * np.ln(x) == -(c * np.ln(x));
    }
  }

  // ---------------------------------------------------------- confidence

  /** `_calculate_confidence`: a step function of the lap count. */
  function Confidence(lapCount: int): (c: real)
    ensures c == 0.5 <==> lapCount < 5
    ensures c == 0.7 <==> 5 <= lapCount < 10
    ensures c == 0.85 <==> 10 <= lapCount < 20
    ensures c == 0.95 <==> lapCount >= 20
  {
    if lapCount < 5 then 0.5 else if lapCount < 10 then 0.7 else if lapCount < 20 then 0.85 else 0.95
  }

  /** More laps never lower the confidence. */
  lemma ConfidenceMonotone(a: int, b: int)
    requires a <= b
    ensures Confidence(a) <= Confidence(b)
  {
  }

  // ---------------------------------------------------------------- twin

  datatype Twin = Twin(
    driverId: string, paceVector: PyValue.Num, consistencyIndex: real, aggressionScore: PyValue.Num,
    degradation: DegradationProfile, sectors: SectorStrengths, fatigue: FatigueDropoff, lapCount: nat,
    confidence: real, note: Option<string>)

  /** `_generate_default_twin`. Its degradation profile carries no
      exponent or base pace, and its fatigue model no time constant. */
  function DefaultTwin(driverId: string, currentLap: int): (t: Twin)
    ensures t.paceVector == PyValue.Finite(0.0) && t.consistencyIndex == 0.7 && t.aggressionScore == PyValue.Finite(0.5)
    ensures t.degradation.rate == 0.002 && t.sectors == Unity && t.confidence == 0.5 && t.lapCount == 0
    ensures t.fatigue.criticalLap == currentLap + 20 && t.note.Some?
  {
    Twin(driverId, PyValue.Finite(0.0), 0.7, PyValue.Finite(0.5), DegradationProfile(0.002, None, None, "linear", "MEDIUM", 0.5), Unity,
         FatigueDropoff(0.02, None, currentLap + 20, "stable"), 0, 0.5, Some("Insufficient data - using defaults"))
  }

  /** `generate_driver_twin`. */
  function GenerateDriverTwin(driverId: string, lapTimes: seq<real>, sectorTimes: seq<SectorLap>,
                              telemetry: Option<seq<Sample>>, compound: string, currentLap: int,
                              np: Numpy): (t: Twin)
    ensures |lapTimes| < MinLapsForTwin ==> t == DefaultTwin(driverId, currentLap)
    ensures |lapTimes| >= MinLapsForTwin ==> t.lapCount == |lapTimes| && t.confidence == Confidence(|lapTimes|)
    ensures t.paceVector.Finite? ==> -0.1 <= t.paceVector.value <= 0.1
    ensures t.paceVector.NaN? <==> |lapTimes| >= MinLapsForTwin && forall k :: 0 <= k < |lapTimes| ==> lapTimes[k] == 0.0
    ensures 0.0 <= t.consistencyIndex <= 1.0
    ensures t.aggressionScore.Finite? ==> 0.0 <= t.aggressionScore.value <= 1.0
    ensures 0.0 <= t.degradation.rate <= 0.015
    ensures 0.8 <= t.sectors.s1 <= 1.2 && 0.8 <= t.sectors.s2 <= 1.2 && 0.8 <= t.sectors.s3 <= 1.2
    ensures 0.0 <= t.fatigue.factor <= 0.05
    ensures (telemetry.None? || telemetry.value == []) ==> t.aggressionScore == PyValue.Finite(0.5)
    ensures t.driverId == driverId
  {
    PaceVectorNaNIffAllZero(lapTimes);
    if |lapTimes| < MinLapsForTwin then DefaultTwin(driverId, currentLap)
    else
      var aggression := if telemetry.Some? && |telemetry.value| > 0 then AggressionScore(telemetry.value) else PyValue.Finite(0.5);
      Twin(driverId, PaceVector(lapTimes), ConsistencyIndex(lapTimes, np), aggression,
           DegradationProfileOf(lapTimes, compound, np), SectorStrengthsOf(sectorTimes, np),
           FatigueDropoffOf(lapTimes, currentLap, np), |lapTimes|, Confidence(|lapTimes|), None)
  }
}

=== FILE: driver_twin_loop.dfy ===
/** The driver-twin update loop (grracing/driver_twin_loop.py): a keyed
    state machine holding each driver's recent laps (at most 50) and last
    twin. Every update appends the lap, trims the history, regenerates the
    twin and reports what changed since the previous one. */
module DriverTwinLoop {
  import opened Wrappers
  import opened Numerics
  import DriverTwin
  import PyValue

  const MaxHistory := 50

  /** One driver's recorded laps. */
  datatype History = History(lapTimes: seq<real>, sectorTimes: seq<DriverTwin.SectorLap>,
                             telemetry: seq<DriverTwin.Sample>)

  /** The lap and sector histories stay aligned and within the window, and
      telemetry is never longer than the laps. */
  predicate WellFormed(h: History) {
    |h.lapTimes| == |h.sectorTimes| && |h.lapTimes| <= MaxHistory && |h.telemetry| <= |h.lapTimes|
  }

  /** Deltas against the previous twin; `sectorChanges` is absent for a
      driver's first twin. A NaN pace vector or aggression score makes its
      delta NaN. */
  datatype Changes = Changes(paceVectorDelta: PyValue.Num, consistencyDelta: real, aggressionDelta: PyValue.Num, isNew: bool,
                             sectorChanges: Option<DriverTwin.SectorStrengths>)

  /** A twin as returned and stored: the generated twin with its changes. */
  datatype Update = Update(twin: DriverTwin.Twin, changes: Changes)

  datatype Loop = Loop(history: map<string, History>, lastTwins: map<string, Update>)

  const Empty := Loop(map[], map[])

  /** `xs[-n:]`: the last `n` elements, or all of them when there are fewer. */
  function LastN<T>(xs: seq<T>, n: nat): (r: seq<T>)
    ensures |r| == if |xs| <= n then |xs| else n
    ensures |r| <= n && |r| <= |xs|
    ensures |xs| <= n ==> r == xs
    ensures |xs| > n ==> r == xs[|xs| - n..]
  {
    if |xs| > n then xs[|xs| - n..] else xs
  }

  /** Record one lap: append it (and the telemetry sample, if there is a
      non-empty one), then keep only the last 50 laps. */
  function Record(h: History, lapTime: real, sectors: DriverTwin.SectorLap, telemetry: Option<DriverTwin.Sample>): (r: History)
    requires WellFormed(h)
    ensures WellFormed(r)
    ensures |r.lapTimes| > 0 && r.lapTimes[|r.lapTimes| - 1] == lapTime
    ensures r.sectorTimes[|r.sectorTimes| - 1] == sectors
    ensures |r.lapTimes| == if |h.lapTimes| < MaxHistory then |h.lapTimes| + 1 else MaxHistory
    ensures r.lapTimes == LastN(h.lapTimes + [lapTime], MaxHistory)
  {
    var laps := h.lapTimes + [lapTime];
    var sectorTimes := h.sectorTimes + [sectors];
    var samples := if telemetry.Some? && |telemetry.value| > 0 then h.telemetry + [telemetry.value] else h.telemetry;
    if |laps| > MaxHistory then
      History(LastN(laps, MaxHistory), LastN(sectorTimes, MaxHistory),
              if |samples| > 0 then LastN(samples, MaxHistory) else samples)
    else History(laps, sectorTimes, samples)
  }

  /** `_calculate_changes`: zero deltas and `is_new` for a driver's first
      twin, otherwise the new values minus the stored ones. */
  function CalculateChanges(lastTwins: map<string, Update>, driverId: string, twin: DriverTwin.Twin): (c: Changes)
    ensures c.isNew <==> driverId !in lastTwins
    ensures c.isNew ==> c.paceVectorDelta == PyValue.Finite(0.0) && c.consistencyDelta == 0.0 && c.aggressionDelta == PyValue.Finite(0.0)
    ensures c.isNew <==> c.sectorChanges.None?
    ensures !c.isNew ==> var prev := lastTwins[driverId].twin;
      (c.paceVectorDelta.NaN? <==> prev.paceVector.NaN? || twin.paceVector.NaN?) &&
      (c.paceVectorDelta.Finite? ==> prev.paceVector.value + c.paceVectorDelta.value == twin.paceVector.value) &&
      prev.consistencyIndex + c.consistencyDelta == twin.consistencyIndex &&
      (c.aggressionDelta.NaN? <==> prev.aggressionScore.NaN? || twin.aggressionScore.NaN?) &&
      (c.aggressionDelta.Finite? ==> prev.aggressionScore.value + c.aggressionDelta.value == twin.aggressionScore.value) &&
      prev.sectors.s1 + c.sectorChanges.value.s1 == twin.sectors.s1 &&
      prev.sectors.s2 + c.sectorChanges.value.s2 == twin.sectors.s2 &&
      prev.sectors.s3 + c.sectorChanges.value.s3 == twin.sectors.s3
  {
    if driverId !in lastTwins then Changes(PyValue.Finite(0.0), 0.0, PyValue.Finite(0.0), true, None)
    else
      var prev := lastTwins[driverId].twin;
      Changes(PyValue.Minus(twin.paceVector, prev.paceVector), twin.consistencyIndex - prev.consistencyIndex,
              PyValue.Minus(twin.aggressionScore, prev.aggressionScore), false,
              Some(DriverTwin.SectorStrengths(twin.sectors.s1 - prev.sectors.s1, twin.sectors.s2 - prev.sectors.s2,
                                              twin.sectors.s3 - prev.sectors.s3)))
  }

  /** Every stored history is well formed. */
  predicate Valid(loop: Loop) {
    forall id :: id in loop.history ==> WellFormed(loop.history[id])
  }

  function HistoryOf(loop: Loop, driverId: string): History {
    if driverId in loop.history then loop.history[driverId] else History([], [], [])
  }

  /** `update_driver_twin`: record the lap, regenerate the twin from the
      trimmed history (telemetry passed only when some was recorded), and
      store it with its changes. */
  function UpdateDriverTwin(loop: Loop, driverId: string, lapTime: real, sectors: DriverTwin.SectorLap,
                            telemetry: Option<DriverTwin.Sample>, compound: string, currentLap: int,
                            np: DriverTwin.Numpy): (r: (Loop, Update))
    requires Valid(loop)
    ensures Valid(r.0)
    ensures driverId in r.0.history && driverId in r.0.lastTwins && r.0.lastTwins[driverId] == r.1
    ensures var h := r.0.history[driverId];
      h.lapTimes == LastN(HistoryOf(loop, driverId).lapTimes + [lapTime], MaxHistory) &&
      h.lapTimes[|h.lapTimes| - 1] == lapTime
    ensures r.1.changes.isNew <==> driverId !in loop.lastTwins
    ensures |r.0.history[driverId].telemetry| == 0 ==> r.1.twin.aggressionScore == PyValue.Finite(0.5)
    ensures forall id :: id != driverId ==>
      (id in r.0.history <==> id in loop.history) && (id in loop.history ==> r.0.history[id] == loop.history[id]) &&
      (id in r.0.lastTwins <==> id in loop.lastTwins) && (id in loop.lastTwins ==> r.0.lastTwins[id] == loop.lastTwins[id])
  {
    var h := Record(HistoryOf(loop, driverId), lapTime, sectors, telemetry);
    var twin := DriverTwin.GenerateDriverTwin(driverId, h.lapTimes, h.sectorTimes,
                                              if |h.telemetry| > 0 then Some(h.telemetry) else None,
                                              compound, currentLap, np);
    var update := Update(twin, CalculateChanges(loop.lastTwins, driverId, twin));
    (Loop(loop.history[driverId := h], loop.lastTwins[driverId := update]), update)
  }

  /** `get_driver_twin`. */
  function GetDriverTwin(loop: Loop, driverId: string): (r: Option<Update>)
    ensures r.Some? <==> driverId in loop.lastTwins
    ensures r.Some? ==> r.value == loop.lastTwins[driverId]
  {
    if driverId in loop.lastTwins then Some(loop.lastTwins[driverId]) else None
  }

  /** `reset_driver`: forget the driver's history and twin, and nothing
      else. */
  function ResetDriver(loop: Loop, driverId: string): (r: Loop)
    requires Valid(loop)
    ensures Valid(r)
    ensures driverId !in r.history && driverId !in r.lastTwins
    ensures forall id :: id != driverId ==>
      (id in r.history <==> id in loop.history) && (id in loop.history ==> r.history[id] == loop.history[id]) &&
      (id in r.lastTwins <==> id in loop.lastTwins) && (id in loop.lastTwins ==> r.lastTwins[id] == loop.lastTwins[id])
  {
    Loop(loop.history - {driverId}, loop.lastTwins - {driverId})
  }

  /** The twin an update returns is the one `get_driver_twin` then reports. */
  lemma GetAfterUpdate(loop: Loop, driverId: string, lapTime: real, sectors: DriverTwin.SectorLap,
                       telemetry: Option<DriverTwin.Sample>, compound: string, currentLap: int, np: DriverTwin.Numpy)
    requires Valid(loop)
    ensures var r := UpdateDriverTwin(loop, driverId, lapTime, sectors, telemetry, compound, currentLap, np);
      GetDriverTwin(r.0, driverId) == Some(r.1)
  {
  }

  /** After a reset the driver starts over: the next update is new again
      and its history holds just that lap. */
  lemma ResetStartsOver(loop: Loop, driverId: string, lapTime: real, sectors: DriverTwin.SectorLap,
                        telemetry: Option<DriverTwin.Sample>, compound: string, currentLap: int, np: DriverTwin.Numpy)
    requires Valid(loop)
    ensures var r := UpdateDriverTwin(ResetDriver(loop, driverId), driverId, lapTime, sectors, telemetry, compound,
                                      currentLap, np);
      r.1.changes.isNew && r.0.history[driverId].lapTimes == [lapTime]
  {
  }

  /** Feed a driver's laps one at a time (no telemetry). */
  function Replay(loop: Loop, driverId: string, laps: seq<real>, sectors: DriverTwin.SectorLap, compound: string,
                  currentLap: int, np: DriverTwin.Numpy): (r: Loop)
    requires Valid(loop)
    ensures Valid(r)
    ensures |laps| > 0 ==> driverId in r.history
    decreases |laps|
  {
    if |laps| == 0 then loop
    else
      var before := Replay(loop, driverId, laps[..|laps| - 1], sectors, compound, currentLap, np);
      UpdateDriverTwin(before, driverId, laps[|laps| - 1], sectors, None, compound, currentLap, np).0
  }

  /** However many laps are fed in, the history is exactly the last 50 of
      them (all of them when there are fewer). */
  lemma {:induction false} ReplayKeepsLastFifty(driverId: string, laps: seq<real>, sectors: DriverTwin.SectorLap,
                                                compound: string, currentLap: int, np: DriverTwin.Numpy)
    requires |laps| > 0
    ensures Replay(Empty, driverId, laps, sectors, compound, currentLap, np).history[driverId].lapTimes
         == LastN(laps, MaxHistory)
  {
    var init := laps[..|laps| - 1];
    var x := laps[|laps| - 1];
    assert laps == init + [x];
    var before := Replay(Empty, driverId, init, sectors, compound, currentLap, np);
    if |init| == 0 {
      assert HistoryOf(before, driverId).lapTimes == [];
    } else {
      ReplayKeepsLastFifty(driverId, init, sectors, compound, currentLap, np);
      LastNAppend(init, x, MaxHistory);
    }
  }

  /** Trimming before appending and trimming after give the same window. */
  lemma LastNAppend<T>(xs: seq<T>, x: T, n: nat)
    requires n > 0
    ensures LastN(LastN(xs, n) + [x], n) == LastN(xs + [x], n)
  {
  }
}

=== FILE: labels.dfy ===
/** Qualitative grades the strategy code reports as strings
    ("low", "medium", "high", "critical"). */
module Labels {
  datatype Level = Low | Medium | High | Critical
}

=== FILE: lap_classification.dfy ===
/** The lap classifier (grracing/lap_classification.py): every lap of a
    session is typed by a fixed priority chain — a missing time is an
    error lap, pit activity comes next, then the safety-car and virtual
    safety-car flags, and only then the pace relative to the best lap. */
module LapClassification {
  import opened Wrappers
  import opened Numerics
  import opened Text
  import PyValue
  import Counter

  datatype LapType = OutLap | InLap | HotLap | CoolLap | ErrorLap | PitLap | RaceLap | SafetyCar | VirtualSafetyCar

  /** The enum values, as written into the `lap_type` column. */
  function Name(t: LapType): (s: string)
    ensures |s| > 0
  {
    match t
    case OutLap => "OUT_LAP"
    case InLap => "IN_LAP"
    case HotLap => "HOT_LAP"
    case CoolLap => "COOL_LAP"
    case ErrorLap => "ERROR_LAP"
    case PitLap => "PIT_LAP"
    case RaceLap => "RACE_LAP"
    case SafetyCar => "SAFETY_CAR"
    case VirtualSafetyCar => "VIRTUAL_SAFETY_CAR"
  }

  /** Distinct lap types have distinct names. */
  lemma NameInjective(a: LapType, b: LapType)
    requires Name(a) == Name(b)
    ensures a == b
  {
  }

  /** A dataframe cell: missing (None or NaN), a number, or text. */
  datatype Cell = Missing | Number(x: real) | Str(s: string)

  /** A dataframe: its column labels and its rows in positional order. */
  datatype Frame = Frame(columns: set<string>, rows: seq<map<string, Cell>>)

  /** The cell of row `i` in column `col`; a row without it reads as
      missing. */
  function At(f: Frame, i: nat, col: string): Cell
    requires i < |f.rows|
  {
    if col in f.rows[i] then f.rows[i][col] else Missing
  }

  /** The pace thresholds, as multiples of the best lap. */
  datatype Classifier = Classifier(hotLap: real, coolLap: real, errorLap: real)

  const Default := Classifier(1.02, 1.10, 1.25)

  const LapTimeColumns := ["lap_time", "LapTime", "LAP_TIME", "lap_time_seconds", "LAP_TIME_SECONDS"]
  const PitIndicators := ["PIT_TIME", "pit_time", "PIT_STOP", "pit_stop", "CROSSING_FINISH_LINE_IN_PIT",
                          "crossing_finish_line_in_pit", "IN_PIT", "in_pit"]
  const FlagColumns := ["FLAG", "flag", "FLAG_AT_FL", "flag_at_fl"]

  /** The first lap-time column name the frame has, if any. */
  function LapTimeColumn(f: Frame): (c: Option<string>)
    ensures c.Some? ==> c.value in f.columns && c.value in LapTimeColumns
    ensures c.None? <==> forall k :: 0 <= k < |LapTimeColumns| ==> LapTimeColumns[k] !in f.columns
  {
    FirstPresent(LapTimeColumns, f.columns)
  }

  function FirstPresent(names: seq<string>, columns: set<string>): (c: Option<string>)
    ensures c.Some? ==> c.value in columns && c.value in names
    ensures c.Some? ==> exists k :: 0 <= k < |names| && names[k] == c.value && forall j :: 0 <= j < k ==> names[j] !in columns
    ensures c.None? <==> forall k :: 0 <= k < |names| ==> names[k] !in columns
  {
    if |names| == 0 then None
    else if names[0] in columns then Some(names[0])
    else
      var rest := FirstPresent(names[1..], columns);
      assert forall k :: 1 <= k < |names| ==> names[k] == names[1..][k - 1];
      if rest.Some? then
        var k :| 0 <= k < |names[1..]| && names[1..][k] == rest.value && forall j :: 0 <= j < k ==> names[1..][j] !in columns;
        assert names[k + 1] == rest.value;
        rest
      else rest
  }

  /** The parts of a clock reading, combined as `h * 3600 + m * 60 + s`
      (or `m * 60 + s`); a NaN part makes the whole NaN. */
  function Combine(parts: seq<PyValue.Num>): (n: PyValue.Num)
    requires |parts| == 2 || |parts| == 3
    ensures n.NaN? <==> exists k :: 0 <= k < |parts| && parts[k].NaN?
  {
    if exists k :: 0 <= k < |parts| && parts[k].NaN? then PyValue.NaN
    else if |parts| == 3 then PyValue.Finite(parts[0].value * 3600.0 + parts[1].value * 60.0 + parts[2].value)
    else PyValue.Finite(parts[0].value * 60.0 + parts[1].value)
  }

  /** Parse every piece with `float`; the first that fails raises. */
  function ParseAllFloats(pieces: seq<string>, floatOf: string -> Option<PyValue.Num>): (r: Result<seq<PyValue.Num>, PyError>)
    ensures r.Success? <==> forall k :: 0 <= k < |pieces| ==> floatOf(pieces[k]).Some?
    ensures r.Success? ==> |r.value| == |pieces| && forall k :: 0 <= k < |pieces| ==> r.value[k] == floatOf(pieces[k]).value
    ensures r.Failure? ==> r.error.ValueError?
  {
    if |pieces| == 0 then Success([])
    else
      match floatOf(pieces[0])
      case None => Failure(ValueError("could not convert string to float"))
      case Some(n) =>
        match ParseAllFloats(pieces[1..], floatOf)
        case Failure(e) => Failure(e)
        case Success(ns) =>
          assert forall k :: 1 <= k < |pieces| ==> pieces[k] == pieces[1..][k - 1];
          Success([n] + ns)
  }

  /** `_parse_lap_time`: a missing cell is NaN and a number is itself; text
      with two colons reads as hours, minutes and seconds, with one colon as
      minutes and seconds — a piece that is not a number raises — and any
      other text is `float(text)`, or NaN when that fails. */
  function ParseLapTime(c: Cell, floatOf: string -> Option<PyValue.Num>): (r: Result<PyValue.Num, PyError>)
    ensures r.Failure? ==> r.error.ValueError? && c.Str? && 2 <= |Split(c.s, ':')| <= 3
    ensures c.Missing? ==> r == Success(PyValue.NaN)
    ensures c.Number? ==> r == Success(PyValue.Finite(c.x))
    ensures c.Str? && |Split(c.s, ':')| !in {2, 3} ==> r == Success(floatOf(c.s).GetOr(PyValue.NaN))
  {
    match c
    case Missing => Success(PyValue.NaN)
    case Number(x) => Success(PyValue.Finite(x))
    case Str(s) =>
      var pieces := Split(s, ':');
      if |pieces| == 3 || |pieces| == 2 then
        match ParseAllFloats(pieces, floatOf)
        case Failure(e) => Failure(e)
        case Success(parts) => Success(Combine(parts))
      else Success(floatOf(s).GetOr(PyValue.NaN))
  }

  /** A pit indicator is set when it is neither missing, zero nor empty. */
  predicate Active(c: Cell) {
    match c
    case Missing => false
    case Number(x) => x != 0.0
    case Str(s) => s != ""
  }

  /** `_has_pit_activity`: some pit-indicator column of the row is set. */
  predicate HasPitActivity(f: Frame, i: nat)
    requires i < |f.rows|
  {
    exists k :: 0 <= k < |PitIndicators| && PitIndicators[k] in f.columns && Active(At(f, i, PitIndicators[k]))
  }

  /** `_is_in_lap`: both branches of the heuristic answer False, so no lap
      is ever an in-lap. */
  predicate IsInLap(f: Frame, i: nat)
    requires i < |f.rows|
  {
    false
  }

  /** `_is_out_lap`: the previous row had pit activity. */
  predicate IsOutLap(f: Frame, i: nat)
    requires i < |f.rows|
  {
    i > 0 && HasPitActivity(f, i - 1)
  }

  /** `str(cell).upper()` as far as the flag checks see it: a number or a
      missing cell renders with digits, `.`, `e`, `nan` or `None`, which
      hold none of the flag words, so only text is looked at. */
  function FlagText(c: Cell): string {
    if c.Str? then Upper(c.s) else ""
  }

  /** Some flag column of the row contains one of `words`. */
  predicate FlagSays(f: Frame, i: nat, words: seq<string>)
    requires i < |f.rows|
  {
    exists k, w :: 0 <= k < |FlagColumns| && 0 <= w < |words| && FlagColumns[k] in f.columns &&
                   Contains(words[w], FlagText(At(f, i, FlagColumns[k])))
  }

  /** `_is_safety_car`. */
  predicate IsSafetyCar(f: Frame, i: nat)
    requires i < |f.rows|
  {
    FlagSays(f, i, ["SC", "SAFETY", "CAUTION"])
  }

  /** `_is_virtual_safety_car`. */
  predicate IsVirtualSafetyCar(f: Frame, i: nat)
    requires i < |f.rows|
  {
    FlagSays(f, i, ["VSC", "VIRTUAL"])
  }

  /** The pace buckets on `t / best`: at most the hot threshold is a hot
      lap, at least the error threshold an error lap, at least the cool
      threshold a cool lap. With a zero best lap numpy divides to +inf (an
      error lap), -inf (a hot lap) or NaN (no bucket matches: a race lap). */
  function PaceClass(c: Classifier, t: real, best: real): (r: LapType)
    ensures r in {HotLap, ErrorLap, CoolLap, RaceLap}
    ensures best != 0.0 ==> (r == HotLap <==> t / best <= c.hotLap)
    ensures best != 0.0 && t / best > c.hotLap ==>
      (r == ErrorLap <==> t / best >= c.errorLap) &&
      (r == CoolLap <==> c.coolLap <= t / best < c.errorLap)
  {
    if best == 0.0 then
      if t > 0.0 then ErrorLap else if t < 0.0 then HotLap else RaceLap
    else
      var relative := t / best;
      if relative <= c.hotLap then HotLap
      else if relative >= c.errorLap then ErrorLap
      else if relative >= c.coolLap then CoolLap
      else RaceLap
  }

  /** The per-row decision of `classify_laps`. */
  function ClassifyRow(c: Classifier, f: Frame, i: nat, t: PyValue.Num, best: real): LapType
    requires i < |f.rows|
  {
    if t.NaN? then ErrorLap
    else if HasPitActivity(f, i) then
      if IsInLap(f, i) then InLap else if IsOutLap(f, i) then OutLap else PitLap
    else if IsSafetyCar(f, i) then SafetyCar
    else if IsVirtualSafetyCar(f, i) then VirtualSafetyCar
    else PaceClass(c, t.value, best)
  }

  /** The lap-time column parsed row by row; the first row that raises
      aborts. */
  function ParseColumn(f: Frame, col: string, floatOf: string -> Option<PyValue.Num>, n: nat): (r: Result<seq<PyValue.Num>, PyError>)
    requires n <= |f.rows|
    ensures r.Success? <==> forall k :: 0 <= k < n ==> ParseLapTime(At(f, k, col), floatOf).Success?
    ensures r.Success? ==> |r.value| == n && forall k :: 0 <= k < n ==> r.value[k] == ParseLapTime(At(f, k, col), floatOf).value
    ensures r.Failure? ==> r.error.ValueError?
  {
    if n == 0 then Success([])
    else
      match ParseColumn(f, col, floatOf, n - 1)
      case Failure(e) => Failure(e)
      case Success(ts) =>
        match ParseLapTime(At(f, n - 1, col), floatOf)
        case Failure(e) => Failure(e)
        case Success(t) => Success(ts + [t])
  }

  /** The non-NaN times, in order. */
  function FiniteTimes(ts: seq<PyValue.Num>): (r: seq<real>)
    ensures |r| <= |ts|
    ensures forall x :: x in r <==> PyValue.Finite(x) in ts
  {
    if |ts| == 0 then []
    else
      var prev := FiniteTimes(ts[..|ts| - 1]);
      assert ts == ts[..|ts| - 1] + [ts[|ts| - 1]];
      if ts[|ts| - 1].Finite? then prev + [ts[|ts| - 1].value] else prev
  }

  /** The classification of parsed times: all race laps when none is
      valid, otherwise each row by the priority chain against the best
      valid time. */
  function ClassifyTimes(c: Classifier, f: Frame, ts: seq<PyValue.Num>): (r: seq<LapType>)
    requires |ts| == |f.rows|
    ensures |r| == |f.rows|
    ensures forall k :: 0 <= k < |r| ==> r[k] != InLap
  {
    var valid := FiniteTimes(ts);
    if |valid| == 0 then seq(|f.rows|, _ => RaceLap)
    else
      var best := SeqMin(valid);
      seq(|f.rows|, k requires 0 <= k < |f.rows| => ClassifyRow(c, f, k, ts[k], best))
  }

  /** `classify_laps`: every row is a race lap when there is no lap-time
      column or no valid time; otherwise each row follows the priority
      chain with the best valid time as the pace reference. A clock
      reading with a non-numeric piece raises. */
  function ClassifyLaps(c: Classifier, f: Frame, floatOf: string -> Option<PyValue.Num>): (r: Result<seq<LapType>, PyError>)
    ensures r.Success? ==> |r.value| == |f.rows|
    ensures r.Success? ==> forall k :: 0 <= k < |r.value| ==> r.value[k] != InLap
    ensures r.Failure? ==> r.error.ValueError? && LapTimeColumn(f).Some?
    ensures r.Failure? <==> LapTimeColumn(f).Some? &&
                            (exists k :: 0 <= k < |f.rows| && ParseLapTime(At(f, k, LapTimeColumn(f).value), floatOf).Failure?)
    ensures LapTimeColumn(f).None? ==> r.Success? && forall k :: 0 <= k < |f.rows| ==> r.value[k] == RaceLap
  {
    match LapTimeColumn(f)
    case None => Success(seq(|f.rows|, _ => RaceLap))
    case Some(col) =>
      match ParseColumn(f, col, floatOf, |f.rows|)
      case Failure(e) => Failure(e)
      case Success(ts) => Success(ClassifyTimes(c, f, ts))
  }

  /** The parsed lap-time column of a frame whose classification
      succeeded. */
  function Times(c: Classifier, f: Frame, floatOf: string -> Option<PyValue.Num>): (ts: seq<PyValue.Num>)
    requires LapTimeColumn(f).Some? && ClassifyLaps(c, f, floatOf).Success?
    ensures |ts| == |f.rows|
    ensures forall k :: 0 <= k < |f.rows| ==> ts[k] == ParseLapTime(At(f, k, LapTimeColumn(f).value), floatOf).value
    ensures ClassifyLaps(c, f, floatOf).value == ClassifyTimes(c, f, ts)
  {
    ParseColumn(f, LapTimeColumn(f).value, floatOf, |f.rows|).value
  }

  /** A row whose lap time is missing is an error lap (as long as some row
      has a valid time to classify against). */
  lemma MissingTimeIsErrorLap(c: Classifier, f: Frame, floatOf: string -> Option<PyValue.Num>, k: nat, j: nat, y: real)
    requires k < |f.rows| && j < |f.rows| && LapTimeColumn(f).Some?
    requires At(f, k, LapTimeColumn(f).value).Missing?
    requires ParseLapTime(At(f, j, LapTimeColumn(f).value), floatOf) == Success(PyValue.Finite(y))
    ensures ClassifyLaps(c, f, floatOf).Success? ==> ClassifyLaps(c, f, floatOf).value[k] == ErrorLap
  {
    if ClassifyLaps(c, f, floatOf).Success? {
      var ts := Times(c, f, floatOf);
      assert ts[j].value in FiniteTimes(ts);
      assert ts[k].NaN?;
    }
  }

  /** Pit activity takes priority over flags and pace: a timed row with pit
      activity is an out-lap when the previous row also had pit activity
      and a pit lap otherwise. */
  lemma PitActivityFirst(c: Classifier, f: Frame, floatOf: string -> Option<PyValue.Num>, k: nat, x: real)
    requires k < |f.rows| && LapTimeColumn(f).Some?
    requires ParseLapTime(At(f, k, LapTimeColumn(f).value), floatOf) == Success(PyValue.Finite(x))
    requires HasPitActivity(f, k)
    ensures ClassifyLaps(c, f, floatOf).Success? ==>
      ClassifyLaps(c, f, floatOf).value[k] == if k > 0 && HasPitActivity(f, k - 1) then OutLap else PitLap
  {
    if ClassifyLaps(c, f, floatOf).Success? {
      var ts := Times(c, f, floatOf);
      assert x in FiniteTimes(ts);
    }
  }

  /** A flag reading "VSC" trips the safety-car check, since it contains
      "SC". */
  lemma VscFlagSaysSafetyCar(f: Frame, k: nat, flagColumn: nat)
    requires k < |f.rows|
    requires flagColumn < |FlagColumns| && FlagColumns[flagColumn] in f.columns
    requires At(f, k, FlagColumns[flagColumn]) == Str("VSC")
    ensures IsSafetyCar(f, k) && IsVirtualSafetyCar(f, k)
  {
    var flag := FlagText(At(f, k, FlagColumns[flagColumn]));
    assert flag == "VSC";
    assert flag[1..] == "SC";
    assert IsPrefix("SC", flag[1..]);
    assert Contains(["SC", "SAFETY", "CAUTION"][0], flag);
    assert IsPrefix("VSC", flag);
    assert Contains(["VSC", "VIRTUAL"][0], flag);
  }

  /** So a timed lap without pit activity under a "VSC" flag is classified
      as a full safety car. */
  lemma VscFlagIsSafetyCar(c: Classifier, f: Frame, floatOf: string -> Option<PyValue.Num>, k: nat, x: real,
                           flagColumn: nat)
    requires k < |f.rows| && LapTimeColumn(f).Some?
    requires ParseLapTime(At(f, k, LapTimeColumn(f).value), floatOf) == Success(PyValue.Finite(x))
    requires !HasPitActivity(f, k)
    requires flagColumn < |FlagColumns| && FlagColumns[flagColumn] in f.columns
    requires At(f, k, FlagColumns[flagColumn]) == Str("VSC")
    ensures ClassifyLaps(c, f, floatOf).Success? ==> ClassifyLaps(c, f, floatOf).value[k] == SafetyCar
  {
    if ClassifyLaps(c, f, floatOf).Success? {
      var ts := Times(c, f, floatOf);
      assert x in FiniteTimes(ts);
      VscFlagSaysSafetyCar(f, k, flagColumn);
    }
  }

  /** The virtual safety car type is given only to a timed lap without pit
      activity whose flags say "VSC" or "VIRTUAL" but none of the
      safety-car words. */
  lemma VirtualSafetyCarOnlyWithoutSafetyWords(c: Classifier, f: Frame, floatOf: string -> Option<PyValue.Num>, k: nat)
    requires k < |f.rows|
    ensures ClassifyLaps(c, f, floatOf).Success? && ClassifyLaps(c, f, floatOf).value[k] == VirtualSafetyCar ==>
      LapTimeColumn(f).Some? && ParseLapTime(At(f, k, LapTimeColumn(f).value), floatOf).value.Finite? &&
      !HasPitActivity(f, k) && !IsSafetyCar(f, k) && IsVirtualSafetyCar(f, k)
  {
    if ClassifyLaps(c, f, floatOf).Success? && LapTimeColumn(f).Some? {
      var ts := Times(c, f, floatOf);
    }
  }

  /** With the default thresholds, the fastest lap of a session without
      pit activity or flags on it is a hot lap, unless the best time is
      zero. */
  lemma BestLapIsHot(f: Frame, floatOf: string -> Option<PyValue.Num>, k: nat, t: real)
    requires k < |f.rows| && LapTimeColumn(f).Some?
    requires ParseLapTime(At(f, k, LapTimeColumn(f).value), floatOf) == Success(PyValue.Finite(t)) && t != 0.0
    requires !HasPitActivity(f, k) && !IsSafetyCar(f, k) && !IsVirtualSafetyCar(f, k)
    ensures ClassifyLaps(Default, f, floatOf).Success? &&
      (forall j :: 0 <= j < |f.rows| ==> !PyValue.Below(ParseLapTime(At(f, j, LapTimeColumn(f).value), floatOf).value, t))
      ==> ClassifyLaps(Default, f, floatOf).value[k] == HotLap
  {
    if ClassifyLaps(Default, f, floatOf).Success? &&
       forall j :: 0 <= j < |f.rows| ==> !PyValue.Below(ParseLapTime(At(f, j, LapTimeColumn(f).value), floatOf).value, t)
    {
      var ts := Times(Default, f, floatOf);
      assert forall j :: 0 <= j < |ts| ==> !PyValue.Below(ts[j], ts[k].value);
      RowClass(Default, f, ts, k);
      BestOfTimes(ts, k);
      FastestRowIsHot(f, k, ts[k].value);
    }
  }

  /** A row timed at the best lap has pace ratio one, within the default
      hot-lap threshold. */
  lemma FastestRowIsHot(f: Frame, k: nat, t: real)
    requires k < |f.rows| && t != 0.0
    requires !HasPitActivity(f, k) && !IsSafetyCar(f, k) && !IsVirtualSafetyCar(f, k)
    ensures ClassifyRow(Default, f, k, PyValue.Finite(t), t) == HotLap
  {
    assert t / t == 1.0;
  }

  /** A timed row is classified by the priority chain against the best
      valid time. */
  lemma RowClass(c: Classifier, f: Frame, ts: seq<PyValue.Num>, k: nat)
    requires |ts| == |f.rows| && k < |ts| && ts[k].Finite?
    ensures |FiniteTimes(ts)| > 0
    ensures ClassifyTimes(c, f, ts)[k] == ClassifyRow(c, f, k, ts[k], SeqMin(FiniteTimes(ts)))
  {
    assert ts[k].value in FiniteTimes(ts);
  }

  /** A valid time no other time is below is the best time. */
  lemma BestOfTimes(ts: seq<PyValue.Num>, k: nat)
    requires k < |ts| && ts[k].Finite?
    requires forall j :: 0 <= j < |ts| ==> !PyValue.Below(ts[j], ts[k].value)
    ensures |FiniteTimes(ts)| > 0 && SeqMin(FiniteTimes(ts)) == ts[k].value
  {
    var valid := FiniteTimes(ts);
    assert ts[k].value in valid;
    var best := SeqMin(valid);
    assert PyValue.Finite(best) in ts;
    var j :| 0 <= j < |ts| && ts[j] == PyValue.Finite(best);
    assert !PyValue.Below(ts[j], ts[k].value);
  }

  const ExcludedFromRace := ["ERROR_LAP", "PIT_LAP", "IN_LAP", "OUT_LAP", "SAFETY_CAR"]

  /** `~isin(exclude_types)`: a cell is kept unless it holds one of the
      excluded names. */
  predicate KeptForRace(c: Cell) {
    !(c.Str? && c.s in ExcludedFromRace)
  }

  /** The positions of the rows whose cell satisfies `keep`, in order. */
  function Select(column: seq<Cell>, keep: Cell -> bool): (r: seq<nat>)
    ensures forall i, j :: 0 <= i < j < |r| ==> r[i] < r[j]
    ensures forall k :: 0 <= k ==> (k in r <==> k < |column| && keep(column[k]))
    ensures |r| <= |column|
  {
    if |column| == 0 then []
    else
      var prev := Select(column[..|column| - 1], keep);
      assert forall k :: 0 <= k < |column| - 1 ==> column[..|column| - 1][k] == column[k];
      assert forall x :: x in prev ==> x < |column| - 1;
      assert forall i :: 0 <= i < |prev| ==> prev[i] in prev;
      if keep(column[|column| - 1]) then prev + [|column| - 1] else prev
  }

  /** The `lap_type` column: the one the frame already has, or the names
      `classify_laps` writes. */
  function LapTypeColumn(c: Classifier, f: Frame, floatOf: string -> Option<PyValue.Num>): (r: Result<seq<Cell>, PyError>)
    ensures r.Success? ==> |r.value| == |f.rows|
    ensures "lap_type" in f.columns ==> r == Success(seq(|f.rows|, k requires 0 <= k < |f.rows| => At(f, k, "lap_type")))
    ensures "lap_type" !in f.columns ==> r.Success? == ClassifyLaps(c, f, floatOf).Success?
    ensures "lap_type" !in f.columns && r.Success? ==>
      forall k :: 0 <= k < |f.rows| ==> r.value[k] == Str(Name(ClassifyLaps(c, f, floatOf).value[k]))
  {
    if "lap_type" in f.columns then Success(seq(|f.rows|, k requires 0 <= k < |f.rows| => At(f, k, "lap_type")))
    else
      match ClassifyLaps(c, f, floatOf)
      case Failure(e) => Failure(e)
      case Success(types) => Success(seq(|types|, k requires 0 <= k < |types| => Str(Name(types[k]))))
  }

  /** `filter_race_laps`: the positions of the rows not typed as an error,
      pit, in-, out- or safety-car lap. */
  function FilterRaceLaps(c: Classifier, f: Frame, floatOf: string -> Option<PyValue.Num>): (r: Result<seq<nat>, PyError>)
    ensures r.Success? == LapTypeColumn(c, f, floatOf).Success?
    ensures r.Success? ==> forall i, j :: 0 <= i < j < |r.value| ==> r.value[i] < r.value[j]
    ensures r.Success? ==> forall k :: 0 <= k ==> (k in r.value <==> k < |f.rows| && KeptForRace(LapTypeColumn(c, f, floatOf).value[k]))
  {
    match LapTypeColumn(c, f, floatOf)
    case Failure(e) => Failure(e)
    case Success(column) => Success(Select(column, KeptForRace))
  }

  /** `filter_hot_laps`: the positions of the hot laps. */
  function FilterHotLaps(c: Classifier, f: Frame, floatOf: string -> Option<PyValue.Num>): (r: Result<seq<nat>, PyError>)
    ensures r.Success? == LapTypeColumn(c, f, floatOf).Success?
    ensures r.Success? ==> forall k :: 0 <= k ==> (k in r.value <==> k < |f.rows| && LapTypeColumn(c, f, floatOf).value[k] == Str("HOT_LAP"))
  {
    match LapTypeColumn(c, f, floatOf)
    case Failure(e) => Failure(e)
    case Success(column) => Success(Select(column, x => x == Str("HOT_LAP")))
  }

  /** `get_lap_type_counts`: how many rows carry each (non-missing) lap
      type. */
  function LapTypeCounts(c: Classifier, f: Frame, floatOf: string -> Option<PyValue.Num>): (r: Result<map<Cell, nat>, PyError>)
    ensures r.Success? == LapTypeColumn(c, f, floatOf).Success?
    ensures r.Success? ==> var column := LapTypeColumn(c, f, floatOf).value;
      forall x :: x in r.value <==> x in column && !x.Missing?
  {
    match LapTypeColumn(c, f, floatOf)
    case Failure(e) => Failure(e)
    case Success(column) => Success(map x | x in column && !x.Missing? :: Counter.Count(column, x))
  }

  /** For a freshly classified frame, the race-lap filter keeps exactly the
      hot, cool, plain race and virtual-safety-car laps. */
  lemma RaceLapsAreTheUnflaggedOnes(c: Classifier, f: Frame, floatOf: string -> Option<PyValue.Num>, k: nat)
    requires "lap_type" !in f.columns && k < |f.rows|
    ensures ClassifyLaps(c, f, floatOf).Success? ==>
      (k in FilterRaceLaps(c, f, floatOf).value <==>
       ClassifyLaps(c, f, floatOf).value[k] in {HotLap, CoolLap, RaceLap, VirtualSafetyCar})
  {
    if ClassifyLaps(c, f, floatOf).Success? {
      var t := ClassifyLaps(c, f, floatOf).value[k];
      assert LapTypeColumn(c, f, floatOf).value[k] == Str(Name(t));
      KeptNames(t);
    }
  }

  /** The names the race-lap filter keeps. */
  lemma KeptNames(t: LapType)
    ensures KeptForRace(Str(Name(t))) <==> t in {HotLap, CoolLap, RaceLap, VirtualSafetyCar}
  {
  }

  /** On a freshly classified frame every row has a type, so the counts add
      up to the number of rows. */
  lemma CountsCoverEveryRow(c: Classifier, f: Frame, floatOf: string -> Option<PyValue.Num>)
    requires "lap_type" !in f.columns
    ensures ClassifyLaps(c, f, floatOf).Success? ==>
      var column := LapTypeColumn(c, f, floatOf).value;
      var counts := LapTypeCounts(c, f, floatOf).value;
      Counter.CountTotal(Counter.Keys(column), column) == |f.rows| &&
      forall x :: x in Counter.Keys(column) ==> x in counts && counts[x] == Counter.Count(column, x)
  {
    if ClassifyLaps(c, f, floatOf).Success? {
      var column := LapTypeColumn(c, f, floatOf).value;
      Counter.CountsAddUp(column);
    }
  }

  /** Splitting `a:b` where neither side has a colon gives the two sides. */
  lemma SplitTwo(a: string, b: string)
    requires ':' !in a && ':' !in b
    ensures Split(a + [':'] + b, ':') == [a, b]
  {
    SplitWithout(b);
    SplitAfter(a, b);
  }

  lemma {:induction false} SplitWithout(s: string)
    requires ':' !in s
    ensures Split(s, ':') == [s]
    decreases |s|
  {
    if |s| > 0 {
      SplitWithout(s[1..]);
      assert [s[0]] + s[1..] == s;
    }
  }

  /** A colon-free prefix followed by a colon is split off as one piece. */
  lemma {:induction false} SplitAfter(a: string, b: string)
    requires ':' !in a
    ensures Split(a + [':'] + b, ':') == [a] + Split(b, ':')
    decreases |a|
  {
    var s := a + [':'] + b;
    if |a| == 0 {
      assert s == [':'] + b;
      assert s[1..] == b;
    } else {
      assert s[1..] == a[1..] + [':'] + b;
      SplitAfter(a[1..], b);
      assert [a[0]] + a[1..] == a;
    }
  }

  /** "M:S" reads as `m * 60 + s` and "H:M:S" as `h * 3600 + m * 60 + s`. */
  lemma ClockReadings(h: string, m: string, s: string, floatOf: string -> Option<PyValue.Num>, hv: real, mv: real, sv: real)
    requires ':' !in h && ':' !in m && ':' !in s
    requires floatOf(h) == Some(PyValue.Finite(hv)) && floatOf(m) == Some(PyValue.Finite(mv))
    requires floatOf(s) == Some(PyValue.Finite(sv))
    ensures ParseLapTime(Str(m + [':'] + s), floatOf) == Success(PyValue.Finite(mv * 60.0 + sv))
    ensures ParseLapTime(Str(h + [':'] + m + [':'] + s), floatOf) == Success(PyValue.Finite(hv * 3600.0 + mv * 60.0 + sv))
  {
    MinuteReading(m, s, floatOf, mv, sv);
    HourReading(h, m, s, floatOf, hv, mv, sv);
  }

  lemma MinuteReading(m: string, s: string, floatOf: string -> Option<PyValue.Num>, mv: real, sv: real)
    requires ':' !in m && ':' !in s
    requires floatOf(m) == Some(PyValue.Finite(mv)) && floatOf(s) == Some(PyValue.Finite(sv))
    ensures ParseLapTime(Str(m + [':'] + s), floatOf) == Success(PyValue.Finite(mv * 60.0 + sv))
  {
    SplitTwo(m, s);
    var parts := ParseAllFloats([m, s], floatOf).value;
    assert parts == [PyValue.Finite(mv), PyValue.Finite(sv)];
  }

  lemma HourReading(h: string, m: string, s: string, floatOf: string -> Option<PyValue.Num>, hv: real, mv: real, sv: real)
    requires ':' !in h && ':' !in m && ':' !in s
    requires floatOf(h) == Some(PyValue.Finite(hv)) && floatOf(m) == Some(PyValue.Finite(mv))
    requires floatOf(s) == Some(PyValue.Finite(sv))
    ensures ParseLapTime(Str(h + [':'] + m + [':'] + s), floatOf) == Success(PyValue.Finite(hv * 3600.0 + mv * 60.0 + sv))
  {
    SplitThree(h, m, s);
    var parts := ParseAllFloats([h, m, s], floatOf).value;
    assert parts == [PyValue.Finite(hv), PyValue.Finite(mv), PyValue.Finite(sv)];
    assert Combine(parts) == PyValue.Finite(hv * 3600.0 + mv * 60.0 + sv);
  }

  /** Splitting `a:b:c` where no part has a colon gives the three parts. */
  lemma SplitThree(a: string, b: string, c: string)
    requires ':' !in a && ':' !in b && ':' !in c
    ensures Split(a + [':'] + b + [':'] + c, ':') == [a, b, c]
  {
    var tail := b + [':'] + c;
    SplitTwo(b, c);
    SplitAfter(a, tail);
    assert a + [':'] + b + [':'] + c == a + [':'] + tail;
  }
}

=== FILE: lap_time_predictor.dfy ===
/** The untrained path of the lap-time predictor
    (grracing/models/lap_time_predictor.py): the feature encoding, the
    formula-based fallback with its 90-second floor, and the reported
    factors. The normal draw `np.random.normal(0, variance)` is
    `variance * z` for a standard-normal draw `z` given as a parameter. */
module LapTimePredictor {
  import opened Wrappers
  import opened Numerics

  /** Track-condition encoding; unknown conditions encode as dry (0). */
  function ConditionCode(condition: string): (c: int)
    ensures 0 <= c <= 3
    ensures condition !in {"dry", "damp", "wet", "mixed"} ==> c == 0
  {
    if condition == "damp" then 1
    else if condition == "wet" then 2
    else if condition == "mixed" then 3
    else 0
  }

  /** Lap-time multiplier per condition code; an unknown code uses 1.0. */
  function ConditionMultiplier(code: int): (m: real)
    ensures 1.0 <= m <= 1.15
    ensures code !in {0, 1, 2, 3} ==> m == 1.0
  {
    if code == 1 then 1.08
    else if code == 2 then 1.15
    else if code == 3 then 1.12
    else 1.0
  }

  /** The feature vector of `_prepare_features`, in its order; the fuel load
      is normalised to a fraction. */
  datatype Features = Features(trackTemp: real, ambientTemp: real, tireAge: int, stintNumber: int,
                               fuelFraction: real, condition: int, s1: real, s2: real, s3: real,
                               paceVector: real, consistency: real, baseLapTime: real)

  /** A sector time, or 0 when it (or the whole map) is missing. */
  function SectorTime(sectorTimes: Option<map<string, real>>, sector: string): (t: real)
    ensures sectorTimes.None? ==> t == 0.0
    ensures sectorTimes.Some? && sector in sectorTimes.value ==> t == sectorTimes.value[sector]
    ensures sectorTimes.Some? && sector !in sectorTimes.value ==> t == 0.0
  {
    match sectorTimes
    case None => 0.0
    case Some(m) => if sector in m then m[sector] else 0.0
  }

  function PrepareFeatures(trackTemp: real, ambientTemp: real, tireAge: int, stintNumber: int, fuelLoad: real,
                           condition: string, sectorTimes: Option<map<string, real>>, paceVector: real,
                           consistency: real, baseLapTime: real): (f: Features)
    ensures f.fuelFraction * 100.0 == fuelLoad
    ensures f.condition == ConditionCode(condition)
    ensures f.s1 == SectorTime(sectorTimes, "S1") && f.s2 == SectorTime(sectorTimes, "S2")
    ensures f.s3 == SectorTime(sectorTimes, "S3")
    ensures f.trackTemp == trackTemp && f.tireAge == tireAge && f.paceVector == paceVector
    ensures f.consistency == consistency && f.baseLapTime == baseLapTime
  {
    Features(trackTemp, ambientTemp, tireAge, stintNumber, fuelLoad / 100.0, ConditionCode(condition),
             SectorTime(sectorTimes, "S1"), SectorTime(sectorTimes, "S2"), SectorTime(sectorTimes, "S3"),
             paceVector, consistency, baseLapTime)
  }

  /** The noiseless formula: the base time scaled by the temperature, tyre,
      fuel, condition and pace-vector factors in turn. */
  function Formula(f: Features, baseLapTime: real): real {
    var temperature := (f.trackTemp - 25.0) * 0.002;
    var degradation := f.tireAge as real * 0.002;
    var fuel := (100.0 - f.fuelFraction * 100.0) * 0.0001;
    Scaled(baseLapTime, temperature, degradation, fuel, ConditionMultiplier(f.condition), f.paceVector)
  }

  /** The base time scaled by each factor in turn. */
  function Scaled(baseLapTime: real, temperature: real, degradation: real, fuel: real, condition: real,
                  paceVector: real): real {
    baseLapTime * (1.0 + temperature) * (1.0 + degradation) * (1.0 - fuel) * condition * (1.0 + paceVector)
  }

  /** `_fallback_prediction`: the formula plus a normal draw whose scale is
      `(1 - consistency) * 0.5`, floored at 90 seconds. numpy refuses a
      negative scale, so a consistency above 1 raises. */
  function FallbackPrediction(f: Features, baseLapTime: real, z: real): (r: Result<real, PyError>)
    ensures r.Failure? <==> f.consistency > 1.0
    ensures r.Failure? ==> r.error.ValueError?
    ensures r.Success? ==> r.value >= 90.0
    ensures r.Success? ==> r.value >= Formula(f, baseLapTime) + (1.0 - f.consistency) * 0.5 * z
    ensures r.Success? && f.consistency == 1.0 ==> r.value == Max(Formula(f, baseLapTime), 90.0)
  {
    var variance := (1.0 - f.consistency) * 0.5;
    if variance < 0.0 then Failure(ValueError("scale < 0"))
    else Success(Max(Formula(f, baseLapTime) + variance * z, 90.0))
  }

  /** The `factors` dict reported next to the prediction. */
  datatype Factors = Factors(temperatureEffect: real, tireDegradation: real, fuelEffect: real, paceVectorEffect: real)

  datatype Prediction = Prediction(predictedLapTime: real, confidence: real, baseLapTime: real, factors: Factors)

  function ReportedFactors(trackTemp: real, tireAge: int, fuelLoad: real, paceVector: real, baseLapTime: real): Factors {
    Factors((trackTemp - 25.0) * 0.002, tireAge as real * 0.002, (100.0 - fuelLoad) * 0.0001, paceVector * baseLapTime)
  }

  /** `predict` on an untrained model: the fallback prediction with
      confidence 0.7. */
  function Predict(trackTemp: real, ambientTemp: real, tireAge: int, stintNumber: int, fuelLoad: real,
                   condition: string, sectorTimes: Option<map<string, real>>, paceVector: real,
                   consistency: real, baseLapTime: real, z: real): (r: Result<Prediction, PyError>)
    ensures r.Failure? <==> consistency > 1.0
    ensures r.Success? ==> r.value.predictedLapTime >= 90.0 && r.value.confidence == 0.7
    ensures r.Success? ==> r.value.baseLapTime == baseLapTime
    ensures r.Success? ==> r.value.factors == ReportedFactors(trackTemp, tireAge, fuelLoad, paceVector, baseLapTime)
  {
    var f := PrepareFeatures(trackTemp, ambientTemp, tireAge, stintNumber, fuelLoad, condition, sectorTimes,
                             paceVector, consistency, baseLapTime);
    match FallbackPrediction(f, baseLapTime, z)
    case Failure(e) => Failure(e)
    case Success(t) =>
      Success(Prediction(t, 0.7, baseLapTime, ReportedFactors(trackTemp, tireAge, fuelLoad, paceVector, baseLapTime)))
  }

  /** The reported temperature, tyre and fuel factors are the very factors
      the fallback applies: with a perfectly consistent driver (no noise),
      the prediction is the base time scaled by them, floored at 90 s. */
  lemma ReportedFactorsDriveFallback(trackTemp: real, ambientTemp: real, tireAge: int, stintNumber: int,
                                     fuelLoad: real, condition: string, sectorTimes: Option<map<string, real>>,
                                     paceVector: real, baseLapTime: real, z: real)
    ensures var p := Predict(trackTemp, ambientTemp, tireAge, stintNumber, fuelLoad, condition, sectorTimes,
                             paceVector, 1.0, baseLapTime, z).value;
      p.predictedLapTime == Max(baseLapTime * (1.0 + p.factors.temperatureEffect) * (1.0 + p.factors.tireDegradation) *
                                (1.0 - p.factors.fuelEffect) * ConditionMultiplier(ConditionCode(condition)) *
                                (1.0 + paceVector), 90.0)
  {
    var f := PrepareFeatures(trackTemp, ambientTemp, tireAge, stintNumber, fuelLoad, condition, sectorTimes,
                             paceVector, 1.0, baseLapTime);
    var fac := ReportedFactors(trackTemp, tireAge, fuelLoad, paceVector, baseLapTime);
    var p := Predict(trackTemp, ambientTemp, tireAge, stintNumber, fuelLoad, condition, sectorTimes,
                     paceVector, 1.0, baseLapTime, z).value;
    assert p.predictedLapTime == Max(Formula(f, baseLapTime), 90.0) && p.factors == fac;
    FormulaFromFactors(f, fuelLoad, fac, baseLapTime);
  }

  /** The formula is the base time scaled by the reported factors. */
  lemma FormulaFromFactors(f: Features, fuelLoad: real, fac: Factors, baseLapTime: real)
    requires f.fuelFraction * 100.0 == fuelLoad
    requires fac == ReportedFactors(f.trackTemp, f.tireAge, fuelLoad, f.paceVector, baseLapTime)
    ensures Formula(f, baseLapTime) == Scaled(baseLapTime, fac.temperatureEffect, fac.tireDegradation, fac.fuelEffect,
                                              ConditionMultiplier(f.condition), f.paceVector)
  {
    assert (100.0 - f.fuelFraction * 100.0) * 0.0001 == fac.fuelEffect;
    assert (f.trackTemp - 25.0) * 0.002 == fac.temperatureEffect;
    assert f.tireAge as real * 0.002 == fac.tireDegradation;
  }

  /** Older tyres are never faster: with no noise and nonnegative factors,
      the fallback is nondecreasing in tyre age. */
  lemma OlderTyresNotFaster(f: Features, older: int, baseLapTime: real, z: real)
    requires f.tireAge <= older && f.consistency == 1.0
    requires baseLapTime >= 0.0 && 1.0 + (f.trackTemp - 25.0) * 0.002 >= 0.0
    requires 1.0 - (100.0 - f.fuelFraction * 100.0) * 0.0001 >= 0.0 && 1.0 + f.paceVector >= 0.0
    ensures FallbackPrediction(f, baseLapTime, z).value <= FallbackPrediction(f.(tireAge := older), baseLapTime, z).value
  {
    var t, fuel := (f.trackTemp - 25.0) * 0.002, (100.0 - f.fuelFraction * 100.0) * 0.0001;
    var g := f.(tireAge := older);
    assert Formula(f, baseLapTime) ==
           Scaled(baseLapTime, t, f.tireAge as real * 0.002, fuel, ConditionMultiplier(f.condition), f.paceVector);
    assert Formula(g, baseLapTime) ==
           Scaled(baseLapTime, t, older as real * 0.002, fuel, ConditionMultiplier(f.condition), f.paceVector);
    ScaledMonotone(baseLapTime, t, f.tireAge as real * 0.002, older as real * 0.002, fuel,
                   ConditionMultiplier(f.condition), f.paceVector);
    assert FallbackPrediction(f, baseLapTime, z).value == Max(Formula(f, baseLapTime), 90.0);
    assert FallbackPrediction(g, baseLapTime, z).value == Max(Formula(g, baseLapTime), 90.0);
  }

  /** A larger tyre factor never lowers the scaled time when the other
      factors are nonnegative. */
  lemma ScaledMonotone(b: real, t: real, d1: real, d2: real, fuel: real, c: real, pv: real)
    requires b >= 0.0 && 1.0 + t >= 0.0 && d1 <= d2 && 1.0 - fuel >= 0.0 && c >= 0.0 && 1.0 + pv >= 0.0
    ensures Scaled(b, t, d1, fuel, c, pv) <= Scaled(b, t, d2, fuel, c, pv)
  {
    MulNonneg(b, 1.0 + t);
    ChainMonotone(b * (1.0 + t), 1.0 + d1, 1.0 + d2, 1.0 - fuel, c, 1.0 + pv);
  }

  /** Raising one factor of a product of nonnegative factors never lowers
      the product. */
  lemma ChainMonotone(a: real, b0: real, b1: real, c: real, d: real, e: real)
    requires a >= 0.0 && b0 <= b1 && c >= 0.0 && d >= 0.0 && e >= 0.0
    ensures a * b0 * c * d * e <= a * b1 * c * d * e
  {
    MulMono(a, b0, b1);
    MulMonoRight(c, a * b0, a * b1);
    MulMonoRight(d, a * b0 * c, a * b1 * c);
    MulMonoRight(e, a * b0 * c * d, a * b1 * c * d);
  }

  lemma MulMonoRight(k: real, x: real, y: real)
    requires k >= 0.0 && x <= y
    ensures x * k <= y * k
  {
    MulMono(k, x, y);
  }
}

=== FILE: ml_tire_degradation.dfy ===
/** The untrained path of the machine-learned tyre-degradation model
    (grracing/models/ml_tire_degradation.py): the feature encoding, the
    rule-based fallback rate, and the post-processing that turns a rate into
    pace loss, a cliff flag and a cliff lap. */
module MLTireDegradation {
  import opened Numerics

  /** The feature vector of `_prepare_features`, in its order. */
  datatype Features = Features(tireAge: int, compound: int, trackTemp: real, ambientTemp: real,
                               tempDelta: real, surface: int, aggression: real, basePace: real)

  /** Compound encoding; names outside the table encode as MEDIUM (1). */
  function CompoundCode(name: string): (c: int)
    ensures 0 <= c <= 4
    ensures name !in {"SOFT", "MEDIUM", "HARD", "SUPER_SOFT", "INTERMEDIATE", "WET"} ==> c == 1
    ensures c == 0 <==> name == "SOFT" || name == "SUPER_SOFT"
  {
    if name == "SOFT" || name == "SUPER_SOFT" then 0
    else if name == "MEDIUM" then 1
    else if name == "HARD" then 2
    else if name == "INTERMEDIATE" then 3
    else if name == "WET" then 4
    else 1
  }

  /** Surface encoding; surfaces outside the table encode as smooth (0). */
  function SurfaceCode(name: string): (c: int)
    ensures 0 <= c <= 3
    ensures name !in {"smooth", "rough", "abrasive", "mixed"} ==> c == 0
  {
    if name == "rough" then 1
    else if name == "abrasive" then 2
    else if name == "mixed" then 3
    else 0
  }

  function PrepareFeatures(tireAge: int, compound: string, trackTemp: real, ambientTemp: real,
                           surface: string, aggression: real, basePace: real): (f: Features)
    ensures f.tempDelta == f.trackTemp - f.ambientTemp
    ensures f.compound == CompoundCode(compound) && f.surface == SurfaceCode(surface)
    ensures f.tireAge == tireAge && f.trackTemp == trackTemp && f.ambientTemp == ambientTemp
    ensures f.aggression == aggression && f.basePace == basePace
  {
    Features(tireAge, CompoundCode(compound), trackTemp, ambientTemp, trackTemp - ambientTemp,
             SurfaceCode(surface), aggression, basePace)
  }

  /** Base rate per compound code; an unknown code uses 0.002. */
  function BaseRate(code: int): (r: real)
    ensures 0.0015 <= r <= 0.005
    ensures code !in {0, 1, 2, 3, 4} ==> r == 0.002
  {
    if code == 0 then 0.003
    else if code == 1 then 0.002
    else if code == 2 then 0.0015
    else if code == 3 then 0.004
    else if code == 4 then 0.005
    else 0.002
  }

  /** Surface multiplier per surface code; an unknown code uses 1.0. */
  function SurfaceEffect(code: int): (e: real)
    ensures 1.0 <= e <= 1.2
    ensures code !in {0, 1, 2, 3} ==> e == 1.0
  {
    if code == 1 then 1.1
    else if code == 2 then 1.2
    else if code == 3 then 1.05
    else 1.0
  }

  /** The uncapped rate: base rate scaled by temperature, aggression and
      surface. */
  function RawRate(f: Features): real {
    BaseRate(f.compound) * (1.0 + (f.trackTemp - 25.0) * 0.01) * (1.0 + f.aggression * 0.2) *
    SurfaceEffect(f.surface)
  }

  /** `_fallback_degradation`: the raw rate capped at 1% per lap. */
  function FallbackDegradation(f: Features): (r: real)
    ensures r <= 0.01
    ensures r <= RawRate(f)
    ensures r == RawRate(f) || r == 0.01
  {
    Min(RawRate(f), 0.01)
  }

  /** The `predict_degradation` result. */
  datatype Prediction = Prediction(tireAge: int, degradationRate: real, paceLoss: real, predictedPace: real,
                                   isCliff: bool, cliffLap: int, confidence: real, compound: string)

  /** `predict_degradation` on an untrained model: the fallback rate with
      confidence 0.7, pace loss `base * rate * age`, a cliff past lap 20 at
      rates above 0.003, and a cliff lap of `int(20 / rate)` (30 when the
      rate is not positive). */
  function PredictDegradation(tireAge: int, compound: string, trackTemp: real, ambientTemp: real,
                              surface: string, aggression: real, basePace: real): (p: Prediction)
    ensures p.degradationRate == FallbackDegradation(PrepareFeatures(tireAge, compound, trackTemp, ambientTemp,
                                                                     surface, aggression, basePace))
    ensures p.degradationRate <= 0.01 && p.confidence == 0.7
    ensures p.paceLoss == basePace * p.degradationRate * tireAge as real
    ensures p.predictedPace == basePace + p.paceLoss
    ensures p.isCliff <==> p.degradationRate > 0.003 && tireAge > 20
    ensures p.degradationRate <= 0.0 ==> p.cliffLap == 30
    ensures p.degradationRate > 0.0 ==> WholeSteps(p.cliffLap, p.degradationRate, 20.0)
  {
    var f := PrepareFeatures(tireAge, compound, trackTemp, ambientTemp, surface, aggression, basePace);
    var rate := FallbackDegradation(f);
    var paceLoss := basePace * rate * tireAge as real;
    var cliffLap := if rate > 0.0 then (TruncQuotient(20.0, rate); Trunc(20.0 / rate)) else 30;
    Prediction(tireAge, rate, paceLoss, basePace + paceLoss, rate > 0.003 && tireAge > 20, cliffLap, 0.7,
               compound)
  }

  /** Because the rate is capped at 0.01, a positive rate never puts the
      cliff lap before lap 2000: the reported cliff lap is far beyond any
      race distance. */
  lemma CliffLapBeyondRace(tireAge: int, compound: string, trackTemp: real, ambientTemp: real,
                           surface: string, aggression: real, basePace: real)
    ensures var p := PredictDegradation(tireAge, compound, trackTemp, ambientTemp, surface, aggression, basePace);
      p.degradationRate > 0.0 ==> p.cliffLap >= 2000
  {
    var p := PredictDegradation(tireAge, compound, trackTemp, ambientTemp, surface, aggression, basePace);
    if p.degradationRate > 0.0 {
      StepsUnderCap(p.cliffLap, p.degradationRate);
    }
  }

  /** `k` whole steps of a rate at most 0.01 fitting in 20 means `k >= 2000`. */
  lemma StepsUnderCap(k: int, rate: real)
    requires 0.0 < rate <= 0.01 && WholeSteps(k, rate, 20.0)
    ensures k >= 2000
  {
    if k < 2000 {
      assert k as real + 1.0 <= 2000.0;
      MulMono(rate, k as real + 1.0, 2000.0);
      MulMono(2000.0, rate, 0.01);
      assert false;
    }
  }

  /** For the same conditions (positive temperature and aggression factors),
      a softer compound code degrades at least as fast: SOFT (0) >= MEDIUM
      (1) >= HARD (2). */
  lemma SofterWearsFaster(f: Features)
    requires 1.0 + (f.trackTemp - 25.0) * 0.01 > 0.0 && 1.0 + f.aggression * 0.2 > 0.0
    ensures FallbackDegradation(f.(compound := 2)) <= FallbackDegradation(f.(compound := 1))
    ensures FallbackDegradation(f.(compound := 1)) <= FallbackDegradation(f.(compound := 0))
  {
    var t := 1.0 + (f.trackTemp - 25.0) * 0.01;
    var a := 1.0 + f.aggression * 0.2;
    var c := t * a * SurfaceEffect(f.surface);
    assert c > 0.0 by {
      MulStrict(t, 0.0, a);
      assert t * a > 0.0;
      MulStrict(t * a, 0.0, SurfaceEffect(f.surface));
    }
    forall code | code in {0, 1, 2}
      ensures RawRate(f.(compound := code)) == BaseRate(code) * c
    {
    }
    MulMono(c, 0.0015, 0.002);
    MulMono(c, 0.002, 0.003);
  }

  /** Hotter track, faster wear: with positive aggression and base factors,
      the fallback rate is nondecreasing in track temperature. */
  lemma HotterWearsFaster(f: Features, hotter: real)
    requires f.trackTemp <= hotter && 1.0 + f.aggression * 0.2 >= 0.0
    ensures FallbackDegradation(f) <= FallbackDegradation(f.(trackTemp := hotter))
  {
    var b := BaseRate(f.compound);
    var a := 1.0 + f.aggression * 0.2;
    var e := SurfaceEffect(f.surface);
    var t0 := 1.0 + (f.trackTemp - 25.0) * 0.01;
    var t1 := 1.0 + (hotter - 25.0) * 0.01;
    MulNonneg(b, a);
    MulNonneg(b * a, e);
    TemperatureLast(b, t0, a, e);
    TemperatureLast(b, t1, a, e);
    MulMono(b * a * e, t0, t1);
    assert RawRate(f) == b * t0 * a * e;
    assert RawRate(f.(trackTemp := hotter)) == b * t1 * a * e;
    assert RawRate(f) <= RawRate(f.(trackTemp := hotter));
    assert FallbackDegradation(f) == Min(RawRate(f), 0.01);
  }

  lemma TemperatureLast(b: real, t: real, a: real, e: real)
    ensures b * t * a * e == b * a * e * t
  {
  }
}

=== FILE: ml_traffic_loss.dfy ===
/** The untrained path of the machine-learned traffic-loss model
    (grracing/models/ml_traffic_loss.py): the feature encoding, the
    rule-based fallback, and the clamped result with its clean-air bonus. */
module MLTrafficLoss {
  import opened Numerics
  import TrafficLoss

  /** The feature vector of `_prepare_features`, in its order. */
  datatype Features = Features(carsAhead: int, sector: int, density: real, position: int, totalCars: int,
                               positionRatio: real, trackType: int)

  /** Sector encoding; sectors outside S1-S3 encode as S2 (1). */
  function SectorCode(sector: string): (c: int)
    ensures 0 <= c <= 2
    ensures c == 1 <==> sector != "S1" && sector != "S3"
  {
    if sector == "S1" then 0 else if sector == "S3" then 2 else 1
  }

  /** Track-type encoding; unknown types encode as a road course (0). */
  function TrackCode(trackType: string): (c: int)
    ensures 0 <= c <= 2
    ensures trackType !in {"road_course", "oval", "street"} ==> c == 0
  {
    if trackType == "oval" then 1 else if trackType == "street" then 2 else 0
  }

  function PrepareFeatures(carsAhead: int, sector: string, density: real, position: int, totalCars: int,
                           trackType: string): (f: Features)
    ensures f.sector == SectorCode(sector) && f.trackType == TrackCode(trackType)
    ensures totalCars <= 0 ==> f.positionRatio == 0.5
    ensures totalCars > 0 ==> f.positionRatio * totalCars as real == position as real
    ensures f.carsAhead == carsAhead && f.density == density && f.position == position && f.totalCars == totalCars
  {
    var ratio := if totalCars > 0 then position as real / totalCars as real else 0.5;
    Features(carsAhead, SectorCode(sector), density, position, totalCars, ratio, TrackCode(trackType))
  }

  /** Sector multipliers by code; an unknown code uses 1.0. */
  function SectorMultiplier(code: int): (m: real)
    ensures 1.0 <= m <= 1.2
    ensures code !in {0, 1, 2} ==> m == 1.0
  {
    if code == 1 then 1.2 else if code == 2 then 1.1 else 1.0
  }

  /** `_fallback_traffic_loss`: the cars-ahead and density penalties,
      floored at zero. */
  function FallbackTrafficLoss(f: Features): (l: real)
    ensures l >= 0.0
    ensures l >= f.carsAhead as real * 0.1 * SectorMultiplier(f.sector) + f.density * 0.3
    ensures l == 0.0 || l == f.carsAhead as real * 0.1 * SectorMultiplier(f.sector) + f.density * 0.3
  {
    Max(0.0, f.carsAhead as real * 0.1 * SectorMultiplier(f.sector) + f.density * 0.3)
  }

  datatype Prediction = Prediction(carsAhead: int, trafficLoss: real, cleanAirDelta: real, sector: string,
                                   trafficDensity: real, confidence: real)

  /** `predict_traffic_loss` on an untrained model: the fallback loss (never
      negative), confidence 0.7, and a 0.2 clean-air bonus exactly when no
      car is ahead. */
  function PredictTrafficLoss(carsAhead: int, sector: string, density: real, position: int, totalCars: int,
                              trackType: string): (p: Prediction)
    ensures p.trafficLoss >= 0.0
    ensures p.trafficLoss == FallbackTrafficLoss(PrepareFeatures(carsAhead, sector, density, position, totalCars,
                                                                 trackType))
    ensures p.cleanAirDelta == 0.2 <==> carsAhead == 0
    ensures carsAhead != 0 ==> p.cleanAirDelta == 0.0
    ensures p.confidence == 0.7 && p.trafficDensity == density && p.sector == sector
  {
    var f := PrepareFeatures(carsAhead, sector, density, position, totalCars, trackType);
    var loss := FallbackTrafficLoss(f);
    Prediction(carsAhead, Max(0.0, loss), if carsAhead == 0 then 0.2 else 0.0, sector, density, 0.7)
  }

  /** For the three named sectors the fallback is the rule-based model's
      sector and density penalties (`models/traffic_loss.py`), without its
      position term and random variation, floored at zero. */
  lemma FallbackMatchesRuleBased(carsAhead: int, sector: string, density: real, position: int, totalCars: int,
                                 trackType: string)
    requires sector in {"S1", "S2", "S3"} && totalCars != 0
    ensures var b := TrafficLoss.CalculateTrafficLoss(carsAhead, sector, density, position, totalCars, 0.0).value;
      PredictTrafficLoss(carsAhead, sector, density, position, totalCars, trackType).trafficLoss
        == Max(0.0, b.sectorPenalty + b.densityPenalty)
  {
    assert SectorMultiplier(SectorCode(sector)) == TrafficLoss.SectorMultiplier(sector);
  }

  /** An unnamed sector encodes as S2, so the fallback charges it the S2
      multiplier 1.2, where the rule-based model charges 1.0. */
  lemma UnknownSectorChargedAsS2(carsAhead: int, sector: string, density: real, position: int, totalCars: int,
                                 trackType: string)
    requires sector !in {"S1", "S2", "S3"}
    ensures PredictTrafficLoss(carsAhead, sector, density, position, totalCars, trackType)
         == PredictTrafficLoss(carsAhead, "S2", density, position, totalCars, trackType).(sector := sector)
    ensures TrafficLoss.SectorMultiplier(sector) == 1.0 && SectorMultiplier(SectorCode(sector)) == 1.2
  {
  }

  /** More cars ahead or denser traffic never lowers the fallback loss. */
  lemma FallbackMonotone(f: Features, g: Features)
    requires f.sector == g.sector && f.carsAhead <= g.carsAhead && f.density <= g.density
    ensures FallbackTrafficLoss(f) <= FallbackTrafficLoss(g)
  {
    var m := SectorMultiplier(f.sector);
    MulMono(0.1 * m, f.carsAhead as real, g.carsAhead as real);
    assert f.carsAhead as real * 0.1 * m == 0.1 * m * f.carsAhead as real;
    assert g.carsAhead as real * 0.1 * m == 0.1 * m * g.carsAhead as real;
  }
}

=== FILE: monte_carlo.dfy ===
/** The Monte Carlo race simulator of grracing/monte_carlo.py: lap times from
    the linear tyre model and the fuel model scaled by execution noise, whole
    races with planned pit stops and a re-rank by cumulative time after every
    lap, position probabilities over many races, and the single-driver
    pit-lap search. Every `random.uniform` draw is a parameter. */
module MonteCarlo {
  import opened Wrappers
  import opened Numerics
  import Ranking
  import Counter
  import Degradation

  /** `MonteCarloRaceSimulator(pit_loss, degradation_noise, lap_time_noise)`. */
  datatype Simulator = Simulator(pitLoss: real, degradationNoise: real, lapTimeNoise: real)

  const DefaultSimulator := Simulator(25.0, 0.1, 0.02)

  /** Fuel load at the start and after every stop (kg). */
  const FullTank := 100.0

  /** The simulator's own tyre model is built with its default 25 °C. */
  const ModelTrackTemp := 25.0

  /** `simulate_lap_time`: the linear-degradation lap time (or the base time),
      plus the fuel effect, times the noise draw `noise`. The fuel load passed
      in plays no part, because the fuel effect depends only on the lap. */
  function SimulateLapTime(sim: Simulator, baseTime: real, lapNumber: int, compound: string,
                           fuelLoad: real, degradationApplied: bool, noise: real): (t: real)
    ensures t == ((if degradationApplied then baseTime * (1.0 + Degradation.Coefficient(compound) * lapNumber as real)
                   else baseTime) - 0.006 * lapNumber as real) * noise
  {
    var time :=
      if degradationApplied then
        Degradation.LinearDegradation(Degradation.Model(compound, ModelTrackTemp), lapNumber, baseTime, None)
      else baseTime;
    var fuelEffect := Degradation.FuelEffect(Degradation.DefaultFuelModel, lapNumber, fuelLoad);
    (time + fuelEffect) * noise
  }

  /** With a draw from `[1 - n, 1 + n]`, the simulated lap time lies within
      that fraction of the noiseless one. */
  lemma LapTimeWithinNoise(sim: Simulator, baseTime: real, lapNumber: int, compound: string,
                           fuelLoad: real, degradationApplied: bool, noise: real)
    requires 1.0 - sim.lapTimeNoise <= noise <= 1.0 + sim.lapTimeNoise
    requires SimulateLapTime(sim, baseTime, lapNumber, compound, fuelLoad, degradationApplied, 1.0) >= 0.0
    ensures var clean := SimulateLapTime(sim, baseTime, lapNumber, compound, fuelLoad, degradationApplied, 1.0);
            var t := SimulateLapTime(sim, baseTime, lapNumber, compound, fuelLoad, degradationApplied, noise);
            clean * (1.0 - sim.lapTimeNoise) <= t <= clean * (1.0 + sim.lapTimeNoise)
  {
    var clean := SimulateLapTime(sim, baseTime, lapNumber, compound, fuelLoad, degradationApplied, 1.0);
    assert SimulateLapTime(sim, baseTime, lapNumber, compound, fuelLoad, degradationApplied, noise) == clean * noise;
    MulMono(clean, 1.0 - sim.lapTimeNoise, noise);
    MulMono(clean, noise, 1.0 + sim.lapTimeNoise);
  }

  /** One entry of `driver_paces`: a driver and its base lap time. */
  datatype Pace = Pace(id: string, baseTime: real)

  /** One driver's running record in a race: the `driver_times`,
      `driver_lap_times` and `pit_stops` entries and its `stint_info`. */
  datatype DriverRun = DriverRun(time: real, lapTimes: seq<real>, pitStops: seq<int>,
                                 stint: nat, lapsInStint: nat, compound: string, fuel: real)

  /** The planned pit laps of a driver: none without a strategy or without
      an entry for it. */
  function PlanOf(pitStrategy: Option<map<string, seq<int>>>, id: string): seq<int> {
    match pitStrategy
    case None => []
    case Some(m) => if id in m then m[id] else []
  }

  /** The compound for stint `k` of a list: the `k`-th entry, the last one
      once the list is exhausted, and SOFT for an empty list. */
  function CompoundFor(list: seq<string>, k: nat): (c: string)
    ensures k < |list| ==> c == list[k]
    ensures |list| > 0 && k >= |list| ==> c == list[|list| - 1]
    ensures |list| == 0 ==> c == "SOFT"
  {
    if |list| == 0 then "SOFT" else list[MinInt(k, |list| - 1)]
  }

  /** The compound lists of all drivers (lines 113-114 and 127):
      SOFT for everyone without a compound strategy, and a `KeyError` for the
      first driver the strategy omits. */
  function CompoundLists(paces: seq<Pace>, compounds: Option<map<string, seq<string>>>): (r: Result<seq<seq<string>>, PyError>)
    ensures r.Success? <==> compounds.None? || forall k :: 0 <= k < |paces| ==> paces[k].id in compounds.value
    ensures r.Success? ==> |r.value| == |paces|
    ensures r.Success? ==> forall k :: 0 <= k < |paces| ==>
      r.value[k] == (if compounds.None? then ["SOFT"] else compounds.value[paces[k].id])
    ensures r.Failure? ==>
      exists k :: (0 <= k < |paces| && r.error == KeyError(paces[k].id) &&
                   (forall j :: 0 <= j < k ==> paces[j].id in compounds.value) && paces[k].id !in compounds.value)
  {
    if |paces| == 0 then Success([])
    else
      var first := if compounds.None? then ["SOFT"] else if paces[0].id in compounds.value then compounds.value[paces[0].id] else [];
      if compounds.Some? && paces[0].id !in compounds.value then Failure(KeyError(paces[0].id))
      else
        match CompoundLists(paces[1..], compounds)
        case Failure(e) =>
          var k :| 0 <= k < |paces[1..]| && e == KeyError(paces[1..][k].id) &&
                   (forall j :: 0 <= j < k ==> paces[1..][j].id in compounds.value) && paces[1..][k].id !in compounds.value;
          assert paces[k + 1] == paces[1..][k];
          assert forall j :: 1 <= j < k + 1 ==> paces[j] == paces[1..][j - 1];
          Failure(e)
        case Success(rest) =>
          assert forall k :: 1 <= k < |paces| ==> paces[k] == paces[1..][k - 1];
          Success([first] + rest)
  }

  /** A driver's record before the first lap (lines 121-129). */
  function InitialRun(compounds: seq<string>): DriverRun {
    DriverRun(0.0, [], [], 0, 0, CompoundFor(compounds, 0), FullTank)
  }

  /** Fuel used per lap by the simulator's fuel model (kg). */
  const FuelPerLap := Degradation.DefaultFuelModel.consumptionPerLap

  /** One driver's lap `lap` (lines 136-170): a stop when the lap is planned
      (pit loss added, lap recorded, next stint, fresh tank, the next listed
      compound if there is one), then the lap time. */
  function DriverLap(sim: Simulator, run: DriverRun, lap: int, baseTime: real, plan: seq<int>,
                     compounds: seq<string>, noise: real): (r: DriverRun)
    ensures r.pitStops == run.pitStops + (if lap in plan then [lap] else [])
    ensures r.stint == run.stint + (if lap in plan then 1 else 0)
    ensures |r.lapTimes| == |run.lapTimes| + 1 && r.lapTimes[..|run.lapTimes|] == run.lapTimes
    ensures r.time == run.time + (if lap in plan then sim.pitLoss else 0.0) + r.lapTimes[|run.lapTimes|]
    ensures run.compound == CompoundFor(compounds, run.stint) ==> r.compound == CompoundFor(compounds, r.stint)
  {
    var s :=
      if lap in plan then
        var stint := run.stint + 1;
        run.(time := run.time + sim.pitLoss, pitStops := run.pitStops + [lap], stint := stint,
             lapsInStint := 0,
             compound := if stint < |compounds| then compounds[stint] else run.compound,
             fuel := FullTank)
      else run;
    var lapTime := SimulateLapTime(sim, baseTime, s.lapsInStint, s.compound, s.fuel, true, noise);
    assert (s.lapTimes + [lapTime])[..|run.lapTimes|] == run.lapTimes;
    s.(time := s.time + lapTime, lapTimes := s.lapTimes + [lapTime], lapsInStint := s.lapsInStint + 1,
       fuel := s.fuel - FuelPerLap)
  }

  /** The planned laps among `0 .. n-1`, in lap order: what the loop of line
      132 meets and line 141 records. */
  function PlannedLaps(plan: seq<int>, n: nat): (laps: seq<int>)
    ensures forall i :: 0 <= i < |laps| ==> 0 <= laps[i] < n && laps[i] in plan
    ensures forall i, j :: 0 <= i < j < |laps| ==> laps[i] < laps[j]
    ensures forall l :: 0 <= l < n && l in plan ==> l in laps
  {
    if n == 0 then []
    else
      var prev := PlannedLaps(plan, n - 1);
      if n - 1 in plan then prev + [n - 1] else prev
  }

  /** What the lap loop keeps true of a driver's record after `n` laps: one
      lap time per lap; exactly the planned laps recorded as stops, one stint
      each; the compound of the current stint; and the cumulative time made of
      the lap times plus one pit loss per stop. */
  predicate RunAfter(sim: Simulator, run: DriverRun, plan: seq<int>, compounds: seq<string>, n: nat) {
    |run.lapTimes| == n &&
    run.pitStops == PlannedLaps(plan, n) &&
    run.stint == |run.pitStops| &&
    run.compound == CompoundFor(compounds, run.stint) &&
    run.time == Sum(run.lapTimes) + PitTotal(sim.pitLoss, |run.pitStops|)
  }

  /** A lap keeps `RunAfter`. */
  lemma DriverLapKeeps(sim: Simulator, run: DriverRun, n: nat, baseTime: real, plan: seq<int>,
                       compounds: seq<string>, noise: real)
    requires RunAfter(sim, run, plan, compounds, n)
    ensures RunAfter(sim, DriverLap(sim, run, n, baseTime, plan, compounds, noise), plan, compounds, n + 1)
  {
    var r := DriverLap(sim, run, n, baseTime, plan, compounds, noise);
    assert r.lapTimes[..|r.lapTimes| - 1] == run.lapTimes;
  }

  /** The pit loss paid once for each of `stops` stops. */
  function PitTotal(pitLoss: real, stops: nat): real {
    if stops == 0 then 0.0 else PitTotal(pitLoss, stops - 1) + pitLoss
  }

  function Times(runs: seq<DriverRun>): (t: seq<real>)
    ensures |t| == |runs| && forall k :: 0 <= k < |runs| ==> t[k] == runs[k].time
  {
    seq(|runs|, k requires 0 <= k < |runs| => runs[k].time)
  }

  /** The state of a race after some laps: the drivers' records, the
      positions of every lap so far, and the cumulative times each lap's
      positions were taken from. */
  datatype Progress = Progress(runs: seq<DriverRun>, positions: seq<seq<int>>, standings: seq<seq<real>>)

  /** The drivers' records after the first `n` laps of the loop of lines
      132-178, lap `l` using the noise draws `draw(l, k)` for driver `k`. */
  function Runs(sim: Simulator, paces: seq<Pace>, plans: seq<seq<int>>, compounds: seq<seq<string>>,
                draw: (int, int) -> real, n: nat): (runs: seq<DriverRun>)
    requires |plans| == |paces| && |compounds| == |paces|
    ensures |runs| == |paces|
  {
    if n == 0 then seq(|paces|, k requires 0 <= k < |paces| => InitialRun(compounds[k]))
    else LapAll(sim, paces, plans, compounds, Runs(sim, paces, plans, compounds, draw, n - 1), n - 1, draw)
  }

  /** The first `n` laps: the records, and for every lap the cumulative
      times after it and the positions ranked from them. */
  function RunLaps(sim: Simulator, paces: seq<Pace>, plans: seq<seq<int>>, compounds: seq<seq<string>>,
                   draw: (int, int) -> real, n: nat): (p: Progress)
    requires |plans| == |paces| && |compounds| == |paces|
    ensures |p.runs| == |paces| && |p.positions| == n && |p.standings| == n
    ensures n > 0 ==> p.standings[n - 1] == Times(p.runs)
    ensures forall l :: 0 <= l < n ==> p.positions[l] == Ranking.RankByTime(p.standings[l])
  {
    var standings := Standings(sim, paces, plans, compounds, draw, n);
    Progress(Runs(sim, paces, plans, compounds, draw, n), Rankings(standings), standings)
  }

  /** The cumulative times after each of the first `n` laps. */
  function Standings(sim: Simulator, paces: seq<Pace>, plans: seq<seq<int>>, compounds: seq<seq<string>>,
                     draw: (int, int) -> real, n: nat): (st: seq<seq<real>>)
    requires |plans| == |paces| && |compounds| == |paces|
    ensures |st| == n && forall l :: 0 <= l < n ==> st[l] == Times(Runs(sim, paces, plans, compounds, draw, l + 1))
  {
    seq(n, l requires 0 <= l < n => Times(Runs(sim, paces, plans, compounds, draw, l + 1)))
  }

  /** Each lap's positions, ranked from its cumulative times. */
  function Rankings(standings: seq<seq<real>>): (ps: seq<seq<int>>)
    ensures |ps| == |standings| && forall l :: 0 <= l < |standings| ==> ps[l] == Ranking.RankByTime(standings[l])
  {
    seq(|standings|, l requires 0 <= l < |standings| => Ranking.RankByTime(standings[l]))
  }

  /** After `n` laps driver `k`'s record satisfies `RunAfter`. */
  lemma {:induction false} RunsKeep(sim: Simulator, paces: seq<Pace>, plans: seq<seq<int>>, compounds: seq<seq<string>>,
                                    draw: (int, int) -> real, n: nat, k: nat)
    requires |plans| == |paces| && |compounds| == |paces| && k < |paces|
    ensures RunAfter(sim, Runs(sim, paces, plans, compounds, draw, n)[k], plans[k], compounds[k], n)
  {
    if n > 0 {
      var prev := Runs(sim, paces, plans, compounds, draw, n - 1);
      RunsKeep(sim, paces, plans, compounds, draw, n - 1, k);
      DriverLapKeeps(sim, prev[k], n - 1, paces[k].baseTime, plans[k], compounds[k], draw(n - 1, k));
    }
  }

  /** Every driver's lap `lap`, in dict order. */
  function LapAll(sim: Simulator, paces: seq<Pace>, plans: seq<seq<int>>, compounds: seq<seq<string>>,
                  runs: seq<DriverRun>, lap: int, draw: (int, int) -> real): (r: seq<DriverRun>)
    requires |plans| == |paces| && |compounds| == |paces| && |runs| == |paces|
    ensures |r| == |paces|
    ensures forall k :: 0 <= k < |paces| ==>
      r[k] == DriverLap(sim, runs[k], lap, paces[k].baseTime, plans[k], compounds[k], draw(lap, k))
  {
    seq(|paces|, k requires 0 <= k < |paces| =>
      DriverLap(sim, runs[k], lap, paces[k].baseTime, plans[k], compounds[k], draw(lap, k)))
  }

  lemma LapAllKeeps(sim: Simulator, paces: seq<Pace>, plans: seq<seq<int>>, compounds: seq<seq<string>>,
                    runs: seq<DriverRun>, lap: nat, n: nat, draw: (int, int) -> real)
    requires |plans| == |paces| && |compounds| == |paces| && |runs| == |paces| && n == lap + 1
    requires forall k :: 0 <= k < |paces| ==> RunAfter(sim, runs[k], plans[k], compounds[k], lap)
    ensures forall k :: 0 <= k < |paces| ==>
      RunAfter(sim, LapAll(sim, paces, plans, compounds, runs, lap, draw)[k], plans[k], compounds[k], n)
  {
    forall k | 0 <= k < |paces|
      ensures RunAfter(sim, LapAll(sim, paces, plans, compounds, runs, lap, draw)[k], plans[k], compounds[k], n)
    {
      DriverLapKeeps(sim, runs[k], lap, paces[k].baseTime, plans[k], compounds[k], draw(lap, k));
    }
  }

  /** The `simulate_one_race` result: the drivers' records (cumulative
      times, lap times, stops), the positions after every lap with the
      cumulative times they rank, and the final positions. */
  datatype Race = Race(runs: seq<DriverRun>, positions: seq<seq<int>>, standings: seq<seq<real>>, finalPositions: seq<int>)

  /** `range(n_laps)` has no laps for a nonpositive count. */
  function LapCount(nLaps: int): nat {
    if nLaps > 0 then nLaps else 0
  }

  /** A race from resolved compound lists (lines 105-190). */
  function RaceFrom(sim: Simulator, paces: seq<Pace>, nLaps: int, pitStrategy: Option<map<string, seq<int>>>,
                    compounds: seq<seq<string>>, draw: (int, int) -> real): (race: Race)
    requires |compounds| == |paces|
    ensures |race.runs| == |paces| && |race.positions| == LapCount(nLaps) && |race.standings| == LapCount(nLaps)
    ensures race.finalPositions == Ranking.RankByTime(Times(race.runs))
    ensures forall l :: 0 <= l < LapCount(nLaps) ==> race.positions[l] == Ranking.RankByTime(race.standings[l])
    ensures forall k :: 0 <= k < |paces| ==>
      RunAfter(sim, race.runs[k], PlanOf(pitStrategy, paces[k].id), compounds[k], LapCount(nLaps))
    ensures LapCount(nLaps) > 0 ==> race.finalPositions == race.positions[LapCount(nLaps) - 1]
  {
    var plans := seq(|paces|, k requires 0 <= k < |paces| => PlanOf(pitStrategy, paces[k].id));
    var p := RunLaps(sim, paces, plans, compounds, draw, LapCount(nLaps));
    forall k | 0 <= k < |paces|
      ensures RunAfter(sim, p.runs[k], plans[k], compounds[k], LapCount(nLaps))
    {
      RunsKeep(sim, paces, plans, compounds, draw, LapCount(nLaps), k);
    }
    Race(p.runs, p.positions, p.standings, Ranking.RankByTime(Times(p.runs)))
  }

  /** `simulate_one_race`: fails with the `KeyError` of line 127 when a
      compound strategy omits a driver; otherwise runs every lap. */
  function SimulateOneRace(sim: Simulator, paces: seq<Pace>, nLaps: int, pitStrategy: Option<map<string, seq<int>>>,
                           compounds: Option<map<string, seq<string>>>, draw: (int, int) -> real): (r: Result<Race, PyError>)
    ensures r.Failure? <==> compounds.Some? && exists k :: 0 <= k < |paces| && paces[k].id !in compounds.value
    ensures r.Success? ==> |r.value.runs| == |paces| && |r.value.positions| == LapCount(nLaps)
  {
    var lists :- CompoundLists(paces, compounds);
    Success(RaceFrom(sim, paces, nLaps, pitStrategy, lists, draw))
  }

  /** After every lap and at the finish, the positions rank the drivers
      1..n by cumulative time, ties in dict order. */
  lemma OneRaceRanked(sim: Simulator, paces: seq<Pace>, nLaps: int, pitStrategy: Option<map<string, seq<int>>>,
                      compounds: Option<map<string, seq<string>>>, draw: (int, int) -> real)
    requires compounds.Some? ==> forall j :: 0 <= j < |paces| ==> paces[j].id in compounds.value
    ensures var race := SimulateOneRace(sim, paces, nLaps, pitStrategy, compounds, draw).value;
      Ranking.RankedByTime(race.finalPositions, Times(race.runs)) &&
      forall l :: 0 <= l < |race.positions| ==> Ranking.RankedByTime(race.positions[l], race.standings[l])
  {
    var lists := CompoundLists(paces, compounds).value;
    var race := RaceFrom(sim, paces, nLaps, pitStrategy, lists, draw);
    assert SimulateOneRace(sim, paces, nLaps, pitStrategy, compounds, draw).value == race;
    Ranking.RankByTimeRanked(Times(race.runs));
    forall l | 0 <= l < |race.positions|
      ensures Ranking.RankedByTime(race.positions[l], race.standings[l])
    {
      Ranking.RankByTimeRanked(race.standings[l]);
    }
  }

  /** Each driver's stops are exactly its planned laps inside the race, in
      order; each costs the pit loss once on top of the lap times; and the
      compound is the current stint's, the last listed one once the list
      runs out. */
  lemma OneRaceDriver(sim: Simulator, paces: seq<Pace>, nLaps: int, pitStrategy: Option<map<string, seq<int>>>,
                      compounds: Option<map<string, seq<string>>>, draw: (int, int) -> real, k: nat)
    requires k < |paces|
    requires compounds.Some? ==> forall j :: 0 <= j < |paces| ==> paces[j].id in compounds.value
    ensures var run := SimulateOneRace(sim, paces, nLaps, pitStrategy, compounds, draw).value.runs[k];
      var list := if compounds.None? then ["SOFT"] else compounds.value[paces[k].id];
      PitStopsArePlanned(run, PlanOf(pitStrategy, paces[k].id), LapCount(nLaps)) &&
      run.time == Sum(run.lapTimes) + PitTotal(sim.pitLoss, |run.pitStops|) &&
      run.compound == CompoundFor(list, |run.pitStops|)
  {
    var lists := CompoundLists(paces, compounds).value;
    var race := RaceFrom(sim, paces, nLaps, pitStrategy, lists, draw);
    assert SimulateOneRace(sim, paces, nLaps, pitStrategy, compounds, draw).value == race;
    assert lists[k] == (if compounds.None? then ["SOFT"] else compounds.value[paces[k].id]);
    RunAfterMeans(sim, race.runs[k], PlanOf(pitStrategy, paces[k].id), lists[k], LapCount(nLaps));
  }

  /** What `RunAfter` says about the stops, the time and the compound. */
  lemma RunAfterMeans(sim: Simulator, run: DriverRun, plan: seq<int>, list: seq<string>, n: nat)
    requires RunAfter(sim, run, plan, list, n)
    ensures PitStopsArePlanned(run, plan, n)
    ensures run.time == Sum(run.lapTimes) + PitTotal(sim.pitLoss, |run.pitStops|)
    ensures run.compound == CompoundFor(list, |run.pitStops|)
  {
  }

  /** The stops lie in `[0, n)`, are planned, strictly increase, and include
      every planned lap of the race. */
  predicate PitStopsArePlanned(run: DriverRun, plan: seq<int>, n: nat) {
    (forall i :: 0 <= i < |run.pitStops| ==> 0 <= run.pitStops[i] < n && run.pitStops[i] in plan) &&
    (forall i, j :: 0 <= i < j < |run.pitStops| ==> run.pitStops[i] < run.pitStops[j]) &&
    (forall l :: 0 <= l < n && l in plan ==> l in run.pitStops)
  }

  /** `avg_times[driver]` without the median and standard deviation. */
  datatype TimeStats = TimeStats(mean: real, min: real, max: real)

  /** `{pos: count / iterations for pos in 1..n}` and the entry `max` picks. */
  datatype DriverSummary = DriverSummary(id: string, times: TimeStats, probabilities: seq<Counter.Share>, mostLikely: Counter.Share)

  /** The `monte_carlo_simulation` result; `simulations` holds the first ten
      races. */
  datatype Summary = Summary(iterations: int, drivers: seq<DriverSummary>, simulations: seq<Race>)

  /** The positions `1 .. n`. */
  function Places(n: nat): (ps: seq<int>)
    ensures |ps| == n && forall i :: 0 <= i < n ==> ps[i] == i + 1
  {
    seq(n, i requires 0 <= i < n => i + 1)
  }

  /** Mean, min and max of a driver's final times. */
  function Stats(times: seq<real>): (s: TimeStats)
    requires |times| > 0
    ensures s.min in times && s.max in times
    ensures forall k :: 0 <= k < |times| ==> s.min <= times[k] <= s.max
    ensures s.min <= s.mean <= s.max
  {
    var lo, hi := SeqMin(times), SeqMax(times);
    MeanBetween(times, lo, hi);
    TimeStats(Sum(times) / |times| as real, lo, hi)
  }

  /** `max(probs.items(), key=probability)`: the first position with the
      largest probability. */
  function MostLikely(probs: seq<Counter.Share>): (m: Counter.Share)
    requires |probs| > 0
    ensures m in probs
    ensures forall k :: 0 <= k < |probs| ==> probs[k].probability <= m.probability
    ensures exists i :: (0 <= i < |probs| && probs[i] == m &&
                         forall j :: 0 <= j < i ==> probs[j].probability < m.probability)
  {
    var negated := seq(|probs|, k requires 0 <= k < |probs| => -probs[k].probability);
    var i := ArgMin(negated);
    forall k | 0 <= k < |probs|
      ensures probs[k].probability <= probs[i].probability
    {
      assert negated[i] <= negated[k];
    }
    forall j | 0 <= j < i
      ensures probs[j].probability < probs[i].probability
    {
      assert negated[i] < negated[j];
    }
    probs[i]
  }

  function FinalTimesOf(races: seq<Race>, k: nat): (ts: seq<real>)
    requires forall r :: 0 <= r < |races| ==> k < |races[r].runs|
    ensures |ts| == |races| && forall r :: 0 <= r < |races| ==> ts[r] == races[r].runs[k].time
  {
    seq(|races|, r requires 0 <= r < |races| => races[r].runs[k].time)
  }

  function FinalPlacesOf(races: seq<Race>, k: nat): (ps: seq<int>)
    requires forall r :: 0 <= r < |races| ==> k < |races[r].finalPositions|
    ensures |ps| == |races| && forall r :: 0 <= r < |races| ==> ps[r] == races[r].finalPositions[k]
  {
    seq(|races|, r requires 0 <= r < |races| => races[r].finalPositions[k])
  }

  /** Lines 224-255 for driver `k` over a nonempty list of races. */
  function Summarize(paces: seq<Pace>, races: seq<Race>, k: nat): (d: DriverSummary)
    requires k < |paces| && |races| > 0
    requires forall r :: 0 <= r < |races| ==> |races[r].runs| == |paces| && |races[r].finalPositions| == |paces|
    ensures d.id == paces[k].id
    ensures |d.probabilities| == |paces|
    ensures forall p :: 0 <= p < |paces| ==>
      d.probabilities[p] == Counter.Share(p + 1, Counter.Count(FinalPlacesOf(races, k), p + 1) as real / |races| as real)
    ensures d.probabilities == Counter.Shares(Places(|paces|), FinalPlacesOf(races, k), |races|)
    ensures d.mostLikely == MostLikely(d.probabilities)
    ensures d.times == Stats(FinalTimesOf(races, k))
  {
    var probs := Counter.Shares(Places(|paces|), FinalPlacesOf(races, k), |races|);
    DriverSummary(paces[k].id, Stats(FinalTimesOf(races, k)), probs, MostLikely(probs))
  }

  /** `monte_carlo_simulation` (lines 192-263), race `i` using the draws
      `draw(i, lap, driver)`. With no iterations, `statistics.mean` of the
      empty list raises for the first driver; a compound strategy that omits
      a driver raises the first race's `KeyError`. */
  function MonteCarloSimulation(sim: Simulator, paces: seq<Pace>, nLaps: int, iterations: int,
                                pitStrategy: Option<map<string, seq<int>>>, compounds: Option<map<string, seq<string>>>,
                                draw: (int, int, int) -> real): (r: Result<Summary, PyError>)
    ensures iterations <= 0 ==> (r.Failure? <==> |paces| > 0)
    ensures iterations > 0 ==>
      (r.Failure? <==> compounds.Some? && exists k :: 0 <= k < |paces| && paces[k].id !in compounds.value)
    ensures r.Success? ==> r.value.iterations == iterations && |r.value.drivers| == |paces|
    ensures r.Success? ==> forall k :: 0 <= k < |paces| ==> r.value.drivers[k].id == paces[k].id
    ensures r.Success? ==> |r.value.simulations| <= 10
    ensures r.Success? && iterations > 0 ==>
      r.value.drivers == Summaries(paces, Races(sim, paces, nLaps, pitStrategy, CompoundLists(paces, compounds).value, draw, iterations))
  {
    if iterations <= 0 then
      if |paces| > 0 then Failure(StatisticsError("mean requires at least one data point"))
      else Success(Summary(iterations, [], []))
    else RunIterations(sim, paces, nLaps, iterations, pitStrategy, compounds, draw)
  }

  /** Lines 207-263 with at least one iteration: the compound lists are
      resolved (the first race raising `KeyError` for an omitted driver),
      then the races are summarized. */
  function RunIterations(sim: Simulator, paces: seq<Pace>, nLaps: int, iterations: int,
                         pitStrategy: Option<map<string, seq<int>>>, compounds: Option<map<string, seq<string>>>,
                         draw: (int, int, int) -> real): (r: Result<Summary, PyError>)
    requires iterations > 0
    ensures r.Failure? <==> compounds.Some? && exists k :: 0 <= k < |paces| && paces[k].id !in compounds.value
    ensures r.Success? ==> r.value.iterations == iterations && |r.value.drivers| == |paces| && |r.value.simulations| <= 10
    ensures r.Success? ==> forall k :: 0 <= k < |paces| ==> r.value.drivers[k].id == paces[k].id
    ensures r.Success? ==>
      r.value.drivers == Summaries(paces, Races(sim, paces, nLaps, pitStrategy, CompoundLists(paces, compounds).value, draw, iterations))
  {
    var lists :- CompoundLists(paces, compounds);
    Success(SummarizeRaces(sim, paces, nLaps, pitStrategy, lists, draw, iterations))
  }

  /** Lines 214-263 once the compound lists are resolved: run the races,
      summarize every driver, keep the first ten races. */
  function SummarizeRaces(sim: Simulator, paces: seq<Pace>, nLaps: int, pitStrategy: Option<map<string, seq<int>>>,
                          lists: seq<seq<string>>, draw: (int, int, int) -> real, iterations: int): (s: Summary)
    requires |lists| == |paces| && iterations > 0
    ensures s.iterations == iterations && |s.drivers| == |paces| && |s.simulations| <= 10
    ensures forall k :: 0 <= k < |paces| ==> s.drivers[k].id == paces[k].id
    ensures s.drivers == Summaries(paces, Races(sim, paces, nLaps, pitStrategy, lists, draw, iterations))
  {
    var races := Races(sim, paces, nLaps, pitStrategy, lists, draw, iterations);
    Summary(iterations, Summaries(paces, races), races[..MinInt(10, iterations)])
  }

  /** The `iterations` races of line 214, race `i` drawing `draw(i, lap, driver)`. */
  function Races(sim: Simulator, paces: seq<Pace>, nLaps: int, pitStrategy: Option<map<string, seq<int>>>,
                 lists: seq<seq<string>>, draw: (int, int, int) -> real, iterations: nat): (races: seq<Race>)
    requires |lists| == |paces|
    ensures |races| == iterations
    ensures forall i :: 0 <= i < iterations ==>
      races[i] == RaceFrom(sim, paces, nLaps, pitStrategy, lists, (lap, d) => draw(i, lap, d))
    ensures forall i :: 0 <= i < iterations ==>
      |races[i].runs| == |paces| && |races[i].finalPositions| == |paces| &&
      races[i].finalPositions == Ranking.RankByTime(Times(races[i].runs))
  {
    seq(iterations, i requires 0 <= i < iterations =>
      RaceFrom(sim, paces, nLaps, pitStrategy, lists, (lap, d) => draw(i, lap, d)))
  }

  /** Every driver's summary, in dict order. */
  function Summaries(paces: seq<Pace>, races: seq<Race>): (ds: seq<DriverSummary>)
    requires |races| > 0
    requires forall r :: 0 <= r < |races| ==> |races[r].runs| == |paces| && |races[r].finalPositions| == |paces|
    ensures |ds| == |paces| && forall k :: 0 <= k < |paces| ==> ds[k] == Summarize(paces, races, k)
  {
    seq(|paces|, k requires 0 <= k < |paces| => Summarize(paces, races, k))
  }

  /** Each driver's position probabilities over 1..n add up to one, since
      every final position is one of 1..n. */
  lemma ProbabilitiesSumToOne(paces: seq<Pace>, races: seq<Race>, k: nat)
    requires k < |paces| && |races| > 0
    requires forall r :: 0 <= r < |races| ==> |races[r].runs| == |paces| && |races[r].finalPositions| == |paces|
    requires forall r :: 0 <= r < |races| ==> races[r].finalPositions == Ranking.RankByTime(Times(races[r].runs))
    ensures Counter.SumShares(Summarize(paces, races, k).probabilities) == 1.0
  {
    PlacesInRange(paces, races, k);
    Counter.SharesSumToOne(Places(|paces|), FinalPlacesOf(races, k), |races|);
  }

  /** Every final position of driver `k` is one of 1..n. */
  lemma PlacesInRange(paces: seq<Pace>, races: seq<Race>, k: nat)
    requires k < |paces|
    requires forall r :: 0 <= r < |races| ==> |races[r].runs| == |paces| && |races[r].finalPositions| == |paces|
    requires forall r :: 0 <= r < |races| ==> races[r].finalPositions == Ranking.RankByTime(Times(races[r].runs))
    ensures Counter.Distinct(Places(|paces|))
    ensures forall r :: 0 <= r < |races| ==> FinalPlacesOf(races, k)[r] in Places(|paces|)
  {
    var places := FinalPlacesOf(races, k);
    var ks := Places(|paces|);
    forall r | 0 <= r < |places|
      ensures places[r] in ks
    {
      assert 1 <= places[r] <= |paces|;
      assert ks[places[r] - 1] == places[r];
    }
  }

  /** The most likely position is one of 1..n. */
  lemma MostLikelyInRange(paces: seq<Pace>, races: seq<Race>, k: nat)
    requires k < |paces| && |races| > 0
    requires forall r :: 0 <= r < |races| ==> |races[r].runs| == |paces| && |races[r].finalPositions| == |paces|
    ensures 1 <= Summarize(paces, races, k).mostLikely.position <= |paces|
  {
    var d := Summarize(paces, races, k);
    var p :| 0 <= p < |paces| && d.probabilities[p] == d.mostLikely;
  }

  /** The summary of every driver satisfies `ProbabilitiesSumToOne`. */
  lemma SimulationProbabilities(sim: Simulator, paces: seq<Pace>, nLaps: int, iterations: int,
                                pitStrategy: Option<map<string, seq<int>>>, compounds: Option<map<string, seq<string>>>,
                                draw: (int, int, int) -> real, k: nat)
    requires k < |paces|
    requires MonteCarloSimulation(sim, paces, nLaps, iterations, pitStrategy, compounds, draw).Success?
    ensures var d := MonteCarloSimulation(sim, paces, nLaps, iterations, pitStrategy, compounds, draw).value.drivers[k];
      Counter.SumShares(d.probabilities) == 1.0 && 1 <= d.mostLikely.position <= |paces| &&
      d.times.min <= d.times.mean <= d.times.max
  {
    var lists := CompoundLists(paces, compounds).value;
    var races := Races(sim, paces, nLaps, pitStrategy, lists, draw, iterations);
    assert MonteCarloSimulation(sim, paces, nLaps, iterations, pitStrategy, compounds, draw).value.drivers
      == Summaries(paces, races);
    ProbabilitiesSumToOne(paces, races, k);
    MostLikelyInRange(paces, races, k);
  }

  /** The inner loop of lines 296-304: the first lap from `lap` on (before
      `nLaps`) at which a stint begun at `start` has become `gainful`. */
  function FirstGainfulLap(gainful: int -> bool, start: int, lap: int, nLaps: int): (r: Option<int>)
    ensures r.Some? ==> lap <= r.value < nLaps && gainful(r.value - start)
    ensures r.Some? ==> forall k :: lap - start <= k < r.value - start ==> !gainful(k)
    ensures r.None? ==> forall k :: lap - start <= k < nLaps - start ==> !gainful(k)
    decreases nLaps - lap
  {
    if lap >= nLaps then None
    else if gainful(lap - start) then Some(lap)
    else FirstGainfulLap(gainful, start, lap + 1, nLaps)
  }

  /** The outer loop of lines 289-304 after `stops` rounds: each round
      searches from ten laps after the last stop (or lap 0). */
  function SearchStops(gainful: int -> bool, nLaps: int, stops: nat): (laps: seq<int>)
    ensures |laps| <= stops
    ensures SearchedStops(gainful, nLaps, laps)
  {
    if stops == 0 then []
    else
      var prev := SearchStops(gainful, nLaps, stops - 1);
      var start := if |prev| == 0 then 0 else prev[|prev| - 1];
      var next := FirstGainfulLap(gainful, start, start + 10, nLaps);
      if next.None? then prev
      else
        SearchedAppend(gainful, nLaps, prev, next.value);
        prev + [next.value]
  }

  /** What the search guarantees of its stops: each before `nLaps`, the
      first at lap 10 or later, any two at least ten laps per stop apart,
      and each stint the shortest gainful one of at least ten laps. */
  predicate SearchedStops(gainful: int -> bool, nLaps: int, laps: seq<int>) {
    (|laps| > 0 ==> laps[0] >= 10) &&
    (forall i :: 0 <= i < |laps| ==> laps[i] < nLaps) &&
    Spaced(laps) &&
    (forall i :: 0 <= i < |laps| ==> gainful(StintLength(laps, i))) &&
    (forall i, k :: 0 <= i < |laps| && 10 <= k < StintLength(laps, i) ==> !gainful(k))
  }

  /** A stop found by the next round extends the guarantees. */
  lemma SearchedAppend(gainful: int -> bool, nLaps: int, prev: seq<int>, l: int)
    requires SearchedStops(gainful, nLaps, prev)
    requires var start := if |prev| == 0 then 0 else prev[|prev| - 1];
      FirstGainfulLap(gainful, start, start + 10, nLaps) == Some(l)
    ensures SearchedStops(gainful, nLaps, prev + [l])
  {
    var n := |prev|;
    var start := if n == 0 then 0 else prev[n - 1];
    var laps := prev + [l];
    assert start + 10 <= l < nLaps;
    assert gainful(l - start);
    assert forall k :: 10 <= k < l - start ==> !gainful(k);
    AppendSpaced(prev, l);
    forall i | 0 <= i < |laps|
      ensures laps[i] < nLaps
    {
      if i < n {
        assert laps[i] == prev[i];
      }
    }
    forall i | 0 <= i < |laps|
      ensures StintLength(laps, i) == (if i < n then StintLength(prev, i) else l - start)
    {
      AppendStint(prev, l, i);
    }
  }

  /** Stop laps at least ten laps per stop apart. */
  predicate Spaced(laps: seq<int>) {
    forall i, j :: 0 <= i < j < |laps| ==> laps[j] >= laps[i] + 10 * (j - i)
  }

  /** A stop at least ten laps after the last one keeps the spacing. */
  lemma AppendSpaced(prev: seq<int>, l: int)
    requires Spaced(prev)
    requires |prev| > 0 ==> l >= prev[|prev| - 1] + 10
    ensures Spaced(prev + [l])
  {
    var n := |prev|;
    var laps := prev + [l];
    forall i, j | 0 <= i < j < |laps|
      ensures laps[j] >= laps[i] + 10 * (j - i)
    {
      assert laps[i] == prev[i];
      if j < n {
        assert laps[j] == prev[j];
      } else if i < n - 1 {
        assert prev[n - 1] >= prev[i] + 10 * (n - 1 - i);
      }
    }
  }

  /** Appending a stop leaves the earlier stints alone and adds one from
      the last stop (or lap 0). */
  lemma AppendStint(prev: seq<int>, l: int, i: nat)
    requires i <= |prev|
    ensures var start := if |prev| == 0 then 0 else prev[|prev| - 1];
      StintLength(prev + [l], i) == (if i < |prev| then StintLength(prev, i) else l - start)
  {
    var laps := prev + [l];
    if i < |prev| {
      assert laps[i] == prev[i];
      assert i > 0 ==> laps[i - 1] == prev[i - 1];
    } else if i > 0 {
      assert laps[i - 1] == prev[i - 1];
    }
  }

  /** Laps between stop `i` and the stop before it (or lap 0). */
  function StintLength(laps: seq<int>, i: nat): int
    requires i < |laps|
  {
    laps[i] - (if i == 0 then 0 else laps[i - 1])
  }

  /** `optimize_pit_strategy` result. */
  datatype PitPlan = PitPlan(recommendedPitLaps: seq<int>, degradationPerLap: real, pitLoss: real, expectedGain: real)

  /** Whether a stop `laps` laps into a stint gains more than the pit loss:
      the degraded time minus the fresh time, `d * laps`, against it. */
  function Gainful(degradationPerLap: real, pitLoss: real): int -> bool {
    laps => StintGain(degradationPerLap, laps) > pitLoss
  }

  /** Degraded minus fresh lap time after `laps` laps of a stint. */
  function StintGain(degradationPerLap: real, laps: int): real {
    degradationPerLap * laps as real
  }

  /** `optimize_pit_strategy`: search `max_pit_stops` rounds for the first
      lap, at least ten laps into a stint, where the tyre loss beats the pit
      loss. */
  function OptimizePitStrategy(sim: Simulator, driverPace: real, nLaps: int, compound: string, maxPitStops: int): (p: PitPlan)
    ensures |p.recommendedPitLaps| <= LapCount(maxPitStops)
    ensures |p.recommendedPitLaps| > 0 ==> p.recommendedPitLaps[0] >= 10
    ensures forall i :: 0 <= i < |p.recommendedPitLaps| ==> p.recommendedPitLaps[i] < nLaps
    ensures forall i, j :: 0 <= i < j < |p.recommendedPitLaps| ==>
      p.recommendedPitLaps[j] >= p.recommendedPitLaps[i] + 10 * (j - i)
    ensures p.degradationPerLap == Degradation.Coefficient(compound) * driverPace
    ensures p.expectedGain == p.degradationPerLap * 20.0 - sim.pitLoss
  {
    var dpl := Degradation.Coefficient(compound) * driverPace;
    var laps := SearchStops(Gainful(dpl, sim.pitLoss), nLaps, LapCount(maxPitStops));
    PitPlan(laps, dpl, sim.pitLoss, dpl * 20.0 - sim.pitLoss)
  }

  /** Each recommended stint is the shortest of at least ten laps whose tyre
      loss, `degradation_per_lap` per lap, exceeds the pit loss. */
  lemma RecommendedStintsPayOff(sim: Simulator, driverPace: real, nLaps: int, compound: string, maxPitStops: int, i: nat)
    requires i < |OptimizePitStrategy(sim, driverPace, nLaps, compound, maxPitStops).recommendedPitLaps|
    ensures var p := OptimizePitStrategy(sim, driverPace, nLaps, compound, maxPitStops);
      var len := StintLength(p.recommendedPitLaps, i);
      StintGain(p.degradationPerLap, len) > sim.pitLoss &&
      forall k :: 10 <= k < len ==> StintGain(p.degradationPerLap, k) <= sim.pitLoss
  {
    var dpl := Degradation.Coefficient(compound) * driverPace;
    var laps := SearchStops(Gainful(dpl, sim.pitLoss), nLaps, LapCount(maxPitStops));
    assert OptimizePitStrategy(sim, driverPace, nLaps, compound, maxPitStops).recommendedPitLaps == laps;
    assert Gainful(dpl, sim.pitLoss)(StintLength(laps, i));
    forall k | 10 <= k < StintLength(laps, i)
      ensures StintGain(dpl, k) <= sim.pitLoss
    {
      assert !Gainful(dpl, sim.pitLoss)(k);
    }
  }

  /** Every round searches the same stint lengths from its start, so all
      recommended stints are equally long: each stop comes as many laps after
      the one before as the first comes after the start. */
  lemma StopsEvenlySpaced(gainful: int -> bool, nLaps: int, stops: nat)
    ensures var laps := SearchStops(gainful, nLaps, stops);
      forall i :: 0 < i < |laps| ==> StintLength(laps, i) == laps[0]
  {
    var laps := SearchStops(gainful, nLaps, stops);
    forall i | 0 < i < |laps|
      ensures StintLength(laps, i) == laps[0]
    {
      assert gainful(StintLength(laps, i)) && gainful(StintLength(laps, 0));
    }
  }
}

=== FILE: numerics.dfy ===
/** Small numeric helpers shared by every model: clamps, minimum and maximum,
    and Python's integer conversion of a float. */
module Numerics {

  function Min(a: real, b: real): real {
    if a <= b then a else b
  }

  function Max(a: real, b: real): real {
    if a >= b then a else b
  }

  function MinInt(a: int, b: int): int {
    if a <= b then a else b
  }

  function MaxInt(a: int, b: int): int {
    if a >= b then a else b
  }

  function Abs(x: real): real {
    if x < 0.0 then -x else x
  }

  /** `max(lo, min(hi, x))`, numpy's `clip`. */
  function Clamp(x: real, lo: real, hi: real): (r: real)
    requires lo <= hi
    ensures lo <= r <= hi
    ensures lo <= x <= hi ==> r == x
    ensures x < lo ==> r == lo
    ensures x > hi ==> r == hi
  {
    Max(lo, Min(hi, x))
  }

  /** Python's `int(x)` on a float: truncation toward zero. */
  function Trunc(x: real): (r: int)
    ensures x >= 0.0 ==> 0 <= r && r as real <= x < r as real + 1.0
    ensures x < 0.0 ==> r <= 0 && r as real - 1.0 < x <= r as real
  {
    if x >= 0.0 then x.Floor else -((-x).Floor)
  }

  /** Python's float modulo `x % 1.0`: the fractional part, in [0, 1). */
  function FracPart(x: real): (r: real)
    ensures 0.0 <= r < 1.0
    ensures (x - r).Floor as real == x - r
  {
    x - x.Floor as real
  }

  /** Sum of a sequence of reals, left to right. */
  function Sum(s: seq<real>): real {
    if |s| == 0 then 0.0 else Sum(s[..|s| - 1]) + s[|s| - 1]
  }

  /** The product of nonnegative reals is nonnegative. */
  lemma MulNonneg(a: real, b: real)
    requires a >= 0.0 && b >= 0.0
    ensures a * b >= 0.0
  {
  }

  /** Dividing and multiplying back by a nonzero number gives the start. */
  lemma DivCancel(a: real, d: real)
    requires d != 0.0
    ensures (a / d) * d == a
  {
  }

  /** Multiplying by a nonnegative factor preserves order. */
  lemma MulMono(a: real, x: real, y: real)
    requires a >= 0.0 && x <= y
    ensures a * x <= a * y
  {
    MulNonneg(a, y - x);
    assert a * y - a * x == a * (y - x);
  }

  /** Multiplying by a positive factor preserves strict order. */
  lemma MulStrict(a: real, x: real, y: real)
    requires a > 0.0 && x < y
    ensures a * x < a * y
  {
    assert a * y - a * x == a * (y - x);
  }

  lemma ScaledBetween(k: real, q: real, rate: real, a: real)
    requires rate > 0.0 && q * rate == a && k <= q < k + 1.0
    ensures k * rate <= a < (k + 1.0) * rate
  {
    var k1 := k + 1.0;
    var d1 := k1 - q;
    var d0 := q - k;
    MulNonneg(rate, d0);
    MulStrict(rate, 0.0, d1);
    assert rate * k1 - rate * q == rate * d1;
    assert rate * q - rate * k == rate * d0;
  }

  /** Exactly `k` whole steps of size `step` fit in `a`. */
  predicate WholeSteps(k: int, step: real, a: real) {
    k as real * step <= a < (k as real + 1.0) * step
  }

  /** `int(a / rate)` for a nonnegative `a` and positive `rate` is the
      number of whole `rate`s that fit in `a`. */
  lemma TruncQuotient(a: real, rate: real)
    requires a >= 0.0 && rate > 0.0
    ensures Trunc(a / rate) >= 0 && WholeSteps(Trunc(a / rate), rate, a)
  {
    var q := a / rate;
    assert q * rate == a;
    ScaledBetween(Trunc(q) as real, q, rate, a);
  }

  /** Python's `min(range(len(s)), key=s.__getitem__)`: the index of the
      first smallest element. */
  function ArgMin(s: seq<real>): (i: nat)
    requires |s| > 0
    ensures i < |s|
    ensures forall j :: 0 <= j < |s| ==> s[i] <= s[j]
    ensures forall j :: 0 <= j < i ==> s[i] < s[j]
  {
    if |s| == 1 then 0
    else
      var k := ArgMin(s[..|s| - 1]);
      if s[|s| - 1] < s[k] then |s| - 1 else k
  }

  /** `min(s)`. */
  function SeqMin(s: seq<real>): (m: real)
    requires |s| > 0
    ensures m in s && forall k :: 0 <= k < |s| ==> m <= s[k]
  {
    if |s| == 1 then s[0]
    else
      var m := SeqMin(s[..|s| - 1]);
      assert forall k :: 0 <= k < |s| - 1 ==> s[..|s| - 1][k] == s[k];
      if s[|s| - 1] < m then s[|s| - 1] else m
  }

  /** `max(s)`. */
  function SeqMax(s: seq<real>): (m: real)
    requires |s| > 0
    ensures m in s && forall k :: 0 <= k < |s| ==> s[k] <= m
  {
    if |s| == 1 then s[0]
    else
      var m := SeqMax(s[..|s| - 1]);
      assert forall k :: 0 <= k < |s| - 1 ==> s[..|s| - 1][k] == s[k];
      if s[|s| - 1] > m then s[|s| - 1] else m
  }

  /** A sum of terms each in `[lo, hi]` lies between `n * lo` and `n * hi`. */
  lemma {:induction false} SumBetween(s: seq<real>, lo: real, hi: real)
    requires forall k :: 0 <= k < |s| ==> lo <= s[k] <= hi
    ensures |s| as real * lo <= Sum(s) <= |s| as real * hi
  {
    if |s| > 0 {
      var init := s[..|s| - 1];
      assert forall k :: 0 <= k < |init| ==> init[k] == s[k];
      SumBetween(init, lo, hi);
    }
  }

  /** Each of a sequence of nonnegative terms lies between 0 and their sum. */
  lemma {:induction false} TermsBelowSum(s: seq<real>)
    requires forall k :: 0 <= k < |s| ==> s[k] >= 0.0
    ensures Sum(s) >= 0.0
    ensures forall k :: 0 <= k < |s| ==> s[k] <= Sum(s)
  {
    if |s| > 0 {
      var init := s[..|s| - 1];
      assert forall k :: 0 <= k < |init| ==> init[k] == s[k];
      TermsBelowSum(init);
    }
  }

  /** The mean of a nonempty sequence whose terms lie in `[lo, hi]` lies
      there too. */
  lemma MeanBetween(s: seq<real>, lo: real, hi: real)
    requires |s| > 0
    requires forall k :: 0 <= k < |s| ==> lo <= s[k] <= hi
    ensures lo <= Sum(s) / |s| as real <= hi
  {
    SumBetween(s, lo, hi);
    QuotientBetween(Sum(s), |s| as real, lo, hi);
  }

  /** Dividing `n * lo <= a <= n * hi` by a positive `n`. */
  lemma QuotientBetween(a: real, n: real, lo: real, hi: real)
    requires n > 0.0 && n * lo <= a <= n * hi
    ensures lo <= a / n <= hi
  {
    var q := a / n;
    assert n * q == a;
    if q < lo {
      MulStrict(n, q, lo);
    }
    if q > hi {
      MulStrict(n, hi, q);
    }
  }

  /** Dividing by a positive number preserves order. */
  lemma DivMonotone(a: real, b: real, n: real)
    requires n > 0.0 && a <= b
    ensures a / n <= b / n
  {
  }

  /** numpy's `mean` of a nonempty sequence. */
  function Average(s: seq<real>): real
    requires |s| > 0
  {
    Sum(s) / |s| as real
  }

  /** A sequence of equal values sums to the count times the value. */
  lemma {:induction false} SumConstant(s: seq<real>, c: real)
    requires forall k :: 0 <= k < |s| ==> s[k] == c
    ensures Sum(s) == |s| as real * c
  {
    if |s| > 0 {
      SumConstant(s[..|s| - 1], c);
    }
  }

  /** The average of equal values is that value. */
  lemma AverageConstant(s: seq<real>, c: real)
    requires |s| > 0 && forall k :: 0 <= k < |s| ==> s[k] == c
    ensures Average(s) == c
  {
    SumConstant(s, c);
  }
}

=== FILE: overtake.dfy ===
/** Rule-based overtake probability (grracing/overtake.py). */
module Overtake {
  import opened Wrappers
  import opened Numerics

  /** Overtake bonus of the sector: S1 0.3, S2 0.5, S3 0.4, otherwise 0.4. */
  function SectorFactor(sector: string): (f: real)
    ensures sector == "S1" ==> f == 0.3
    ensures sector == "S2" ==> f == 0.5
    ensures sector != "S1" && sector != "S2" ==> f == 0.4
  {
    if sector == "S1" then 0.3 else if sector == "S2" then 0.5 else 0.4
  }

  /** Half the relative speed difference, or 0 when the defender's speed is not positive. */
  function SpeedAdvantage(attackerSpeed: real, defenderSpeed: real): (a: real)
    ensures defenderSpeed <= 0.0 ==> a == 0.0
  {
    if defenderSpeed > 0.0 then ((attackerSpeed - defenderSpeed) / defenderSpeed) * 0.5 else 0.0
  }

  /** `1 / |position gap|`, or 0 for equal positions. */
  function Proximity(attackerPosition: int, defenderPosition: int): (p: real)
    ensures attackerPosition == defenderPosition ==> p == 0.0
    ensures attackerPosition != defenderPosition ==> 0.0 < p <= 1.0
  {
    if attackerPosition != defenderPosition then
      var gap := if attackerPosition > defenderPosition then attackerPosition - defenderPosition
                 else defenderPosition - attackerPosition;
      1.0 / gap as real
    else 0.0
  }

  /** Fresher attacker tyres help, capped at 0.5; there is no lower cap. */
  function TireAdvantage(attackerTireAge: int, defenderTireAge: int): (t: real)
    ensures t <= 0.5
    ensures attackerTireAge > defenderTireAge ==> t < 0.0
  {
    Min((defenderTireAge - attackerTireAge) as real / 20.0, 0.5)
  }

  function RawProbability(attackerSpeed: real, defenderSpeed: real, attackerPosition: int, defenderPosition: int,
                          attackerTireAge: int, defenderTireAge: int, sector: string): real {
    0.1 + SpeedAdvantage(attackerSpeed, defenderSpeed) * 0.4
        + Proximity(attackerPosition, defenderPosition) * 0.2
        + TireAdvantage(attackerTireAge, defenderTireAge) * 0.2
        + SectorFactor(sector) * 0.1
  }

  /** `calculate_overtake_probability`: the weighted sum clipped to [0, 1]. */
  function OvertakeProbability(attackerSpeed: real, defenderSpeed: real, attackerPosition: int, defenderPosition: int,
                               attackerTireAge: int, defenderTireAge: int, sector: string): (p: real)
    ensures 0.0 <= p <= 1.0
    ensures var raw := RawProbability(attackerSpeed, defenderSpeed, attackerPosition, defenderPosition,
                                      attackerTireAge, defenderTireAge, sector);
      0.0 <= raw <= 1.0 ==> p == raw
  {
    Clamp(RawProbability(attackerSpeed, defenderSpeed, attackerPosition, defenderPosition,
                         attackerTireAge, defenderTireAge, sector), 0.0, 1.0)
  }

  /** A faster attacker never has a lower chance (defender speed positive). */
  lemma ProbabilityMonotoneInAttackerSpeed(s1: real, s2: real, defenderSpeed: real, ap: int, dp: int,
                                           at: int, dt: int, sector: string)
    requires s1 <= s2 && defenderSpeed > 0.0
    ensures OvertakeProbability(s1, defenderSpeed, ap, dp, at, dt, sector)
         <= OvertakeProbability(s2, defenderSpeed, ap, dp, at, dt, sector)
  {
    assert (s1 - defenderSpeed) / defenderSpeed <= (s2 - defenderSpeed) / defenderSpeed;
  }

  /** The driver fields `predict_overtake` reads; `position` is indexed
      directly (a missing one raises), the others have defaults. */
  datatype DriverInfo = DriverInfo(
    id: Option<string>,
    position: Option<int>,
    speed: Option<real>,
    tireAge: Option<int>,
    sector: Option<string>)

  datatype PairPrediction = PairPrediction(attacker: int, defender: int, probability: real, likely: bool)

  function PairProbability(a: DriverInfo, d: DriverInfo): real {
    OvertakeProbability(a.speed.GetOr(150.0), d.speed.GetOr(150.0),
                        a.position.GetOr(10), d.position.GetOr(10),
                        a.tireAge.GetOr(10), d.tireAge.GetOr(10), a.sector.GetOr("S2"))
  }

  /** Attacker `a` is scored against defender `d`: two different drivers,
      both with a position, the attacker strictly behind. */
  predicate Scored(drivers: seq<DriverInfo>, a: int, d: int) {
    0 <= a < |drivers| && 0 <= d < |drivers| && a != d &&
    drivers[a].position.Some? && drivers[d].position.Some? &&
    drivers[a].position.value > drivers[d].position.value
  }

  /** `ps` is exactly attacker `i`'s predictions against the scored
      defenders from `j` on, in index order, each with the model's
      probability and `likely` exactly above 0.5. */
  predicate DefendersExact(drivers: seq<DriverInfo>, i: int, j: int, ps: seq<PairPrediction>)
    requires 0 <= i < |drivers|
  {
    (forall k :: 0 <= k < |ps| ==>
      ps[k].attacker == i && j <= ps[k].defender && Scored(drivers, i, ps[k].defender) &&
      ps[k].probability == PairProbability(drivers[i], drivers[ps[k].defender]) &&
      (ps[k].likely <==> ps[k].probability > 0.5)) &&
    (forall k1, k2 :: 0 <= k1 < k2 < |ps| ==> ps[k1].defender < ps[k2].defender) &&
    (forall d :: j <= d < |drivers| && Scored(drivers, i, d) ==> exists k :: 0 <= k < |ps| && ps[k].defender == d)
  }

  /** Adding defender `j` in front of the predictions from `j + 1`. */
  lemma DefendersStep(drivers: seq<DriverInfo>, i: int, j: int, rest: seq<PairPrediction>)
    requires 0 <= i < |drivers| && 0 <= j < |drivers| && j != i
    requires DefendersExact(drivers, i, j + 1, rest)
    ensures !Scored(drivers, i, j) ==> DefendersExact(drivers, i, j, rest)
    ensures Scored(drivers, i, j) ==>
      var p := PairProbability(drivers[i], drivers[j]);
      DefendersExact(drivers, i, j, [PairPrediction(i, j, p, p > 0.5)] + rest)
  {
    if Scored(drivers, i, j) {
      var p := PairProbability(drivers[i], drivers[j]);
      var ps := [PairPrediction(i, j, p, p > 0.5)] + rest;
      forall d | j <= d && Scored(drivers, i, d)
        ensures exists k :: 0 <= k < |ps| && ps[k].defender == d
      {
        if d == j {
          assert ps[0].defender == d;
        } else {
          var k :| 0 <= k < |rest| && rest[k].defender == d;
          assert ps[k + 1] == rest[k];
        }
      }
    }
  }

  /** Predictions for attacker `i` against defenders `j..`, in index order;
      a defender without a position raises `KeyError('position')`. */
  function PairsFor(drivers: seq<DriverInfo>, i: int, j: int): (r: Result<seq<PairPrediction>, PyError>)
    requires 0 <= i < |drivers| && 0 <= j <= |drivers|
    requires drivers[i].position.Some?
    ensures r.Failure? <==> exists d :: j <= d < |drivers| && d != i && drivers[d].position.None?
    ensures r.Failure? ==> r.error == KeyError("position")
    ensures r.Success? ==> DefendersExact(drivers, i, j, r.value)
    decreases |drivers| - j
  {
    if j == |drivers| then Success([])
    else if j == i then PairsFor(drivers, i, j + 1)
    else if drivers[j].position.None? then Failure(KeyError("position"))
    else
      var rest :- PairsFor(drivers, i, j + 1);
      DefendersStep(drivers, i, j, rest);
      if drivers[i].position.value > drivers[j].position.value then
        var p := PairProbability(drivers[i], drivers[j]);
        Success([PairPrediction(i, j, p, p > 0.5)] + rest)
      else Success(rest)
  }

  /** `(a1, d1)` comes before `(a2, d2)` in the nested loops. */
  predicate Before(a1: int, d1: int, a2: int, d2: int) {
    a1 < a2 || (a1 == a2 && d1 < d2)
  }

  /** Predictions for attackers `i..`, in the order of the nested loops. */
  function PairsFrom(drivers: seq<DriverInfo>, i: int): (r: Result<seq<PairPrediction>, PyError>)
    requires 0 <= i <= |drivers|
    ensures r.Failure? <==> i < |drivers| && |drivers| > 1 && exists d :: 0 <= d < |drivers| && drivers[d].position.None?
    ensures r.Failure? ==> r.error == KeyError("position")
    ensures r.Success? ==> forall k :: 0 <= k < |r.value| ==>
      var p := r.value[k];
      i <= p.attacker && Scored(drivers, p.attacker, p.defender) &&
      p.probability == PairProbability(drivers[p.attacker], drivers[p.defender]) &&
      (p.likely <==> p.probability > 0.5)
    ensures r.Success? ==> forall k1, k2 :: 0 <= k1 < k2 < |r.value| ==>
      Before(r.value[k1].attacker, r.value[k1].defender, r.value[k2].attacker, r.value[k2].defender)
    decreases |drivers| - i
  {
    if i == |drivers| then Success([])
    else if drivers[i].position.None? then
      if |drivers| > 1 then Failure(KeyError("position")) else Success([])
    else
      var mine :- PairsFor(drivers, i, 0);
      var rest :- PairsFrom(drivers, i + 1);
      Success(mine + rest)
  }

  /** Every scored pair from attacker `i` on is predicted. */
  lemma {:induction false} PairsFromComplete(drivers: seq<DriverInfo>, i: int, a: int, d: int)
    requires 0 <= i <= |drivers| && i <= a && Scored(drivers, a, d)
    requires PairsFrom(drivers, i).Success?
    ensures var ps := PairsFrom(drivers, i).value;
      exists k :: 0 <= k < |ps| && ps[k].attacker == a && ps[k].defender == d
    decreases |drivers| - i
  {
    var mine := PairsFor(drivers, i, 0).value;
    var rest := PairsFrom(drivers, i + 1).value;
    assert PairsFrom(drivers, i).value == mine + rest;
    if a == i {
      assert DefendersExact(drivers, i, 0, mine);
      var k :| 0 <= k < |mine| && mine[k].defender == d;
      assert (mine + rest)[k] == mine[k];
    } else {
      PairsFromComplete(drivers, i + 1, a, d);
      var k :| 0 <= k < |rest| && rest[k].attacker == a && rest[k].defender == d;
      assert (mine + rest)[|mine| + k] == rest[k];
    }
  }

  /** Python's `f"{x}"` of an id read with `.get('id')`: the string itself,
      or "None" when the id is missing. */
  function IdText(id: Option<string>): (t: string)
    ensures id.Some? ==> t == id.value
    ensures id.None? ==> t == "None"
  {
    if id.Some? then id.value else "None"
  }

  /** The dict key `f"{attacker.get('id')}_vs_{defender.get('id')}"`. */
  function PairKey(attacker: DriverInfo, defender: DriverInfo): string {
    IdText(attacker.id) + "_vs_" + IdText(defender.id)
  }

  /** The dict value stored for one scored pair. */
  datatype OvertakeEntry = OvertakeEntry(probability: real, attacker: Option<string>, defender: Option<string>,
                                         likely: bool)

  function EntryOf(drivers: seq<DriverInfo>, p: PairPrediction): OvertakeEntry
    requires 0 <= p.attacker < |drivers| && 0 <= p.defender < |drivers|
  {
    OvertakeEntry(p.probability, drivers[p.attacker].id, drivers[p.defender].id, p.likely)
  }

  function KeyOf(drivers: seq<DriverInfo>, p: PairPrediction): string
    requires 0 <= p.attacker < |drivers| && 0 <= p.defender < |drivers|
  {
    PairKey(drivers[p.attacker], drivers[p.defender])
  }

  predicate InRange(drivers: seq<DriverInfo>, pairs: seq<PairPrediction>) {
    forall k :: 0 <= k < |pairs| ==> 0 <= pairs[k].attacker < |drivers| && 0 <= pairs[k].defender < |drivers|
  }

  /** `results[key] = {...}` for each prediction in turn: a later pair with
      the same key overwrites an earlier one. */
  function Store(drivers: seq<DriverInfo>, pairs: seq<PairPrediction>): (m: map<string, OvertakeEntry>)
    requires InRange(drivers, pairs)
    ensures forall key :: key in m <==> exists t :: 0 <= t < |pairs| && KeyOf(drivers, pairs[t]) == key
  {
    if |pairs| == 0 then map[]
    else
      var last := pairs[|pairs| - 1];
      Store(drivers, pairs[..|pairs| - 1])[KeyOf(drivers, last) := EntryOf(drivers, last)]
  }

  /** A key holds the entry of the last prediction written under it. */
  lemma {:induction false} StoreLast(drivers: seq<DriverInfo>, pairs: seq<PairPrediction>, t: nat)
    requires InRange(drivers, pairs) && t < |pairs|
    requires forall u :: t < u < |pairs| ==> KeyOf(drivers, pairs[u]) != KeyOf(drivers, pairs[t])
    ensures Store(drivers, pairs)[KeyOf(drivers, pairs[t])] == EntryOf(drivers, pairs[t])
  {
    if t < |pairs| - 1 {
      StoreLast(drivers, pairs[..|pairs| - 1], t);
    }
  }

  /** The entry the source writes for attacker `a` and defender `d`. */
  function PairEntry(drivers: seq<DriverInfo>, a: int, d: int): OvertakeEntry
    requires 0 <= a < |drivers| && 0 <= d < |drivers|
  {
    var p := PairProbability(drivers[a], drivers[d]);
    OvertakeEntry(p, drivers[a].id, drivers[d].id, p > 0.5)
  }

  /** `predict_overtake`: a dict from `"<attacker id>_vs_<defender id>"` to
      the pair's prediction. It raises `KeyError('position')` exactly when
      a driver has no position and there is a second driver to compare it
      with; otherwise every scored pair writes its key, and nothing else is
      written. */
  function PredictOvertake(drivers: seq<DriverInfo>): (r: Result<map<string, OvertakeEntry>, PyError>)
    ensures r.Failure? <==> |drivers| > 1 && exists d :: 0 <= d < |drivers| && drivers[d].position.None?
    ensures r.Failure? ==> r.error == KeyError("position")
    ensures r.Success? ==> forall key :: key in r.value ==>
      exists a, d :: Scored(drivers, a, d) && PairKey(drivers[a], drivers[d]) == key
  {
    var pairs :- PairsFrom(drivers, 0);
    Success(Store(drivers, pairs))
  }

  /** No scored pair after `(a, d)` in loop order shares its key. */
  predicate LastWithKey(drivers: seq<DriverInfo>, a: int, d: int)
    requires Scored(drivers, a, d)
  {
    forall a2, d2 :: 0 <= a2 < |drivers| && 0 <= d2 < |drivers| && Scored(drivers, a2, d2) && Before(a, d, a2, d2) ==>
      PairKey(drivers[a2], drivers[d2]) != PairKey(drivers[a], drivers[d])
  }

  /** Every scored pair's key is in the result, holding the entry of the
      last scored pair with that key in loop order. */
  lemma PredictOvertakeEntries(drivers: seq<DriverInfo>, a: int, d: int)
    requires Scored(drivers, a, d)
    ensures PredictOvertake(drivers).Success? ==>
      PairKey(drivers[a], drivers[d]) in PredictOvertake(drivers).value &&
      (LastWithKey(drivers, a, d) ==> PredictOvertake(drivers).value[PairKey(drivers[a], drivers[d])] == PairEntry(drivers, a, d))
  {
    if PredictOvertake(drivers).Success? {
      PredictOvertakeKeyed(drivers, a, d);
      if LastWithKey(drivers, a, d) {
        PredictOvertakeLast(drivers, a, d);
      }
    }
  }

  lemma PredictOvertakeKeyed(drivers: seq<DriverInfo>, a: int, d: int)
    requires Scored(drivers, a, d) && PredictOvertake(drivers).Success?
    ensures PairKey(drivers[a], drivers[d]) in PredictOvertake(drivers).value
  {
    var pairs := PairsFrom(drivers, 0).value;
    assert PredictOvertake(drivers).value == Store(drivers, pairs);
    PairsFromComplete(drivers, 0, a, d);
    var t :| 0 <= t < |pairs| && pairs[t].attacker == a && pairs[t].defender == d;
    assert KeyOf(drivers, pairs[t]) == PairKey(drivers[a], drivers[d]);
  }

  lemma PredictOvertakeLast(drivers: seq<DriverInfo>, a: int, d: int)
    requires Scored(drivers, a, d) && PredictOvertake(drivers).Success? && LastWithKey(drivers, a, d)
    ensures PairKey(drivers[a], drivers[d]) in PredictOvertake(drivers).value
    ensures PredictOvertake(drivers).value[PairKey(drivers[a], drivers[d])] == PairEntry(drivers, a, d)
  {
    var pairs := PairsFrom(drivers, 0).value;
    assert PredictOvertake(drivers).value == Store(drivers, pairs);
    PairsFromComplete(drivers, 0, a, d);
    var t :| 0 <= t < |pairs| && pairs[t].attacker == a && pairs[t].defender == d;
    StoreHoldsPair(drivers, pairs, t, a, d);
  }

  /** In a sound, loop-ordered list of predictions, the pair `(a, d)` at
      `t` that is the last scored pair with its key keeps its entry. */
  lemma StoreHoldsPair(drivers: seq<DriverInfo>, pairs: seq<PairPrediction>, t: nat, a: int, d: int)
    requires t < |pairs| && pairs[t].attacker == a && pairs[t].defender == d && Scored(drivers, a, d)
    requires forall k :: 0 <= k < |pairs| ==> Scored(drivers, pairs[k].attacker, pairs[k].defender)
    requires forall k1, k2 :: 0 <= k1 < k2 < |pairs| ==>
      Before(pairs[k1].attacker, pairs[k1].defender, pairs[k2].attacker, pairs[k2].defender)
    requires pairs[t].probability == PairProbability(drivers[a], drivers[d]) && (pairs[t].likely <==> pairs[t].probability > 0.5)
    requires LastWithKey(drivers, a, d)
    ensures InRange(drivers, pairs)
    ensures Store(drivers, pairs)[PairKey(drivers[a], drivers[d])] == PairEntry(drivers, a, d)
  {
    LaterKeysDiffer(drivers, pairs, t, a, d);
    StoreLast(drivers, pairs, t);
  }

  /** In a loop-ordered list of scored pairs, when no scored pair after the
      one at `t` shares its key, no later list entry does either. */
  lemma LaterKeysDiffer(drivers: seq<DriverInfo>, pairs: seq<PairPrediction>, t: nat, a: int, d: int)
    requires t < |pairs| && pairs[t].attacker == a && pairs[t].defender == d && Scored(drivers, a, d)
    requires forall k :: 0 <= k < |pairs| ==> Scored(drivers, pairs[k].attacker, pairs[k].defender)
    requires forall k1, k2 :: 0 <= k1 < k2 < |pairs| ==>
      Before(pairs[k1].attacker, pairs[k1].defender, pairs[k2].attacker, pairs[k2].defender)
    requires LastWithKey(drivers, a, d)
    ensures InRange(drivers, pairs)
    ensures forall u :: t < u < |pairs| ==> KeyOf(drivers, pairs[u]) != KeyOf(drivers, pairs[t])
  {
    forall u | t < u < |pairs|
      ensures KeyOf(drivers, pairs[u]) != KeyOf(drivers, pairs[t])
    {
      assert Scored(drivers, pairs[u].attacker, pairs[u].defender);
      assert Before(pairs[t].attacker, pairs[t].defender, pairs[u].attacker, pairs[u].defender);
    }
  }

  /** Three drivers without ids collapse into the single key "None_vs_None",
      holding the last pair scored: third place against second. */
  lemma MissingIdsOverwrite()
    ensures var drivers := [Unnamed(1), Unnamed(2), Unnamed(3)];
      var r := PredictOvertake(drivers);
      r.Success? && r.value.Keys == {"None_vs_None"} && r.value["None_vs_None"] == PairEntry(drivers, 2, 1)
  {
    var drivers := [Unnamed(1), Unnamed(2), Unnamed(3)];
    OnlyNoneKey(drivers);
    NoneKey();
    assert Scored(drivers, 2, 1);
    PredictOvertakeEntries(drivers, 2, 1);
    var keys := PredictOvertake(drivers).value.Keys;
    assert "None_vs_None" in keys && keys <= {"None_vs_None"};
    SingletonSet(keys, "None_vs_None");
  }

  lemma SingletonSet<T>(s: set<T>, x: T)
    requires x in s && s <= {x}
    ensures s == {x}
  {
  }

  /** Without ids every key written is "None_vs_None". */
  lemma OnlyNoneKey(drivers: seq<DriverInfo>)
    requires forall k :: 0 <= k < |drivers| ==> drivers[k].id.None?
    ensures PredictOvertake(drivers).Success? ==> PredictOvertake(drivers).value.Keys <= {"None_vs_None"}
  {
    NoneKey();
    if PredictOvertake(drivers).Success? {
      forall key | key in PredictOvertake(drivers).value ensures key == "None_vs_None" {
        var a, d :| Scored(drivers, a, d) && PairKey(drivers[a], drivers[d]) == key;
        assert PairKey(drivers[a], drivers[d]) == PairKey(Unnamed(3), Unnamed(2));
      }
    }
  }

  lemma NoneKey()
    ensures PairKey(Unnamed(3), Unnamed(2)) == "None_vs_None"
  {
    var s := "None" + "_vs_" + "None";
    assert |s| == 12;
    assert forall k :: 0 <= k < 12 ==> s[k] == "None_vs_None"[k];
  }

  /** A driver with only a position. */
  function Unnamed(position: int): DriverInfo {
    DriverInfo(None, Some(position), None, None, None)
  }
}

=== FILE: pit_decision_engine.dfy ===
/** The advanced pit-decision engine (grracing/pit_decision_engine.py): five
    weighted factors (tyre degradation, traffic, race twin, opponent, weather),
    a confidence score clamped to [0, 1] and a priority chain that chooses
    PIT_NOW, PIT_LATER or EXTEND_STINT.

    The engine's degradation factor calls `calculate_degradation` on the
    compound-curve model of grracing/degradation.py, which has no such
    method; `MakePitDecisionWith` is parameterised by the receiving class so
    that both the call as written and the intended call to the production
    model of models/tire_degradation.py are modelled. */
module PitDecisionEngine {
  import opened Wrappers
  import opened Numerics
  import opened Labels
  import opened Text
  import TireDegradation
  import Degradation

  const CriticalThreshold: real := 0.05
  const WarningThreshold: real := 0.03

  /* ---------------- degradation factor ---------------- */

  /** One entry of the five-lap degradation outlook. */
  datatype LapDegradation = LapDegradation(lap: int, degradation: real, paceLoss: real)

  datatype DegradationFactor = DegradationFactor(
    score: real,
    urgency: Level,
    currentDegradation: real,
    rate: real,
    tireAge: int,
    predicted: seq<LapDegradation>,
    criticalLap: Option<int>)

  /** Degradation for the next five laps, at tyre ages `tireAge + 1 .. + 5`. */
  function Outlook(tireAge: int, compound: string, currentLap: int): (p: seq<LapDegradation>)
    ensures |p| == 5
  {
    seq(5, k requires 0 <= k < 5 =>
      var d := TireDegradation.CalculateDegradation(tireAge + k + 1, compound, 25.0);
      LapDegradation(currentLap + k + 1, d, d * 0.5))
  }

  /** Some of the first three outlook laps reaches the critical threshold. */
  predicate SoonCritical(p: seq<LapDegradation>) {
    exists k :: 0 <= k < 3 && k < |p| && p[k].degradation >= CriticalThreshold
  }

  /** Urgency: critical at 5% degradation, high at 3%, medium when one of the
      next three laps reaches 5%, low otherwise. */
  function Urgency(current: real, p: seq<LapDegradation>): (u: Level)
    ensures u == Critical <==> current >= CriticalThreshold
    ensures u == High <==> WarningThreshold <= current < CriticalThreshold
    ensures u == Medium <==> current < WarningThreshold && SoonCritical(p)
    ensures u == Low <==> current < WarningThreshold && !SoonCritical(p)
  {
    if current >= CriticalThreshold then Critical
    else if current >= WarningThreshold then High
    else if SoonCritical(p) then Medium
    else Low
  }

  function UrgencyScore(u: Level): real {
    match u
    case Critical => 0.9
    case High => 0.7
    case Medium => 0.5
    case Low => 0.2
  }

  /** `_find_critical_lap`: the lap of the first outlook entry at or above
      the threshold. */
  function FindCriticalLap(p: seq<LapDegradation>, threshold: real): (r: Option<int>)
    ensures r.None? <==> forall k :: 0 <= k < |p| ==> p[k].degradation < threshold
    ensures r.Some? ==> exists k :: 0 <= k < |p| && p[k].lap == r.value && p[k].degradation >= threshold &&
                                   forall j :: 0 <= j < k ==> p[j].degradation < threshold
  {
    if |p| == 0 then None
    else if p[0].degradation >= threshold then Some(p[0].lap)
    else
      var r := FindCriticalLap(p[1..], threshold);
      assert forall k :: 1 <= k < |p| ==> p[k] == p[1..][k - 1];
      r
  }

  /** The degradation factor once the current degradation is known.
      `profileRate` is the driver twin's `degradation_profile.rate` (0 when
      the profile has no rate), or None without a twin or profile. */
  function DegradationFactorFrom(
    current: real, p: seq<LapDegradation>, rate: real, tireAge: int, profileRate: Option<real>): (f: DegradationFactor)
    ensures f.urgency == Urgency(current, p) && f.currentDegradation == current && f.predicted == p
    ensures f.urgency == Critical ==> f.score >= 0.9
    ensures f.score <= 1.0
    ensures f.score in {0.2, 0.5, 0.7, 0.9, 0.3, 0.6, 0.8, 1.0}
    ensures (profileRate.None? || profileRate.value <= rate) ==> f.score in {0.2, 0.5, 0.7, 0.9}
    ensures (profileRate.None? || profileRate.value <= rate) && f.urgency != Critical ==> f.score <= 0.7
    ensures f.criticalLap == FindCriticalLap(p, CriticalThreshold)
  {
    var u := Urgency(current, p);
    var s := UrgencyScore(u);
    var score := if profileRate.Some? && profileRate.value > rate then Min(1.0, s + 0.1) else s;
    DegradationFactor(score, u, current, rate, tireAge, p, FindCriticalLap(p, CriticalThreshold))
  }

  /** `_analyze_degradation_factor` with `calculate_degradation` dispatched
      on class `c`. The outlook calls go to the same receiver, so they fail
      exactly when the first call does; the first failure is what Python
      raises. */
  function AnalyzeDegradationFactorWith(
    c: Degradation.DegradationClass, tireAge: int, compound: string, rate: real, currentLap: int,
    profileRate: Option<real>): (r: Result<DegradationFactor, PyError>)
    ensures r.Failure? <==> c == Degradation.CompoundCurveModel
    ensures r.Success? ==>
      r.value.currentDegradation == TireDegradation.CalculateDegradation(tireAge, compound, 25.0) &&
      r.value.predicted == Outlook(tireAge, compound, currentLap)
  {
    var current :- Degradation.CallCalculateDegradation(c, tireAge, compound);
    Success(DegradationFactorFrom(current, Outlook(tireAge, compound, currentLap), rate, tireAge, profileRate))
  }

  /* ---------------- traffic factor ---------------- */

  datatype TrafficLevel = Light | Moderate | Heavy

  /** One lap of the five-lap traffic outlook: the density clipped to
      [0, 1], and whether the unclipped density is below 0.4. */
  datatype WindowLap = WindowLap(lap: int, predictedDensity: real, clear: bool)

  datatype TrafficFactor = TrafficFactor(
    score: real,
    level: TrafficLevel,
    density: real,
    carsAhead: int,
    clearNow: bool,
    window: seq<WindowLap>,
    bestWindowLap: Option<int>)

  /** Traffic thins by 20% over the race: `density * (1 - 0.2 * lap / total)`. */
  function RawWindowDensity(density: real, lap: int, totalLaps: int): real
    requires totalLaps != 0
  {
    density * (1.0 - (lap as real / totalLaps as real) * 0.2)
  }

  function TrafficWindow(density: real, currentLap: int, totalLaps: int): (w: seq<WindowLap>)
    requires totalLaps != 0
    ensures |w| == 5
  {
    seq(5, k requires 0 <= k < 5 =>
      var raw := RawWindowDensity(density, currentLap + k + 1, totalLaps);
      WindowLap(currentLap + k + 1, Clamp(raw, 0.0, 1.0), raw < 0.4))
  }

  /** Entry `k` is the first one of least clipped density (Python's `min`
      with a key). */
  predicate IsBestWindow(w: seq<WindowLap>, k: int) {
    0 <= k < |w| &&
    (forall j :: 0 <= j < |w| ==> w[k].predictedDensity <= w[j].predictedDensity) &&
    (forall j :: 0 <= j < k ==> w[k].predictedDensity < w[j].predictedDensity)
  }

  function Densities(w: seq<WindowLap>): (d: seq<real>)
    ensures |d| == |w| && forall k :: 0 <= k < |w| ==> d[k] == w[k].predictedDensity
  {
    seq(|w|, k requires 0 <= k < |w| => w[k].predictedDensity)
  }

  /** `_analyze_traffic_factor`. Python divides by `total_laps`, so a race
      of zero laps raises ZeroDivisionError. */
  function AnalyzeTrafficFactor(currentPosition: int, density: real, currentLap: int, totalLaps: int): (r: Result<TrafficFactor, PyError>)
    ensures r.Failure? <==> totalLaps == 0
    ensures r.Failure? ==> r.error == ZeroDivisionError
    ensures r.Success? ==>
      var f := r.value;
      f.carsAhead == MaxInt(0, currentPosition - 1) &&
      (f.score == 0.3 <==> density >= 0.7) &&
      (f.score == 0.5 <==> 0.4 <= density < 0.7) &&
      (f.score == 0.8 <==> density < 0.4) &&
      (f.clearNow <==> density < 0.4) &&
      |f.window| == 5 &&
      (forall k :: 0 <= k < 5 ==> f.window[k].lap == currentLap + k + 1) &&
      exists k :: IsBestWindow(f.window, k) &&
        f.bestWindowLap == (if f.window[k].clear then Some(f.window[k].lap) else None)
    ensures r.Success? && r.value.bestWindowLap.Some? ==>
      currentLap + 1 <= r.value.bestWindowLap.value <= currentLap + 5
  {
    if totalLaps == 0 then Failure(ZeroDivisionError)
    else
      var level := if density >= 0.7 then Heavy else if density >= 0.4 then Moderate else Light;
      var score := if density >= 0.7 then 0.3 else if density >= 0.4 then 0.5 else 0.8;
      var w := TrafficWindow(density, currentLap, totalLaps);
      var b := ArgMin(Densities(w));
      assert IsBestWindow(w, b);
      Success(TrafficFactor(score, level, density, MaxInt(0, currentPosition - 1), density < 0.4, w,
                            if w[b].clear then Some(w[b].lap) else None))
  }

  /* ---------------- optional factors ---------------- */

  /** The score of an optional factor and whether its data was present. */
  datatype Scored = Scored(score: real, available: bool)

  /** `pit_recommendations.optimal_window` of a race-twin result. */
  datatype TwinWindow = TwinWindow(start: Option<int>, end: Option<int>)

  /** The keys of a race-twin result the engine reads. `pitWindow` is None
      when `pit_recommendations` is absent or empty. */
  datatype RaceTwinSummary = RaceTwinSummary(
    pitWindow: Option<TwinWindow>,
    undercutViable: bool,
    undercutGain: Option<real>,
    cliffCritical: bool,
    cliffLap: Option<int>,
    clearWindow: bool)

  /** The window score: 0.8 inside the recommended window, 0.4 before it
      and 0.3 past it. A missing start is the current lap and a missing end
      ten laps on, so a window without bounds always holds the current
      lap. */
  function WindowScore(currentLap: int, tw: TwinWindow): (s: real)
    ensures s == 0.8 <==> tw.start.GetOr(currentLap) <= currentLap <= tw.end.GetOr(currentLap + 10)
    ensures s == 0.4 <==> currentLap < tw.start.GetOr(currentLap)
    ensures s == 0.3 <==> tw.start.GetOr(currentLap) <= currentLap && currentLap > tw.end.GetOr(currentLap + 10)
    ensures tw.start.None? && tw.end.None? ==> s == 0.8
  {
    var start := tw.start.GetOr(currentLap);
    var end := tw.end.GetOr(currentLap + 10);
    if start <= currentLap <= end then 0.8 else if currentLap < start then 0.4 else 0.3
  }

  /** An undercut gaining more than 2 seconds. */
  predicate StrongUndercut(t: RaceTwinSummary) {
    t.undercutViable && t.undercutGain.GetOr(0.0) > 2.0
  }

  /** An undercut gaining more than 1 and at most 2 seconds. */
  predicate ModerateUndercut(t: RaceTwinSummary) {
    t.undercutViable && 1.0 < t.undercutGain.GetOr(0.0) <= 2.0
  }

  /** A critical cliff at most three laps away (20 laps when no lap is
      given). */
  predicate CliffImminent(t: RaceTwinSummary, currentLap: int) {
    t.cliffCritical && t.cliffLap.GetOr(currentLap + 20) - currentLap <= 3
  }

  /** `_analyze_race_twin_factor`'s score: the window score (0.5 without
      recommendations), overridden by a strong (0.9) or moderate (0.7)
      undercut, raised to 0.9 by an imminent cliff, plus 0.1 (capped at 1)
      for a clear window. */
  function RaceTwinScore(t: RaceTwinSummary, currentLap: int): (s: real)
    ensures 0.3 <= s <= 1.0
    ensures StrongUndercut(t) || CliffImminent(t, currentLap) ==> s == if t.clearWindow then 1.0 else 0.9
    ensures ModerateUndercut(t) && !CliffImminent(t, currentLap) ==> s == if t.clearWindow then 0.8 else 0.7
    ensures !StrongUndercut(t) && !ModerateUndercut(t) && !CliffImminent(t, currentLap) ==>
      s == (if t.pitWindow.Some? then WindowScore(currentLap, t.pitWindow.value) else 0.5) + (if t.clearWindow then 0.1 else 0.0)
    ensures t.pitWindow.None? && !t.undercutViable && !t.cliffCritical && !t.clearWindow ==> s == 0.5
  {
    var s0 := if t.pitWindow.Some? then WindowScore(currentLap, t.pitWindow.value) else 0.5;
    var gain := t.undercutGain.GetOr(0.0);
    var s1 := if t.undercutViable && gain > 2.0 then 0.9
              else if t.undercutViable && gain > 1.0 then 0.7
              else s0;
    var s2 := if t.cliffCritical && t.cliffLap.GetOr(currentLap + 20) - currentLap <= 3 then Max(s1, 0.9) else s1;
    if t.clearWindow then Min(1.0, s2 + 0.1) else s2
  }

  /** A clear window adds 0.1 to whatever the other insights give, capped
      at 1. */
  lemma ClearWindowBonus(t: RaceTwinSummary, currentLap: int)
    ensures RaceTwinScore(t.(clearWindow := true), currentLap) == Min(1.0, RaceTwinScore(t.(clearWindow := false), currentLap) + 0.1)
  {
  }

  /** `_analyze_race_twin_factor`; None stands for a missing or empty result. */
  function AnalyzeRaceTwinFactor(raceTwin: Option<RaceTwinSummary>, currentLap: int): (f: Scored)
    ensures raceTwin.None? ==> f == Scored(0.5, false)
    ensures raceTwin.Some? ==> f.available && 0.3 <= f.score <= 1.0
  {
    match raceTwin
    case None => Scored(0.5, false)
    case Some(t) => Scored(RaceTwinScore(t, currentLap), true)
  }

  /** An entry of `opponent_data`: the keys the engine reads, and whether
      the dict holds any other key (such as "position"). */
  datatype Opponent = Opponent(gap: Option<real>, tireAge: Option<int>, justPitted: Option<bool>, id: Option<string>,
                               otherKeys: bool) {
    /** The dict is `{}`, the only dict Python treats as false. */
    predicate IsEmptyRecord() {
      gap.None? && tireAge.None? && justPitted.None? && id.None? && !otherKeys
    }
  }

  function AbsGaps(ops: seq<Opponent>): (g: seq<real>)
    ensures |g| == |ops| && forall i :: 0 <= i < |ops| ==> g[i] == Abs(ops[i].gap.GetOr(0.0))
  {
    seq(|ops|, i requires 0 <= i < |ops| => Abs(ops[i].gap.GetOr(0.0)))
  }

  /** Index of the closest opponent: the first of least absolute gap. */
  function Closest(ops: seq<Opponent>): (i: nat)
    requires |ops| > 0
    ensures i < |ops|
    ensures forall j :: 0 <= j < |ops| ==> Abs(ops[i].gap.GetOr(0.0)) <= Abs(ops[j].gap.GetOr(0.0))
    ensures forall j :: 0 <= j < i ==> Abs(ops[i].gap.GetOr(0.0)) < Abs(ops[j].gap.GetOr(0.0))
  {
    var g := AbsGaps(ops);
    var i := ArgMin(g);
    assert forall j :: 0 <= j < |ops| ==> g[j] == Abs(ops[j].gap.GetOr(0.0));
    i
  }

  function OpponentScore(tireAge: int, o: Opponent): (s: real)
    ensures s in {0.3, 0.5, 0.7, 0.8}
    ensures o.justPitted.GetOr(false) ==> s == 0.7
    ensures !o.justPitted.GetOr(false) ==>
      (s == 0.3 <==> tireAge - o.tireAge.GetOr(tireAge) < -5) &&
      (s == 0.8 <==> tireAge - o.tireAge.GetOr(tireAge) > 5)
  {
    var delta := tireAge - o.tireAge.GetOr(tireAge);
    var s := if delta < -5 then 0.3 else if delta > 5 then 0.8 else 0.5;
    if o.justPitted.GetOr(false) then 0.7 else s
  }

  /** `_analyze_opponent_factor`; a missing list is the empty list. */
  function AnalyzeOpponentFactor(ops: seq<Opponent>, tireAge: int): (f: Scored)
    ensures |ops| == 0 ==> f == Scored(0.5, false)
    ensures f.available <==> |ops| > 0 && !ops[Closest(ops)].IsEmptyRecord()
    ensures !f.available ==> f.score == 0.5
    ensures f.score in {0.3, 0.5, 0.7, 0.8}
  {
    if |ops| == 0 then Scored(0.5, false)
    else
      var o := ops[Closest(ops)];
      if o.IsEmptyRecord() then Scored(0.5, false)
      else Scored(OpponentScore(tireAge, o), true)
  }

  /** An opponent given only by keys the engine does not read, such as
      `{"position": 3}`, is a non-empty dict: the factor is available and
      neutral. */
  lemma OtherKeysOnlyOpponentAvailable(tireAge: int)
    ensures AnalyzeOpponentFactor([Opponent(None, None, None, None, true)], tireAge) == Scored(0.5, true)
  {
  }

  /** The keys of the weather dict the engine reads. */
  datatype WeatherInput = WeatherInput(condition: Option<string>, trackTemp: Option<real>)

  function WeatherScore(w: WeatherInput): (s: real)
    ensures 0.3 <= s <= 0.7
    ensures w.trackTemp.GetOr(25.0) > 35.0 ==> s >= 0.6
    ensures 15.0 <= w.trackTemp.GetOr(25.0) <= 35.0 ==> s in {0.4, 0.5}
  {
    var condition := Lower(w.condition.GetOr("dry"));
    var s := if Contains("rain", condition) || Contains("wet", condition) then 0.4 else 0.5;
    var temp := w.trackTemp.GetOr(25.0);
    if temp > 35.0 then Min(1.0, s + 0.2)
    else if temp < 15.0 then Max(0.0, s - 0.1)
    else s
  }

  /** `_analyze_weather_factor`; None stands for a missing or empty dict. */
  function AnalyzeWeatherFactor(weather: Option<WeatherInput>): (f: Scored)
    ensures weather.None? ==> f == Scored(0.5, false)
    ensures weather.Some? ==> f.available && 0.3 <= f.score <= 0.7
  {
    match weather
    case None => Scored(0.5, false)
    case Some(w) => Scored(WeatherScore(w), true)
  }

  /* ---------------- confidence and decision ---------------- */

  /** The weights 0.35, 0.25, 0.20, 0.10, 0.10 (summing to 1). */
  function WeightedTotal(d: real, t: real, rt: real, op: real, w: real): real {
    d * 0.35 + t * 0.25 + rt * 0.20 + op * 0.10 + w * 0.10
  }

  function Count(b: bool): nat {
    if b then 1 else 0
  }

  /** Degradation and traffic carry no `available` key and count as present. */
  function AvailableFactors(rt: Scored, op: Scored, w: Scored): (k: nat)
    ensures 2 <= k <= 5
    ensures k == 2 <==> !rt.available && !op.available && !w.available
  {
    2 + Count(rt.available) + Count(op.available) + Count(w.available)
  }

  /** `0.7 + (k / 5) * 0.3`. */
  function AvailabilityMultiplier(k: nat): real {
    0.7 + (k as real / 5.0) * 0.3
  }

  /** `_calculate_confidence_score`. */
  function ConfidenceScore(d: real, t: real, rt: Scored, op: Scored, w: Scored): (c: real)
    ensures 0.0 <= c <= 1.0
    ensures 0.82 <= AvailabilityMultiplier(AvailableFactors(rt, op, w)) <= 1.0
    ensures 0.0 <= d <= 1.0 && 0.0 <= t <= 1.0 && 0.0 <= rt.score <= 1.0 && 0.0 <= op.score <= 1.0 && 0.0 <= w.score <= 1.0 ==>
      c == WeightedTotal(d, t, rt.score, op.score, w.score) * AvailabilityMultiplier(AvailableFactors(rt, op, w))
  {
    var total := WeightedTotal(d, t, rt.score, op.score, w.score);
    var m := AvailabilityMultiplier(AvailableFactors(rt, op, w));
    ProductInUnit(total, m);
    Clamp(total * m, 0.0, 1.0)
  }

  lemma ProductInUnit(x: real, y: real)
    ensures 0.0 <= x <= 1.0 && 0.0 <= y <= 1.0 ==> 0.0 <= x * y <= 1.0
  {
    if 0.0 <= x <= 1.0 && 0.0 <= y <= 1.0 {
      MulNonneg(x, y);
      MulMono(y, x, 1.0);
    }
  }

  datatype Decision = PitNow | PitLater | ExtendStint

  datatype DecisionResult = DecisionResult(decision: Decision, recommendedLap: Option<int>)

  /** `_make_decision`: critical wear first, then confidence 0.75 for
      PIT_NOW and 0.55 for PIT_LATER. PIT_LATER takes the best traffic lap
      when there is one within five laps (a lap number 0 is falsy in
      Python and is skipped), else two laps from now. */
  function MakeDecision(urgency: Level, confidence: real, bestWindowLap: Option<int>, currentLap: int): (d: DecisionResult)
    ensures urgency == Critical ==> d == DecisionResult(PitNow, Some(currentLap))
    ensures d.decision == PitNow <==> urgency == Critical || confidence >= 0.75
    ensures d.decision == ExtendStint <==> urgency != Critical && confidence < 0.55
    ensures d.decision == PitNow ==> d.recommendedLap == Some(currentLap)
    ensures d.decision == ExtendStint ==> d.recommendedLap.None?
    ensures d.decision == PitLater ==>
      (d.recommendedLap.Some? &&
       (d.recommendedLap.value == currentLap + 2 ||
        (bestWindowLap == d.recommendedLap && d.recommendedLap.value <= currentLap + 5)))
  {
    if urgency == Critical then DecisionResult(PitNow, Some(currentLap))
    else if confidence >= 0.75 then DecisionResult(PitNow, Some(currentLap))
    else if confidence >= 0.55 then
      if bestWindowLap.Some? && bestWindowLap.value != 0 && bestWindowLap.value <= currentLap + 5
      then DecisionResult(PitLater, bestWindowLap)
      else DecisionResult(PitLater, Some(currentLap + 2))
    else DecisionResult(ExtendStint, None)
  }

  datatype ConfidenceBand = HighBand | MediumHighBand | MediumBand | LowMediumBand | LowBand

  /** `_confidence_level`: buckets at 0.8, 0.6, 0.4 and 0.2. */
  function ConfidenceLevel(score: real): (b: ConfidenceBand)
    ensures b == HighBand <==> score >= 0.8
    ensures b == MediumHighBand <==> 0.6 <= score < 0.8
    ensures b == MediumBand <==> 0.4 <= score < 0.6
    ensures b == LowMediumBand <==> 0.2 <= score < 0.4
    ensures b == LowBand <==> score < 0.2
  {
    if score >= 0.8 then HighBand
    else if score >= 0.6 then MediumHighBand
    else if score >= 0.4 then MediumBand
    else if score >= 0.2 then LowMediumBand
    else LowBand
  }

  /* ---------------- the whole decision ---------------- */

  datatype PitDecision = PitDecision(
    decision: Decision,
    confidence: real,
    level: ConfidenceBand,
    recommendedLap: Option<int>,
    degradation: DegradationFactor,
    traffic: TrafficFactor,
    raceTwin: Scored,
    opponent: Scored,
    weather: Scored)

  /** `make_pit_decision` with `calculate_degradation` dispatched on class
      `c`. The factors are computed in the source's order, so the first
      exception raised is the one returned. */
  function MakePitDecisionWith(
    c: Degradation.DegradationClass,
    currentLap: int, totalLaps: int, tireAge: int, compound: string, currentPosition: int,
    rate: real, density: real,
    raceTwin: Option<RaceTwinSummary>, profileRate: Option<real>,
    opponents: seq<Opponent>, weather: Option<WeatherInput>): (r: Result<PitDecision, PyError>)
    ensures c == Degradation.CompoundCurveModel ==> r == Failure(AttributeError("calculate_degradation"))
    ensures c == Degradation.ProductionModel ==> (r.Failure? <==> totalLaps == 0)
  {
    var deg :- AnalyzeDegradationFactorWith(c, tireAge, compound, rate, currentLap, profileRate);
    var traffic :- AnalyzeTrafficFactor(currentPosition, density, currentLap, totalLaps);
    var rt := AnalyzeRaceTwinFactor(raceTwin, currentLap);
    var op := AnalyzeOpponentFactor(opponents, tireAge);
    var w := AnalyzeWeatherFactor(weather);
    var confidence := ConfidenceScore(deg.score, traffic.score, rt, op, w);
    var d := MakeDecision(deg.urgency, confidence, traffic.bestWindowLap, currentLap);
    Success(PitDecision(d.decision, confidence, ConfidenceLevel(confidence), d.recommendedLap, deg, traffic, rt, op, w))
  }

  /** The decision as the engine evidently intends it: current and
      predicted degradation from the production model of
      models/tire_degradation.py at the default track temperature. */
  function MakePitDecision(
    currentLap: int, totalLaps: int, tireAge: int, compound: string, currentPosition: int,
    rate: real, density: real,
    raceTwin: Option<RaceTwinSummary>, profileRate: Option<real>,
    opponents: seq<Opponent>, weather: Option<WeatherInput>): (r: Result<PitDecision, PyError>)
    ensures r.Failure? <==> totalLaps == 0
    ensures r.Success? ==>
      var p := r.value;
      0.0 <= p.confidence <= 1.0 &&
      (p.degradation.urgency == Critical <==> TireDegradation.CalculateDegradation(tireAge, compound, 25.0) >= 0.05) &&
      (p.degradation.urgency == Critical ==> p.decision == PitNow && p.recommendedLap == Some(currentLap)) &&
      (p.decision == PitNow ==> p.recommendedLap == Some(currentLap)) &&
      (p.decision == PitLater ==> p.recommendedLap.Some? && currentLap + 1 <= p.recommendedLap.value <= currentLap + 5) &&
      (p.decision == ExtendStint ==> p.recommendedLap.None?)
  {
    MakePitDecisionWith(Degradation.ProductionModel, currentLap, totalLaps, tireAge, compound, currentPosition,
                        rate, density, raceTwin, profileRate, opponents, weather)
  }

  /** The engine as written raises AttributeError on every input: its
      degradation model has no `calculate_degradation`. */
  lemma MakePitDecisionAsWrittenRaises(
    currentLap: int, totalLaps: int, tireAge: int, compound: string, currentPosition: int,
    rate: real, density: real,
    raceTwin: Option<RaceTwinSummary>, profileRate: Option<real>,
    opponents: seq<Opponent>, weather: Option<WeatherInput>)
    ensures MakePitDecisionWith(Degradation.CompoundCurveModel, currentLap, totalLaps, tireAge, compound, currentPosition,
                                rate, density, raceTwin, profileRate, opponents, weather)
            == Failure(AttributeError("calculate_degradation"))
    ensures totalLaps != 0 ==>
      MakePitDecision(currentLap, totalLaps, tireAge, compound, currentPosition,
                      rate, density, raceTwin, profileRate, opponents, weather).Success?
  {
  }

  /** Without the optional inputs the multiplier is 0.82; with a
      non-critical degradation score (at most 0.7) and any traffic score
      (at most 0.8) the confidence is at most 0.645 * 0.82. */
  lemma ConfidenceWithoutOptionalInputs(d: real, t: real)
    requires 0.0 <= d <= 0.7 && 0.0 <= t <= 0.8
    ensures ConfidenceScore(d, t, Scored(0.5, false), Scored(0.5, false), Scored(0.5, false)) <= 0.5289
  {
    var u := Scored(0.5, false);
    assert AvailableFactors(u, u, u) == 2;
    assert AvailabilityMultiplier(2) == 0.82;
  }

  /** With no race twin, driver twin, opponents or weather, and wear below
      the critical threshold, the weighted score is at most 0.645 and the
      multiplier is 0.82, so confidence stays below 0.55: the engine always
      extends the stint. */
  lemma NoOptionalInputsExtendsStint(
    currentLap: int, totalLaps: int, tireAge: int, compound: string, currentPosition: int,
    rate: real, density: real)
    requires totalLaps != 0
    requires TireDegradation.CalculateDegradation(tireAge, compound, 25.0) < 0.05
    ensures var r := MakePitDecision(currentLap, totalLaps, tireAge, compound, currentPosition,
                                     rate, density, None, None, [], None);
      r.Success? && r.value.decision == ExtendStint && r.value.recommendedLap.None? && r.value.confidence <= 0.5289
  {
    var rd := AnalyzeDegradationFactorWith(Degradation.ProductionModel, tireAge, compound, rate, currentLap, None);
    var deg := rd.value;
    assert deg.urgency != Critical;
    assert deg.score <= 0.7;
    var rtr := AnalyzeTrafficFactor(currentPosition, density, currentLap, totalLaps);
    var traffic := rtr.value;
    assert traffic.score <= 0.8;
    var u := Scored(0.5, false);
    ConfidenceWithoutOptionalInputs(deg.score, traffic.score);
    var c := ConfidenceScore(deg.score, traffic.score, u, u, u);
    var d := MakeDecision(deg.urgency, c, traffic.bestWindowLap, currentLap);
    assert d.decision == ExtendStint;
  }
}

=== FILE: pit_rejoin.dfy ===
/** Pit-stop rejoin prediction (grracing/pit_rejoin.py): time lost, positions
    lost, rejoin and ghost positions, the traffic met after rejoining, and the
    traffic-aware pit window. */
module PitRejoin {
  import opened Wrappers
  import opened Numerics

  /** Rejoin difficulty per sector: S1 0.8, S2 1.2, S3 1.0, otherwise 1.0. */
  function RejoinSectorMultiplier(sector: string): (m: real)
    ensures sector == "S1" ==> m == 0.8
    ensures sector == "S2" ==> m == 1.2
    ensures sector != "S1" && sector != "S2" ==> m == 1.0
  {
    if sector == "S1" then 0.8 else if sector == "S2" then 1.2 else 1.0
  }

  /** `_calculate_rejoin_time_loss`: a 1.5 s merge penalty scaled by density and sector. */
  function RejoinTimeLoss(density: real, sector: string): real {
    1.5 * (1.0 + density * 0.5) * RejoinSectorMultiplier(sector)
  }

  /** Total time lost: the stop plus the rejoin penalty. */
  function TimeLost(pitTime: real, density: real, sector: string): real {
    pitTime + RejoinTimeLoss(density, sector)
  }

  /** Denser traffic always costs strictly more time. */
  lemma TimeLostStrictlyIncreasing(pitTime: real, d1: real, d2: real, sector: string)
    requires d1 < d2
    ensures TimeLost(pitTime, d1, sector) < TimeLost(pitTime, d2, sector)
  {
    var m := RejoinSectorMultiplier(sector);
    assert 1.5 * (1.0 + d2 * 0.5) * m - 1.5 * (1.0 + d1 * 0.5) * m == 0.75 * m * (d2 - d1);
    assert 0.75 * m * (d2 - d1) > 0.0;
  }

  /** `_time_to_positions`: one position per second lost, never negative. */
  function TimeToPositions(timeLost: real): (p: real)
    ensures p >= 0.0
    ensures timeLost >= 0.0 ==> p == timeLost
  {
    Max(0.0, timeLost / 1.0)
  }

  /** `_calculate_ghost_position`: 0.1 s lost per lap past lap 15, one
      position per second, at most five positions. */
  function GhostPosition(currentPosition: int, pitLap: int): (g: int)
    ensures currentPosition <= g <= currentPosition + 5
    ensures pitLap < 25 ==> g == currentPosition
  {
    var lapsSince := MaxInt(0, pitLap - 15);
    var lost := lapsSince as real * 0.1 / 1.0;
    MinInt(currentPosition + Trunc(lost), currentPosition + 5)
  }

  /** Traffic multiplier after rejoining: S1 0.8, S2 1.3, S3 1.0, otherwise 1.0. */
  function ImpactSectorMultiplier(sector: string): (m: real)
    ensures sector == "S1" ==> m == 0.8
    ensures sector == "S2" ==> m == 1.3
    ensures sector != "S1" && sector != "S2" ==> m == 1.0
  {
    if sector == "S1" then 0.8 else if sector == "S2" then 1.3 else 1.0
  }

  datatype TrafficImpact = TrafficImpact(carsAhead: real, lossPerLap: real, sector: string, density: real, clearWindow: bool)

  /** `_calculate_traffic_impact`, given the (untruncated) rejoin position. */
  function CalculateTrafficImpact(rejoinPosition: real, density: real, sector: string): (t: TrafficImpact)
    ensures t.carsAhead == Max(0.0, rejoinPosition - 1.0)
    ensures t.lossPerLap == t.carsAhead * 0.1 * ImpactSectorMultiplier(sector) * (1.0 + density * 0.5)
    ensures t.clearWindow <==> t.lossPerLap < 0.2
    ensures rejoinPosition <= 1.0 ==> t.lossPerLap == 0.0 && t.clearWindow
  {
    var cars := Max(0.0, rejoinPosition - 1.0);
    var loss := cars * 0.1 * ImpactSectorMultiplier(sector) * (1.0 + density * 0.5);
    TrafficImpact(cars, loss, sector, density, loss < 0.2)
  }

  datatype RejoinResult = RejoinResult(
    pitLap: int,
    positionBeforePit: int,
    rejoinPosition: int,
    positionsLost: int,
    timeLost: real,
    ghostPosition: int,
    trafficImpact: TrafficImpact,
    rejoinSector: string)

  /** The rejoin position before Python's `int()`: `min(current + lost, total_cars)`. */
  function RawRejoin(currentPosition: int, positionsLost: real, totalCars: int): real {
    Min(currentPosition as real + positionsLost, totalCars as real)
  }

  /** `simulate_pit_rejoin`. */
  function SimulatePitRejoin(currentPosition: int, pitLap: int, pitTime: real, density: real,
                             totalCars: int, sector: string): (r: RejoinResult)
    ensures r.timeLost == pitTime + 1.5 * (1.0 + 0.5 * density) * RejoinSectorMultiplier(sector)
    ensures r.rejoinPosition <= totalCars
    ensures currentPosition <= totalCars ==> currentPosition <= r.rejoinPosition
    ensures r.positionsLost >= 0
    ensures currentPosition <= r.ghostPosition <= currentPosition + 5
    ensures r.trafficImpact == CalculateTrafficImpact(
      RawRejoin(currentPosition, TimeToPositions(r.timeLost), totalCars), density, sector)
  {
    var timeLost := TimeLost(pitTime, density, sector);
    var lost := TimeToPositions(timeLost);
    var rejoin := RawRejoin(currentPosition, lost, totalCars);
    RejoinResult(pitLap, currentPosition, Trunc(rejoin), Trunc(lost), timeLost,
                 GhostPosition(currentPosition, pitLap), CalculateTrafficImpact(rejoin, density, sector), sector)
  }

  datatype ForecastLap = ForecastLap(lap: int, density: real, suitable: bool)

  /** Density forecast for one lap: 5% lower per lap ahead, floored at 0;
      suitability uses the unfloored value. */
  function ForecastAt(currentLap: int, lap: int, density: real): ForecastLap {
    var predicted := density * (1.0 - (lap - currentLap) as real * 0.05);
    ForecastLap(lap, Max(0.0, predicted), predicted < 0.4)
  }

  /** Forecast for laps `current .. min(current + 10, total) - 1`. */
  function TrafficForecast(currentLap: int, totalLaps: int, density: real): (f: seq<ForecastLap>)
    ensures |f| == MaxInt(0, MinInt(currentLap + 10, totalLaps) - currentLap)
    ensures forall i :: 0 <= i < |f| ==> f[i] == ForecastAt(currentLap, currentLap + i, density)
  {
    seq(MaxInt(0, MinInt(currentLap + 10, totalLaps) - currentLap), (i: nat) => ForecastAt(currentLap, currentLap + i, density))
  }

  function Densities(f: seq<ForecastLap>): (d: seq<real>)
    ensures |d| == |f| && forall i :: 0 <= i < |f| ==> d[i] == f[i].density
  {
    seq(|f|, (i: nat) requires i < |f| => f[i].density)
  }

  datatype PitWindowPrediction = PitWindowPrediction(
    optimalLap: int,
    windowStart: int,
    windowEnd: int,
    forecast: seq<ForecastLap>,
    degradationUrgent: bool,
    recommendation: string)

  /** `predict_optimal_pit_window`: the first least-traffic lap of the next
      ten, a +-2 lap window around it clipped to [current, total], and
      PIT_NOW when the tyres are old or wearing fast. An empty forecast makes
      Python's `min()` raise. */
  function PredictOptimalPitWindow(density: real, tireAge: int, rate: real, totalLaps: int, currentLap: int): (r: Result<PitWindowPrediction, PyError>)
    ensures r.Failure? <==> currentLap >= totalLaps
    ensures r.Success? ==>
      var w := r.value;
      currentLap <= w.windowStart <= w.optimalLap <= w.windowEnd <= totalLaps &&
      currentLap <= w.optimalLap < MinInt(currentLap + 10, totalLaps) &&
      (forall l :: currentLap <= l < MinInt(currentLap + 10, totalLaps) ==>
         ForecastAt(currentLap, w.optimalLap, density).density <= ForecastAt(currentLap, l, density).density) &&
      (forall l :: currentLap <= l < w.optimalLap ==>
         ForecastAt(currentLap, w.optimalLap, density).density < ForecastAt(currentLap, l, density).density)
    ensures r.Success? ==> (r.value.recommendation == "PIT_NOW" <==> tireAge > 20 || rate > 0.003)
    ensures r.Success? ==> r.value.recommendation in {"PIT_NOW", "PIT_IN_WINDOW"}
  {
    var forecast := TrafficForecast(currentLap, totalLaps, density);
    if |forecast| == 0 then Failure(ValueError("min() arg is an empty sequence"))
    else
      var best := LeastTrafficLap(currentLap, totalLaps, density);
      var urgent := tireAge > 20 || rate > 0.003;
      Success(PitWindowPrediction(best, MaxInt(currentLap, best - 2), MinInt(totalLaps, best + 2), forecast,
                                  urgent, if urgent then "PIT_NOW" else "PIT_IN_WINDOW"))
  }

  /** The lap of the first least-dense entry of the forecast. */
  function LeastTrafficLap(currentLap: int, totalLaps: int, density: real): (best: int)
    requires currentLap < totalLaps
    ensures currentLap <= best < MinInt(currentLap + 10, totalLaps)
    ensures forall l :: currentLap <= l < MinInt(currentLap + 10, totalLaps) ==>
      ForecastAt(currentLap, best, density).density <= ForecastAt(currentLap, l, density).density
    ensures forall l :: currentLap <= l < best ==>
      ForecastAt(currentLap, best, density).density < ForecastAt(currentLap, l, density).density
  {
    var forecast := TrafficForecast(currentLap, totalLaps, density);
    var k := ArgMin(Densities(forecast));
    assert forall l :: currentLap <= l < MinInt(currentLap + 10, totalLaps) ==> ForecastAt(currentLap, l, density) == forecast[l - currentLap];
    forecast[k].lap
  }
}

=== FILE: py_value.dfy ===
/** Python's dynamic values as the request handlers and the lap classifier
    receive them (decoded JSON, dataframe cells), with the conversions the
    code applies to them: truthiness, `float(v)` and `int(v)`. Parsing a
    numeric string is Python's own grammar; it comes in as `Parsers`. */
module PyValue {
  import opened Wrappers
  import opened Numerics

  /** A Python float: a finite value or NaN (infinities are not modelled). */
  datatype Num = Finite(value: real) | NaN

  /** `x < c`, `x <= c`, ...: every comparison with NaN is false. */
  predicate Below(n: Num, c: real) { n.Finite? && n.value < c }
  predicate AtMost(n: Num, c: real) { n.Finite? && n.value <= c }
  predicate Above(n: Num, c: real) { n.Finite? && n.value > c }

  /** `a - b`: NaN when either operand is NaN, otherwise the difference. */
  function Minus(a: Num, b: Num): (r: Num)
    ensures r.NaN? <==> a.NaN? || b.NaN?
    ensures r.Finite? ==> b.value + r.value == a.value
  {
    if a.NaN? || b.NaN? then NaN else Finite(a.value - b.value)
  }

  datatype Value =
    | Null
    | Bool(b: bool)
    | Int(i: int)
    | Float(n: Num)
    | Str(s: string)
    | List(items: seq<Value>)
    | Dict(entries: map<string, Value>)

  /** `float(s)` and `int(s)` on a string: `None` where Python raises
      ValueError. */
  datatype Parsers = Parsers(floatOf: string -> Option<Num>, intOf: string -> Option<int>)

  /** `bool(v)`: None, False, zero and empty containers are false; NaN is
      true. */
  predicate Truthy(v: Value) {
    match v
    case Null => false
    case Bool(b) => b
    case Int(i) => i != 0
    case Float(n) => n != Finite(0.0)
    case Str(s) => |s| > 0
    case List(items) => |items| > 0
    case Dict(entries) => |entries| > 0
  }

  /** `d.get(key)`: the value, or None when the key is missing. */
  function Get(d: map<string, Value>, key: string): (v: Value)
    ensures key !in d ==> v == Null
    ensures key in d ==> v == d[key]
  {
    if key in d then d[key] else Null
  }

  /** `float(v)`: numbers and booleans convert, a string goes through the
      parser, anything else is a TypeError. */
  function ToFloat(v: Value, p: Parsers): (r: Result<Num, PyError>)
    ensures r.Failure? ==> (r.error.TypeError? <==> !v.Str?) && (r.error.ValueError? <==> v.Str?)
    ensures r.Failure? <==> v.Null? || v.List? || v.Dict? || (v.Str? && p.floatOf(v.s).None?)
    ensures v.Int? ==> r == Success(Finite(v.i as real))
    ensures v.Float? ==> r == Success(v.n)
  {
    match v
    case Null => Failure(TypeError("float() argument must be a string or a real number"))
    case Bool(b) => Success(Finite(if b then 1.0 else 0.0))
    case Int(i) => Success(Finite(i as real))
    case Float(n) => Success(n)
    case Str(s) =>
      (match p.floatOf(s)
       case Some(n) => Success(n)
       case None => Failure(ValueError("could not convert string to float")))
    case List(_) => Failure(TypeError("float() argument must be a string or a real number"))
    case Dict(_) => Failure(TypeError("float() argument must be a string or a real number"))
  }

  /** `int(v)`: a float truncates toward zero, NaN is a ValueError, a string
      goes through the parser, anything else is a TypeError. */
  function ToInt(v: Value, p: Parsers): (r: Result<int, PyError>)
    ensures r.Failure? ==> r.error.TypeError? || r.error.ValueError?
    ensures r.Failure? <==> v.Null? || v.List? || v.Dict? || v == Float(NaN) || (v.Str? && p.intOf(v.s).None?)
    ensures v.Int? ==> r == Success(v.i)
    ensures v.Float? && v.n.Finite? ==> r.Success? && Abs(r.value as real) <= Abs(v.n.value) &&
                                        Abs(v.n.value) < Abs(r.value as real) + 1.0 &&
                                        (r.value > 0 ==> v.n.value > 0.0) && (r.value < 0 ==> v.n.value < 0.0)
  {
    match v
    case Null => Failure(TypeError("int() argument must be a string or a real number"))
    case Bool(b) => Success(if b then 1 else 0)
    case Int(i) => Success(i)
    case Float(n) =>
      (match n
       case Finite(x) => Success(Trunc(x))
       case NaN => Failure(ValueError("cannot convert float NaN to integer")))
    case Str(s) =>
      (match p.intOf(s)
       case Some(i) => Success(i)
       case None => Failure(ValueError("invalid literal for int()")))
    case List(_) => Failure(TypeError("int() argument must be a string or a real number"))
    case Dict(_) => Failure(TypeError("int() argument must be a string or a real number"))
  }

  /** `len(v)`: strings, lists and dicts have a length; anything else is a
      TypeError. */
  function Len(v: Value): (r: Result<nat, PyError>)
    ensures r.Success? <==> v.Str? || v.List? || v.Dict?
    ensures r.Failure? ==> r.error.TypeError?
    ensures v.List? ==> r == Success(|v.items|)
    ensures r.Success? ==> (r.value == 0 <==> !Truthy(v))
  {
    match v
    case Str(s) => Success(|s|)
    case List(items) => Success(|items|)
    case Dict(entries) => Success(|entries|)
    case _ => Failure(TypeError("object has no len()"))
  }
}

=== FILE: race_replay_builder.dfy ===
/** The replay builder (grracing/race_replay_builder.py). From the lap-times
    table, one row per vehicle and completed lap with the crossing timestamp
    (seconds on a common clock, in the table's row order), it ranks the field
    after every lap, lists the places gained between consecutive laps, flags
    slow and pit laps, and assembles the lap-by-lap timeline. */
module RaceReplayBuilder {
  import opened Wrappers
  import opened Ranking
  import Counter

  datatype LapRow = LapRow(vehicle: int, lap: int, timestamp: real)

  /** The rows a boolean mask keeps, in table order. */
  function Filter(rows: seq<LapRow>, keep: LapRow -> bool): (r: seq<LapRow>)
    ensures |r| <= |rows|
    ensures forall x :: x in r <==> x in rows && keep(x)
  {
    if |rows| == 0 then []
    else
      var before := Filter(rows[..|rows| - 1], keep);
      assert rows == rows[..|rows| - 1] + [rows[|rows| - 1]];
      if keep(rows[|rows| - 1]) then before + [rows[|rows| - 1]] else before
  }

  // ---------------------------------------------------------------------
  // Sorted distinct lap numbers
  // ---------------------------------------------------------------------

  predicate Increasing(s: seq<int>) {
    forall i, j :: 0 <= i < j < |s| ==> s[i] < s[j]
  }

  /** Insert `x` into a strictly increasing list unless it is already there. */
  function InsertSorted(s: seq<int>, x: int): (r: seq<int>)
    requires Increasing(s)
    ensures Increasing(r)
    ensures forall y :: y in r <==> y in s || y == x
  {
    if |s| == 0 then [x]
    else if x == s[0] then s
    else if x < s[0] then [x] + s
    else
      var rest := InsertSorted(s[1..], x);
      TailAbove(s);
      PrependIncreasing(s[0], rest);
      assert s == [s[0]] + s[1..];
      [s[0]] + rest
  }

  lemma TailAbove(s: seq<int>)
    requires Increasing(s) && |s| > 0
    ensures Increasing(s[1..])
    ensures forall y :: y in s[1..] ==> y > s[0]
  {
    forall y | y in s[1..] ensures y > s[0] {
      var j :| 0 <= j < |s[1..]| && s[1..][j] == y;
      assert s[j + 1] == y;
    }
  }

  lemma PrependIncreasing(a: int, rest: seq<int>)
    requires Increasing(rest)
    requires forall y :: y in rest ==> y > a
    ensures Increasing([a] + rest)
  {
    forall i, j | 0 <= i < j < |[a] + rest| ensures ([a] + rest)[i] < ([a] + rest)[j] {
      assert rest[j - 1] in rest;
    }
  }

  /** `sorted(df['lap'].unique())`: the distinct values in ascending order. */
  function SortedDistinct(xs: seq<int>): (r: seq<int>)
    ensures Increasing(r)
    ensures forall y :: y in r <==> y in xs
  {
    if |xs| == 0 then []
    else
      var r := InsertSorted(SortedDistinct(xs[..|xs| - 1]), xs[|xs| - 1]);
      assert xs == xs[..|xs| - 1] + [xs[|xs| - 1]];
      r
  }

  /** Sorting values that are already strictly increasing changes nothing. */
  lemma {:induction false} SortedDistinctOfIncreasing(xs: seq<int>)
    requires Increasing(xs)
    ensures SortedDistinct(xs) == xs
  {
    if |xs| > 0 {
      var init := xs[..|xs| - 1];
      SortedDistinctOfIncreasing(init);
      InsertLargest(init, xs[|xs| - 1]);
      assert init + [xs[|xs| - 1]] == xs;
    }
  }

  lemma {:induction false} InsertLargest(s: seq<int>, x: int)
    requires Increasing(s)
    requires forall y :: y in s ==> y < x
    ensures InsertSorted(s, x) == s + [x]
  {
    if |s| > 0 {
      assert s[0] in s;
      assert forall y :: y in s[1..] ==> y in s;
      InsertLargest(s[1..], x);
      assert [s[0]] + (s[1..] + [x]) == s + [x];
    }
  }

  // ---------------------------------------------------------------------
  // calculate_lap_positions
  // ---------------------------------------------------------------------

  /** Python's `round(x, 3)` on the exact value: to the nearest thousandth,
      ties to the even thousandth. */
  function Thousandths(x: real): (n: int)
    ensures n as real - 0.5 <= x * 1000.0 <= n as real + 0.5
  {
    var scaled := x * 1000.0;
    var f := scaled.Floor;
    var frac := scaled - f as real;
    if frac > 0.5 || (frac == 0.5 && f % 2 != 0) then f + 1 else f
  }

  function RoundMillis(x: real): (r: real)
    ensures -0.0005 <= r - x <= 0.0005
  {
    Thousandths(x) as real / 1000.0
  }

  /** Rounding never reverses an order, and zero stays zero. */
  lemma RoundMillisMonotone(x: real, y: real)
    requires x <= y
    ensures RoundMillis(x) <= RoundMillis(y)
  {
    var fx, fy := (x * 1000.0).Floor, (y * 1000.0).Floor;
    assert x * 1000.0 <= y * 1000.0;
    assert fx <= fy;
    assert Thousandths(x) <= Thousandths(y);
  }

  lemma RoundMillisZero()
    ensures RoundMillis(0.0) == 0.0
  {
    assert (0.0 * 1000.0).Floor == 0;
  }

  /** One vehicle's standing on a lap: laps it has completed by then and
      the seconds between its first and last crossing up to that lap. */
  datatype Entry = Entry(vehicle: int, time: real, lapsCompleted: nat)

  /** One row of a lap's classification. */
  datatype Standing = Standing(vehicle: int, position: int, gap: real, lapsCompleted: nat)

  function Vehicles(rows: seq<LapRow>): (r: seq<int>)
    ensures |r| == |rows| && forall k :: 0 <= k < |rows| ==> r[k] == rows[k].vehicle
  {
    seq(|rows|, k requires 0 <= k < |rows| => rows[k].vehicle)
  }

  function Laps(rows: seq<LapRow>): (r: seq<int>)
    ensures |r| == |rows| && forall k :: 0 <= k < |rows| ==> r[k] == rows[k].lap
  {
    seq(|rows|, k requires 0 <= k < |rows| => rows[k].lap)
  }

  /** `times.iloc[-1] - times.iloc[0]`, or 0 for a single crossing. */
  function Elapsed(vl: seq<LapRow>): real {
    if |vl| > 1 then vl[|vl| - 1].timestamp - vl[0].timestamp else 0.0
  }

  /** The vehicle's rows up to and including the lap. */
  function UpTo(rows: seq<LapRow>, vehicle: int, lap: int): seq<LapRow> {
    Filter(rows, (x: LapRow) => x.vehicle == vehicle && x.lap <= lap)
  }

  /** Some row records the vehicle crossing the line on the lap. */
  predicate CrossedOn(rows: seq<LapRow>, lap: int, v: int) {
    exists k :: 0 <= k < |rows| && rows[k].lap == lap && rows[k].vehicle == v
  }

  predicate Listed(entries: seq<Entry>, v: int) {
    exists i :: 0 <= i < |entries| && entries[i].vehicle == v
  }

  /** The entries of every vehicle that crossed on the lap, in order of first
      appearance on it. */
  function LapEntries(rows: seq<LapRow>, lap: int): (r: seq<Entry>)
    ensures forall i :: 0 <= i < |r| ==> r[i].lapsCompleted >= 1
    ensures forall i, j :: 0 <= i < j < |r| ==> r[i].vehicle != r[j].vehicle
    ensures forall v :: Listed(r, v) <==> CrossedOn(rows, lap, v)
  {
    var onLap := OnLap(rows, lap);
    var vs := Counter.Keys(Vehicles(onLap));
    var r := seq(|vs|, i requires 0 <= i < |vs| =>
                 var vl := UpTo(rows, vs[i], lap); Entry(vs[i], Elapsed(vl), |vl|));
    assert forall i :: 0 <= i < |r| ==> r[i].lapsCompleted >= 1 && CrossedOn(rows, lap, r[i].vehicle) by {
      forall i | 0 <= i < |r|
        ensures r[i].lapsCompleted >= 1 && CrossedOn(rows, lap, r[i].vehicle)
      {
        OnLapVehicle(rows, lap, vs[i]);
      }
    }
    assert forall v :: CrossedOn(rows, lap, v) ==> Listed(r, v) by {
      forall v | CrossedOn(rows, lap, v)
        ensures Listed(r, v)
      {
        CrossedIsOnLap(rows, lap, v);
        var i :| 0 <= i < |vs| && vs[i] == v;
        assert r[i].vehicle == v;
      }
    }
    r
  }

  /** The rows of one lap, in table order. */
  function OnLap(rows: seq<LapRow>, lap: int): (r: seq<LapRow>)
    ensures forall x :: x in r <==> x in rows && x.lap == lap
  {
    Filter(rows, (x: LapRow) => x.lap == lap)
  }

  /** A vehicle on the lap's rows crossed on that lap, and that crossing is
      among its rows up to the lap. */
  lemma OnLapVehicle(rows: seq<LapRow>, lap: int, v: int)
    requires v in Vehicles(OnLap(rows, lap))
    ensures CrossedOn(rows, lap, v) && |UpTo(rows, v, lap)| >= 1
  {
    var onLap := OnLap(rows, lap);
    var j :| 0 <= j < |onLap| && Vehicles(onLap)[j] == v;
    var x := onLap[j];
    assert x in onLap;
    var k :| 0 <= k < |rows| && rows[k] == x;
    assert rows[k].lap == lap && rows[k].vehicle == v;
    assert x in UpTo(rows, v, lap);
  }

  lemma CrossedIsOnLap(rows: seq<LapRow>, lap: int, v: int)
    requires CrossedOn(rows, lap, v)
    ensures v in Vehicles(OnLap(rows, lap))
  {
    var onLap := OnLap(rows, lap);
    var k :| 0 <= k < |rows| && rows[k].lap == lap && rows[k].vehicle == v;
    assert rows[k] in onLap;
    var j :| 0 <= j < |onLap| && onLap[j] == rows[k];
    assert Vehicles(onLap)[j] == v;
  }

  /** The sort key `(-laps_completed, time)`. */
  function EntryKeys(entries: seq<Entry>): (keys: seq<Key>)
    ensures |keys| == |entries|
    ensures forall i :: 0 <= i < |entries| ==> keys[i] == Key(-(entries[i].lapsCompleted as int), entries[i].time)
  {
    seq(|entries|, i requires 0 <= i < |entries| => Key(-(entries[i].lapsCompleted as int), entries[i].time))
  }

  /** A lap's classification: the entries stably sorted by laps completed
      (most first) and then time, numbered from 1, each with its gap to the
      leader rounded to the thousandth (the leader's gap is 0). */
  function Standings(entries: seq<Entry>): (r: seq<Standing>)
    ensures |r| == |entries|
    ensures forall k :: 0 <= k < |r| ==> r[k].position == k + 1
    ensures |r| > 0 ==> r[0].gap == 0.0
    ensures forall i, j :: 0 <= i < j < |r| ==> r[i].lapsCompleted >= r[j].lapsCompleted
  {
    var order := StableOrder(EntryKeys(entries));
    MostLapsFirst(entries, order);
    seq(|order|, k requires 0 <= k < |order| =>
        var e := entries[order[k]];
        Standing(e.vehicle, k + 1, if k > 0 then RoundMillis(e.time - entries[order[0]].time) else 0.0,
                 e.lapsCompleted))
  }

  lemma MostLapsFirst(entries: seq<Entry>, order: seq<nat>)
    requires SortedBy(EntryKeys(entries), order)
    ensures forall i, j :: 0 <= i < j < |order| ==> entries[order[i]].lapsCompleted >= entries[order[j]].lapsCompleted
  {
    var keys := EntryKeys(entries);
    forall i, j | 0 <= i < j < |order|
      ensures entries[order[i]].lapsCompleted >= entries[order[j]].lapsCompleted
    {
      assert Before(keys, order[i], order[j]);
      assert KeyLe(keys[order[i]], keys[order[j]]);
    }
  }

  /** Within the same number of laps completed, the classification runs from
      the smallest gap to the largest. */
  lemma StandingsOrdered(entries: seq<Entry>)
    ensures var r := Standings(entries);
      forall i, j :: 0 <= i < j < |r| && r[i].lapsCompleted == r[j].lapsCompleted ==> r[i].gap <= r[j].gap
  {
    var keys := EntryKeys(entries);
    var order := StableOrder(keys);
    var r := Standings(entries);
    forall i, j | 0 <= i < j < |r| && r[i].lapsCompleted == r[j].lapsCompleted
      ensures r[i].gap <= r[j].gap
    {
      var lead := entries[order[0]].time;
      assert KeyLe(keys[order[i]], keys[order[j]]);
      assert entries[order[i]].time <= entries[order[j]].time;
      if i == 0 {
        assert KeyLe(keys[order[0]], keys[order[j]]);
        RoundMillisZero();
        RoundMillisMonotone(0.0, entries[order[j]].time - lead);
      } else {
        RoundMillisMonotone(entries[order[i]].time - lead, entries[order[j]].time - lead);
      }
    }
  }

  /** Every entry is classified exactly once: each vehicle appears in the
      standings with its laps completed. */
  lemma StandingsCoverEntries(entries: seq<Entry>)
    ensures var r := Standings(entries);
      forall i :: 0 <= i < |entries| ==>
        exists k :: 0 <= k < |r| && r[k].vehicle == entries[i].vehicle && r[k].lapsCompleted == entries[i].lapsCompleted
  {
    var order := StableOrder(EntryKeys(entries));
    var r := Standings(entries);
    forall i | 0 <= i < |entries|
      ensures exists k :: 0 <= k < |r| && r[k].vehicle == entries[i].vehicle && r[k].lapsCompleted == entries[i].lapsCompleted
    {
      assert i in order;
      var k :| 0 <= k < |order| && order[k] == i;
      assert r[k].vehicle == entries[i].vehicle;
    }
  }

  /** A lap and its classification (one key of `positions_by_lap`). */
  datatype LapStandings = LapStandings(lap: int, positions: seq<Standing>)

  function LapNumbers(byLap: seq<LapStandings>): (r: seq<int>)
    ensures |r| == |byLap| && forall i :: 0 <= i < |byLap| ==> r[i] == byLap[i].lap
  {
    seq(|byLap|, i requires 0 <= i < |byLap| => byLap[i].lap)
  }

  /** A lap that appears in the table has at least one entry. */
  lemma LapEntriesNonEmpty(rows: seq<LapRow>, lap: int)
    requires lap in Laps(rows)
    ensures |LapEntries(rows, lap)| > 0
  {
    var k :| 0 <= k < |rows| && Laps(rows)[k] == lap;
    assert CrossedOn(rows, lap, rows[k].vehicle);
    assert Listed(LapEntries(rows, lap), rows[k].vehicle);
  }

  /** `calculate_lap_positions`: one classification per distinct lap number
      in the table, in ascending lap order, none of them empty. */
  function CalculateLapPositions(rows: seq<LapRow>): (r: seq<LapStandings>)
    ensures Increasing(LapNumbers(r))
    ensures forall l :: l in LapNumbers(r) <==> l in Laps(rows)
    ensures forall i :: 0 <= i < |r| ==> |r[i].positions| > 0
    ensures forall i, k :: 0 <= i < |r| && 0 <= k < |r[i].positions| ==> r[i].positions[k].position == k + 1
  {
    var laps := SortedDistinct(Laps(rows));
    var r := seq(|laps|, i requires 0 <= i < |laps| => LapStandings(laps[i], Standings(LapEntries(rows, laps[i]))));
    assert LapNumbers(r) == laps;
    assert forall i :: 0 <= i < |r| ==> |r[i].positions| > 0 by {
      forall i | 0 <= i < |r|
        ensures |r[i].positions| > 0
      {
        LapEntriesNonEmpty(rows, laps[i]);
      }
    }
    r
  }

  // ---------------------------------------------------------------------
  // detect_overtakes
  // ---------------------------------------------------------------------

  /** A driver who gained places: `#{vehicle} → P{position} (+{gained})`. */
  datatype Overtake = Overtake(vehicle: int, position: int, gained: int)

  /** `{d['vehicle_number']: d['position'] for d in lap}`: a later entry for
      the same vehicle overrides an earlier one. */
  function PositionMap(lap: seq<Standing>): (m: map<int, int>)
    ensures forall v :: v in m <==> exists k :: 0 <= k < |lap| && lap[k].vehicle == v
  {
    if |lap| == 0 then map[]
    else
      var last := lap[|lap| - 1];
      PositionMap(lap[..|lap| - 1])[last.vehicle := last.position]
  }

  /** A vehicle listed once is mapped to the position it is listed with. */
  lemma {:induction false} PositionMapAt(lap: seq<Standing>, k: nat)
    requires k < |lap|
    requires forall j :: k < j < |lap| ==> lap[j].vehicle != lap[k].vehicle
    ensures PositionMap(lap)[lap[k].vehicle] == lap[k].position
  {
    if k < |lap| - 1 {
      PositionMapAt(lap[..|lap| - 1], k);
    }
  }

  function StandingVehicles(lap: seq<Standing>): (r: seq<int>)
    ensures |r| == |lap| && forall k :: 0 <= k < |lap| ==> r[k] == lap[k].vehicle
  {
    seq(|lap|, k requires 0 <= k < |lap| => lap[k].vehicle)
  }

  /** The vehicles of `vs` (in that order) whose position improved. */
  function Gains(vs: seq<int>, prev: map<int, int>, curr: map<int, int>): (r: seq<Overtake>)
    requires forall v :: v in vs ==> v in curr
    ensures forall o :: o in r ==>
      o.vehicle in vs && o.vehicle in prev && o.position == curr[o.vehicle] &&
      o.gained == prev[o.vehicle] - curr[o.vehicle] && o.gained > 0
    ensures forall v :: v in vs && v in prev && curr[v] < prev[v] ==> exists o :: o in r && o.vehicle == v
  {
    if |vs| == 0 then []
    else
      var v := vs[|vs| - 1];
      var before := Gains(vs[..|vs| - 1], prev, curr);
      assert vs == vs[..|vs| - 1] + [v];
      if v in prev && curr[v] < prev[v] then
        var o := Overtake(v, curr[v], prev[v] - curr[v]);
        assert forall x :: x in before + [o] <==> x in before || x == o;
        before + [o]
      else before
  }

  /** The overtakes of one lap against the lap before, in the order the
      current lap's dict lists its vehicles. */
  function LapOvertakes(prev: seq<Standing>, curr: seq<Standing>): seq<Overtake> {
    Gains(Counter.Keys(StandingVehicles(curr)), PositionMap(prev), PositionMap(curr))
  }

  /** An overtake is reported exactly for the vehicles listed on both laps
      whose position number went down, with the places gained. */
  lemma LapOvertakesExact(prev: seq<Standing>, curr: seq<Standing>)
    ensures var r := LapOvertakes(prev, curr);
      var pm, cm := PositionMap(prev), PositionMap(curr);
      (forall o :: o in r ==>
         o.vehicle in pm && o.vehicle in cm && o.position == cm[o.vehicle] &&
         o.gained == pm[o.vehicle] - o.position && o.gained > 0) &&
      (forall v :: v in pm && v in cm && cm[v] < pm[v] ==> exists o :: o in r && o.vehicle == v)
  {
    var pm, cm := PositionMap(prev), PositionMap(curr);
    var vs := Counter.Keys(StandingVehicles(curr));
    KeysAreMapped(curr);
    GainsExact(vs, pm, cm);
  }

  /** The vehicles listed on a lap are exactly the keys of its dict. */
  lemma KeysAreMapped(lap: seq<Standing>)
    ensures forall v :: v in Counter.Keys(StandingVehicles(lap)) <==> v in PositionMap(lap)
  {
    var sv := StandingVehicles(lap);
    forall v | v in PositionMap(lap)
      ensures v in sv
    {
      var k :| 0 <= k < |lap| && lap[k].vehicle == v;
      assert sv[k] == v;
    }
  }

  lemma GainsExact(vs: seq<int>, pm: map<int, int>, cm: map<int, int>)
    requires forall v :: v in vs <==> v in cm
    ensures var r := Gains(vs, pm, cm);
      (forall o :: o in r ==>
         o.vehicle in pm && o.vehicle in cm && o.position == cm[o.vehicle] &&
         o.gained == pm[o.vehicle] - o.position && o.gained > 0) &&
      (forall v :: v in pm && v in cm && cm[v] < pm[v] ==> exists o :: o in r && o.vehicle == v)
  {
  }

  /** The overtakes recorded for one lap. */
  datatype LapEvents = LapEvents(lap: int, overtakes: seq<Overtake>)

  /** `overtakes.get(lap, [])`. */
  function EventsAt(events: seq<LapEvents>, lap: int): seq<Overtake> {
    if |events| == 0 then []
    else if events[0].lap == lap then events[0].overtakes
    else EventsAt(events[1..], lap)
  }

  lemma {:induction false} EventsAtAppend(events: seq<LapEvents>, e: LapEvents, lap: int)
    ensures e.lap != lap ==> EventsAt(events + [e], lap) == EventsAt(events, lap)
    ensures e.lap == lap && (forall k :: 0 <= k < |events| ==> events[k].lap != lap) ==>
              EventsAt(events + [e], lap) == e.overtakes
  {
    if |events| > 0 {
      assert (events + [e])[1..] == events[1..] + [e];
      EventsAtAppend(events[1..], e, lap);
    } else {
      assert (events + [e])[1..] == [];
    }
  }

  function Find(byLap: seq<LapStandings>, lap: int): seq<Standing> {
    if |byLap| == 0 then []
    else if byLap[0].lap == lap then byLap[0].positions
    else Find(byLap[1..], lap)
  }

  /** The loop over consecutive pairs of `laps`, where `want[i]` holds the
      overtakes of lap `laps[i]` against the lap before: a lap is recorded
      only when it has some. */
  function Collect(laps: seq<int>, want: seq<seq<Overtake>>): (r: seq<LapEvents>)
    requires Increasing(laps) && |want| == |laps|
    ensures forall k :: 0 <= k < |r| ==> |r[k].overtakes| > 0
    ensures forall k :: 0 <= k < |r| ==> |laps| > 1 && r[k].lap in laps[1..]
    ensures forall i :: 1 <= i < |laps| ==> EventsAt(r, laps[i]) == want[i]
    ensures |laps| > 0 ==> EventsAt(r, laps[0]) == []
  {
    if |laps| < 2 then []
    else
      var n := |laps|;
      var init := laps[..n - 1];
      assert Increasing(init);
      var before := Collect(init, want[..n - 1]);
      assert init[1..] == laps[1..n - 1];
      assert forall i :: 0 <= i < n - 1 ==> init[i] == laps[i] && want[..n - 1][i] == want[i];
      var r := if |want[n - 1]| > 0 then before + [LapEvents(laps[n - 1], want[n - 1])] else before;
      DetectStep(laps, before, want, r);
      r
  }

  /** One step of the loop: `want[i]` is what lap `laps[i]` should answer. */
  lemma DetectStep(laps: seq<int>, before: seq<LapEvents>, want: seq<seq<Overtake>>, r: seq<LapEvents>)
    requires Increasing(laps) && |laps| >= 2 && |want| == |laps|
    requires forall k :: 0 <= k < |before| ==> |before[k].overtakes| > 0 && before[k].lap in laps[1..|laps| - 1]
    requires forall i :: 1 <= i < |laps| - 1 ==> EventsAt(before, laps[i]) == want[i]
    requires EventsAt(before, laps[0]) == []
    requires r == if |want[|laps| - 1]| > 0 then before + [LapEvents(laps[|laps| - 1], want[|laps| - 1])] else before
    ensures forall k :: 0 <= k < |r| ==> |r[k].overtakes| > 0 && r[k].lap in laps[1..]
    ensures forall i :: 1 <= i < |laps| ==> EventsAt(r, laps[i]) == want[i]
    ensures EventsAt(r, laps[0]) == []
  {
    var n := |laps|;
    var e := LapEvents(laps[n - 1], want[n - 1]);
    EarlierLapsBelow(laps, before);
    if |want[n - 1]| > 0 {
      DetectAppend(laps, before, want, e);
    } else {
      EventsAtAbsent(before, laps[n - 1]);
    }
  }

  /** The events with the last lap's overtakes appended answer every lap. */
  lemma DetectAppend(laps: seq<int>, before: seq<LapEvents>, want: seq<seq<Overtake>>, e: LapEvents)
    requires Increasing(laps) && |laps| >= 2 && |want| == |laps|
    requires e == LapEvents(laps[|laps| - 1], want[|laps| - 1]) && |e.overtakes| > 0
    requires forall k :: 0 <= k < |before| ==> |before[k].overtakes| > 0 && before[k].lap in laps[1..]
    requires forall k :: 0 <= k < |before| ==> before[k].lap != e.lap
    requires forall i :: 1 <= i < |laps| - 1 ==> EventsAt(before, laps[i]) == want[i]
    requires EventsAt(before, laps[0]) == []
    ensures forall k :: 0 <= k < |before + [e]| ==> |(before + [e])[k].overtakes| > 0 && (before + [e])[k].lap in laps[1..]
    ensures forall i :: 1 <= i < |laps| ==> EventsAt(before + [e], laps[i]) == want[i]
    ensures EventsAt(before + [e], laps[0]) == []
  {
    var n := |laps|;
    EventsAtAppend(before, e, laps[n - 1]);
    EventsAtAppend(before, e, laps[0]);
    forall i | 1 <= i < n - 1
      ensures EventsAt(before + [e], laps[i]) == want[i]
    {
      EventsAtAppend(before, e, laps[i]);
    }
    AppendKeepsLaps(laps, before, e);
  }

  /** Events on the laps before the last one never carry the last lap. */
  lemma EarlierLapsBelow(laps: seq<int>, before: seq<LapEvents>)
    requires Increasing(laps) && |laps| >= 2
    requires forall k :: 0 <= k < |before| ==> before[k].lap in laps[1..|laps| - 1]
    ensures forall k :: 0 <= k < |before| ==> before[k].lap != laps[|laps| - 1]
    ensures forall k :: 0 <= k < |before| ==> before[k].lap in laps[1..]
  {
    forall k | 0 <= k < |before|
      ensures before[k].lap != laps[|laps| - 1] && before[k].lap in laps[1..]
    {
      var j :| 0 <= j < |laps[1..|laps| - 1]| && laps[1..|laps| - 1][j] == before[k].lap;
      assert laps[1..][j] == before[k].lap;
    }
  }

  lemma AppendKeepsLaps(laps: seq<int>, before: seq<LapEvents>, e: LapEvents)
    requires |laps| >= 2 && e.lap == laps[|laps| - 1] && |e.overtakes| > 0
    requires forall k :: 0 <= k < |before| ==> |before[k].overtakes| > 0 && before[k].lap in laps[1..]
    ensures forall k :: 0 <= k < |before + [e]| ==> |(before + [e])[k].overtakes| > 0 && (before + [e])[k].lap in laps[1..]
  {
    assert laps[1..][|laps| - 2] == e.lap;
  }

  lemma {:induction false} EventsAtAbsent(events: seq<LapEvents>, lap: int)
    requires forall k :: 0 <= k < |events| ==> events[k].lap != lap
    ensures EventsAt(events, lap) == []
  {
    if |events| > 0 {
      EventsAtAbsent(events[1..], lap);
    }
  }

  /** `detect_overtakes`: for each lap after the first (in ascending order),
      the overtakes against the lap before; laps without any are left out. */
  function DetectOvertakes(byLap: seq<LapStandings>): (r: seq<LapEvents>)
    ensures forall k :: 0 <= k < |r| ==> |r[k].overtakes| > 0
    ensures var laps := SortedDistinct(LapNumbers(byLap));
      (forall i :: 1 <= i < |laps| ==>
         EventsAt(r, laps[i]) == LapOvertakes(Find(byLap, laps[i - 1]), Find(byLap, laps[i]))) &&
      (|laps| > 0 ==> EventsAt(r, laps[0]) == [])
  {
    var laps := SortedDistinct(LapNumbers(byLap));
    Collect(laps, seq(|laps|, i requires 0 <= i < |laps| =>
      if i == 0 then [] else LapOvertakes(Find(byLap, laps[i - 1]), Find(byLap, laps[i]))))
  }

  // ---------------------------------------------------------------------
  // detect_anomalies
  // ---------------------------------------------------------------------

  /** `Series.median()` of a non-empty list: the middle value after sorting,
      or the mean of the two middle values. */
  function Median(xs: seq<real>): real
    requires |xs| > 0
  {
    var order := StableOrder(TimeKeys(xs));
    var n := |xs|;
    if n % 2 == 1 then xs[order[n / 2]] else (xs[order[n / 2 - 1]] + xs[order[n / 2]]) / 2.0
  }

  /** The median of equal values is that value. */
  lemma MedianOfEqual(xs: seq<real>, t: real)
    requires |xs| > 0 && forall k :: 0 <= k < |xs| ==> xs[k] == t
    ensures Median(xs) == t
  {
  }

  /** A lap time (None for the first lap, whose difference is NaN) is slow
      above 1.2 times the median, and a pit stop above 1.5 times. */
  predicate Slow(t: Option<real>, median: Option<real>) {
    t.Some? && median.Some? && t.value > median.value * 1.2
  }

  predicate VerySlow(t: Option<real>, median: Option<real>) {
    t.Some? && median.Some? && t.value > median.value * 1.5
  }

  /** A vehicle's rows in lap order. pandas' `sort_values` defaults to
      quicksort, which is not stable; this is the stable order, and the two
      can differ only on rows repeating a lap. */
  function ByLap(rows: seq<LapRow>): (r: seq<LapRow>)
    ensures |r| == |rows|
    ensures forall k :: 0 <= k < |r| ==> r[k] in rows
    ensures forall i, j :: 0 <= i < j < |r| ==> r[i].lap <= r[j].lap
  {
    var keys := seq(|rows|, k requires 0 <= k < |rows| => Key(rows[k].lap, 0.0));
    var order := StableOrder(keys);
    seq(|order|, k requires 0 <= k < |order| => rows[order[k]])
  }

  /** `timestamp.diff().dt.total_seconds()`: nothing for the first row. */
  function LapTimes(rows: seq<LapRow>): (r: seq<Option<real>>)
    ensures |r| == |rows|
    ensures |r| > 0 ==> r[0] == None
    ensures forall k :: 0 < k < |rows| ==> r[k] == Some(rows[k].timestamp - rows[k - 1].timestamp)
  {
    seq(|rows|, k requires 0 <= k < |rows| => if k == 0 then None else Some(rows[k].timestamp - rows[k - 1].timestamp))
  }

  /** The present lap times, in order. */
  function Present(ts: seq<Option<real>>): (r: seq<real>)
    ensures |r| <= |ts|
    ensures (exists k :: 0 <= k < |ts| && ts[k].Some?) ==> |r| > 0
  {
    if |ts| == 0 then []
    else
      var before := Present(ts[..|ts| - 1]);
      if ts[|ts| - 1].Some? then before + [ts[|ts| - 1].value] else before
  }

  /** The median skipping NaN; NaN (None) when there is nothing to take. */
  function MedianLapTime(ts: seq<Option<real>>): Option<real> {
    var p := Present(ts);
    if |p| > 0 then Some(Median(p)) else None
  }

  datatype Flags = Flags(slow: seq<(int, int)>, pit: seq<(int, int)>)

  /** Walk one vehicle's laps: every slow lap is listed, and listed again as
      a pit lap when it is also very slow. */
  function FlagLaps(vehicle: int, laps: seq<int>, ts: seq<Option<real>>, median: Option<real>): (r: Flags)
    requires |laps| == |ts|
    ensures FlagsExact(vehicle, laps, ts, median, r)
  {
    if |laps| == 0 then Flags([], [])
    else
      var n := |laps|;
      var before := FlagLaps(vehicle, laps[..n - 1], ts[..n - 1], median);
      var r := if Slow(ts[n - 1], median) then
        Flags(before.slow + [(vehicle, laps[n - 1])],
              if VerySlow(ts[n - 1], median) then before.pit + [(vehicle, laps[n - 1])] else before.pit)
      else before;
      FlagStep(vehicle, laps, ts, median, before, r);
      r
  }

  /** The slow laps listed are exactly the vehicle's slow laps, and the pit
      laps listed are exactly those that are also very slow, each a slow lap
      too. */
  predicate FlagsExact(vehicle: int, laps: seq<int>, ts: seq<Option<real>>, median: Option<real>, r: Flags)
    requires |laps| == |ts|
  {
    (forall p :: p in r.pit ==> p in r.slow) &&
    (forall p :: p in r.slow ==> p.0 == vehicle && exists k :: 0 <= k < |laps| && laps[k] == p.1 && Slow(ts[k], median)) &&
    (forall k :: 0 <= k < |laps| && Slow(ts[k], median) ==> (vehicle, laps[k]) in r.slow) &&
    (forall p :: p in r.pit ==> exists k :: 0 <= k < |laps| && laps[k] == p.1 && VerySlow(ts[k], median)) &&
    (forall k :: 0 <= k < |laps| && Slow(ts[k], median) && VerySlow(ts[k], median) ==> (vehicle, laps[k]) in r.pit)
  }

  lemma FlagStep(vehicle: int, laps: seq<int>, ts: seq<Option<real>>, median: Option<real>, before: Flags, r: Flags)
    requires |laps| == |ts| > 0
    requires FlagsExact(vehicle, laps[..|laps| - 1], ts[..|ts| - 1], median, before)
    requires r == if Slow(ts[|ts| - 1], median) then
        Flags(before.slow + [(vehicle, laps[|laps| - 1])],
              if VerySlow(ts[|ts| - 1], median) then before.pit + [(vehicle, laps[|laps| - 1])] else before.pit)
      else before
    ensures FlagsExact(vehicle, laps, ts, median, r)
  {
    var n := |laps|;
    assert forall k :: 0 <= k < n - 1 ==> laps[..n - 1][k] == laps[k] && ts[..n - 1][k] == ts[k];
  }

  /** One vehicle's flags. */
  function VehicleFlags(rows: seq<LapRow>, vehicle: int): Flags {
    var own := ByLap(Filter(rows, (x: LapRow) => x.vehicle == vehicle));
    var ts := LapTimes(own);
    FlagLaps(vehicle, Laps(own), ts, MedianLapTime(ts))
  }

  datatype Anomalies = Anomalies(slowLaps: seq<(int, int)>, pitLaps: seq<(int, int)>, safetyCarLaps: seq<int>)

  function AllFlags(rows: seq<LapRow>, vs: seq<int>): (r: Flags)
    ensures forall p :: p in r.pit ==> p in r.slow
    ensures forall p :: p in r.slow ==> p.0 in vs
  {
    if |vs| == 0 then Flags([], [])
    else
      var before := AllFlags(rows, vs[..|vs| - 1]);
      var f := VehicleFlags(rows, vs[|vs| - 1]);
      Flags(before.slow + f.slow, before.pit + f.pit)
  }

  /** `detect_anomalies`: slow and pit laps per vehicle, vehicles in order
      of first appearance; safety-car laps are never detected. */
  function DetectAnomalies(rows: seq<LapRow>): (r: Anomalies)
    ensures forall p :: p in r.pitLaps ==> p in r.slowLaps
    ensures forall p :: p in r.slowLaps ==> exists k :: 0 <= k < |rows| && rows[k].vehicle == p.0
    ensures r.safetyCarLaps == []
  {
    var vs := Counter.Keys(Vehicles(rows));
    var f := AllFlags(rows, vs);
    assert forall v :: v in vs ==> exists k :: 0 <= k < |rows| && rows[k].vehicle == v by {
      forall v | v in vs
        ensures exists k :: 0 <= k < |rows| && rows[k].vehicle == v
      {
        assert v in Vehicles(rows);
      }
    }
    Anomalies(f.slow, f.pit, [])
  }

  /** A vehicle lapping at a steady non-negative pace has no slow laps. */
  lemma {:induction false} SteadyPaceNeverSlow(vehicle: int, laps: seq<int>, ts: seq<Option<real>>, t: real)
    requires |laps| == |ts| && t >= 0.0
    requires forall k :: 0 <= k < |ts| ==> ts[k] == None || ts[k] == Some(t)
    ensures FlagLaps(vehicle, laps, ts, MedianLapTime(ts)).slow == []
  {
    var m := MedianLapTime(ts);
    if m.Some? {
      PresentAll(ts, t);
      MedianOfEqual(Present(ts), t);
    }
    NoSlowLaps(vehicle, laps, ts, m);
  }

  lemma {:induction false} PresentAll(ts: seq<Option<real>>, t: real)
    requires forall k :: 0 <= k < |ts| ==> ts[k] == None || ts[k] == Some(t)
    ensures forall k :: 0 <= k < |Present(ts)| ==> Present(ts)[k] == t
  {
    if |ts| > 0 {
      PresentAll(ts[..|ts| - 1], t);
    }
  }

  lemma {:induction false} NoSlowLaps(vehicle: int, laps: seq<int>, ts: seq<Option<real>>, m: Option<real>)
    requires |laps| == |ts|
    requires forall k :: 0 <= k < |ts| ==> !Slow(ts[k], m)
    ensures FlagLaps(vehicle, laps, ts, m).slow == []
  {
    if |laps| > 0 {
      NoSlowLaps(vehicle, laps[..|laps| - 1], ts[..|ts| - 1], m);
    }
  }

  // ---------------------------------------------------------------------
  // build_replay_json: the timeline
  // ---------------------------------------------------------------------

  datatype TimelineEntry = TimelineEntry(lap: int, positions: seq<Standing>, events: seq<Overtake>)

  /** The replay's lap count and timeline (track, date and driver list are
      copied from other inputs). */
  datatype Replay = Replay(laps: nat, timeline: seq<TimelineEntry>)

  function TimelineLaps(t: seq<TimelineEntry>): (r: seq<int>)
    ensures |r| == |t| && forall i :: 0 <= i < |t| ==> r[i] == t[i].lap
  {
    seq(|t|, i requires 0 <= i < |t| => t[i].lap)
  }

  /** The timeline loop: for each lap in sorted order, its classification
      and `overtakes.get(lap, [])`. */
  function Timeline(byLap: seq<LapStandings>, overtakes: seq<LapEvents>): (t: seq<TimelineEntry>)
    requires Increasing(LapNumbers(byLap))
    ensures |t| == |byLap|
    ensures forall i :: 0 <= i < |t| ==>
              t[i].lap == byLap[i].lap && t[i].positions == byLap[i].positions &&
              t[i].events == EventsAt(overtakes, byLap[i].lap)
  {
    var laps := SortedDistinct(LapNumbers(byLap));
    SortedDistinctOfIncreasing(LapNumbers(byLap));
    FindEach(byLap);
    seq(|laps|, i requires 0 <= i < |laps| => TimelineEntry(laps[i], Find(byLap, laps[i]), EventsAt(overtakes, laps[i])))
  }

  /** `build_replay_json`: one timeline entry per lap of the table, in
      ascending order, each with that lap's classification; `laps` counts
      the classified laps. */
  function BuildReplay(rows: seq<LapRow>): (r: Replay)
    ensures r.laps == |r.timeline|
    ensures Increasing(TimelineLaps(r.timeline))
    ensures forall l :: l in TimelineLaps(r.timeline) <==> l in Laps(rows)
    ensures forall i :: 0 <= i < |r.timeline| ==> |r.timeline[i].positions| > 0
  {
    var byLap := CalculateLapPositions(rows);
    var timeline := Timeline(byLap, DetectOvertakes(byLap));
    TimelineLapsMatch(byLap, timeline);
    Replay(|byLap|, timeline)
  }

  lemma TimelineLapsMatch(byLap: seq<LapStandings>, t: seq<TimelineEntry>)
    requires |t| == |byLap| && forall i :: 0 <= i < |t| ==> t[i].lap == byLap[i].lap
    ensures TimelineLaps(t) == LapNumbers(byLap)
  {
  }

  /** The first lap has no events, and every later lap carries exactly the
      overtakes measured against the lap before it. */
  lemma TimelineEvents(rows: seq<LapRow>)
    ensures var t := BuildReplay(rows).timeline;
      (|t| > 0 ==> t[0].events == []) &&
      (forall i :: 1 <= i < |t| ==> t[i].events == LapOvertakes(t[i - 1].positions, t[i].positions))
  {
    var byLap := CalculateLapPositions(rows);
    var ov := DetectOvertakes(byLap);
    assert BuildReplay(rows).timeline == Timeline(byLap, ov);
    DetectOnIncreasing(byLap);
  }

  /** On a classification already in increasing lap order, each lap's
      events are its overtakes against the entry before it. */
  lemma DetectOnIncreasing(byLap: seq<LapStandings>)
    requires Increasing(LapNumbers(byLap))
    ensures var ov := DetectOvertakes(byLap);
      (|byLap| > 0 ==> EventsAt(ov, byLap[0].lap) == []) &&
      (forall i :: 1 <= i < |byLap| ==> EventsAt(ov, byLap[i].lap) == LapOvertakes(byLap[i - 1].positions, byLap[i].positions))
  {
    SortedDistinctOfIncreasing(LapNumbers(byLap));
    FindEach(byLap);
  }

  /** In a classification with increasing laps, each lap finds its own
      entry. */
  lemma {:induction false} FindEach(byLap: seq<LapStandings>)
    requires Increasing(LapNumbers(byLap))
    ensures forall i :: 0 <= i < |byLap| ==> Find(byLap, byLap[i].lap) == byLap[i].positions
  {
    if |byLap| > 0 {
      assert LapNumbers(byLap[1..]) == LapNumbers(byLap)[1..];
      FindEach(byLap[1..]);
      forall i | 0 < i < |byLap|
        ensures Find(byLap, byLap[i].lap) == byLap[i].positions
      {
        assert LapNumbers(byLap)[0] < LapNumbers(byLap)[i];
        assert byLap[1..][i - 1] == byLap[i];
      }
    }
  }
}

=== FILE: race_twin.dfy ===
/** The deterministic skeleton of `RaceTwinSimulator` (grracing/race_twin.py):
    the clamp on the number of simulations, per-lap re-ranking, the pit rule,
    the pit stop, the overtake swap, the traffic penalty and lap-time floor,
    and the aggregation of many simulated races into position
    distributions, a pit window, a tyre-cliff warning and undercut outcomes.
    Every random draw is a parameter. */
module RaceTwin {
  import opened Wrappers
  import opened Numerics
  import opened Labels
  import Counter
  import Ranking
  import Degradation
  import Traffic
  import Overtake
  import PitRejoin
  import Weather
  import StrategyOptimizer

  // ---------------------------------------------------------------------
  // Simulation count

  /** `max(100, min(num_simulations, 500))`: the requested count clamped to
      [100, 500]. */
  function NumSimulations(requested: int): (n: int)
    ensures 100 <= n <= 500
    ensures 100 <= requested <= 500 <==> n == requested
    ensures requested < 100 ==> n == 100
    ensures requested > 500 ==> n == 500
  {
    MaxInt(100, MinInt(requested, 500))
  }

  // ---------------------------------------------------------------------
  // Race state and the per-lap re-rank

  /** A pit stop as `_simulate_pit_stop` reports it. */
  datatype PitStop = PitStop(
    lap: int,
    pitTime: real,
    newCompound: string,
    oldCompound: string,
    rejoinPosition: int,
    positionsLost: int,
    timeLost: real)

  /** One driver's entry in `race_state`. */
  datatype DriverState = DriverState(
    id: string,
    position: int,
    tireAge: int,
    compound: string,
    totalTime: real,
    pitStops: seq<PitStop>)

  /** The fields of an input driver record that the race state copies;
      missing ones take the defaults of lines 129-133. */
  datatype DriverEntry = DriverEntry(id: string, position: Option<int>, tireAge: Option<int>, compound: Option<string>)

  function Ids(drivers: seq<DriverEntry>): (ids: seq<string>)
    ensures |ids| == |drivers| && forall k :: 0 <= k < |drivers| ==> ids[k] == drivers[k].id
  {
    seq(|drivers|, k requires 0 <= k < |drivers| => drivers[k].id)
  }

  /** Index of the last record carrying `id`: a dict comprehension keeps
      the key where it was first inserted but the value of its last
      occurrence. */
  function LastIndex(drivers: seq<DriverEntry>, id: string): (i: nat)
    requires exists k :: 0 <= k < |drivers| && drivers[k].id == id
    ensures i < |drivers| && drivers[i].id == id
    ensures forall m :: i < m < |drivers| ==> drivers[m].id != id
  {
    if drivers[|drivers| - 1].id == id then |drivers| - 1
    else
      var init := drivers[..|drivers| - 1];
      assert exists k :: 0 <= k < |init| && init[k].id == id by {
        var k :| 0 <= k < |drivers| && drivers[k].id == id;
        assert init[k] == drivers[k];
      }
      LastIndex(init, id)
  }

  /** The race state built at lines 126-138: one entry per distinct id, in
      first-occurrence order, holding the last record's fields. */
  function InitialState(drivers: seq<DriverEntry>): (states: seq<DriverState>)
    ensures |states| == |Counter.Keys(Ids(drivers))|
    ensures forall k :: 0 <= k < |states| ==> states[k].id == Counter.Keys(Ids(drivers))[k]
    ensures forall k :: 0 <= k < |states| ==> states[k].totalTime == 0.0 && states[k].pitStops == []
  {
    var ids := Counter.Keys(Ids(drivers));
    seq(|ids|, k requires 0 <= k < |ids| =>
      var e := drivers[LastIndex(drivers, ValidId(drivers, ids, k))];
      DriverState(ids[k], e.position.GetOr(0), e.tireAge.GetOr(0), e.compound.GetOr("MEDIUM"), 0.0, []))
  }

  /** `ids[k]`, known to be carried by some record. */
  function ValidId(drivers: seq<DriverEntry>, ids: seq<string>, k: nat): (id: string)
    requires ids == Counter.Keys(Ids(drivers)) && k < |ids|
    ensures id == ids[k]
    ensures exists j :: 0 <= j < |drivers| && drivers[j].id == id
  {
    assert ids[k] in Ids(drivers);
    ids[k]
  }

  function Totals(states: seq<DriverState>): (t: seq<real>)
    ensures |t| == |states| && forall k :: 0 <= k < |states| ==> t[k] == states[k].totalTime
  {
    seq(|states|, k requires 0 <= k < |states| => states[k].totalTime)
  }

  /** What one driver's lap produced: its lap time and, when it pitted, the
      stop. Both come from the draws of that lap. */
  datatype LapOutcome = LapOutcome(lapTime: real, pit: Option<PitStop>)

  /** Lines 151-178 for one driver: add the lap time, age the tyres, and on a
      stop add the stop time, fit new tyres and record the stop. */
  function ApplyOutcome(s: DriverState, o: LapOutcome): (t: DriverState)
    ensures t.id == s.id
    ensures (o.pit.Some? ==> o.pit.value.pitTime >= 0.0) ==> t.totalTime >= s.totalTime + o.lapTime
    ensures o.pit.Some? <==> |t.pitStops| == |s.pitStops| + 1
  {
    match o.pit
    case None => s.(totalTime := s.totalTime + o.lapTime, tireAge := s.tireAge + 1)
    case Some(p) =>
      s.(totalTime := s.totalTime + o.lapTime + p.pitTime, tireAge := 0, compound := p.newCompound,
         position := p.rejoinPosition, pitStops := s.pitStops + [p])
  }

  /** A lap whose outcomes have nonnegative stop times. */
  predicate StopTimesNonnegative(outcomes: seq<LapOutcome>) {
    forall k :: 0 <= k < |outcomes| ==> outcomes[k].pit.Some? ==> outcomes[k].pit.value.pitTime >= 0.0
  }

  /** Positions are ranks 1..n, distinct, ordered by total time, with tied
      drivers kept in dict order as the stable `sorted` keeps them. */
  predicate Ranked(states: seq<DriverState>) {
    (forall i :: 0 <= i < |states| ==> 1 <= states[i].position <= |states|) &&
    (forall i, j :: 0 <= i < |states| && 0 <= j < |states| && i != j ==> states[i].position != states[j].position) &&
    (forall i, j :: 0 <= i < |states| && 0 <= j < |states| && states[i].totalTime < states[j].totalTime ==>
      states[i].position < states[j].position) &&
    (forall i, j :: 0 <= i < j < |states| && states[i].totalTime == states[j].totalTime ==>
      states[i].position < states[j].position)
  }

  /** One simulated lap: every driver's outcome applied, then the re-rank
      of lines 184-189 overwrites the positions. */
  function AdvanceLap(states: seq<DriverState>, outcomes: seq<LapOutcome>): (r: seq<DriverState>)
    requires |outcomes| == |states|
    ensures |r| == |states|
    ensures forall k :: 0 <= k < |r| ==> r[k].id == states[k].id
    ensures forall k :: 0 <= k < |r| ==> r[k].totalTime == ApplyOutcome(states[k], outcomes[k]).totalTime
    ensures Ranked(r)
    ensures StopTimesNonnegative(outcomes) ==>
      forall k :: 0 <= k < |r| ==> r[k].totalTime >= states[k].totalTime + outcomes[k].lapTime
  {
    var applied := seq(|states|, k requires 0 <= k < |states| => ApplyOutcome(states[k], outcomes[k]));
    var times := Totals(applied);
    var pos := Ranking.RankByTime(times);
    var r := seq(|states|, k requires 0 <= k < |states| => applied[k].(position := pos[k]));
    RerankRanks(times, r);
    r
  }

  /** States carrying the re-ranked positions of their own total times are
      ranked. */
  lemma RerankRanks(times: seq<real>, r: seq<DriverState>)
    requires |r| == |times|
    requires forall k :: 0 <= k < |r| ==> r[k].position == Ranking.RankByTime(times)[k] && r[k].totalTime == times[k]
    ensures Ranked(r)
  {
    var pos := Ranking.RankByTime(times);
    forall i, j | 0 <= i < |r| && 0 <= j < |r| && r[i].totalTime < r[j].totalTime
      ensures r[i].position < r[j].position
    {
      assert times[i] < times[j];
    }
    forall i, j | 0 <= i < |r| && 0 <= j < |r| && i != j
      ensures r[i].position != r[j].position
    {
      assert pos[i] != pos[j];
    }
    forall i, j | 0 <= i < j < |r| && r[i].totalTime == r[j].totalTime
      ensures r[i].position < r[j].position
    {
      assert times[i] == times[j];
    }
  }

  /** Number of laps from `lap` to `totalLaps` inclusive. */
  function LapsFrom(lap: int, totalLaps: int): nat {
    if lap > totalLaps then 0 else totalLaps - lap + 1
  }

  /** The lap loop of `_simulate_single_race` (lines 141-189), one row of
      outcomes per lap. */
  function SimulateLaps(states: seq<DriverState>, lap: int, totalLaps: int, outcomes: seq<seq<LapOutcome>>): (r: seq<DriverState>)
    requires |outcomes| == LapsFrom(lap, totalLaps)
    requires forall k :: 0 <= k < |outcomes| ==> |outcomes[k]| == |states|
    ensures |r| == |states|
    ensures forall k :: 0 <= k < |r| ==> r[k].id == states[k].id
    ensures lap <= totalLaps ==> Ranked(r)
    ensures lap > totalLaps ==> r == states
    decreases totalLaps - lap
  {
    if lap > totalLaps then states
    else
      var next := AdvanceLap(states, outcomes[0]);
      if lap == totalLaps then next
      else SimulateLaps(next, lap + 1, totalLaps, outcomes[1..])
  }

  /** The summary returned by `_simulate_single_race`. */
  datatype RaceResult = RaceResult(finishingOrder: seq<string>, pitStops: seq<seq<PitStop>>, totalTimes: seq<real>)

  /** Indices of the drivers in finishing order: sorted (stably) by total
      time. */
  function FinishIndices(states: seq<DriverState>): (idx: seq<nat>)
    ensures |idx| == |states|
    ensures forall k :: 0 <= k < |idx| ==> idx[k] < |states|
  {
    Ranking.StableOrder(Ranking.TimeKeys(Totals(states)))
  }

  /** `finishing_order`: the ids in order of total time. */
  function FinishingOrder(states: seq<DriverState>): (order: seq<string>)
    ensures |order| == |states|
    ensures forall k :: 0 <= k < |order| ==> order[k] == states[FinishIndices(states)[k]].id
    ensures forall k, l :: 0 <= k < l < |order| ==>
      states[FinishIndices(states)[k]].totalTime <= states[FinishIndices(states)[l]].totalTime
  {
    var idx := FinishIndices(states);
    var keys := Ranking.TimeKeys(Totals(states));
    forall k, l | 0 <= k < l < |idx|
      ensures states[idx[k]].totalTime <= states[idx[l]].totalTime
    {
      assert Ranking.Before(keys, idx[k], idx[l]);
    }
    seq(|states|, k requires 0 <= k < |states| => states[idx[k]].id)
  }

  /** Every driver appears in the finishing order. */
  lemma FinishingOrderCovers(states: seq<DriverState>, i: nat)
    requires i < |states|
    ensures states[i].id in FinishingOrder(states)
  {
    var idx := FinishIndices(states);
    assert i < |Ranking.TimeKeys(Totals(states))|;
    assert i in idx;
    var m :| 0 <= m < |idx| && idx[m] == i;
    assert FinishingOrder(states)[m] == states[i].id;
  }

  /** With distinct ids, no id appears twice in the finishing order. */
  lemma FinishingOrderDistinct(states: seq<DriverState>)
    requires Counter.Distinct(Ids2(states))
    ensures Counter.Distinct(FinishingOrder(states))
  {
    var idx := FinishIndices(states);
    var keys := Ranking.TimeKeys(Totals(states));
    var order := FinishingOrder(states);
    forall a, b | 0 <= a < b < |order|
      ensures order[a] != order[b]
    {
      assert Ranking.Before(keys, idx[a], idx[b]);
      assert idx[a] != idx[b];
      assert Ids2(states)[idx[a]] == order[a] && Ids2(states)[idx[b]] == order[b];
    }
  }

  function Ids2(states: seq<DriverState>): (ids: seq<string>)
    ensures |ids| == |states| && forall k :: 0 <= k < |states| ==> ids[k] == states[k].id
  {
    seq(|states|, k requires 0 <= k < |states| => states[k].id)
  }

  function PitStopsOf(states: seq<DriverState>): (stops: seq<seq<PitStop>>)
    ensures |stops| == |states| && forall k :: 0 <= k < |states| ==> stops[k] == states[k].pitStops
  {
    seq(|states|, k requires 0 <= k < |states| => states[k].pitStops)
  }

  /** `_simulate_single_race` with the unreachable degradation call removed
      (its value is never used). */
  function SimulateSingleRace(drivers: seq<DriverEntry>, currentLap: int, totalLaps: int,
                              outcomes: seq<seq<LapOutcome>>): (r: RaceResult)
    requires |outcomes| == LapsFrom(currentLap, totalLaps)
    requires forall k :: 0 <= k < |outcomes| ==> |outcomes[k]| == |Counter.Keys(Ids(drivers))|
    ensures |r.finishingOrder| == |Counter.Keys(Ids(drivers))|
  {
    var final := SimulateLaps(InitialState(drivers), currentLap, totalLaps, outcomes);
    RaceResult(FinishingOrder(final), PitStopsOf(final), Totals(final))
  }

  /** The finishing order is a permutation of the distinct driver ids. */
  lemma FinishingOrderIsPermutation(drivers: seq<DriverEntry>, currentLap: int, totalLaps: int,
                                    outcomes: seq<seq<LapOutcome>>)
    requires |outcomes| == LapsFrom(currentLap, totalLaps)
    requires forall k :: 0 <= k < |outcomes| ==> |outcomes[k]| == |Counter.Keys(Ids(drivers))|
    ensures var order := SimulateSingleRace(drivers, currentLap, totalLaps, outcomes).finishingOrder;
      Counter.Distinct(order) && forall x :: x in order <==> x in Ids(drivers)
  {
    var ids := Counter.Keys(Ids(drivers));
    var final := SimulateLaps(InitialState(drivers), currentLap, totalLaps, outcomes);
    assert Ids2(final) == ids;
    FinishingOrderDistinct(final);
    var order := FinishingOrder(final);
    forall x
      ensures x in order <==> x in Ids(drivers)
    {
      if x in Ids(drivers) {
        assert x in ids;
        var k :| 0 <= k < |ids| && ids[k] == x;
        FinishingOrderCovers(final, k);
      }
      if x in order {
        var k :| 0 <= k < |order| && order[k] == x;
        assert x == ids[FinishIndices(final)[k]];
      }
    }
  }

  /** The race as written: line 156 asks `degradation.TireDegradationModel`
      for `calculate_degradation`, which that class does not define, so the
      first driver's first lap raises. */
  function SimulateSingleRaceAsWritten(drivers: seq<DriverEntry>, currentLap: int, totalLaps: int,
                                       outcomes: seq<seq<LapOutcome>>): (r: Result<RaceResult, PyError>)
    requires |outcomes| == LapsFrom(currentLap, totalLaps)
    requires forall k :: 0 <= k < |outcomes| ==> |outcomes[k]| == |Counter.Keys(Ids(drivers))|
    ensures r.Success? ==> r.value == SimulateSingleRace(drivers, currentLap, totalLaps, outcomes)
  {
    if currentLap <= totalLaps && |drivers| > 0 then
      var first := InitialState(drivers)[0];
      var _ :- Degradation.CallCalculateDegradation(Degradation.CompoundCurveModel, first.tireAge + 1, first.compound);
      Success(SimulateSingleRace(drivers, currentLap, totalLaps, outcomes))
    else Success(SimulateSingleRace(drivers, currentLap, totalLaps, outcomes))
  }

  /** Whenever a lap is left to run and the field is nonempty, the race as
      written raises AttributeError; otherwise it returns the corrected
      result. */
  lemma SimulateSingleRaceAsWrittenRaises(drivers: seq<DriverEntry>, currentLap: int, totalLaps: int,
                                          outcomes: seq<seq<LapOutcome>>)
    requires |outcomes| == LapsFrom(currentLap, totalLaps)
    requires forall k :: 0 <= k < |outcomes| ==> |outcomes[k]| == |Counter.Keys(Ids(drivers))|
    ensures SimulateSingleRaceAsWritten(drivers, currentLap, totalLaps, outcomes).Failure?
        <==> currentLap <= totalLaps && |drivers| > 0
  {
    if currentLap <= totalLaps && |drivers| > 0 {
      assert drivers[0].id in Ids(drivers);
      var first := InitialState(drivers)[0];
      Degradation.CompoundModelLacksCalculateDegradation(first.tireAge + 1, first.compound);
    }
  }

  // ---------------------------------------------------------------------
  // Pit rule, pit stop, overtakes, traffic and lap time

  /** One entry of `pit_strategy_options`. */
  datatype PitPlan = PitPlan(driverId: Option<string>, plannedPits: Option<seq<int>>)

  /** Some strategy entry for this driver lists `lap` among its planned pits. */
  predicate PlannedFor(options: seq<PitPlan>, driverId: string, lap: int) {
    exists k :: 0 <= k < |options| && options[k].driverId == Some(driverId) && lap in options[k].plannedPits.GetOr([])
  }

  /** Tyre age at which a stop is due: 20 laps for a gentle degradation rate
      (below 0.003), 15 otherwise. */
  function CriticalAge(rate: real): (a: int)
    ensures rate < 0.003 <==> a == 20
    ensures a == 15 || a == 20
  {
    if rate < 0.003 then 20 else 15
  }

  /** `_should_pit`: a planned lap, tyres at the critical age with at least
      ten laps to go, or, on tyres older than 25 laps, the 10% draw. The
      profile rate defaults to 0.002. */
  function ShouldPit(options: seq<PitPlan>, driverId: string, lap: int, tireAge: int,
                     rate: Option<real>, totalLaps: int, draw: real): (pit: bool)
    ensures PlannedFor(options, driverId, lap) ==> pit
    ensures tireAge >= CriticalAge(rate.GetOr(0.002)) && totalLaps - lap >= 10 ==> pit
    ensures pit && !PlannedFor(options, driverId, lap) && !(tireAge >= CriticalAge(rate.GetOr(0.002)) && totalLaps - lap >= 10)
      ==> tireAge > 25 && draw < 0.1
  {
    if PlannedFor(options, driverId, lap) then true
    else if tireAge >= CriticalAge(rate.GetOr(0.002)) && totalLaps - lap >= 10 then true
    else tireAge > 25 && draw < 0.1
  }

  /** Up to 25 laps of tyre age the decision does not depend on the random
      draw. */
  lemma ShouldPitIgnoresDrawOnYoungTyres(options: seq<PitPlan>, driverId: string, lap: int, tireAge: int,
                                         rate: Option<real>, totalLaps: int, d1: real, d2: real)
    requires tireAge <= 25
    ensures ShouldPit(options, driverId, lap, tireAge, rate, totalLaps, d1)
         == ShouldPit(options, driverId, lap, tireAge, rate, totalLaps, d2)
  {
  }

  /** `['SOFT', 'MEDIUM', 'HARD']`, softest first. */
  const CompoundSequence: seq<string> := ["SOFT", "MEDIUM", "HARD"]

  /** `compound_sequence.index(c)`, or 1 (MEDIUM) for any other compound. */
  function CompoundIndex(c: string): (i: nat)
    ensures i < 3
    ensures c in CompoundSequence ==> CompoundSequence[i] == c
    ensures c !in CompoundSequence ==> i == 1
  {
    if c == "SOFT" then 0 else if c == "HARD" then 2 else 1
  }

  /** The compound fitted at a stop: one step harder when the draw is below
      0.7 (HARD stays HARD), else the same step. */
  function NextCompound(current: string, draw: real): (c: string)
    ensures c in CompoundSequence
    ensures CompoundIndex(current) <= CompoundIndex(c) <= CompoundIndex(current) + 1
    ensures draw >= 0.7 ==> CompoundIndex(c) == CompoundIndex(current)
    ensures draw < 0.7 ==> CompoundIndex(c) == MinInt(CompoundIndex(current) + 1, 2)
  {
    var i := CompoundIndex(current);
    var j := if draw < 0.7 then MinInt(i + 1, 2) else i;
    CompoundSequence[j]
  }

  /** The traffic model's view of the field for a given sector: everyone is
      placed in it, at their current position. */
  function FieldIn(positions: seq<int>, sector: string): (cars: seq<Traffic.CarState>)
    ensures |cars| == |positions|
    ensures forall k :: 0 <= k < |positions| ==> cars[k].sector == Some(sector)
  {
    seq(|positions|, k requires 0 <= k < |positions| => Traffic.CarState(Some(sector), Some(positions[k])))
  }

  /** `_simulate_pit_stop`: a 22 s stop varied by the uniform draw in
      [-2, 2], the next compound, and the rejoin computed by the pit-rejoin
      simulator in sector S2 with the whole field's density. */
  function SimulatePitStop(compound: string, position: int, lap: int, positions: seq<int>, totalCars: int,
                           varianceDraw: real, compoundDraw: real): (p: PitStop)
    requires -2.0 <= varianceDraw <= 2.0
    ensures 20.0 <= p.pitTime <= 24.0
    ensures p.lap == lap && p.oldCompound == compound
    ensures p.newCompound == NextCompound(compound, compoundDraw)
    ensures p.rejoinPosition <= totalCars
    ensures position <= totalCars ==> position <= p.rejoinPosition
    ensures p.timeLost >= p.pitTime
  {
    var pitTime := 22.0 + varianceDraw;
    var density := Traffic.TrafficDensity(FieldIn(positions, "S2"), "S2");
    var rejoin := PitRejoin.SimulatePitRejoin(position, lap, pitTime, density, totalCars, "S2");
    assert rejoin.timeLost >= pitTime by {
      MulNonneg(1.5 * (1.0 + 0.5 * density), PitRejoin.RejoinSectorMultiplier("S2"));
    }
    PitStop(lap, pitTime, NextCompound(compound, compoundDraw), compound,
            rejoin.rejoinPosition, rejoin.positionsLost, rejoin.timeLost)
  }

  /** Because every car is placed in S2, a nonempty field has density 1 and
      every stop loses exactly 2.7 s beyond the stop itself. */
  lemma PitStopLosesFixedMargin(compound: string, position: int, lap: int, positions: seq<int>, totalCars: int,
                                varianceDraw: real, compoundDraw: real)
    requires -2.0 <= varianceDraw <= 2.0 && |positions| > 0
    ensures var p := SimulatePitStop(compound, position, lap, positions, totalCars, varianceDraw, compoundDraw);
      p.timeLost == p.pitTime + 2.7
  {
    Traffic.AllInSectorIsSaturated(FieldIn(positions, "S2"), "S2");
  }

  /** Sector of a lap: S1, S2, S3 in rotation (`(lap - 1) % 3`, a floor
      modulo). */
  function SectorOf(lap: int): (s: string)
    ensures s in ["S1", "S2", "S3"]
  {
    ["S1", "S2", "S3"][(lap - 1) % 3]
  }

  /** The first driver (in dict order) holding position `target`. */
  function FindAt(positions: seq<int>, target: int): (r: Option<nat>)
    ensures r.Some? ==> r.value < |positions| && positions[r.value] == target
    ensures r.Some? ==> forall k :: 0 <= k < r.value ==> positions[k] != target
    ensures r.None? <==> target !in positions
  {
    if |positions| == 0 then None
    else if positions[0] == target then Some(0)
    else match FindAt(positions[1..], target)
      case None => None
      case Some(k) => Some(k + 1)
  }

  /** Speed estimate from a pace vector: 150 km/h scaled by `1 - 2 * pace`. */
  function SpeedOf(pace: real): real {
    150.0 * (1.0 - pace * 2.0)
  }

  /** `_simulate_overtakes` for driver `i`: the leader stays put; otherwise
      the first car one place ahead is found and, when the draw falls below
      the overtake probability, the two swap positions. */
  function SimulateOvertake(positions: seq<int>, paces: seq<real>, tireAges: seq<int>, i: nat, lap: int,
                            draw: real): (r: seq<int>)
    requires i < |positions| && |paces| == |positions| && |tireAges| == |positions|
    ensures |r| == |positions|
    ensures multiset(r) == multiset(positions)
    ensures positions[i] == 1 ==> r == positions
    ensures r == positions ||
            exists j :: 0 <= j < |positions| && j != i && positions[j] == positions[i] - 1 &&
                        r == positions[i := positions[j]][j := positions[i]]
  {
    var cur := positions[i];
    if cur == 1 then positions
    else match FindAt(positions, cur - 1)
      case None => positions
      case Some(j) =>
        var prob := Overtake.OvertakeProbability(SpeedOf(paces[i]), SpeedOf(paces[j]), cur, cur - 1,
                                                 tireAges[i], tireAges[j], SectorOf(lap));
        if draw < prob then
          var r := positions[i := positions[j]][j := cur];
          assert multiset(r) == multiset(positions) by {
            SwapKeepsMultiset(positions, i, j);
          }
          r
        else positions
  }

  lemma SwapKeepsMultiset(s: seq<int>, i: nat, j: nat)
    requires i < |s| && j < |s| && i != j
    ensures multiset(s[i := s[j]][j := s[i]]) == multiset(s)
  {
    var t := s[i := s[j]];
    assert multiset(t) == multiset(s) - multiset{s[i]} + multiset{s[j]};
    assert t[j] == s[j];
    assert multiset(t[j := s[i]]) == multiset(t) - multiset{s[j]} + multiset{s[i]};
  }

  /** A swap changes exactly two entries: every other driver keeps its
      position. */
  lemma OvertakeTouchesOnlyTwo(positions: seq<int>, paces: seq<real>, tireAges: seq<int>, i: nat, lap: int,
                               draw: real, k: nat)
    requires i < |positions| && |paces| == |positions| && |tireAges| == |positions|
    requires k < |positions| && k != i
    requires positions[k] != positions[i] - 1
    ensures SimulateOvertake(positions, paces, tireAges, i, lap, draw)[k] == positions[k]
  {
  }

  /** `_calculate_traffic_penalty`: nothing for the leader; otherwise the
      traffic model's time loss for the whole field in this sector plus
      0.05 s per car ahead plus the uniform draw, floored at 0. The real
      power `density^1.5` is the parameter `pow`. */
  function TrafficPenalty(position: int, positions: seq<int>, sector: string, pow: (real, real) -> real,
                          draw: real): (p: real)
    ensures p >= 0.0
    ensures position == 1 ==> p == 0.0
    ensures position != 1 && draw >= 0.0 &&
      pow(Traffic.TrafficDensity(FieldIn(positions, sector), sector), 1.5) >= 0.0
      ==> p >= (position - 1) as real * 0.05
  {
    var carsAhead := position - 1;
    if carsAhead == 0 then 0.0
    else
      var density := Traffic.TrafficDensity(FieldIn(positions, sector), sector);
      var timeLost := Traffic.EstimateTimeLost(density, sector, pow);
      Max(timeLost + carsAhead as real * 0.05 + draw, 0.0)
  }

  /** The fields of `weather_data` the lap time reads; `None` stands for a
      missing or empty dict (both falsy), and missing keys take the
      defaults 25 / 25 / 50 / 0. */
  datatype WeatherData = WeatherData(trackTemp: Option<real>, ambientTemp: Option<real>,
                                     humidity: Option<real>, rainfall: Option<real>)

  function TrackTemp(weather: Option<WeatherData>): real {
    if weather.Some? then weather.value.trackTemp.GetOr(25.0) else 25.0
  }

  /** `_calculate_lap_time`: the exponential tyre curve of the compound from
      the twin's base pace (default `95 * (1 + pace_vector)`), the weather's
      pace modifier when weather is given, the traffic penalty and the
      noise draw; never under 90 s. */
  function LapTime(paceVector: real, profileBasePace: Option<real>, tireAge: nat, compound: string,
                   weather: Option<WeatherData>, penalty: real, noise: real): (t: real)
    ensures t >= 90.0
    ensures t > 90.0 ==> t == RawLapTime(paceVector, profileBasePace, tireAge, compound, weather) + penalty + noise
  {
    Max(RawLapTime(paceVector, profileBasePace, tireAge, compound, weather) + penalty + noise, 90.0)
  }

  function RawLapTime(paceVector: real, profileBasePace: Option<real>, tireAge: nat, compound: string,
                      weather: Option<WeatherData>): real
  {
    var basePace := profileBasePace.GetOr(95.0 * (1.0 + paceVector));
    var model := Degradation.Model(compound, TrackTemp(weather));
    var degraded := Degradation.ExponentialDegradation(model, tireAge, basePace, None);
    match weather
    case None => degraded
    case Some(w) =>
      degraded * Weather.PaceModifier(w.trackTemp.GetOr(25.0), w.ambientTemp.GetOr(25.0),
                                      w.humidity.GetOr(50.0), w.rainfall.GetOr(0.0))
  }

  /** More traffic never makes the lap faster. */
  lemma LapTimeMonotoneInPenalty(paceVector: real, profileBasePace: Option<real>, tireAge: nat, compound: string,
                                 weather: Option<WeatherData>, p1: real, p2: real, noise: real)
    requires p1 <= p2
    ensures LapTime(paceVector, profileBasePace, tireAge, compound, weather, p1, noise)
         <= LapTime(paceVector, profileBasePace, tireAge, compound, weather, p2, noise)
  {
  }

  // ---------------------------------------------------------------------
  // Aggregation over the simulated races

  /** `[x for xs in xss for x in xs]`. */
  function Concat<T>(xss: seq<seq<T>>): (r: seq<T>)
    ensures forall k :: 0 <= k < |xss| ==> |xss[k]| <= |r|
    ensures |r| > 0 ==> |xss| > 0
  {
    if |xss| == 0 then [] else Concat(xss[..|xss| - 1]) + xss[|xss| - 1]
  }

  lemma {:induction false} ConcatMembers<T>(xss: seq<seq<T>>, x: T)
    ensures x in Concat(xss) <==> exists k :: 0 <= k < |xss| && x in xss[k]
  {
    if |xss| > 0 {
      var init := xss[..|xss| - 1];
      ConcatMembers(init, x);
      if x in Concat(init) {
        var k :| 0 <= k < |init| && x in init[k];
        assert xss[k] == init[k];
      }
      if exists k :: 0 <= k < |xss| && x in xss[k] {
        var k :| 0 <= k < |xss| && x in xss[k];
        if k < |xss| - 1 {
          assert init[k] == xss[k];
        }
      }
    }
  }

  /** 1-based places at which `d` appears in one finishing order. */
  function PlacesIn(order: seq<string>, d: string): (r: seq<int>)
    ensures |r| == Counter.Count(order, d)
    ensures forall k :: 0 <= k < |r| ==> 1 <= r[k] <= |order|
  {
    if |order| == 0 then []
    else PlacesIn(order[..|order| - 1], d) + (if order[|order| - 1] == d then [|order|] else [])
  }

  /** `driver_positions[d]`: `d`'s places over all simulated races. */
  function PlacesOf(results: seq<seq<string>>, d: string): (r: seq<int>)
    ensures |r| > 0 <==> exists k :: 0 <= k < |results| && d in results[k]
    ensures (forall k :: 0 <= k < |results| ==> Counter.Count(results[k], d) == 1) ==> |r| == |results|
  {
    if |results| == 0 then []
    else
      var init := results[..|results| - 1];
      AppearsSnoc(results, d);
      PlacesOf(init, d) + PlacesIn(results[|results| - 1], d)
  }

  /** `d` appears in some simulated race. */
  predicate Appears(results: seq<seq<string>>, d: string) {
    exists k :: 0 <= k < |results| && d in results[k]
  }

  /** `d` appears in some race iff it appears in an earlier race or the
      last one. */
  lemma AppearsSnoc(results: seq<seq<string>>, d: string)
    requires |results| > 0
    ensures Appears(results, d) <==> Appears(results[..|results| - 1], d) || d in results[|results| - 1]
  {
    var init := results[..|results| - 1];
    if Appears(results, d) {
      var k :| 0 <= k < |results| && d in results[k];
      if k < |init| {
        assert init[k] == results[k];
      }
    }
    if Appears(init, d) {
      var k :| 0 <= k < |init| && d in init[k];
      assert results[k] == init[k];
    }
  }

  /** One driver's line of `expected_finishing_positions`. */
  datatype FinishEntry = FinishEntry(driverId: string, position: int, probability: real, distribution: seq<Counter.Share>)

  /** The entry for driver `d`: its most common place, that place's
      frequency over all simulated races, and the distribution over every
      place it reached. */
  function EntryFor(results: seq<seq<string>>, d: string): (e: FinishEntry)
    requires exists k :: 0 <= k < |results| && d in results[k]
    ensures e.driverId == d
    ensures var places := PlacesOf(results, d);
      e.position in places &&
      (forall p :: Counter.Count(places, p) <= Counter.Count(places, e.position)) &&
      e.probability == Counter.Count(places, e.position) as real / |results| as real
  {
    var places := PlacesOf(results, d);
    var m := Counter.MostCommon(places);
    FinishEntry(d, m, Counter.Count(places, m) as real / |results| as real,
                Counter.Shares(Counter.Keys(places), places, |results|))
  }


  /** The reported probability is the largest in the distribution, and the
      distribution adds up to the share of races in which `d` placed. */
  lemma EntryDistribution(results: seq<seq<string>>, d: string)
    requires exists k :: 0 <= k < |results| && d in results[k]
    ensures var e := EntryFor(results, d);
      (forall k :: 0 <= k < |e.distribution| ==> e.distribution[k].probability <= e.probability) &&
      Counter.SumShares(e.distribution) == |PlacesOf(results, d)| as real / |results| as real
  {
    var places := PlacesOf(results, d);
    var e := EntryFor(results, d);
    var ks := Counter.Keys(places);
    var total := |results|;
    assert e.distribution == Counter.Shares(ks, places, total);
    Counter.SharesSum(ks, places, total);
    Counter.CountsAddUp(places);
    forall k | 0 <= k < |e.distribution|
      ensures e.distribution[k].probability <= e.probability
    {
      DivMonotone(Counter.Count(places, ks[k]) as real, Counter.Count(places, e.position) as real, total as real);
    }
  }

  /** A driver that appears exactly once in every finishing order has a
      distribution summing to 1. */
  lemma DistributionSumsToOne(results: seq<seq<string>>, d: string)
    requires |results| > 0
    requires forall k :: 0 <= k < |results| ==> Counter.Count(results[k], d) == 1
    ensures exists k :: 0 <= k < |results| && d in results[k]
    ensures Counter.SumShares(EntryFor(results, d).distribution) == 1.0
  {
    assert d in results[0];
    EntryDistribution(results, d);
    var e := EntryFor(results, d);
    var t := |results| as real;
    assert Counter.SumShares(e.distribution) == |PlacesOf(results, d)| as real / t;
    assert |PlacesOf(results, d)| as real == t;
    Counter.DivSelf(t);
  }


  /** The drivers of the simulated races, in order of first appearance. */
  function SeenDrivers(results: seq<seq<string>>): (ids: seq<string>)
    ensures Counter.Distinct(ids)
    ensures forall j :: 0 <= j < |ids| ==> exists m :: 0 <= m < |results| && ids[j] in results[m]
    ensures forall m, x :: 0 <= m < |results| && x in results[m] ==> x in ids
  {
    var ids := Counter.Keys(Concat(results));
    forall j | 0 <= j < |ids|
      ensures exists m :: 0 <= m < |results| && ids[j] in results[m]
    {
      ConcatMembers(results, ids[j]);
    }
    forall m, x | 0 <= m < |results| && x in results[m]
      ensures x in ids
    {
      ConcatMembers(results, x);
    }
    ids
  }

  /** The entries in first-appearance order, before the sort. */
  function Entries(results: seq<seq<string>>): (entries: seq<FinishEntry>)
    ensures |entries| == |SeenDrivers(results)|
    ensures forall j :: 0 <= j < |entries| ==> entries[j].driverId == SeenDrivers(results)[j]
  {
    var ids := SeenDrivers(results);
    seq(|ids|, j requires 0 <= j < |ids| => EntryFor(results, ids[j]))
  }

  function PositionKeys(entries: seq<FinishEntry>): (keys: seq<Ranking.Key>)
    ensures |keys| == |entries|
    ensures forall j :: 0 <= j < |entries| ==> keys[j] == Ranking.Key(entries[j].position, 0.0)
  {
    seq(|entries|, j requires 0 <= j < |entries| => Ranking.Key(entries[j].position, 0.0))
  }

  /** `finishing_probs.sort(key=position)`: a stable sort by position
      that neither drops nor duplicates an entry. */
  function SortByPosition(entries: seq<FinishEntry>): (r: seq<FinishEntry>)
    ensures |r| == |entries|
    ensures forall k :: 0 <= k < |r| ==> r[k] in entries
    ensures forall j :: 0 <= j < |entries| ==> entries[j] in r
    ensures forall k, l :: 0 <= k < l < |r| ==> r[k].position <= r[l].position
  {
    var keys := PositionKeys(entries);
    var order := Ranking.StableOrder(keys);
    var r := seq(|entries|, k requires 0 <= k < |entries| => entries[order[k]]);
    forall k, l | 0 <= k < l < |r|
      ensures r[k].position <= r[l].position
    {
      assert Ranking.Before(keys, order[k], order[l]);
    }
    ReorderKeepsAll(entries, order, r);
    r
  }

  /** Picking `xs[order[k]]` for every `k`, where `order` mentions every
      index of `xs`, keeps every element of `xs`. */
  lemma ReorderKeepsAll<T>(xs: seq<T>, order: seq<nat>, r: seq<T>)
    requires |r| == |order|
    requires forall k :: 0 <= k < |order| ==> order[k] < |xs| && r[k] == xs[order[k]]
    requires forall j :: 0 <= j < |xs| ==> j in order
    ensures forall j :: 0 <= j < |xs| ==> xs[j] in r
  {
    forall j | 0 <= j < |xs|
      ensures xs[j] in r
    {
      assert j in order;
      var k :| 0 <= k < |order| && order[k] == j;
      assert r[k] == xs[j];
    }
  }

  /** `_analyze_finishing_positions`: one entry per driver (first-seen
      order), then sorted stably by most common position. */
  function AnalyzeFinishingPositions(results: seq<seq<string>>): (r: seq<FinishEntry>)
    ensures |r| == |SeenDrivers(results)|
    ensures forall k :: 0 <= k < |r| ==> r[k] in Entries(results)
    ensures forall j :: 0 <= j < |Entries(results)| ==> Entries(results)[j] in r
    ensures forall k, l :: 0 <= k < l < |r| ==> r[k].position <= r[l].position
  {
    SortByPosition(Entries(results))
  }

  /** Each entry is the driver's own analysis. */
  lemma EntriesAreEntryFor(results: seq<seq<string>>, e: FinishEntry)
    ensures e in Entries(results) ==>
      (exists m :: 0 <= m < |results| && e.driverId in results[m]) && e == EntryFor(results, e.driverId)
  {
  }

  /** A driver of some simulated race has a place among the seen drivers. */
  lemma SeenAt(results: seq<seq<string>>, m: nat, x: string) returns (j: nat)
    requires m < |results| && x in results[m]
    ensures j < |SeenDrivers(results)| && SeenDrivers(results)[j] == x
  {
    var ids := SeenDrivers(results);
    assert x in ids;
    j :| 0 <= j < |ids| && ids[j] == x;
  }

  /** The sort keeps every entry, so each entry's driver has a line. */
  lemma EntryKept(results: seq<seq<string>>, j: nat)
    requires j < |Entries(results)|
    ensures exists k :: 0 <= k < |AnalyzeFinishingPositions(results)| &&
                        AnalyzeFinishingPositions(results)[k].driverId == Entries(results)[j].driverId
  {
    var r := AnalyzeFinishingPositions(results);
    var e := Entries(results)[j];
    assert e in r;
    var k :| 0 <= k < |r| && r[k] == e;
  }

  /** Every driver of every simulated race gets an entry. */
  lemma FinishingPositionsCoverDrivers(results: seq<seq<string>>, m: nat, x: string)
    requires m < |results| && x in results[m]
    ensures exists k :: 0 <= k < |AnalyzeFinishingPositions(results)| && AnalyzeFinishingPositions(results)[k].driverId == x
  {
    var j := SeenAt(results, m, x);
    EntryKept(results, j);
  }

  /** Lines 101-103: the leader's probability, and the sums over the first
      three and the first ten entries. */
  datatype Outcomes = Outcomes(win: real, podium: real, points: real)

  function SumProbabilities(entries: seq<FinishEntry>): real {
    if |entries| == 0 then 0.0 else SumProbabilities(entries[..|entries| - 1]) + entries[|entries| - 1].probability
  }

  lemma {:induction false} SumProbabilitiesGrows(entries: seq<FinishEntry>, m: nat, n: nat)
    requires m <= n <= |entries|
    requires forall k :: 0 <= k < |entries| ==> entries[k].probability >= 0.0
    ensures SumProbabilities(entries[..m]) <= SumProbabilities(entries[..n])
    decreases n - m
  {
    if m < n {
      SumProbabilitiesGrows(entries, m, n - 1);
      assert entries[..n][..n - 1] == entries[..n - 1];
    }
  }

  function MonteCarloOutcomes(entries: seq<FinishEntry>): (o: Outcomes)
    ensures |entries| == 0 ==> o == Outcomes(0.0, 0.0, 0.0)
    ensures (forall k :: 0 <= k < |entries| ==> entries[k].probability >= 0.0) ==>
      0.0 <= o.win <= o.podium <= o.points
  {
    if |entries| == 0 then Outcomes(0.0, 0.0, 0.0)
    else
      var o := Outcomes(entries[0].probability,
                        SumProbabilities(entries[..MinInt(3, |entries|)]),
                        SumProbabilities(entries[..MinInt(10, |entries|)]));
      assert (forall k :: 0 <= k < |entries| ==> entries[k].probability >= 0.0) ==>
        0.0 <= o.win <= o.podium <= o.points by {
        if forall k :: 0 <= k < |entries| ==> entries[k].probability >= 0.0 {
          SumProbabilitiesGrows(entries, 1, MinInt(3, |entries|));
          SumProbabilitiesGrows(entries, MinInt(3, |entries|), MinInt(10, |entries|));
          assert entries[..1][..0] == [];
        }
      }
      o
  }

  /** Every stop of every simulated race, in the order `_analyze_*` visit
      them. */
  function AllStops(results: seq<RaceResult>): (stops: seq<PitStop>)
    ensures |stops| > 0 ==> |results| > 0
  {
    if |results| == 0 then []
    else AllStops(results[..|results| - 1]) + Concat(results[|results| - 1].pitStops)
  }

  function StopLaps(stops: seq<PitStop>): (laps: seq<int>)
    ensures |laps| == |stops| && forall k :: 0 <= k < |stops| ==> laps[k] == stops[k].lap
  {
    seq(|stops|, k requires 0 <= k < |stops| => stops[k].lap)
  }

  /** The first input driver's fields read for the strategy analysis. */
  datatype PrimaryDriver = PrimaryDriver(position: Option<int>, tireAge: Option<int>, rate: Option<real>)

  /** `_analyze_pit_strategies`: the window around the most common stop lap
      (18-22 when no one stopped), and, when there is a first driver, the
      optimizer's plan for it at density 0.5 and pace 95. */
  datatype PitSummary = PitSummary(
    start: int,
    end: int,
    mostCommon: Option<int>,
    plan: Option<StrategyOptimizer.StrategyPlan>,
    stopsPerRace: Option<real>)

  function AnalyzePitStrategies(results: seq<RaceResult>, primary: Option<PrimaryDriver>,
                                currentLap: int, totalLaps: int): (s: PitSummary)
    ensures |AllStops(results)| == 0 ==> s == PitSummary(18, 22, None, None, None)
    ensures |AllStops(results)| > 0 ==>
      var laps := StopLaps(AllStops(results));
      s.mostCommon == Some(Counter.MostCommon(laps)) &&
      s.start == MaxInt(1, s.mostCommon.value - 2) && s.end == s.mostCommon.value + 2 &&
      1 <= s.start &&
      (forall l :: Counter.Count(laps, l) <= Counter.Count(laps, s.mostCommon.value)) &&
      s.stopsPerRace == Some(|laps| as real / |results| as real)
    ensures s.plan.Some? ==> !s.plan.value.overcut.IsViable()
  {
    var stops := AllStops(results);
    if |stops| == 0 then PitSummary(18, 22, None, None, None)
    else
      var laps := StopLaps(stops);
      var m := Counter.MostCommon(laps);
      var perRace := |laps| as real / |results| as real;
      match primary
      case None => PitSummary(MaxInt(1, m - 2), m + 2, Some(m), None, Some(perRace))
      case Some(p) =>
        var plan := StrategyOptimizer.OptimizePitStrategy(currentLap, totalLaps, p.position.GetOr(1),
                                                          p.tireAge.GetOr(10), p.rate.GetOr(0.002), 0.5, 95.0);
        PitSummary(MaxInt(1, m - 2), m + 2, Some(m), Some(plan), Some(perRace))
  }

  /** `_predict_tire_cliff`. */
  datatype TireCliff = TireCliff(lap: int, critical: bool)

  /** The twins' critical laps, a missing one standing for `current + 20`. */
  function CriticalLaps(twinLaps: seq<Option<int>>, currentLap: int): (laps: seq<int>)
    ensures |laps| == |twinLaps| && forall k :: 0 <= k < |twinLaps| ==> laps[k] == twinLaps[k].GetOr(currentLap + 20)
  {
    seq(|twinLaps|, k requires 0 <= k < |twinLaps| => twinLaps[k].GetOr(currentLap + 20))
  }

  function Earliest(s: seq<int>): (m: int)
    requires |s| > 0
    ensures m in s && forall k :: 0 <= k < |s| ==> m <= s[k]
  {
    if |s| == 1 then s[0] else MinInt(s[0], Earliest(s[1..]))
  }

  /** The earliest critical lap over all twins, critical when it is at most
      ten laps away; with no twins, `current + 20` and not critical. */
  function PredictTireCliff(twinLaps: seq<Option<int>>, currentLap: int): (c: TireCliff)
    ensures c.critical <==> c.lap <= currentLap + 10
    ensures |twinLaps| == 0 ==> c == TireCliff(currentLap + 20, false)
    ensures |twinLaps| > 0 ==> (exists k :: 0 <= k < |twinLaps| && twinLaps[k].GetOr(currentLap + 20) == c.lap)
    ensures forall k :: 0 <= k < |twinLaps| ==> c.lap <= twinLaps[k].GetOr(currentLap + 20)
  {
    if |twinLaps| == 0 then TireCliff(currentLap + 20, false)
    else
      var laps := CriticalLaps(twinLaps, currentLap);
      var e := Earliest(laps);
      TireCliff(e, e <= currentLap + 10)
  }

  /** `_analyze_undercut_outcomes`. */
  datatype UndercutOutcome = UndercutOutcome(viable: bool, timeGain: real, confidence: Level, successRate: real)

  /** Time saved by each stop that lost at most one place and cost under the
      25 s reference. */
  function UndercutGains(stops: seq<PitStop>): (g: seq<real>)
    ensures |g| <= |stops|
    ensures forall k :: 0 <= k < |g| ==> g[k] > 0.0
  {
    if |stops| == 0 then []
    else
      var s := stops[|stops| - 1];
      var prev := UndercutGains(stops[..|stops| - 1]);
      prev + (if s.positionsLost <= 1 && s.timeLost - 25.0 < 0.0 then [Abs(s.timeLost - 25.0)] else [])
  }

  function Mean(g: seq<real>): real {
    if |g| == 0 then 0.0 else Sum(g) / |g| as real
  }

  /** The mean of positive gains is positive exactly when there is one, and
      above a bound only if some gain is. */
  lemma MeanOfPositives(g: seq<real>, b: real)
    requires forall k :: 0 <= k < |g| ==> g[k] > 0.0
    ensures Mean(g) >= 0.0
    ensures Mean(g) > 0.0 <==> |g| > 0
    ensures Mean(g) > b && |g| > 0 ==> exists k :: 0 <= k < |g| && g[k] > b
  {
    SumPositive(g);
    if |g| > 0 {
      var n := |g| as real;
      assert Sum(g) / n > 0.0;
      if Mean(g) > b {
        MeanAboveHasMember(g, b);
      }
    }
  }

  lemma {:induction false} SumPositive(g: seq<real>)
    requires forall k :: 0 <= k < |g| ==> g[k] > 0.0
    ensures Sum(g) >= 0.0
    ensures |g| > 0 ==> Sum(g) > 0.0
  {
    if |g| > 0 {
      SumPositive(g[..|g| - 1]);
    }
  }

  /** An average above a bound needs a member above it. */
  lemma {:induction false} MeanAboveHasMember(g: seq<real>, b: real)
    requires |g| > 0 && Mean(g) > b
    ensures exists k :: 0 <= k < |g| && g[k] > b
  {
    if forall k :: 0 <= k < |g| ==> g[k] <= b {
      SumAtMost(g, b);
      assert Sum(g) / |g| as real <= b;
    }
  }

  lemma {:induction false} SumAtMost(g: seq<real>, b: real)
    requires forall k :: 0 <= k < |g| ==> g[k] <= b
    ensures Sum(g) <= |g| as real * b
  {
    if |g| > 0 {
      SumAtMost(g[..|g| - 1], b);
    }
  }

  /** `len(gains) / max(len(results), 1)`, or 0 without gains. */
  function SuccessRate(gains: nat, results: nat): (r: real)
    ensures r >= 0.0
    ensures gains <= results ==> r <= 1.0
  {
    if gains > 0 then
      var d := MaxInt(results, 1) as real;
      assert gains as real / d >= 0.0;
      assert gains <= results ==> gains as real / d <= d / d;
      gains as real / d
    else 0.0
  }

  function AnalyzeUndercutOutcomes(results: seq<RaceResult>): (u: UndercutOutcome)
    ensures u.timeGain >= 0.0
    ensures u.viable <==> u.timeGain > 1.0
    ensures u.confidence == (if u.timeGain > 2.0 then High else if u.timeGain > 1.0 then Medium else Low)
    ensures u.timeGain > 0.0 <==> |UndercutGains(AllStops(results))| > 0
    ensures u.viable ==> exists k :: 0 <= k < |UndercutGains(AllStops(results))| && UndercutGains(AllStops(results))[k] > 1.0
    ensures u.successRate >= 0.0
  {
    var g := UndercutGains(AllStops(results));
    var avg := Mean(g);
    MeanOfPositives(g, 1.0);
    var confidence := if avg > 2.0 then High else if avg > 1.0 then Medium else Low;
    var rate := SuccessRate(|g|, |results|);
    UndercutOutcome(avg > 1.0, avg, confidence, rate)
  }

  /** Confidence of the twin: `min(current_lap / 10, 1)`, full from lap 10. */
  function TwinConfidence(currentLap: int): (c: real)
    ensures c <= 1.0
    ensures c == 1.0 <==> currentLap >= 10
    ensures currentLap >= 0 ==> c >= 0.0
  {
    Min(currentLap as real / 10.0, 1.0)
  }
}

=== FILE: ranking.dfy ===
/** Python's stable `sorted(..., key=...)` over a list of entries, and the
    positions 1..n it assigns. Every simulator and replay builder ranks its
    drivers this way: by cumulative time, or by laps completed (descending)
    and then time. Keys are compared lexicographically on (major, minor);
    ties keep their input order. */
module Ranking {

  /** A sort key: an integer part compared first, then a real part. */
  datatype Key = Key(major: int, minor: real)

  predicate KeyLt(a: Key, b: Key) {
    a.major < b.major || (a.major == b.major && a.minor < b.minor)
  }

  predicate KeyLe(a: Key, b: Key) {
    KeyLt(a, b) || a == b
  }

  /** Entry `a` comes before entry `b` in a stable sort: smaller key, or the
      same key and earlier in the input. A strict total order on indices. */
  predicate Before(keys: seq<Key>, a: nat, b: nat)
    requires a < |keys| && b < |keys|
  {
    KeyLt(keys[a], keys[b]) || (keys[a] == keys[b] && a < b)
  }

  lemma BeforeTransitive(keys: seq<Key>, a: nat, b: nat, c: nat)
    requires a < |keys| && b < |keys| && c < |keys|
    requires Before(keys, a, b) && Before(keys, b, c)
    ensures Before(keys, a, c)
  {
  }

  /** `s` lists valid indices in strictly increasing `Before` order. */
  predicate SortedBy(keys: seq<Key>, s: seq<nat>) {
    (forall i :: 0 <= i < |s| ==> s[i] < |keys|) &&
    (forall i, j :: 0 <= i < j < |s| ==> Before(keys, s[i], s[j]))
  }

  /** Putting an index in front of a sorted list that it precedes keeps the
      list sorted. */
  lemma PrependSorted(keys: seq<Key>, h: nat, rest: seq<nat>)
    requires h < |keys| && SortedBy(keys, rest)
    requires forall k :: 0 <= k < |rest| ==> Before(keys, h, rest[k])
    ensures SortedBy(keys, [h] + rest)
  {
    var r := [h] + rest;
    forall i, j | 0 <= i < j < |r|
      ensures Before(keys, r[i], r[j])
    {
      assert r[j] == rest[j - 1];
      if i > 0 {
        assert r[i] == rest[i - 1];
      }
    }
  }

  /** Every member of a sorted list's tail comes after its head. */
  lemma HeadBeforeTail(keys: seq<Key>, s: seq<nat>, y: nat)
    requires |s| > 0 && SortedBy(keys, s) && y in s[1..]
    ensures s[0] < |keys| && y < |keys| && Before(keys, s[0], y)
  {
    var j :| 0 <= j < |s[1..]| && s[1..][j] == y;
    assert s[j + 1] == y;
  }

  /** Dropping the head of a sorted list leaves it sorted. */
  lemma SortedTail(keys: seq<Key>, s: seq<nat>)
    requires |s| > 0 && SortedBy(keys, s)
    ensures SortedBy(keys, s[1..])
  {
    var t := s[1..];
    forall i, j | 0 <= i < j < |t|
      ensures Before(keys, t[i], t[j])
    {
      assert t[i] == s[i + 1] && t[j] == s[j + 1];
    }
  }

  /** When `x` comes after the head, everything the recursive insertion
      returns comes after the head too. */
  lemma HeadBeforeInserted(keys: seq<Key>, s: seq<nat>, x: nat, rest: seq<nat>)
    requires |s| > 0 && x < |keys| && SortedBy(keys, s) && Before(keys, s[0], x)
    requires SortedBy(keys, rest) && forall y :: y in rest <==> y in s[1..] || y == x
    ensures forall k :: 0 <= k < |rest| ==> Before(keys, s[0], rest[k])
  {
    forall k | 0 <= k < |rest|
      ensures Before(keys, s[0], rest[k])
    {
      assert rest[k] in rest;
      if rest[k] != x {
        HeadBeforeTail(keys, s, rest[k]);
      }
    }
  }

  /** Insert index `x` into a sorted list of other indices: the result is
      sorted and holds exactly the old indices and `x`. */
  function Insert(keys: seq<Key>, s: seq<nat>, x: nat): (r: seq<nat>)
    requires x < |keys| && SortedBy(keys, s) && x !in s
    ensures SortedBy(keys, r)
    ensures forall y :: y in r <==> y in s || y == x
    ensures |r| == |s| + 1
  {
    if |s| == 0 then [x]
    else if Before(keys, x, s[0]) then
      forall j | 0 <= j < |s|
        ensures Before(keys, x, s[j])
      {
        if j > 0 {
          BeforeTransitive(keys, x, s[0], s[j]);
        }
      }
      PrependSorted(keys, x, s);
      [x] + s
    else
      assert s == [s[0]] + s[1..];
      SortedTail(keys, s);
      var rest := Insert(keys, s[1..], x);
      HeadBeforeInserted(keys, s, x, rest);
      PrependSorted(keys, s[0], rest);
      [s[0]] + rest
  }

  /** Stable sort of the indices `0 .. n-1` by key (insertion in input
      order): a sorted list holding exactly those indices. */
  function SortPrefix(keys: seq<Key>, n: nat): (r: seq<nat>)
    requires n <= |keys|
    ensures SortedBy(keys, r)
    ensures forall y: nat :: y in r <==> y < n
    ensures |r| == n
  {
    if n == 0 then []
    else
      var s := SortPrefix(keys, n - 1);
      Insert(keys, s, n - 1)
  }

  /** `sorted(range(len(keys)), key=...)`: the input indices, stably ordered
      by key. The result lists every index exactly once, and ties keep input
      order. */
  function StableOrder(keys: seq<Key>): (order: seq<nat>)
    ensures |order| == |keys|
    ensures SortedBy(keys, order)
    ensures forall i :: 0 <= i < |keys| ==> i in order
  {
    SortPrefix(keys, |keys|)
  }

  /** Position of each input entry after the sort: `enumerate(sorted, 1)`. */
  function IndexOf(s: seq<nat>, x: nat): (k: nat)
    requires x in s
    ensures k < |s| && s[k] == x
    ensures forall j :: 0 <= j < k ==> s[j] != x
  {
    if s[0] == x then 0 else 1 + IndexOf(s[1..], x)
  }

  /** A sorted list holds no index twice (`Before` is irreflexive). */
  lemma SortedDistinct(keys: seq<Key>, s: seq<nat>)
    requires SortedBy(keys, s)
    ensures forall a, b :: 0 <= a < b < |s| ==> s[a] != s[b]
  {
    forall a, b | 0 <= a < b < |s|
      ensures s[a] != s[b]
    {
      assert Before(keys, s[a], s[b]);
    }
  }

  /** In a list without repeats, the first place of `s[k]` is `k`. */
  lemma IndexOfDistinct(s: seq<nat>, k: nat)
    requires k < |s|
    requires forall a, b :: 0 <= a < b < |s| ==> s[a] != s[b]
    ensures IndexOf(s, s[k]) == k
  {
  }

  lemma BeforeAsymmetric(keys: seq<Key>, a: nat, b: nat)
    requires a < |keys| && b < |keys|
    ensures Before(keys, a, b) ==> !Before(keys, b, a)
  {
  }

  /** In a sorted list, an entry that comes before another sits at a
      smaller place. */
  lemma SortedPlaces(keys: seq<Key>, s: seq<nat>, a: nat, b: nat)
    requires SortedBy(keys, s) && a < |s| && b < |s| && a != b
    requires Before(keys, s[a], s[b])
    ensures a < b
  {
    BeforeAsymmetric(keys, s[a], s[b]);
  }

  /** `positions[i]` is entry `i`'s 1-based rank: the entry ranked `k + 1`
      is `StableOrder(keys)[k]`. */
  function Positions(keys: seq<Key>): (pos: seq<int>)
    ensures |pos| == |keys|
    ensures forall i :: 0 <= i < |keys| ==> 1 <= pos[i] <= |keys|
    ensures forall k :: 0 <= k < |keys| ==> pos[StableOrder(keys)[k]] == k + 1
  {
    var order := StableOrder(keys);
    var pos := seq(|keys|, i requires 0 <= i < |keys| => IndexOf(order, i) + 1);
    SortedDistinct(keys, order);
    forall k | 0 <= k < |keys|
      ensures pos[order[k]] == k + 1
    {
      IndexOfDistinct(order, k);
    }
    pos
  }

  /** Each entry's position points back to it in the stable order. */
  lemma PositionPointsBack(keys: seq<Key>, i: nat)
    requires i < |keys|
    ensures 1 <= Positions(keys)[i] <= |keys|
    ensures StableOrder(keys)[Positions(keys)[i] - 1] == i
  {
    var order := StableOrder(keys);
    var k := IndexOf(order, i);
    assert Positions(keys)[order[k]] == k + 1;
  }

  /** The positions are a bijection onto 1..n: no two entries share one. */
  lemma PositionsDistinct(keys: seq<Key>, i: nat, j: nat)
    requires i < j < |keys|
    ensures Positions(keys)[i] != Positions(keys)[j]
  {
    PositionPointsBack(keys, i);
    PositionPointsBack(keys, j);
  }

  /** Ranks follow the stable order: a smaller key, or an equal key earlier
      in the input, gets the smaller position. */
  lemma PositionsRespectKeys(keys: seq<Key>, i: nat, j: nat)
    requires i < |keys| && j < |keys| && Before(keys, i, j)
    ensures Positions(keys)[i] < Positions(keys)[j]
  {
    PositionPointsBack(keys, i);
    PositionPointsBack(keys, j);
    var order := StableOrder(keys);
    SortedPlaces(keys, order, Positions(keys)[i] - 1, Positions(keys)[j] - 1);
  }

  function TimeKeys(times: seq<real>): (keys: seq<Key>)
    ensures |keys| == |times| && forall k :: 0 <= k < |times| ==> keys[k] == Key(0, times[k])
  {
    seq(|times|, k requires 0 <= k < |times| => Key(0, times[k]))
  }

  /** Positions after `sorted(times.items(), key=lambda x: x[1])`: entries
      ranked 1..n by cumulative time, ties in input (dict) order. */
  function RankByTime(times: seq<real>): (pos: seq<int>)
    ensures |pos| == |times|
    ensures forall i :: 0 <= i < |times| ==> 1 <= pos[i] <= |times|
    ensures forall i, j :: 0 <= i < |times| && 0 <= j < |times| && i != j ==> pos[i] != pos[j]
    ensures forall i, j :: 0 <= i < |times| && 0 <= j < |times| && times[i] < times[j] ==> pos[i] < pos[j]
    ensures forall i, j :: 0 <= i < j < |times| && times[i] == times[j] ==> pos[i] < pos[j]
  {
    var keys := TimeKeys(times);
    var pos := Positions(keys);
    forall i, j | 0 <= i < |times| && 0 <= j < |times| && i != j
      ensures pos[i] != pos[j]
    {
      if i < j {
        PositionsDistinct(keys, i, j);
      } else {
        PositionsDistinct(keys, j, i);
      }
    }
    forall i, j | 0 <= i < |times| && 0 <= j < |times| && (times[i] < times[j] || (i < j && times[i] == times[j]))
      ensures pos[i] < pos[j]
    {
      PositionsRespectKeys(keys, i, j);
    }
    pos
  }

  /** Every rank 1..n is held by some driver by `RankByTime`. */
  lemma RankByTimeOnto(times: seq<real>, p: int)
    requires 1 <= p <= |times|
    ensures exists i :: 0 <= i < |times| && RankByTime(times)[i] == p
  {
    var keys := TimeKeys(times);
    var i := StableOrder(keys)[p - 1];
    assert 0 <= i < |times|;
    assert RankByTime(times) == Positions(keys);
    assert RankByTime(times)[i] == p;
  }

  /** `pos` ranks the entries 1..n by time: every rank is used once, a
      smaller time ranks higher, and equal times keep input order. */
  predicate RankedByTime(pos: seq<int>, times: seq<real>) {
    |pos| == |times| &&
    (forall i :: 0 <= i < |times| ==> 1 <= pos[i] <= |times|) &&
    (forall i, j :: 0 <= i < |times| && 0 <= j < |times| && i != j ==> pos[i] != pos[j]) &&
    (forall i, j :: 0 <= i < |times| && 0 <= j < |times| && times[i] < times[j] ==> pos[i] < pos[j]) &&
    (forall i, j :: 0 <= i < j < |times| && times[i] == times[j] ==> pos[i] < pos[j])
  }

  lemma RankByTimeRanked(times: seq<real>)
    ensures RankedByTime(RankByTime(times), times)
  {
  }
}

=== FILE: real_race_replay.dfy ===
/** The real-race replay engine (grracing/real_race_replay.py): from each
    vehicle's recorded lap crossings it accumulates race time lap by lap,
    ranks the field on every lap by that time, and places the drivers of a
    lap around the track map by their gap to the leader. Timestamps are
    seconds on a common clock; one that fails to parse is `None`. */
module RealRaceReplay {
  import opened Wrappers
  import opened Numerics
  import opened Ranking
  import Text

  /** One recorded crossing of a vehicle. */
  datatype LapInfo = LapInfo(lap: int, timestamp: Option<real>)

  /** The crossings of one vehicle (one item of the `lap_times` dict). */
  datatype VehicleLaps = VehicleLaps(id: string, laps: seq<LapInfo>)

  /** What the lap-time parser hands over: an error, or the vehicles in dict
      order. */
  datatype LapTimesData = ParseError(message: string) | LapTimes(vehicles: seq<VehicleLaps>)

  // ---------------------------------------------------------------------
  // Matching result rows to lap-time vehicles
  // ---------------------------------------------------------------------

  predicate IsDigit(c: char) { '0' <= c <= '9' }

  /** `s.isdigit()` for ASCII text: non-empty and all digits. */
  predicate AllDigits(s: string) {
    |s| > 0 && forall i :: 0 <= i < |s| ==> IsDigit(s[i])
  }

  predicate EndsWith(s: string, suffix: string) {
    |suffix| <= |s| && s[|s| - |suffix|..] == suffix
  }

  /** The two tests the matching loop applies to a vehicle id, after
      stripping it: either string inside the other, or the id ending in an
      all-digit number. */
  predicate Matches(number: string, id: string) {
    var v := Text.Strip(id);
    Text.Contains(number, v) || Text.Contains(v, number) || (AllDigits(number) && EndsWith(v, number))
  }

  /** The suffix test never matches anything the containment test has not:
      an id that ends in the number contains it. */
  lemma SuffixImpliesContains(number: string, id: string)
    requires EndsWith(id, number)
    ensures Text.Contains(number, id)
  {
    Text.ContainsIffOccurs(number, id);
    assert Text.OccursAt(number, id, |id| - |number|);
  }

  /** So matching is plain containment either way round, of the number and
      the stripped id. */
  lemma MatchesIsContainment(number: string, id: string)
    ensures Matches(number, id) <==> Text.Contains(number, Text.Strip(id)) || Text.Contains(Text.Strip(id), number)
  {
    var v := Text.Strip(id);
    if AllDigits(number) && EndsWith(v, number) {
      SuffixImpliesContains(number, v);
    }
  }

  /** Whitespace around an id does not stop it matching: "7 " is the
      stripped "7", which lies inside the number "17". */
  lemma PaddedIdMatches()
    ensures Matches("17", "7 ")
  {
    assert Text.StripStart("7 ") == "7 ";
    assert Text.StripEnd("7 ") == "7" by {
      assert "7 "[..1] == "7";
    }
    assert Text.Contains("7", "17") by {
      assert Text.IsPrefix("7", "17"[1..]);
    }
  }

  /** The first element satisfying `ok`, scanning left to right. */
  function FirstWhere<T>(xs: seq<T>, ok: T -> bool): (r: Option<T>)
    ensures r.Some? ==> r.value in xs && ok(r.value)
    ensures r.None? <==> forall k :: 0 <= k < |xs| ==> !ok(xs[k])
  {
    if |xs| == 0 then None
    else if ok(xs[0]) then Some(xs[0])
    else
      var r := FirstWhere(xs[1..], ok);
      assert forall k :: 1 <= k < |xs| ==> xs[k] == xs[1..][k - 1];
      r
  }

  /** What the scan finds comes before every other element satisfying
      `ok`. */
  lemma {:induction false} FirstWhereIsFirst<T>(xs: seq<T>, ok: T -> bool)
    ensures var r := FirstWhere(xs, ok);
      r.Some? ==> exists k :: 0 <= k < |xs| && xs[k] == r.value && forall j :: 0 <= j < k ==> !ok(xs[j])
  {
    if |xs| > 0 && !ok(xs[0]) {
      FirstWhereIsFirst(xs[1..], ok);
      var r := FirstWhere(xs[1..], ok);
      if r.Some? {
        var k :| 0 <= k < |xs[1..]| && xs[1..][k] == r.value && forall j :: 0 <= j < k ==> !ok(xs[1..][j]);
        assert forall j :: 1 <= j < k + 1 ==> xs[j] == xs[1..][j - 1];
        assert xs[k + 1] == r.value;
      }
    }
  }

  /** The first vehicle id (in dict order) the number matches. */
  function FirstMatch(number: string, ids: seq<string>): (r: Option<string>)
    ensures r.Some? ==> r.value in ids && Matches(number, r.value)
    ensures r.None? <==> forall k :: 0 <= k < |ids| ==> !Matches(number, ids[k])
  {
    FirstWhere(ids, id => Matches(number, id))
  }

  /** The id found is the first one, in dict order, that matches. */
  lemma FirstMatchIsFirst(number: string, ids: seq<string>)
    ensures var r := FirstMatch(number, ids);
      r.Some? ==> exists k :: 0 <= k < |ids| && ids[k] == r.value && forall j :: 0 <= j < k ==> !Matches(number, ids[j])
  {
    FirstWhereIsFirst(ids, id => Matches(number, id));
  }

  function Ids(vehicles: seq<VehicleLaps>): (r: seq<string>)
    ensures |r| == |vehicles| && forall k :: 0 <= k < |vehicles| ==> r[k] == vehicles[k].id
  {
    seq(|vehicles|, k requires 0 <= k < |vehicles| => vehicles[k].id)
  }

  /** `vehicle_map`: each result number, stripped, that is non-empty claims
      (in result order) the first vehicle id it matches; a later number
      claiming the same id overrides. */
  function VehicleMap(numbers: seq<string>, ids: seq<string>): (m: map<string, string>)
    ensures forall id :: id in m ==> id in ids && Matches(m[id], id) && m[id] != ""
    ensures forall id :: id in m ==> exists k :: 0 <= k < |numbers| && m[id] == Text.Strip(numbers[k])
  {
    if |numbers| == 0 then map[]
    else
      var before := VehicleMap(numbers[..|numbers| - 1], ids);
      assert forall k :: 0 <= k < |numbers| - 1 ==> numbers[..|numbers| - 1][k] == numbers[k];
      var n := Text.Strip(numbers[|numbers| - 1]);
      var hit := FirstMatch(n, ids);
      if n != "" && hit.Some? then before[hit.value := n] else before
  }

  // ---------------------------------------------------------------------
  // Cumulative times
  // ---------------------------------------------------------------------

  /** The seconds the first usable crossing, and any crossing whose
      timestamp fails to parse, count for. */
  const EstimatedLap := 100.0

  /** A lap time is believed only strictly between 60 and 300 seconds. */
  predicate Plausible(dt: real) { 60.0 < dt < 300.0 }

  /** The walk over one vehicle's crossings in lap order: the running total
      after each crossing and the last parsed timestamp. */
  datatype Walk = Walk(totals: seq<real>, prev: Option<real>)

  /** One step of the walk. */
  function Step(total: real, prev: Option<real>, info: LapInfo): (r: (real, Option<real>))
    ensures r.0 - total == 0.0 || r.0 - total == EstimatedLap || Plausible(r.0 - total)
    ensures info.timestamp.Some? ==> r.1 == info.timestamp
    ensures info.timestamp.None? ==> r == (total + EstimatedLap, prev)
    ensures info.timestamp.Some? && prev.None? ==> r.0 == total + EstimatedLap
  {
    match info.timestamp
    case None => (total + EstimatedLap, prev)
    case Some(ts) =>
      match prev
      case None => (total + EstimatedLap, Some(ts))
      case Some(p) => (if Plausible(ts - p) then total + (ts - p) else total, Some(ts))
  }

  function WalkLaps(laps: seq<LapInfo>): (w: Walk)
    ensures |w.totals| == |laps|
  {
    if |laps| == 0 then Walk([], None)
    else
      var before := WalkLaps(laps[..|laps| - 1]);
      var total := if |before.totals| > 0 then before.totals[|before.totals| - 1] else 0.0;
      var s := Step(total, before.prev, laps[|laps| - 1]);
      Walk(before.totals + [s.0], s.1)
  }

  /** The first crossing counts 100 seconds; after that each crossing adds
      nothing, 100 seconds, or a plausible lap time, so the running total
      never decreases. */
  lemma {:induction false} WalkTotals(laps: seq<LapInfo>)
    ensures TotalsShape(WalkLaps(laps).totals)
  {
    if |laps| > 0 {
      var n := |laps|;
      var init := laps[..n - 1];
      WalkTotals(init);
      var w := WalkLaps(init);
      var total := if n > 1 then w.totals[n - 2] else 0.0;
      var s := Step(total, w.prev, laps[n - 1]);
      assert WalkLaps(laps).totals == w.totals + [s.0];
      if n == 1 {
        assert w.prev == None;
      }
      ExtendTotals(w.totals, s.0);
    }
  }

  /** Running totals that start at 100 seconds and grow by nothing, by 100
      seconds or by a plausible lap time at each step. */
  predicate TotalsShape(t: seq<real>) {
    (|t| > 0 ==> t[0] == EstimatedLap) &&
    (forall k :: 0 < k < |t| ==> t[k] - t[k - 1] == 0.0 || t[k] - t[k - 1] == EstimatedLap || Plausible(t[k] - t[k - 1])) &&
    (forall k :: 0 < k < |t| ==> t[k - 1] <= t[k]) &&
    (forall k :: 0 <= k < |t| ==> t[k] >= EstimatedLap)
  }

  lemma ExtendTotals(t: seq<real>, x: real)
    requires TotalsShape(t)
    requires |t| == 0 ==> x == EstimatedLap
    requires |t| > 0 ==> x - t[|t| - 1] == 0.0 || x - t[|t| - 1] == EstimatedLap || Plausible(x - t[|t| - 1])
    ensures TotalsShape(t + [x])
  {
    assert forall k :: 0 <= k < |t| ==> (t + [x])[k] == t[k];
  }

  /** A vehicle's crossings sorted by lap (a stable sort). */
  function SortByLap(laps: seq<LapInfo>): (r: seq<LapInfo>)
    ensures |r| == |laps|
    ensures forall k :: 0 <= k < |r| ==> r[k] in laps
    ensures forall i, j :: 0 <= i < j < |r| ==> r[i].lap <= r[j].lap
    ensures forall x :: x in laps ==> x in r
  {
    var keys := seq(|laps|, k requires 0 <= k < |laps| => Key(laps[k].lap, 0.0));
    var order := StableOrder(keys);
    var r := seq(|order|, k requires 0 <= k < |order| => laps[order[k]]);
    assert forall x :: x in laps ==> x in r by {
      forall x | x in laps
        ensures x in r
      {
        var i :| 0 <= i < |laps| && laps[i] == x;
        assert i in order;
        var k :| 0 <= k < |order| && order[k] == i;
        assert r[k] == x;
      }
    }
    r
  }

  /** Some crossing of the list is of lap `l`. */
  predicate HasLap(laps: seq<LapInfo>, l: int) {
    exists k :: 0 <= k < |laps| && laps[k].lap == l
  }

  /** `cumulative_times[vehicle]`: lap number to running total; a repeated
      lap number keeps the later total. */
  function TotalsByLap(laps: seq<LapInfo>, totals: seq<real>): (m: map<int, real>)
    requires |laps| == |totals|
    ensures forall l :: l in m <==> HasLap(laps, l)
    ensures forall l :: l in m ==> m[l] in totals
  {
    if |laps| == 0 then map[]
    else
      var n := |laps|;
      var before := TotalsByLap(laps[..n - 1], totals[..n - 1]);
      assert forall l :: HasLap(laps, l) <==> HasLap(laps[..n - 1], l) || laps[n - 1].lap == l by {
        forall l
          ensures HasLap(laps, l) <==> HasLap(laps[..n - 1], l) || laps[n - 1].lap == l
        {
          if HasLap(laps, l) {
            var k :| 0 <= k < n && laps[k].lap == l;
            if k < n - 1 {
              assert laps[..n - 1][k] == laps[k];
            }
          }
          if HasLap(laps[..n - 1], l) {
            var k :| 0 <= k < n - 1 && laps[..n - 1][k].lap == l;
            assert laps[k].lap == l;
          }
        }
      }
      assert forall x :: x in totals[..n - 1] ==> x in totals;
      before[laps[n - 1].lap := totals[n - 1]]
  }

  /** A vehicle's cumulative times, and the number it is shown under. */
  datatype Tally = Tally(id: string, number: string, totals: map<int, real>)

  /** Sorting keeps the set of laps. */
  lemma SortKeepsLaps(laps: seq<LapInfo>, l: int)
    ensures HasLap(SortByLap(laps), l) <==> HasLap(laps, l)
  {
    var sorted := SortByLap(laps);
    if HasLap(sorted, l) {
      var k :| 0 <= k < |sorted| && sorted[k].lap == l;
      assert sorted[k] in laps;
      var j :| 0 <= j < |laps| && laps[j] == sorted[k];
    }
    if HasLap(laps, l) {
      var k :| 0 <= k < |laps| && laps[k].lap == l;
      assert laps[k] in sorted;
      var j :| 0 <= j < |sorted| && sorted[j] == laps[k];
    }
  }

  /** The running totals of a walk, by lap. */
  function LapTotals(laps: seq<LapInfo>): (m: map<int, real>)
    ensures forall l :: l in m <==> HasLap(laps, l)
    ensures forall l :: l in m ==> m[l] >= EstimatedLap
  {
    var sorted := SortByLap(laps);
    var totals := WalkLaps(sorted).totals;
    WalkTotals(sorted);
    var m := TotalsByLap(sorted, totals);
    assert forall l :: l in m <==> HasLap(laps, l) by {
      forall l
        ensures l in m <==> HasLap(laps, l)
      {
        SortKeepsLaps(laps, l);
      }
    }
    m
  }

  /** The vehicle's running totals by lap, shown under its matched result
      number or else its own id. */
  function TallyOf(v: VehicleLaps, vehicleMap: map<string, string>): (t: Tally)
    ensures t.id == v.id
    ensures t.number == if v.id in vehicleMap then vehicleMap[v.id] else v.id
    ensures forall l :: l in t.totals <==> HasLap(v.laps, l)
    ensures forall l :: l in t.totals ==> t.totals[l] >= EstimatedLap
  {
    Tally(v.id, if v.id in vehicleMap then vehicleMap[v.id] else v.id, LapTotals(v.laps))
  }

  // ---------------------------------------------------------------------
  // Positions per lap
  // ---------------------------------------------------------------------

  datatype RacePosition = RacePosition(vehicleId: string, vehicleNumber: string, lap: int, position: int,
                                       cumulativeTime: real)

  datatype LapPositions = LapPositions(lap: int, positions: seq<RacePosition>)

  /** The vehicles that completed the lap, in dict order. */
  function OnLap(tallies: seq<Tally>, lap: int): (r: seq<Tally>)
    ensures forall t :: t in r <==> t in tallies && lap in t.totals
  {
    if |tallies| == 0 then []
    else
      var before := OnLap(tallies[..|tallies| - 1], lap);
      var t := tallies[|tallies| - 1];
      assert tallies == tallies[..|tallies| - 1] + [t];
      if lap in t.totals then before + [t] else before
  }

  function Times(on: seq<Tally>, lap: int): (r: seq<real>)
    requires forall t :: t in on ==> lap in t.totals
    ensures |r| == |on| && forall k :: 0 <= k < |on| ==> r[k] == on[k].totals[lap]
  {
    seq(|on|, k requires 0 <= k < |on| => on[k].totals[lap])
  }

  /** Positions numbered 1, 2, ... on the lap, running from the smallest
      running total up. */
  predicate Ranked(lap: int, ps: seq<RacePosition>) {
    (forall k :: 0 <= k < |ps| ==> ps[k].position == k + 1 && ps[k].lap == lap) &&
    (forall j, k :: 0 <= j < k < |ps| ==> ps[j].cumulativeTime <= ps[k].cumulativeTime)
  }

  /** One lap's ranking: the vehicles that completed it, stably sorted by
      cumulative time and numbered from 1. */
  function RankLap(tallies: seq<Tally>, lap: int): (r: seq<RacePosition>)
    ensures Ranked(lap, r)
    ensures |r| == |OnLap(tallies, lap)|
  {
    var on := OnLap(tallies, lap);
    var times := Times(on, lap);
    var order := StableOrder(TimeKeys(times));
    seq(|order|, k requires 0 <= k < |order| =>
        var t := on[order[k]];
        RacePosition(t.id, t.number, lap, k + 1, t.totals[lap]))
  }

  /** Every ranked car is a vehicle that completed the lap, shown with its
      number and its running total at that lap. */
  lemma RankLapFrom(tallies: seq<Tally>, lap: int)
    ensures var r := RankLap(tallies, lap);
      forall k :: 0 <= k < |r| ==>
        exists t :: t in tallies && lap in t.totals && t.id == r[k].vehicleId && t.number == r[k].vehicleNumber &&
                    t.totals[lap] == r[k].cumulativeTime
  {
    var on := OnLap(tallies, lap);
    var order := StableOrder(TimeKeys(Times(on, lap)));
    var r := RankLap(tallies, lap);
    forall k | 0 <= k < |r|
      ensures exists t :: t in tallies && lap in t.totals && t.id == r[k].vehicleId && t.number == r[k].vehicleNumber &&
                          t.totals[lap] == r[k].cumulativeTime
    {
      var t := on[order[k]];
      assert t in on;
      assert r[k] == RacePosition(t.id, t.number, lap, k + 1, t.totals[lap]);
    }
  }

  predicate Increasing(laps: seq<LapPositions>) {
    forall i, j :: 0 <= i < j < |laps| ==> laps[i].lap < laps[j].lap
  }

  /** `if positions: lap_positions.append(...)`: drop the empty laps. */
  function KeepNonEmpty(s: seq<LapPositions>): (r: seq<LapPositions>)
    ensures forall x :: x in r <==> x in s && |x.positions| > 0
    ensures Increasing(s) ==> Increasing(r)
  {
    if |s| == 0 then []
    else
      var init := s[..|s| - 1];
      var last := s[|s| - 1];
      var before := KeepNonEmpty(init);
      assert s == init + [last];
      if |last.positions| > 0 then
        assert Increasing(s) ==> Increasing(before + [last]) by {
          if Increasing(s) {
            assert Increasing(init);
            forall x | x in before
              ensures x.lap < last.lap
            {
              var j :| 0 <= j < |init| && init[j] == x;
            }
            AppendIncreasing(before, last);
          }
        }
        before + [last]
      else before
  }

  lemma AppendIncreasing(s: seq<LapPositions>, last: LapPositions)
    requires Increasing(s) && forall x :: x in s ==> x.lap < last.lap
    ensures Increasing(s + [last])
  {
    forall i, j | 0 <= i < j < |s + [last]|
      ensures (s + [last])[i].lap < (s + [last])[j].lap
    {
      assert s[i] in s;
    }
  }

  /** Laps 1..`hi` in order, leaving out laps nobody completed. */
  function Emit(tallies: seq<Tally>, hi: int): (r: seq<LapPositions>)
    ensures Increasing(r)
    ensures forall x :: x in r ==>
              1 <= x.lap <= hi && |x.positions| > 0 && x.positions == RankLap(tallies, x.lap) && Ranked(x.lap, x.positions)
    ensures forall l :: 1 <= l <= hi && |RankLap(tallies, l)| > 0 ==> LapPositions(l, RankLap(tallies, l)) in r
  {
    var n := if hi < 1 then 0 else hi;
    var all := seq(n, i requires 0 <= i < n => LapPositions(i + 1, RankLap(tallies, i + 1)));
    assert forall l :: 1 <= l <= hi ==> all[l - 1] == LapPositions(l, RankLap(tallies, l));
    KeepNonEmpty(all)
  }

  function MaxLap(vehicles: seq<VehicleLaps>): (m: int)
    ensures m >= 0
    ensures forall v, k :: v in vehicles && 0 <= k < |v.laps| ==> v.laps[k].lap <= m
  {
    if |vehicles| == 0 then 0
    else
      var v := vehicles[|vehicles| - 1];
      assert vehicles == vehicles[..|vehicles| - 1] + [v];
      MaxInt(MaxLap(vehicles[..|vehicles| - 1]), MaxLapOf(v.laps))
  }

  function MaxLapOf(laps: seq<LapInfo>): (m: int)
    ensures m >= 0
    ensures forall k :: 0 <= k < |laps| ==> laps[k].lap <= m
  {
    if |laps| == 0 then 0 else MaxInt(MaxLapOf(laps[..|laps| - 1]), laps[|laps| - 1].lap)
  }

  function Tallies(vehicles: seq<VehicleLaps>, vehicleMap: map<string, string>): (r: seq<Tally>)
    ensures |r| == |vehicles| && forall k :: 0 <= k < |vehicles| ==> r[k] == TallyOf(vehicles[k], vehicleMap)
  {
    seq(|vehicles|, k requires 0 <= k < |vehicles| => TallyOf(vehicles[k], vehicleMap))
  }

  /** Every lap of the progression is a lap number from 1 on with a
      non-empty ranking. */
  predicate RankedProgression(progression: seq<LapPositions>) {
    forall i :: 0 <= i < |progression| ==>
      progression[i].lap >= 1 && |progression[i].positions| > 0 && Ranked(progression[i].lap, progression[i].positions)
  }

  /** `calculate_race_positions`: nothing on a parse error or an empty
      table; otherwise, for each lap from 1 up to the highest recorded,
      the ranking of the vehicles that completed it, laps nobody completed
      left out. */
  function CalculateRacePositions(data: LapTimesData, resultNumbers: seq<string>): (r: seq<LapPositions>)
    ensures data.ParseError? || |data.vehicles| == 0 ==> r == []
    ensures Increasing(r)
    ensures RankedProgression(r)
  {
    if data.ParseError? || |data.vehicles| == 0 then []
    else
      var vehicles := data.vehicles;
      var tallies := Tallies(vehicles, VehicleMap(resultNumbers, Ids(vehicles)));
      var r := Emit(tallies, MaxLap(vehicles));
      assert forall i :: 0 <= i < |r| ==> r[i] in r;
      r
  }

  /** Some vehicle recorded a crossing of the lap. */
  predicate Recorded(vehicles: seq<VehicleLaps>, lap: int) {
    exists v :: v in vehicles && HasLap(v.laps, lap)
  }

  /** Emission keeps exactly the laps in range that somebody completed. */
  lemma EmittedIffCompleted(tallies: seq<Tally>, hi: int, lap: int)
    ensures var r := Emit(tallies, hi);
      (exists i :: 0 <= i < |r| && r[i].lap == lap) <==> 1 <= lap <= hi && |OnLap(tallies, lap)| > 0
  {
    var r := Emit(tallies, hi);
    if 1 <= lap <= hi && |OnLap(tallies, lap)| > 0 {
      var x := LapPositions(lap, RankLap(tallies, lap));
      assert x in r;
      var i :| 0 <= i < |r| && r[i] == x;
    }
    if exists i :: 0 <= i < |r| && r[i].lap == lap {
      var i :| 0 <= i < |r| && r[i].lap == lap;
      assert r[i] in r;
    }
  }

  /** A vehicle completed the lap exactly when it recorded a crossing of it. */
  lemma CompletedIffRecorded(vehicles: seq<VehicleLaps>, vehicleMap: map<string, string>, lap: int)
    ensures |OnLap(Tallies(vehicles, vehicleMap), lap)| > 0 <==> Recorded(vehicles, lap)
  {
    var tallies := Tallies(vehicles, vehicleMap);
    var on := OnLap(tallies, lap);
    if Recorded(vehicles, lap) {
      var v :| v in vehicles && HasLap(v.laps, lap);
      var j :| 0 <= j < |vehicles| && vehicles[j] == v;
      assert tallies[j] in on;
    }
    if |on| > 0 {
      assert on[0] in on;
      var j :| 0 <= j < |tallies| && tallies[j] == on[0];
      assert vehicles[j] in vehicles;
    }
  }

  lemma RecordedWithinMax(vehicles: seq<VehicleLaps>, lap: int)
    requires Recorded(vehicles, lap)
    ensures lap <= MaxLap(vehicles)
  {
    var v :| v in vehicles && HasLap(v.laps, lap);
    var k :| 0 <= k < |v.laps| && v.laps[k].lap == lap;
  }

  /** A lap appears exactly when it is at least 1 and some vehicle recorded
      a crossing of it. */
  lemma LapsEmitted(vehicles: seq<VehicleLaps>, resultNumbers: seq<string>, lap: int)
    requires |vehicles| > 0
    ensures var r := CalculateRacePositions(LapTimes(vehicles), resultNumbers);
      (exists i :: 0 <= i < |r| && r[i].lap == lap) <==> lap >= 1 && Recorded(vehicles, lap)
  {
    var m := VehicleMap(resultNumbers, Ids(vehicles));
    assert CalculateRacePositions(LapTimes(vehicles), resultNumbers) == Emit(Tallies(vehicles, m), MaxLap(vehicles));
    EmittedIffCompleted(Tallies(vehicles, m), MaxLap(vehicles), lap);
    CompletedIffRecorded(vehicles, m, lap);
    if Recorded(vehicles, lap) {
      RecordedWithinMax(vehicles, lap);
    }
  }

  /** Every running total shown is at least the 100 seconds the first lap
      counts. */
  lemma TotalsAtLeastFirstLap(data: LapTimesData, resultNumbers: seq<string>)
    ensures var r := CalculateRacePositions(data, resultNumbers);
      forall i, k :: 0 <= i < |r| && 0 <= k < |r[i].positions| ==> r[i].positions[k].cumulativeTime >= EstimatedLap
  {
    if !(data.ParseError? || |data.vehicles| == 0) {
      var tallies := Tallies(data.vehicles, VehicleMap(resultNumbers, Ids(data.vehicles)));
      assert CalculateRacePositions(data, resultNumbers) == Emit(tallies, MaxLap(data.vehicles));
      TalliesAtLeast(data.vehicles, VehicleMap(resultNumbers, Ids(data.vehicles)));
      EmitAtLeast(tallies, MaxLap(data.vehicles));
    }
  }

  predicate AtLeastFirstLap(tallies: seq<Tally>) {
    forall j :: 0 <= j < |tallies| ==> forall l :: l in tallies[j].totals ==> tallies[j].totals[l] >= EstimatedLap
  }

  lemma TalliesAtLeast(vehicles: seq<VehicleLaps>, vehicleMap: map<string, string>)
    ensures AtLeastFirstLap(Tallies(vehicles, vehicleMap))
  {
  }

  lemma EmitAtLeast(tallies: seq<Tally>, hi: int)
    requires AtLeastFirstLap(tallies)
    ensures var r := Emit(tallies, hi);
      forall i, k :: 0 <= i < |r| && 0 <= k < |r[i].positions| ==> r[i].positions[k].cumulativeTime >= EstimatedLap
  {
    var r := Emit(tallies, hi);
    forall i, k | 0 <= i < |r| && 0 <= k < |r[i].positions|
      ensures r[i].positions[k].cumulativeTime >= EstimatedLap
    {
      assert r[i] in r;
      RankLapAtLeast(tallies, r[i].lap);
    }
  }

  /** Running totals of at least 100 seconds stay so in a ranking. */
  lemma RankLapAtLeast(tallies: seq<Tally>, lap: int)
    requires AtLeastFirstLap(tallies)
    ensures forall k :: 0 <= k < |RankLap(tallies, lap)| ==> RankLap(tallies, lap)[k].cumulativeTime >= EstimatedLap
  {
    RankLapFrom(tallies, lap);
    var r := RankLap(tallies, lap);
    forall k | 0 <= k < |r|
      ensures r[k].cumulativeTime >= EstimatedLap
    {
      var t :| t in tallies && lap in t.totals && t.totals[lap] == r[k].cumulativeTime;
      var j :| 0 <= j < |tallies| && tallies[j] == t;
    }
  }

  // ---------------------------------------------------------------------
  // get_driver_track_positions
  // ---------------------------------------------------------------------

  /** A point of the track map; `x` and `y` default to 0.5 when missing. */
  datatype Coord = Coord(x: Option<real>, y: Option<real>)

  datatype TrackPosition = TrackPosition(vehicleNumber: string, position: int, x: real, y: real, lap: int,
                                         timeGap: real)

  /** The lap assumed for placing cars, in seconds. */
  const AverageLap := 100.0

  /** `int(((gap / 100) % 1.0) * n) % n`: the map index a gap puts the car
      at, the fraction of a lap behind the leader scaled to the map. */
  function TrackIndex(gap: real, n: nat): (i: int)
    requires n > 0
    ensures 0 <= i < n
  {
    var along := FracPart(gap / AverageLap);
    MulStrict(n as real, along, 1.0);
    MulNonneg(along, n as real);
    Trunc(along * n as real) % n
  }

  /** A car level with the leader, or a whole number of average laps
      behind, sits at the start of the map. */
  lemma WholeLapsBehindAtStart(k: int, n: nat)
    requires n > 0
    ensures TrackIndex(k as real * AverageLap, n) == 0
  {
    assert (k as real * AverageLap) / AverageLap == k as real;
    assert FracPart(k as real) == 0.0;
  }

  /** `next(l for l in lap_positions if l["lap"] == lap_num)`. */
  function FindLap(laps: seq<LapPositions>, lap: int): (r: Option<LapPositions>)
    ensures r.Some? ==> r.value in laps && r.value.lap == lap
    ensures r.None? <==> forall i :: 0 <= i < |laps| ==> laps[i].lap != lap
  {
    if |laps| == 0 then None
    else if laps[0].lap == lap then Some(laps[0])
    else
      var r := FindLap(laps[1..], lap);
      assert forall i :: 1 <= i < |laps| ==> laps[i] == laps[1..][i - 1];
      r
  }

  /** Place each driver of the lap on the map (cars whose index falls
      outside the map are dropped). */
  function Place(positions: seq<RacePosition>, leader: real, coords: seq<Coord>, lap: int): (r: seq<TrackPosition>)
    ensures |coords| == 0 ==> r == []
    ensures |coords| > 0 ==> |r| == |positions|
    ensures forall k :: 0 <= k < |r| ==>
      exists j :: 0 <= j < |positions| && r[k].vehicleNumber == positions[j].vehicleNumber &&
                  r[k].position == positions[j].position && r[k].timeGap == positions[j].cumulativeTime - leader &&
                  r[k].lap == lap
  {
    if |positions| == 0 then []
    else
      var before := Place(positions[..|positions| - 1], leader, coords, lap);
      var d := positions[|positions| - 1];
      var gap := d.cumulativeTime - leader;
      var n := if |coords| > 0 then |coords| else 100;
      var i := TrackIndex(gap, n);
      if i < |coords| then
        var c := coords[i];
        before + [TrackPosition(d.vehicleNumber, d.position, c.x.GetOr(0.5), c.y.GetOr(0.5), lap, gap)]
      else before
  }

  /** `get_driver_track_positions`: nothing for an empty progression, a
      lap number below 1, a lap that is not there or an empty map;
      otherwise one placement per driver of the lap, with its gap to the
      leader. */
  function DriverTrackPositions(lapNum: int, lapPositions: seq<LapPositions>, coords: seq<Coord>): (r: seq<TrackPosition>)
    ensures |lapPositions| == 0 || lapNum < 1 || |coords| == 0 ==> r == []
    ensures FindLap(lapPositions, lapNum).None? ==> r == []
    ensures lapNum >= 1 && |coords| > 0 && FindLap(lapPositions, lapNum).Some? ==>
              |r| == |FindLap(lapPositions, lapNum).value.positions|
    ensures |r| > 0 ==> var ps := FindLap(lapPositions, lapNum).value.positions;
      forall k :: 0 <= k < |r| ==>
        (r[k].lap == lapNum &&
         exists j :: 0 <= j < |ps| && r[k].vehicleNumber == ps[j].vehicleNumber && r[k].position == ps[j].position &&
                     r[k].timeGap == ps[j].cumulativeTime - ps[0].cumulativeTime)
  {
    if |lapPositions| == 0 || lapNum < 1 then []
    else
      match FindLap(lapPositions, lapNum)
      case None => []
      case Some(l) =>
        if |l.positions| == 0 then []
        else Place(l.positions, l.positions[0].cumulativeTime, coords, lapNum)
  }

  /** On a progression ranked by running total, as the engine computes
      it, nobody is placed ahead of the leader: every gap is non-negative. */
  lemma GapsNonNegative(lapNum: int, progression: seq<LapPositions>, coords: seq<Coord>)
    requires RankedProgression(progression)
    ensures var r := DriverTrackPositions(lapNum, progression, coords);
      forall k :: 0 <= k < |r| ==> r[k].timeGap >= 0.0
  {
    var r := DriverTrackPositions(lapNum, progression, coords);
    if |r| > 0 {
      var l := FindLap(progression, lapNum).value;
      var i :| 0 <= i < |progression| && progression[i] == l;
      forall k | 0 <= k < |r|
        ensures r[k].timeGap >= 0.0
      {
        var j :| 0 <= j < |l.positions| && r[k].timeGap == l.positions[j].cumulativeTime - l.positions[0].cumulativeTime;
        if j > 0 {
          assert l.positions[0].cumulativeTime <= l.positions[j].cumulativeTime;
        }
      }
    }
  }
}

=== FILE: stint_optimizer.dfy ===
/** The untrained path of the stint-length optimizer
    (grracing/models/stint_optimizer.py): the feature vector with its
    fuel- and degradation-limited stint lengths, the rule-based fallback
    (traffic scaling, snapping to the pit window, clamping to 5..30 laps),
    and the final plan with its reasoning and factor flags. */
module StintOptimizer {
  import opened Wrappers
  import opened Numerics
  import MLTireDegradation

  /** The feature vector of `_prepare_features`, in its order. */
  datatype Features = Features(
    degradationRate: real, compound: int, fuelConsumption: real, fuelCapacity: real, traffic: real,
    trackTemp: real, fatigue: real, currentLap: int, totalLaps: int, pitStart: int, pitEnd: int,
    pitCenter: real, lapsRemaining: int, fuelLimitedStint: real, degradationLimitedStint: real)

  /** Laps the tank lasts, or 30 when consumption is not positive. */
  function FuelLimitedStint(capacity: real, consumption: real): (s: real)
    ensures consumption > 0.0 ==> s * consumption == capacity
    ensures consumption <= 0.0 ==> s == 30.0
  {
    if consumption > 0.0 then capacity / consumption else 30.0
  }

  /** Laps until 2% pace loss, or 30 when the rate is not positive. */
  function DegradationLimitedStint(rate: real): (s: real)
    ensures rate > 0.0 ==> s * rate == 20.0 && s > 0.0
    ensures rate <= 0.0 ==> s == 30.0
  {
    if rate > 0.0 then 20.0 / rate else 30.0
  }

  function PrepareFeatures(rate: real, compound: string, consumption: real, capacity: real, traffic: real,
                           trackTemp: real, fatigue: real, currentLap: int, totalLaps: int, pitStart: int,
                           pitEnd: int): (f: Features)
    ensures f.compound == MLTireDegradation.CompoundCode(compound)
    ensures f.pitCenter * 2.0 == (pitStart + pitEnd) as real
    ensures f.lapsRemaining == totalLaps - currentLap
    ensures f.fuelLimitedStint == FuelLimitedStint(capacity, consumption)
    ensures f.degradationLimitedStint == DegradationLimitedStint(rate)
    ensures f.degradationRate == rate && f.fuelConsumption == consumption && f.fuelCapacity == capacity
    ensures f.traffic == traffic && f.currentLap == currentLap && f.totalLaps == totalLaps
    ensures f.pitStart == pitStart && f.pitEnd == pitEnd
  {
    Features(rate, MLTireDegradation.CompoundCode(compound), consumption, capacity, traffic, trackTemp, fatigue,
             currentLap, totalLaps, pitStart, pitEnd, (pitStart + pitEnd) as real / 2.0, totalLaps - currentLap,
             FuelLimitedStint(capacity, consumption), DegradationLimitedStint(rate))
  }

  /** Light traffic (< 0.4) stretches the stint by 10%, heavy (> 0.7)
      shortens it by 10%. */
  function TrafficFactor(traffic: real): (k: real)
    ensures 0.9 <= k <= 1.1
    ensures k == 1.1 <==> traffic < 0.4
    ensures k == 0.9 <==> traffic > 0.7
  {
    if traffic < 0.4 then 1.1 else if traffic > 0.7 then 0.9 else 1.0
  }

  /** A stint whose pit lap falls before the window is extended to the
      window's first lap, one that falls after it is shortened to the
      window's last lap. */
  function SnapToWindow(stint: real, currentLap: int, pitStart: int, pitEnd: int): (s: real)
    ensures currentLap as real + stint < pitStart as real ==> currentLap as real + s == pitStart as real
    ensures currentLap as real + stint > pitEnd as real && currentLap as real + stint >= pitStart as real ==>
      currentLap as real + s == pitEnd as real
    ensures pitStart as real <= currentLap as real + stint <= pitEnd as real ==> s == stint
  {
    var target := currentLap as real + stint;
    if target < pitStart as real then (pitStart - currentLap) as real
    else if target > pitEnd as real then (pitEnd - currentLap) as real
    else stint
  }

  /** `max(5, min(x, laps_remaining, 30))`. */
  function ClampStint(x: real, lapsRemaining: int): (s: real)
    ensures 5.0 <= s <= 30.0
    ensures s <= Max(5.0, lapsRemaining as real)
    ensures 5.0 <= x <= 30.0 && x <= lapsRemaining as real ==> s == x
  {
    Max(5.0, Min(Min(x, lapsRemaining as real), 30.0))
  }

  /** The fallback rule on a base stint: scaled for traffic, snapped to
      the pit window, clamped. */
  function StintRule(base: real, traffic: real, currentLap: int, pitStart: int, pitEnd: int,
                     lapsRemaining: int): (s: real)
    ensures 5.0 <= s <= 30.0
    ensures s <= Max(5.0, lapsRemaining as real)
  {
    ClampStint(SnapToWindow(base * TrafficFactor(traffic), currentLap, pitStart, pitEnd), lapsRemaining)
  }

  /** `_fallback_optimization`: the shorter of the fuel and degradation
      limits, scaled for traffic, snapped to the pit window, and clamped to
      5..30 laps and to the laps remaining. */
  function FallbackOptimization(f: Features): (s: real)
    ensures 5.0 <= s <= 30.0
    ensures s <= Max(5.0, f.lapsRemaining as real)
  {
    StintRule(Min(f.fuelLimitedStint, f.degradationLimitedStint), f.traffic, f.currentLap, f.pitStart, f.pitEnd,
              f.lapsRemaining)
  }

  /** When the pit window starts at least five laps out and ends within the
      laps remaining (and within 30 laps), the fallback always pits inside
      the window. */
  lemma FallbackLandsInWindow(f: Features)
    requires 5 <= f.pitStart - f.currentLap <= f.pitEnd - f.currentLap
    requires f.pitEnd - f.currentLap <= f.lapsRemaining && f.pitEnd - f.currentLap <= 30
    ensures f.pitStart as real <= f.currentLap as real + FallbackOptimization(f) <= f.pitEnd as real
  {
    var base := Min(f.fuelLimitedStint, f.degradationLimitedStint);
    var snapped := SnapToWindow(base * TrafficFactor(f.traffic), f.currentLap, f.pitStart, f.pitEnd);
    assert f.pitStart as real <= f.currentLap as real + snapped <= f.pitEnd as real;
    assert ClampStint(snapped, f.lapsRemaining) == snapped;
  }

  /** Lighter traffic never shortens the fallback stint (for a nonnegative
      base limit and a well-formed window). */
  lemma LighterTrafficLongerStint(f: Features, lighter: real)
    requires lighter <= f.traffic && f.pitStart <= f.pitEnd
    requires Min(f.fuelLimitedStint, f.degradationLimitedStint) >= 0.0
    ensures FallbackOptimization(f) <= FallbackOptimization(f.(traffic := lighter))
  {
    StintRuleTrafficMonotone(Min(f.fuelLimitedStint, f.degradationLimitedStint), lighter, f.traffic, f.currentLap,
                             f.pitStart, f.pitEnd, f.lapsRemaining);
  }

  lemma StintRuleTrafficMonotone(base: real, lighter: real, heavier: real, currentLap: int, pitStart: int,
                                 pitEnd: int, lapsRemaining: int)
    requires base >= 0.0 && lighter <= heavier && pitStart <= pitEnd
    ensures StintRule(base, heavier, currentLap, pitStart, pitEnd, lapsRemaining)
         <= StintRule(base, lighter, currentLap, pitStart, pitEnd, lapsRemaining)
  {
    ScaledMonotone(base, lighter, heavier);
    SnapClampMonotone(base * TrafficFactor(heavier), base * TrafficFactor(lighter), currentLap, pitStart, pitEnd,
                      lapsRemaining);
  }

  lemma ScaledMonotone(base: real, lighter: real, heavier: real)
    requires base >= 0.0 && lighter <= heavier
    ensures base * TrafficFactor(heavier) <= base * TrafficFactor(lighter)
  {
    TrafficFactorMonotone(lighter, heavier);
    MulMono(base, TrafficFactor(heavier), TrafficFactor(lighter));
  }

  lemma SnapClampMonotone(x: real, y: real, currentLap: int, pitStart: int, pitEnd: int, lapsRemaining: int)
    requires x <= y && pitStart <= pitEnd
    ensures ClampStint(SnapToWindow(x, currentLap, pitStart, pitEnd), lapsRemaining)
         <= ClampStint(SnapToWindow(y, currentLap, pitStart, pitEnd), lapsRemaining)
  {
    SnapMonotone(x, y, currentLap, pitStart, pitEnd);
    ClampMonotone(SnapToWindow(x, currentLap, pitStart, pitEnd), SnapToWindow(y, currentLap, pitStart, pitEnd),
                  lapsRemaining);
  }

  lemma TrafficFactorMonotone(lighter: real, heavier: real)
    requires lighter <= heavier
    ensures TrafficFactor(heavier) <= TrafficFactor(lighter)
  {
  }

  lemma ClampMonotone(x: real, y: real, lapsRemaining: int)
    requires x <= y
    ensures ClampStint(x, lapsRemaining) <= ClampStint(y, lapsRemaining)
  {
  }

  lemma SnapMonotone(x: real, y: real, currentLap: int, pitStart: int, pitEnd: int)
    requires x <= y && pitStart <= pitEnd
    ensures SnapToWindow(x, currentLap, pitStart, pitEnd) <= SnapToWindow(y, currentLap, pitStart, pitEnd)
  {
  }

  /** One line of `_generate_reasoning`, with the numbers it reports. */
  datatype Reason =
    | HighDegradation(stint: int)
    | ModerateDegradation(stint: int)
    | FuelLimits(laps: int)
    | LowTraffic
    | HighTraffic
    | WithinWindow(pitLap: int, start: int, end: int)
    | AdjustToWindow(start: int, end: int)

  datatype Factors = Factors(degradationLimited: bool, fuelLimited: bool, trafficOptimal: bool, withinPitWindow: bool)

  datatype StintPlan = StintPlan(optimalStintLength: int, recommendedPitLap: int, confidence: real,
                                 reasoning: seq<Reason>, factors: Factors)

  /** `_generate_reasoning`, given whether fuel limits the stint and the
      whole laps the tank lasts. */
  function Reasoning(stint: int, rate: real, fuelLimited: bool, fuelLaps: int, traffic: real, currentLap: int,
                     pitStart: int, pitEnd: int): (r: seq<Reason>)
    ensures 2 <= |r| <= 4
    ensures r[0] == (if rate > 0.003 then HighDegradation(stint) else ModerateDegradation(stint))
    ensures FuelLimits(fuelLaps) in r <==> fuelLimited
    ensures LowTraffic in r <==> traffic < 0.4
    ensures HighTraffic in r <==> traffic > 0.7
    ensures r[|r| - 1] == (if pitStart <= currentLap + stint <= pitEnd then WithinWindow(currentLap + stint, pitStart, pitEnd)
                           else AdjustToWindow(pitStart, pitEnd))
  {
    var degradation := if rate > 0.003 then HighDegradation(stint) else ModerateDegradation(stint);
    var fuel := if fuelLimited then [FuelLimits(fuelLaps)] else [];
    var trafficLine := if traffic < 0.4 then [LowTraffic] else if traffic > 0.7 then [HighTraffic] else [];
    var pit := currentLap + stint;
    var window := if pitStart <= pit <= pitEnd then WithinWindow(pit, pitStart, pitEnd) else AdjustToWindow(pitStart, pitEnd);
    [degradation] + fuel + trafficLine + [window]
  }

  /** The stint actually recommended: the fallback's whole laps, capped by
      the laps remaining, and never under 5. */
  function StintFrom(f: Features): (n: int)
    ensures 5 <= n <= 30
    ensures f.lapsRemaining >= 5 ==> n <= f.lapsRemaining
  {
    var fb := FallbackOptimization(f);
    MaxInt(5, MinInt(Trunc(fb), f.totalLaps - f.currentLap))
  }

  /** The plan once the fuel flag and the reported fuel laps are known. */
  function PlanWith(f: Features, stint: int, fuelLimited: bool, fuelLaps: int): StintPlan {
    StintPlan(stint, f.currentLap + stint, 0.7,
              Reasoning(stint, f.degradationRate, fuelLimited, fuelLaps, f.traffic, f.currentLap, f.pitStart, f.pitEnd),
              Factors(f.degradationRate > 0.003, fuelLimited, f.traffic < 0.4,
                      f.pitStart <= f.currentLap + stint <= f.pitEnd))
  }

  /** `optimize_stint_length` on an untrained model, as written: the fuel
      flag and the fuel reasoning divide capacity by consumption without the
      guard the feature vector has, so zero consumption raises. */
  function OptimizeStintLengthAsWritten(rate: real, compound: string, consumption: real, capacity: real,
                                        traffic: real, trackTemp: real, fatigue: real, currentLap: int,
                                        totalLaps: int, pitStart: int, pitEnd: int): (r: Result<StintPlan, PyError>)
    ensures r.Failure? <==> consumption == 0.0
    ensures r.Failure? ==> r.error == ZeroDivisionError
    ensures r.Success? ==> r.value.factors.fuelLimited == (capacity / consumption < r.value.optimalStintLength as real)
  {
    var f := PrepareFeatures(rate, compound, consumption, capacity, traffic, trackTemp, fatigue, currentLap,
                             totalLaps, pitStart, pitEnd);
    if consumption == 0.0 then Failure(ZeroDivisionError)
    else
      var stint := StintFrom(f);
      Success(PlanWith(f, stint, capacity / consumption < stint as real, Trunc(capacity / consumption)))
  }

  /** `optimize_stint_length` on an untrained model, with zero consumption
      treated as "fuel never limits", as the feature vector's own guard
      does. */
  function OptimizeStintLength(rate: real, compound: string, consumption: real, capacity: real, traffic: real,
                               trackTemp: real, fatigue: real, currentLap: int, totalLaps: int, pitStart: int,
                               pitEnd: int): (p: StintPlan)
    ensures 5 <= p.optimalStintLength <= 30 && p.confidence == 0.7
    ensures p.recommendedPitLap == currentLap + p.optimalStintLength
    ensures totalLaps - currentLap >= 5 ==> p.recommendedPitLap <= totalLaps
    ensures p.factors.degradationLimited <==> rate > 0.003
    ensures p.factors.trafficOptimal <==> traffic < 0.4
    ensures p.factors.withinPitWindow <==> pitStart <= p.recommendedPitLap <= pitEnd
    ensures p.factors.fuelLimited <==> consumption != 0.0 && capacity / consumption < p.optimalStintLength as real
    ensures FuelLimits(if consumption != 0.0 then Trunc(capacity / consumption) else 0) in p.reasoning
            <==> p.factors.fuelLimited
  {
    var f := PrepareFeatures(rate, compound, consumption, capacity, traffic, trackTemp, fatigue, currentLap,
                             totalLaps, pitStart, pitEnd);
    var stint := StintFrom(f);
    var fuelLimited := consumption != 0.0 && capacity / consumption < stint as real;
    PlanWith(f, stint, fuelLimited, if consumption != 0.0 then Trunc(capacity / consumption) else 0)
  }

  /** Wherever the source does not raise, it agrees with the corrected
      definition. */
  lemma AsWrittenAgreesWhenDefined(rate: real, compound: string, consumption: real, capacity: real,
                                   traffic: real, trackTemp: real, fatigue: real, currentLap: int,
                                   totalLaps: int, pitStart: int, pitEnd: int)
    requires consumption != 0.0
    ensures OptimizeStintLengthAsWritten(rate, compound, consumption, capacity, traffic, trackTemp, fatigue,
                                         currentLap, totalLaps, pitStart, pitEnd)
         == Success(OptimizeStintLength(rate, compound, consumption, capacity, traffic, trackTemp, fatigue,
                                        currentLap, totalLaps, pitStart, pitEnd))
  {
  }

  /** The discrepancy: with zero consumption the feature vector caps the
      fuel limit at 30 laps, yet the call as written raises. */
  lemma ZeroConsumptionRaises()
    ensures PrepareFeatures(0.002, "MEDIUM", 0.0, 100.0, 0.5, 30.0, 0.1, 10, 50, 18, 22).fuelLimitedStint == 30.0
    ensures OptimizeStintLengthAsWritten(0.002, "MEDIUM", 0.0, 100.0, 0.5, 30.0, 0.1, 10, 50, 18, 22)
         == Failure(ZeroDivisionError)
    ensures !OptimizeStintLength(0.002, "MEDIUM", 0.0, 100.0, 0.5, 30.0, 0.1, 10, 50, 18, 22).factors.fuelLimited
  {
  }

  /** With a pit window that starts at least five laps out and ends within
      the race and within 30 laps, the recommended pit lap lies in the
      window and the plan says so. */
  lemma PlanLandsInWindow(rate: real, compound: string, consumption: real, capacity: real, traffic: real,
                          trackTemp: real, fatigue: real, currentLap: int, totalLaps: int, pitStart: int,
                          pitEnd: int)
    requires 5 <= pitStart - currentLap <= pitEnd - currentLap
    requires pitEnd <= totalLaps && pitEnd - currentLap <= 30
    ensures var p := OptimizeStintLength(rate, compound, consumption, capacity, traffic, trackTemp, fatigue,
                                         currentLap, totalLaps, pitStart, pitEnd);
      pitStart <= p.recommendedPitLap <= pitEnd && p.factors.withinPitWindow
  {
    var f := PrepareFeatures(rate, compound, consumption, capacity, traffic, trackTemp, fatigue, currentLap,
                             totalLaps, pitStart, pitEnd);
    FallbackLandsInWindow(f);
    var fb := FallbackOptimization(f);
    assert (pitStart - currentLap) as real <= fb <= (pitEnd - currentLap) as real;
    assert pitStart - currentLap <= Trunc(fb) <= pitEnd - currentLap;
    assert StintFrom(f) == Trunc(fb);
  }
}

=== FILE: strategy_console.dfy ===
/** The strategy console (grracing/strategy_console.py): the four-factor
    risk score, the multi-stop pit-window timeline, tyre-life prediction,
    the rejoin window and the undercut/overcut comparison. */
module StrategyConsole {
  import opened Wrappers
  import opened Numerics
  import opened Labels
  import StrategyOptimizer
  import PitRejoin

  /* ---------------- risk score ---------------- */

  /** One factor of the console risk score. */
  datatype RiskFactor = RiskFactor(score: real, level: Level)

  /** Tyre age against 90% and 70% of the compound's maximum (SOFT 20,
      MEDIUM 30, HARD 40, otherwise 30). */
  function CompoundMaxAge(compound: string): int {
    if compound == "SOFT" then 20 else if compound == "HARD" then 40 else 30
  }

  function TireRisk(tireAge: int, compound: string): (f: RiskFactor)
    ensures f.score in {0.1, 0.3, 0.5}
    ensures f.score == 0.5 <==> tireAge as real > CompoundMaxAge(compound) as real * 0.9
    ensures f.score == 0.1 <==> tireAge as real <= CompoundMaxAge(compound) as real * 0.7
  {
    var m := CompoundMaxAge(compound) as real;
    if tireAge as real > m * 0.9 then RiskFactor(0.5, High)
    else if tireAge as real > m * 0.7 then RiskFactor(0.3, Medium)
    else RiskFactor(0.1, Low)
  }

  function DegradationRisk(rate: real): (f: RiskFactor)
    ensures 0.1 <= f.score <= 0.4
    ensures f.score > 0.3 <==> rate > 0.004
  {
    if rate > 0.004 then RiskFactor(0.4, High)
    else if rate > 0.002 then RiskFactor(0.2, Medium)
    else RiskFactor(0.1, Low)
  }

  function TrafficRisk(density: real): (f: RiskFactor)
    ensures 0.1 <= f.score <= 0.3
  {
    if density > 0.7 then RiskFactor(0.3, High)
    else if density > 0.4 then RiskFactor(0.2, Medium)
    else RiskFactor(0.1, Low)
  }

  function PositionRisk(position: int, lapsRemaining: int): (f: RiskFactor)
    ensures 0.1 <= f.score <= 0.3
    ensures f.score == 0.3 <==> position <= 3 && lapsRemaining < 10
  {
    if position <= 3 && lapsRemaining < 10 then RiskFactor(0.3, High)
    else if position <= 5 then RiskFactor(0.2, Medium)
    else RiskFactor(0.1, Low)
  }

  datatype RiskSource = TireAgeSource | DegradationSource | TrafficSource | PositionSource

  datatype RiskAction = PitImmediately | PitSoon | Monitor

  datatype ConsoleRisk = ConsoleRisk(
    totalScore: real,
    level: Level,
    tire: RiskFactor,
    degradation: RiskFactor,
    traffic: RiskFactor,
    position: RiskFactor,
    risks: seq<RiskSource>,
    recommendation: RiskAction)

  /** The factors scoring above 0.3, in the source's order. */
  function Flagged(t: RiskFactor, d: RiskFactor, tr: RiskFactor, p: RiskFactor): seq<RiskSource> {
    (if t.score > 0.3 then [TireAgeSource] else []) +
    (if d.score > 0.3 then [DegradationSource] else []) +
    (if tr.score > 0.3 then [TrafficSource] else []) +
    (if p.score > 0.3 then [PositionSource] else [])
  }

  /** `calculate_risk_score`: the mean of the four factors, capped at 1.
      Each factor is at most 0.5, 0.4, 0.3 and 0.3, so the mean is at most
      0.375: the level is always low and the advice always MONITOR. */
  function CalculateRiskScore(tireAge: int, compound: string, rate: real, density: real,
                              position: int, lapsRemaining: int): (r: ConsoleRisk)
    ensures 0.1 <= r.totalScore <= 0.375
    ensures r.level == Low && r.recommendation == Monitor
    ensures TireAgeSource in r.risks <==> tireAge as real > CompoundMaxAge(compound) as real * 0.9
    ensures DegradationSource in r.risks <==> rate > 0.004
    ensures TrafficSource !in r.risks && PositionSource !in r.risks
  {
    var t := TireRisk(tireAge, compound);
    var d := DegradationRisk(rate);
    var tr := TrafficRisk(density);
    var p := PositionRisk(position, lapsRemaining);
    var total := Min(1.0, (t.score + d.score + tr.score + p.score) / 4.0);
    var level := if total > 0.7 then High else if total > 0.4 then Medium else Low;
    var action := if total > 0.7 then PitImmediately else if total > 0.4 then PitSoon else Monitor;
    ConsoleRisk(total, level, t, d, tr, p, Flagged(t, d, tr, p), action)
  }

  /* ---------------- pit-window timeline ---------------- */

  /** Typical stint length per compound (SOFT 15, MEDIUM 25, HARD 35,
      otherwise 25); also the base tyre lifespan. */
  function StintLength(compound: string): (n: int)
    ensures n in {15, 25, 35}
  {
    if compound == "SOFT" then 15 else if compound == "HARD" then 35 else 25
  }

  /** `_estimate_num_stops`: `max(1, total // stint - 1)`. */
  function EstimateNumStops(totalLaps: int, compound: string): (n: int)
    ensures n >= 1
    ensures n == 1 || (n + 1) * StintLength(compound) <= totalLaps
  {
    MaxInt(1, totalLaps / StintLength(compound) - 1)
  }

  /** `_predict_tire_life`: laps left from the base lifespan, shortened by
      the rate, truncated and floored at zero. */
  function PredictTireLifeLaps(tireAge: int, compound: string, rate: real): (n: int)
    ensures n >= 0
    ensures rate <= 0.02 && tireAge >= StintLength(compound) ==> n == 0
  {
    var remaining := (StintLength(compound) - tireAge) as real;
    var scaled := remaining * (1.0 - rate * 50.0);
    NonpositiveScaled(remaining, 1.0 - rate * 50.0);
    MaxInt(0, Trunc(scaled))
  }

  lemma NonpositiveScaled(x: real, f: real)
    ensures x <= 0.0 && f >= 0.0 ==> x * f <= 0.0
  {
    if x <= 0.0 && f >= 0.0 {
      MulNonneg(-x, f);
    }
  }

  /** `_predict_traffic_at_lap`: density falls by 30% over the rest of the
      race, clipped to [0, 1]. */
  function PredictTrafficAtLap(lap: int, currentLap: int, density: real, totalLaps: int): (d: real)
    ensures 0.0 <= d <= 1.0
    ensures lap == currentLap ==> d == Clamp(density, 0.0, 1.0)
  {
    var progress := (lap - currentLap) as real / MaxInt(1, totalLaps - currentLap) as real;
    Clamp(density * (1.0 - progress * 0.3), 0.0, 1.0)
  }

  datatype WindowRisk = WindowRisk(score: real, level: Level)

  /** `_calculate_window_risk`. */
  function WindowRiskOf(tireAge: int, rate: real, traffic: real, lap: int, totalLaps: int): (r: WindowRisk)
    ensures 0.0 <= r.score <= 1.0
    ensures r.level == High <==> r.score > 0.6
    ensures r.level == Medium <==> 0.3 < r.score <= 0.6
    ensures tireAge <= 25 && rate <= 0.004 ==> r.level != High
  {
    var s := (if tireAge > 25 then 0.4 else 0.0) + (if rate > 0.004 then 0.3 else 0.0)
           + (if traffic > 0.7 then 0.2 else 0.0) + (if lap as real > totalLaps as real * 0.8 then 0.1 else 0.0);
    WindowRisk(Min(1.0, s), if s > 0.6 then High else if s > 0.3 then Medium else Low)
  }

  datatype WindowAdvice = Avoid | Urgent | Caution | Recommended

  /** `_get_window_recommendation`, in priority order. */
  function WindowRecommendation(risk: WindowRisk, tireLife: int): (a: WindowAdvice)
    ensures a == Avoid <==> risk.level == High
    ensures a == Urgent <==> risk.level != High && tireLife < 5
    ensures a == Caution <==> risk.level == Medium && tireLife >= 5
    ensures a == Recommended <==> risk.level != High && risk.level != Medium && tireLife >= 5
  {
    if risk.level == High then Avoid
    else if tireLife < 5 then Urgent
    else if risk.level == Medium then Caution
    else Recommended
  }

  datatype TimelineEntry = TimelineEntry(
    stopNumber: int,
    start: int,
    end: int,
    optimal: int,
    ageAtWindow: int,
    remainingLaps: int,
    trafficDensity: real,
    trafficLevel: Level,
    risk: WindowRisk,
    recommendation: WindowAdvice)

  /** Window `k` (0-based) is centred on the `k+1`-th stint boundary. */
  function TimelineEntryAt(k: int, lapsPerStint: int, currentLap: int, totalLaps: int, tireAge: int,
                           compound: string, rate: real, density: real): TimelineEntry {
    var start := MaxInt(currentLap, (k + 1) * lapsPerStint - 3);
    var end := MinInt(totalLaps, (k + 1) * lapsPerStint + 3);
    var optimal := (start + end) / 2;
    var age := tireAge + (optimal - currentLap);
    var life := PredictTireLifeLaps(age, compound, rate);
    var traffic := PredictTrafficAtLap(optimal, currentLap, density, totalLaps);
    var risk := WindowRiskOf(age, rate, traffic, optimal, totalLaps);
    TimelineEntry(k + 1, start, end, optimal, age, life, traffic,
                  if traffic > 0.7 then High else if traffic > 0.4 then Medium else Low,
                  risk, WindowRecommendation(risk, life))
  }

  /** `generate_pit_window_timeline`. */
  function PitWindowTimeline(currentLap: int, totalLaps: int, tireAge: int, compound: string,
                             rate: real, density: real): (t: seq<TimelineEntry>)
    ensures |t| == EstimateNumStops(totalLaps, compound)
    ensures forall k :: 0 <= k < |t| ==>
      t[k].stopNumber == k + 1 &&
      t[k].start >= currentLap && t[k].end <= totalLaps &&
      t[k].optimal == (t[k].start + t[k].end) / 2 &&
      t[k].ageAtWindow == tireAge + (t[k].optimal - currentLap) &&
      t[k].remainingLaps >= 0 && 0.0 <= t[k].trafficDensity <= 1.0 && t[k].risk.score <= 1.0
  {
    var n := EstimateNumStops(totalLaps, compound);
    var lapsPerStint := totalLaps / (n + 1);
    seq(n, k requires 0 <= k < n =>
      TimelineEntryAt(k, lapsPerStint, currentLap, totalLaps, tireAge, compound, rate, density))
  }

  lemma StintBoundaryMonotone(i: int, j: int, step: int)
    requires i <= j && step >= 0
    ensures i * step <= j * step
  {
    assert j * step - i * step == (j - i) * step;
  }

  /** For a race of nonnegative length, later stops get windows that start
      and end no earlier. */
  lemma {:induction false} TimelineOrdered(currentLap: int, totalLaps: int, tireAge: int, compound: string,
                                           rate: real, density: real, i: int, j: int)
    requires totalLaps >= 0
    requires 0 <= i <= j < EstimateNumStops(totalLaps, compound)
    ensures var t := PitWindowTimeline(currentLap, totalLaps, tireAge, compound, rate, density);
      t[i].start <= t[j].start && t[i].end <= t[j].end && t[i].optimal <= t[j].optimal
  {
    var n := EstimateNumStops(totalLaps, compound);
    var lps := totalLaps / (n + 1);
    StintBoundaryMonotone(i + 1, j + 1, lps);
  }

  /* ---------------- tyre life ---------------- */

  datatype CurvePoint = CurvePoint(lap: int, degradation: real, paceLoss: real)

  /** Curve points for offsets `from .. count-1` whose lap does not exceed
      the adjusted lifespan. */
  function CurveFrom(tireAge: int, from: int, count: int, lifespan: real, rate: real): (c: seq<CurvePoint>)
    decreases count - from
    ensures forall k :: 0 <= k < |c| ==> tireAge + from <= c[k].lap < tireAge + count && c[k].lap as real <= lifespan
    ensures forall k :: 0 <= k < |c| ==> c[k].degradation == rate * c[k].lap as real * (1.0 + c[k].lap as real * 0.01)
    ensures forall k, l :: 0 <= k < l < |c| ==> c[k].lap < c[l].lap
  {
    if from >= count then []
    else
      var rest := CurveFrom(tireAge, from + 1, count, lifespan, rate);
      var lap := tireAge + from;
      if lap as real <= lifespan then
        var d := rate * lap as real * (1.0 + lap as real * 0.01);
        [CurvePoint(lap, d, d * 0.5)] + rest
      else rest
  }

  /** Every lap of the range within the lifespan is on the curve. */
  lemma {:induction false} CurveFromComplete(tireAge: int, from: int, count: int, lifespan: real, rate: real, lap: int)
    requires tireAge + from <= lap < tireAge + count && lap as real <= lifespan
    ensures exists k :: 0 <= k < |CurveFrom(tireAge, from, count, lifespan, rate)| &&
                        CurveFrom(tireAge, from, count, lifespan, rate)[k].lap == lap
    decreases count - from
  {
    var c := CurveFrom(tireAge, from, count, lifespan, rate);
    if lap == tireAge + from {
      assert c[0].lap == lap;
    } else {
      CurveFromComplete(tireAge, from + 1, count, lifespan, rate, lap);
      var rest := CurveFrom(tireAge, from + 1, count, lifespan, rate);
      var k :| 0 <= k < |rest| && rest[k].lap == lap;
      assert (tireAge + from) as real <= lifespan;
      assert c[k + 1] == rest[k];
    }
  }

  datatype TireLife = TireLife(
    remainingLaps: int,
    criticalLap: int,
    adjustedLifespan: real,
    curve: seq<CurvePoint>,
    confidence: real)

  function BaseLifespan(compound: string): int {
    StintLength(compound)
  }

  /** The lifespan shortened by rate, temperature and driver aggression;
      None when the temperature factor is zero (track at -225 degrees),
      where Python divides by zero. */
  function AdjustedLifespan(compound: string, rate: real, trackTemp: real, aggression: real): (r: Option<real>)
    ensures r.None? <==> trackTemp == -225.0
  {
    var tempFactor := 1.0 + ((trackTemp - 25.0) / 50.0) * 0.2;
    if tempFactor == 0.0 then None
    else Some(BaseLifespan(compound) as real * (1.0 - rate * 100.0) / tempFactor * (1.0 - aggression * 0.1))
  }

  /** `predict_tire_life`. */
  function PredictTireLife(tireAge: int, compound: string, rate: real, trackTemp: real, aggression: real): (r: Result<TireLife, PyError>)
    ensures r.Failure? <==> trackTemp == -225.0
    ensures r.Failure? ==> r.error == ZeroDivisionError
    ensures r.Success? ==>
      var t := r.value;
      t.remainingLaps >= 0 && t.criticalLap >= tireAge &&
      t.remainingLaps as real <= Max(0.0, t.adjustedLifespan - tireAge as real) &&
      |t.curve| <= 20 &&
      (forall k :: 0 <= k < |t.curve| ==> tireAge <= t.curve[k].lap && t.curve[k].lap as real <= t.adjustedLifespan) &&
      (t.confidence == 0.9 <==> rate > 0.0) && (t.confidence == 0.5 <==> rate <= 0.0)
  {
    var adjusted := AdjustedLifespan(compound, rate, trackTemp, aggression);
    if adjusted.None? then Failure(ZeroDivisionError)
    else
      var a := adjusted.value;
      var remaining := Max(0.0, a - tireAge as real);
      var count := MinInt(20, Trunc(remaining) + 5);
      var curve := CurveFrom(tireAge, 0, count, a, rate);
      CurveLength(tireAge, 0, count, a, rate);
      Success(TireLife(Trunc(remaining), tireAge + Trunc(remaining * 0.8), a, curve,
                       if rate > 0.0 then 0.9 else 0.5))
  }

  lemma {:induction false} CurveLength(tireAge: int, from: int, count: int, lifespan: real, rate: real)
    requires 0 <= from
    ensures |CurveFrom(tireAge, from, count, lifespan, rate)| <= MaxInt(0, count - from)
    decreases count - from
  {
    if from < count {
      CurveLength(tireAge, from + 1, count, lifespan, rate);
    }
  }

  /* ---------------- rejoin window ---------------- */

  datatype RejoinAdvice = PitNowAdvice | WaitForClearWindow

  datatype RejoinWindow = RejoinWindow(
    rejoin: PitRejoin.RejoinResult,
    clearWindow: bool,
    ghostAdvantage: int,
    recommendation: RejoinAdvice)

  /** `calculate_rejoin_window` with the simulator's default 22 s stop. */
  function CalculateRejoinWindow(currentPosition: int, pitLap: int, density: real, totalCars: int, sector: string): (w: RejoinWindow)
    ensures w.rejoin == PitRejoin.SimulatePitRejoin(currentPosition, pitLap, 22.0, density, totalCars, sector)
    ensures w.clearWindow <==> density < 0.4 && (w.rejoin.rejoinPosition as real) < totalCars as real * 0.7
    ensures w.recommendation == PitNowAdvice <==> w.clearWindow
    ensures w.ghostAdvantage <= 0
  {
    var r := PitRejoin.SimulatePitRejoin(currentPosition, pitLap, 22.0, density, totalCars, sector);
    var clear := density < 0.4 && (r.rejoinPosition as real) < totalCars as real * 0.7;
    RejoinWindow(r, clear, r.positionBeforePit - r.ghostPosition, if clear then PitNowAdvice else WaitForClearWindow)
  }

  /* ---------------- undercut / overcut comparison ---------------- */

  datatype Scenario = Scenario(viable: bool, recommendedLap: int, timeGain: real, positionGain: int, confidence: Level)

  /** `_simulate_undercut_scenario` / `_simulate_overcut_scenario`: the
      optimizer's analysis read with defaults (lap 0, gain 0, confidence
      low); one position is gained above `threshold` seconds. */
  function ScenarioOf(a: StrategyOptimizer.CutAnalysis, threshold: real): (s: Scenario)
    requires threshold >= 0.0
    ensures s.viable == a.IsViable() && s.timeGain == a.Gain()
    ensures s.positionGain == 1 <==> a.Gain() > threshold
    ensures s.positionGain in {0, 1}
  {
    match a
    case NotViable(_) => Scenario(false, 0, 0.0, 0, Low)
    case Analysed(viable, lap, gain, _, _, confidence) =>
      Scenario(viable, lap, gain, if gain > threshold then 1 else 0, confidence)
  }

  datatype Comparison = UndercutChoice | OvercutChoice | StandardChoice

  /** `_compare_strategies`. */
  function CompareStrategies(u: Scenario, o: Scenario): (c: Comparison)
    ensures c == UndercutChoice <==> u.viable && u.timeGain > o.timeGain
    ensures c == OvercutChoice <==> !(u.viable && u.timeGain > o.timeGain) && o.viable
  {
    if u.viable && u.timeGain > o.timeGain then UndercutChoice
    else if o.viable then OvercutChoice
    else StandardChoice
  }

  datatype CutSimulation = CutSimulation(undercut: Scenario, overcut: Scenario, recommendation: Comparison)

  /** `simulate_undercut_overcut`: the optimizer runs on a 50-lap MEDIUM
      race. Its overcut is never viable, so only UNDERCUT or STANDARD is
      recommended, UNDERCUT exactly when the undercut is viable. */
  function SimulateUndercutOvercut(currentLap: int, driverPace: real, tireAge: int, rate: real,
                                   density: real, position: int): (s: CutSimulation)
    ensures s.recommendation != OvercutChoice
    ensures s.recommendation == UndercutChoice <==> s.undercut.viable
    ensures !s.overcut.viable && s.overcut.timeGain == 0.0
  {
    var plan := StrategyOptimizer.OptimizePitStrategy(currentLap, 50, position, tireAge, rate, density, driverPace);
    var u := ScenarioOf(plan.undercut, 2.0);
    var o := ScenarioOf(plan.overcut, 1.5);
    CutSimulation(u, o, CompareStrategies(u, o))
  }
}

=== FILE: strategy_optimizer.dfy ===
/** The strategy optimizer (grracing/strategy_optimizer.py): pit-window
    arithmetic, undercut and overcut feasibility, the degradation decision,
    the risk score and the final recommendation. */
module StrategyOptimizer {
  import opened Wrappers
  import opened Numerics
  import opened Labels

  datatype PitWindow = PitWindow(start: int, end: int, optimal: int, urgency: Level)

  /** Lap at which 2% pace loss is reached: `current + int(0.02 / rate)`, or
      twenty laps on when the rate is not positive. */
  function CriticalLap(currentLap: int, rate: real): (c: int)
    ensures rate <= 0.0 ==> c == currentLap + 20
    ensures rate > 0.0 ==> c >= currentLap && WholeSteps(c - currentLap, rate, 0.02)
  {
    if rate > 0.0 then
      TruncQuotient(0.02, rate);
      var k := Trunc(0.02 / rate);
      currentLap + k
    else currentLap + 20
  }

  /** Pit two laps earlier in heavy traffic (> 0.7), two later in light (< 0.3). */
  function TrafficAdjustment(density: real): (a: int)
    ensures density > 0.7 ==> a == -2
    ensures density < 0.3 ==> a == 2
    ensures 0.3 <= density <= 0.7 ==> a == 0
  {
    if density > 0.7 then -2 else if density < 0.3 then 2 else 0
  }

  /** Tyre-age urgency: above 20 laps high, above 15 medium. */
  function AgeUrgency(tireAge: int): (u: Level)
    ensures u == High <==> tireAge > 20
    ensures u == Medium <==> 15 < tireAge <= 20
    ensures u == Low <==> tireAge <= 15
  {
    if tireAge > 20 then High else if tireAge > 15 then Medium else Low
  }

  /** `_calculate_optimal_pit_window`. */
  function OptimalPitWindow(currentLap: int, totalLaps: int, tireAge: int, rate: real, density: real): (w: PitWindow)
    ensures w.optimal >= currentLap + 1
    ensures w.optimal == currentLap + 1 || w.optimal == MinInt(CriticalLap(currentLap, rate) + TrafficAdjustment(density), totalLaps - 10)
    ensures w.optimal <= MaxInt(currentLap + 1, CriticalLap(currentLap, rate) + TrafficAdjustment(density))
    ensures currentLap + 1 <= w.start <= w.optimal
    ensures w.end <= totalLaps - 5 && w.end <= w.optimal + 2
    ensures w.urgency == AgeUrgency(tireAge)
  {
    var critical := CriticalLap(currentLap, rate);
    var optimal := MaxInt(currentLap + 1, MinInt(critical + TrafficAdjustment(density), totalLaps - 10));
    PitWindow(MaxInt(currentLap + 1, optimal - 2), MinInt(totalLaps - 5, optimal + 2), optimal, AgeUrgency(tireAge))
  }

  /** A window as `_calculate_optimal_pit_window` produces it. */
  predicate WellFormedWindow(currentLap: int, w: PitWindow) {
    w.optimal >= currentLap + 1 && w.start == MaxInt(currentLap + 1, w.optimal - 2) && w.end <= w.optimal + 2
  }

  lemma OptimalPitWindowWellFormed(currentLap: int, totalLaps: int, tireAge: int, rate: real, density: real)
    ensures WellFormedWindow(currentLap, OptimalPitWindow(currentLap, totalLaps, tireAge, rate, density))
  {
  }

  /** Grade of a time gain against two thresholds. */
  function GainGrade(gain: real, highAbove: real, mediumAbove: real): Level {
    if gain > highAbove then High else if gain > mediumAbove then Medium else Low
  }

  /** An undercut or overcut analysis. The early-exit form carries only
      `viable = false` and `time_gain = 0`. */
  datatype CutAnalysis =
    | NotViable(reason: string)
    | Analysed(viable: bool, recommendedLap: int, timeGain: real, laps: int, trafficImpact: real, confidence: Level)
  {
    predicate IsViable() { Analysed? && viable }
    function Gain(): real { if Analysed? then timeGain else 0.0 }
  }

  /** Net seconds gained by pitting `laps` laps before the opponent. */
  function UndercutNetGain(driverPace: real, laps: int, density: real): real {
    driverPace * 0.015 * laps as real - density * 0.5
  }

  /** `_analyze_undercut`: pit two laps before the window opens (but not
      this lap); the opponent is assumed to pit three laps after the optimum.
      Viable when the net gain beats a second in light traffic. */
  function AnalyzeUndercut(currentLap: int, w: PitWindow, driverPace: real, density: real): (a: CutAnalysis)
    ensures var lap := MaxInt(currentLap + 1, w.start - 2);
      var laps := w.optimal + 3 - lap;
      (laps <= 0 ==> a.NotViable?) &&
      (laps > 0 ==> (a.Analysed? && a.laps == laps &&
                     a.timeGain == Max(0.0, UndercutNetGain(driverPace, laps, density)) &&
                     (a.viable <==> UndercutNetGain(driverPace, laps, density) > 1.0 && density < 0.5) &&
                     a.recommendedLap == (if a.viable then lap else w.optimal)))
    ensures a.IsViable() ==> a.Gain() > 1.0 && density < 0.5
    ensures a.Gain() >= 0.0
  {
    var lap := MaxInt(currentLap + 1, w.start - 2);
    var laps := w.optimal + 3 - lap;
    if laps <= 0 then NotViable("Opponent will pit before or at same time")
    else
      var net := UndercutNetGain(driverPace, laps, density);
      var viable := net > 1.0 && density < 0.5;
      Analysed(viable, if viable then lap else w.optimal, Max(0.0, net), laps, density * 0.5, GainGrade(net, 2.0, 1.0))
  }

  /** For a window the optimizer computed, the undercut always spans at
      least three laps, so its early exit is unreachable. */
  lemma UndercutAlwaysAnalysed(currentLap: int, w: PitWindow, driverPace: real, density: real)
    requires WellFormedWindow(currentLap, w)
    ensures AnalyzeUndercut(currentLap, w, driverPace, density).Analysed?
    ensures AnalyzeUndercut(currentLap, w, driverPace, density).laps >= 3
  {
  }

  /** `_analyze_overcut`: the opponent pits two laps after the optimum and we
      three laps after that; outside the window it is not viable. */
  function AnalyzeOvercut(currentLap: int, w: PitWindow, tireAge: int, density: real): (a: CutAnalysis)
    ensures w.optimal + 5 > w.end ==> a.NotViable?
    ensures a.IsViable() ==> tireAge < 18 && a.Gain() > 0.5
    ensures a.Gain() >= 0.0
  {
    var opponentPit := w.optimal + 2;
    var overcutLap := opponentPit + 3;
    if overcutLap > w.end then NotViable("Overcut window exceeds optimal pit window")
    else
      var opponentAge := opponentPit - currentLap + tireAge;
      var penalty := opponentAge as real * 0.002;
      var net := penalty * 3.0 - density * 0.3;
      var viable := net > 0.5 && tireAge < 18;
      Analysed(viable, if viable then overcutLap else w.optimal, Max(0.0, net), 0, density * 0.3, GainGrade(net, 1.5, 0.5))
  }

  /** The window's end is at most two laps past the optimum while the
      overcut lap is five past it: the overcut is never viable. */
  lemma OvercutNeverViable(currentLap: int, w: PitWindow, tireAge: int, density: real)
    requires WellFormedWindow(currentLap, w)
    ensures AnalyzeOvercut(currentLap, w, tireAge, density).NotViable?
    ensures AnalyzeOvercut(currentLap, w, tireAge, density).Gain() == 0.0
  {
  }

  datatype DegDecision = PitNow | PitInWindow | PitEarly | ExtendStint

  datatype DegradationDecision = DegradationDecision(
    decision: DegDecision,
    urgency: Level,
    currentDegradation: real,
    predictedDegradation: real,
    rate: real)

  /** `_make_degradation_aware_decision`, first match wins. */
  function DegradationAwareDecision(tireAge: int, rate: real, w: PitWindow, currentLap: int): (d: DegradationDecision)
    ensures d.currentDegradation == tireAge as real * rate
    ensures d.predictedDegradation == (tireAge + w.optimal - currentLap) as real * rate
    ensures d.decision == PitNow <==> d.currentDegradation > 0.05
    ensures d.decision == PitInWindow <==> d.currentDegradation <= 0.05 && d.predictedDegradation > 0.04
    ensures d.decision == PitEarly <==> d.currentDegradation <= 0.05 && d.predictedDegradation <= 0.04 && rate > 0.003
    ensures d.decision == ExtendStint <==> d.currentDegradation <= 0.05 && d.predictedDegradation <= 0.04 && rate <= 0.003
    ensures d.urgency == (match d.decision case PitNow => Critical case PitInWindow => High
                                           case PitEarly => Medium case ExtendStint => Low)
  {
    var current := tireAge as real * rate;
    var future := (tireAge + (w.optimal - currentLap)) as real * rate;
    if current > 0.05 then DegradationDecision(PitNow, Critical, current, future, rate)
    else if future > 0.04 then DegradationDecision(PitInWindow, High, current, future, rate)
    else if rate > 0.003 then DegradationDecision(PitEarly, Medium, current, future, rate)
    else DegradationDecision(ExtendStint, Low, current, future, rate)
  }

  datatype Risk = CriticalTireAge | HighTireAge | HighDegradationRate | HeavyTraffic | PodiumPosition

  datatype RiskScore = RiskScore(score: real, level: Level, risks: seq<Risk>)

  function TireAgeRisk(tireAge: int): real {
    if tireAge > 25 then 0.4 else if tireAge > 20 then 0.3 else 0.0
  }

  /** The unclamped sum of the four risk contributions. */
  function RawRisk(tireAge: int, rate: real, density: real, position: int): real {
    TireAgeRisk(tireAge) + (if rate > 0.004 then 0.3 else 0.0)
      + (if density > 0.7 then 0.2 else 0.0) + (if position <= 3 then 0.1 else 0.0)
  }

  /** `_calculate_risk_score`: the level is read from the unclamped sum. */
  function CalculateRiskScore(tireAge: int, rate: real, density: real, position: int): (r: RiskScore)
    ensures 0.0 <= r.score <= 1.0
    ensures r.score == RawRisk(tireAge, rate, density, position)
    ensures r.level == High <==> r.score > 0.6
    ensures r.level == Medium <==> 0.3 < r.score <= 0.6
    ensures r.level == Low <==> r.score <= 0.3
    ensures (PodiumPosition in r.risks <==> position <= 3) && (HeavyTraffic in r.risks <==> density > 0.7)
    ensures (HighDegradationRate in r.risks <==> rate > 0.004)
    ensures (CriticalTireAge in r.risks <==> tireAge > 25) && (HighTireAge in r.risks <==> 20 < tireAge <= 25)
  {
    var s := RawRisk(tireAge, rate, density, position);
    RiskScore(Min(1.0, s), LevelOf(s), RisksOf(tireAge, rate, density, position))
  }

  /** The level read from a risk sum. */
  function LevelOf(s: real): (l: Level)
    ensures l == High <==> s > 0.6
    ensures l == Medium <==> 0.3 < s <= 0.6
    ensures l == Low <==> s <= 0.3
  {
    if s > 0.6 then High else if s > 0.3 then Medium else Low
  }

  /** The risks named, in the order the source lists them. */
  function RisksOf(tireAge: int, rate: real, density: real, position: int): (r: seq<Risk>)
    ensures (PodiumPosition in r <==> position <= 3) && (HeavyTraffic in r <==> density > 0.7)
    ensures (HighDegradationRate in r <==> rate > 0.004)
    ensures (CriticalTireAge in r <==> tireAge > 25) && (HighTireAge in r <==> 20 < tireAge <= 25)
  {
    var age := if tireAge > 25 then [CriticalTireAge] else if tireAge > 20 then [HighTireAge] else [];
    var deg := if rate > 0.004 then [HighDegradationRate] else [];
    var traffic := if density > 0.7 then [HeavyTraffic] else [];
    var podium := if position <= 3 then [PodiumPosition] else [];
    age + deg + traffic + podium
  }

  datatype Strategy = Undercut | Overcut | PitNowStrategy | StandardPit

  datatype Recommendation = Recommendation(strategy: Strategy, lap: Option<int>, confidence: Level)

  /** `_generate_recommendation`, in priority order. */
  function GenerateRecommendation(u: CutAnalysis, o: CutAnalysis, d: DegradationDecision): (r: Recommendation)
    ensures r.strategy == Undercut <==> u.IsViable() && u.Gain() > 2.0
    ensures r.strategy == Overcut <==> !(u.IsViable() && u.Gain() > 2.0) && o.IsViable() && o.Gain() > 1.5
    ensures r.strategy == PitNowStrategy <==>
      !(u.IsViable() && u.Gain() > 2.0) && !(o.IsViable() && o.Gain() > 1.5) && d.decision == PitNow
    ensures r.strategy == Undercut ==> r.lap == Some(u.recommendedLap)
    ensures r.strategy == Overcut ==> r.lap == Some(o.recommendedLap)
    ensures r.strategy in {PitNowStrategy, StandardPit} ==> r.lap.None?
  {
    if u.IsViable() && u.Gain() > 2.0 then Recommendation(Undercut, Some(u.recommendedLap), u.confidence)
    else if o.IsViable() && o.Gain() > 1.5 then Recommendation(Overcut, Some(o.recommendedLap), o.confidence)
    else if d.decision == PitNow then Recommendation(PitNowStrategy, None, High)
    else Recommendation(StandardPit, None, Medium)
  }

  datatype StrategyPlan = StrategyPlan(
    window: PitWindow,
    undercut: CutAnalysis,
    overcut: CutAnalysis,
    degradation: DegradationDecision,
    risk: RiskScore,
    recommendation: Recommendation)

  /** `optimize_pit_strategy`: the analyses composed. */
  function OptimizePitStrategy(currentLap: int, totalLaps: int, position: int, tireAge: int, rate: real,
                               density: real, driverPace: real): (p: StrategyPlan)
    ensures p.window == OptimalPitWindow(currentLap, totalLaps, tireAge, rate, density)
    ensures p.overcut.NotViable?
    ensures p.undercut.Analysed?
    ensures p.recommendation.strategy != Overcut
    ensures p.recommendation == GenerateRecommendation(p.undercut, p.overcut, p.degradation)
  {
    var w := OptimalPitWindow(currentLap, totalLaps, tireAge, rate, density);
    OptimalPitWindowWellFormed(currentLap, totalLaps, tireAge, rate, density);
    UndercutAlwaysAnalysed(currentLap, w, driverPace, density);
    OvercutNeverViable(currentLap, w, tireAge, density);
    var u := AnalyzeUndercut(currentLap, w, driverPace, density);
    var o := AnalyzeOvercut(currentLap, w, tireAge, density);
    var d := DegradationAwareDecision(tireAge, rate, w, currentLap);
    StrategyPlan(w, u, o, d, CalculateRiskScore(tireAge, rate, density, position), GenerateRecommendation(u, o, d))
  }
}

=== FILE: text.dfy ===
/** String operations the Python code uses on labels, flags and ids: ASCII
    case mapping (`str.lower`, `str.upper`), substring membership (`x in s`),
    splitting, joining and `str.strip`. */
module Text {

  function LowerChar(c: char): char {
    if 'A' <= c <= 'Z' then (c as int + 32) as char else c
  }

  function UpperChar(c: char): char {
    if 'a' <= c <= 'z' then (c as int - 32) as char else c
  }

  /** `s.lower()` on ASCII text. */
  function Lower(s: string): (r: string)
    ensures |r| == |s|
    ensures forall i :: 0 <= i < |s| ==> r[i] == LowerChar(s[i])
  {
    seq(|s|, i requires 0 <= i < |s| => LowerChar(s[i]))
  }

  /** `s.upper()` on ASCII text. */
  function Upper(s: string): (r: string)
    ensures |r| == |s|
    ensures forall i :: 0 <= i < |s| ==> r[i] == UpperChar(s[i])
  {
    seq(|s|, i requires 0 <= i < |s| => UpperChar(s[i]))
  }

  predicate IsPrefix(p: string, s: string) {
    |p| <= |s| && s[..|p|] == p
  }

  /** Python's `p in s` for strings, scanning start positions left to right. */
  predicate Contains(p: string, s: string)
    decreases |s|
  {
    IsPrefix(p, s) || (|s| > 0 && Contains(p, s[1..]))
  }

  /** An occurrence of `p` in `s` starting at index `i`. */
  predicate OccursAt(p: string, s: string, i: int) {
    0 <= i && i + |p| <= |s| && s[i..i + |p|] == p
  }

  /** The scan finds `p` exactly when `p` occurs at some index of `s`. */
  lemma {:induction false} ContainsIffOccurs(p: string, s: string)
    ensures Contains(p, s) <==> exists i :: OccursAt(p, s, i)
    decreases |s|
  {
    if IsPrefix(p, s) {
      assert OccursAt(p, s, 0);
    } else if |s| > 0 {
      ContainsIffOccurs(p, s[1..]);
      if Contains(p, s[1..]) {
        var j :| OccursAt(p, s[1..], j);
        assert s[1..][j..j + |p|] == s[j + 1..j + 1 + |p|];
        assert OccursAt(p, s, j + 1);
      } else {
        forall i | 0 < i
          ensures !OccursAt(p, s, i)
        {
          if i + |p| <= |s| {
            assert s[1..][i - 1..i - 1 + |p|] == s[i..i + |p|];
            assert !OccursAt(p, s[1..], i - 1);
          }
        }
        assert !OccursAt(p, s, 0);
      }
    } else {
      assert !OccursAt(p, s, 0);
    }
  }

  /** `s.split(sep)` for a one-character separator: the pieces between
      separators, in order, empty pieces included. */
  function Split(s: string, sep: char): (parts: seq<string>)
    ensures |parts| >= 1
    ensures forall k :: 0 <= k < |parts| ==> sep !in parts[k]
    decreases |s|
  {
    if |s| == 0 then [""]
    else
      var rest := Split(s[1..], sep);
      if s[0] == sep then [""] + rest else [[s[0]] + rest[0]] + rest[1..]
  }

  /** `sep.join(parts)`. */
  function Join(parts: seq<string>, sep: char): string
    requires |parts| >= 1
    decreases |parts|
  {
    if |parts| == 1 then parts[0] else parts[0] + [sep] + Join(parts[1..], sep)
  }

  /** How many times `c` occurs in `s`. */
  function Occurrences(s: string, c: char): nat
    decreases |s|
  {
    if |s| == 0 then 0 else (if s[0] == c then 1 else 0) + Occurrences(s[1..], c)
  }

  /** Splitting loses nothing: joining the pieces gives the string back. */
  lemma {:induction false} JoinSplit(s: string, sep: char)
    ensures Join(Split(s, sep), sep) == s
    decreases |s|
  {
    if |s| > 0 {
      JoinSplit(s[1..], sep);
      var rest := Split(s[1..], sep);
      if s[0] == sep {
        assert Split(s, sep)[1..] == rest;
      } else {
        var parts := Split(s, sep);
        if |rest| == 1 {
          assert parts == [[s[0]] + rest[0]];
        } else {
          assert parts[1..] == rest[1..];
          assert Join(rest, sep) == rest[0] + [sep] + Join(rest[1..], sep);
        }
      }
      assert s == [s[0]] + s[1..];
    }
  }

  /** There is one more piece than there are separators. */
  lemma {:induction false} SplitCount(s: string, sep: char)
    ensures |Split(s, sep)| == Occurrences(s, sep) + 1
    decreases |s|
  {
    if |s| > 0 {
      SplitCount(s[1..], sep);
    }
  }

  /** The characters Python's `str.isspace` accepts: the ASCII controls
      tab to carriage return and file to unit separator, the space, and the
      Unicode spaces and line and paragraph separators. */
  predicate IsSpace(c: char) {
    c == ' ' || '\t' <= c <= '\r' || '\U{1C}' <= c <= '\U{1F}' || c == '\U{85}' || c == '\U{A0}' ||
    c == '\U{1680}' || '\U{2000}' <= c <= '\U{200A}' || c == '\U{2028}' || c == '\U{2029}' ||
    c == '\U{202F}' || c == '\U{205F}' || c == '\U{3000}'
  }

  /** `s.lstrip()`: the suffix left after dropping the leading whitespace. */
  function StripStart(s: string): (r: string)
    ensures |r| <= |s| && r == s[|s| - |r|..]
    ensures forall k :: 0 <= k < |s| - |r| ==> IsSpace(s[k])
    ensures |r| > 0 ==> !IsSpace(r[0])
    decreases |s|
  {
    if |s| > 0 && IsSpace(s[0]) then StripStart(s[1..]) else s
  }

  /** `s.rstrip()`: the prefix left after dropping the trailing whitespace. */
  function StripEnd(s: string): (r: string)
    ensures |r| <= |s| && r == s[..|r|]
    ensures forall k :: |r| <= k < |s| ==> IsSpace(s[k])
    ensures |r| > 0 ==> !IsSpace(r[|r| - 1])
    decreases |s|
  {
    if |s| > 0 && IsSpace(s[|s| - 1]) then StripEnd(s[..|s| - 1]) else s
  }

  /** `s.strip()`: both ends trimmed of whitespace. */
  function Strip(s: string): (r: string)
    ensures |r| <= |s|
    ensures |r| > 0 ==> !IsSpace(r[0]) && !IsSpace(r[|r| - 1])
  {
    StripEnd(StripStart(s))
  }

  /** `r` is the run of `s` starting at `i`, with only whitespace around
      it. */
  predicate TrimmedAt(s: string, r: string, i: int) {
    0 <= i && i + |r| <= |s| && r == s[i..i + |r|] &&
    (forall k :: 0 <= k < i ==> IsSpace(s[k])) && (forall k :: i + |r| <= k < |s| ==> IsSpace(s[k]))
  }

  /** `Strip` keeps a contiguous run of the input and drops only
      whitespace around it. */
  lemma StripIsTrim(s: string)
    ensures exists i :: TrimmedAt(s, Strip(s), i)
  {
    var t := StripStart(s);
    var r := Strip(s);
    var i := |s| - |t|;
    assert r == t[..|r|];
    assert r == s[i..i + |r|];
    assert forall k :: i + |r| <= k < |s| ==> s[k] == t[k - i];
    assert TrimmedAt(s, r, i);
  }

  /** A string with no whitespace at either end is its own strip. */
  lemma StripTrimmed(s: string)
    requires |s| > 0 ==> !IsSpace(s[0]) && !IsSpace(s[|s| - 1])
    ensures Strip(s) == s
  {
  }

  /** Stripping twice is stripping once. */
  lemma StripIdempotent(s: string)
    ensures Strip(Strip(s)) == Strip(s)
  {
    StripTrimmed(Strip(s));
  }

  /** A string of whitespace strips to nothing, and nothing else does. */
  lemma StripEmptyIff(s: string)
    ensures Strip(s) == "" <==> forall k :: 0 <= k < |s| ==> IsSpace(s[k])
  {
    StripIsTrim(s);
  }
}

=== FILE: tire_degradation.dfy ===
/** The production tyre-degradation model (models/tire_degradation.py):
    per-compound default curves, the cached curve fit, the degradation
    prediction with its cliff test, and the quick percentage estimate
    `calculate_degradation` that the pit-decision engine relies on. */
module TireDegradation {
  import opened Wrappers
  import opened Numerics

  /** Shape of a fitted curve: `1 + rate * age^exponent`, or a straight line. */
  datatype CurveKind = Exponential | Linear

  /** The parameter dictionary a fit (or the default) produces. */
  datatype CurveParams = CurveParams(
    kind: CurveKind,
    rate: real,
    exponent: real,
    basePace: real,
    rSquared: real,
    compound: string,
    confidence: real)

  /** What scipy's `curve_fit` (and the `polyfit` fallback) produced. The
      fitting itself is numerical library code and enters as data. */
  datatype FitOutcome =
    | ExponentialFit(fitRate: real, fitExponent: real, fitRSquared: real)
    | LinearFit(slope: real)
    | NoFit

  /** Default rate per compound: SOFT 0.003, MEDIUM 0.002, HARD 0.0015. */
  function DefaultRate(compound: string): (r: real)
    ensures compound == "SOFT" ==> r == 0.003
    ensures compound == "HARD" ==> r == 0.0015
    ensures compound != "SOFT" && compound != "HARD" ==> r == 0.002
  {
    if compound == "SOFT" then 0.003
    else if compound == "MEDIUM" then 0.002
    else if compound == "HARD" then 0.0015
    else 0.002
  }

  /** `_default_degradation`: exponent 1.2, base pace 95, confidence 0.5. */
  function DefaultDegradation(compound: string): (p: CurveParams)
    ensures p.kind == Exponential && p.exponent == 1.2 && p.basePace == 95.0
    ensures p.rate == DefaultRate(compound) && p.compound == compound
    ensures p.confidence == 0.5 && p.rSquared == 0.7
  {
    CurveParams(Exponential, DefaultRate(compound), 1.2, 95.0, 0.7, compound, 0.5)
  }

  /** Mean of the first (up to) three lap times, the normalising base pace. */
  function BasePace(lapTimes: seq<real>): real
    requires |lapTimes| >= 3
  {
    (lapTimes[0] + lapTimes[1] + lapTimes[2]) / 3.0
  }

  /** `fit_degradation_curve`: fewer than three points returns the default
      and leaves the cache alone; otherwise the fitted (or fallback)
      parameters are returned and cached under the compound. */
  function FitDegradationCurve(
    cache: map<string, CurveParams>,
    lapTimes: seq<real>,
    tireAges: seq<int>,
    compound: string,
    fit: FitOutcome): (out: (CurveParams, map<string, CurveParams>))
    ensures |lapTimes| < 3 || |tireAges| < 3 ==>
      out.0 == DefaultDegradation(compound) && out.1 == cache
    ensures |lapTimes| >= 3 && |tireAges| >= 3 ==>
      out.1 == cache[compound := out.0]
    ensures |lapTimes| >= 3 && |tireAges| >= 3 && fit.ExponentialFit? ==>
      out.0.kind == Exponential && out.0.rate == fit.fitRate && out.0.exponent == fit.fitExponent &&
      out.0.rSquared == fit.fitRSquared && out.0.compound == compound &&
      out.0.confidence == Min(|lapTimes| as real / 20.0, 1.0) && out.0.basePace == BasePace(lapTimes)
    ensures |lapTimes| >= 3 && |tireAges| >= 3 && fit.LinearFit? ==>
      out.0.kind == Linear && out.0.rate == fit.slope && out.0.exponent == 1.0 && out.0.basePace == BasePace(lapTimes) &&
      out.0.rSquared == 0.7 && out.0.compound == compound && out.0.confidence == 0.6
    ensures |lapTimes| >= 3 && |tireAges| >= 3 && fit.NoFit? ==>
      out.0 == DefaultDegradation(compound)
  {
    if |lapTimes| < 3 || |tireAges| < 3 then
      (DefaultDegradation(compound), cache)
    else
      var params :=
        match fit
        case ExponentialFit(rate, exponent, r2) =>
          CurveParams(Exponential, rate, exponent, BasePace(lapTimes), r2, compound,
                      Min(|lapTimes| as real / 20.0, 1.0))
        case LinearFit(slope) =>
          CurveParams(Linear, slope, 1.0, BasePace(lapTimes), 0.7, compound, 0.6)
        case NoFit => DefaultDegradation(compound);
      (params, cache[compound := params])
  }

  /** The result of `predict_degradation`. */
  datatype Prediction = Prediction(
    tireAge: int,
    degradationFactor: real,
    predictedPace: real,
    isCliff: bool,
    cliffLap: int,
    confidence: real)

  /** Marginal degradation `rate * exponent * age^(exponent-1)` at an age;
      `pow` is the real power function. */
  function MarginalRate(p: CurveParams, age: int, pow: (real, real) -> real): real {
    p.rate * p.exponent * pow(age as real, p.exponent - 1.0)
  }

  /** `_predict_cliff_lap`: the first age in 1..49 whose marginal rate exceeds
      0.003, else 30. */
  function CliffLapFrom(p: CurveParams, age: int, pow: (real, real) -> real): (r: int)
    requires 1 <= age <= 50
    decreases 50 - age
  {
    if age >= 50 then 30
    else if MarginalRate(p, age, pow) > 0.003 then age
    else CliffLapFrom(p, age + 1, pow)
  }

  function PredictCliffLap(p: CurveParams, pow: (real, real) -> real): int {
    CliffLapFrom(p, 1, pow)
  }

  /** A scan from `age` returns either 30 with no qualifying age in [age, 50),
      or the least qualifying age in [age, 50). */
  lemma {:induction false} CliffLapFromIsFirst(p: CurveParams, age: int, pow: (real, real) -> real)
    requires 1 <= age <= 50
    ensures var r := CliffLapFrom(p, age, pow);
      (r == 30 && forall a :: age <= a < 50 ==> MarginalRate(p, a, pow) <= 0.003) ||
      (age <= r < 50 && MarginalRate(p, r, pow) > 0.003 &&
       forall a :: age <= a < r ==> MarginalRate(p, a, pow) <= 0.003)
    decreases 50 - age
  {
    if age < 50 && MarginalRate(p, age, pow) <= 0.003 {
      CliffLapFromIsFirst(p, age + 1, pow);
    }
  }

  /** The predicted cliff lap is the first age in 1..49 past the 0.003
      marginal-rate threshold, or 30 when there is none. */
  lemma PredictCliffLapIsFirst(p: CurveParams, pow: (real, real) -> real)
    ensures var r := PredictCliffLap(p, pow);
      (r == 30 && forall a :: 1 <= a < 50 ==> MarginalRate(p, a, pow) <= 0.003) ||
      (1 <= r < 50 && MarginalRate(p, r, pow) > 0.003 &&
       forall a :: 1 <= a < r ==> MarginalRate(p, a, pow) <= 0.003)
  {
    CliffLapFromIsFirst(p, 1, pow);
  }

  /** `predict_degradation`: without explicit parameters the cached curve for
      the compound is used, else the default. */
  function PredictDegradation(
    cache: map<string, CurveParams>,
    tireAge: int,
    compound: string,
    given: Option<CurveParams>,
    pow: (real, real) -> real): (r: Prediction)
    ensures tireAge <= 20 ==> !r.isCliff
    ensures var p := if given.Some? then given.value
                     else if compound in cache then cache[compound]
                     else DefaultDegradation(compound);
      r.predictedPace == p.basePace * (1.0 + r.degradationFactor) &&
      r.confidence == p.confidence &&
      (r.isCliff <==> tireAge > 20 && MarginalRate(p, tireAge, pow) > 0.003)
  {
    var p := if given.Some? then given.value
             else if compound in cache then cache[compound]
             else DefaultDegradation(compound);
    var factor := p.rate * pow(tireAge as real, p.exponent);
    var cliff := if tireAge > 20 then MarginalRate(p, tireAge, pow) > 0.003 else false;
    Prediction(tireAge, factor, p.basePace * (1.0 + factor), cliff, PredictCliffLap(p, pow), p.confidence)
  }

  /** Compound multiplier of the quick estimate: SOFT 1.5, MEDIUM 1.0, HARD 0.7, else 1.0. */
  function CompoundMultiplier(compound: string): (m: real)
    ensures compound == "SOFT" ==> m == 1.5
    ensures compound == "HARD" ==> m == 0.7
    ensures compound != "SOFT" && compound != "HARD" ==> m == 1.0
  {
    if compound == "SOFT" then 1.5
    else if compound == "MEDIUM" then 1.0
    else if compound == "HARD" then 0.7
    else 1.0
  }

  /** Per-lap rate of the quick estimate: 0.002 scaled by compound and by
      1% per degree away from 25 degrees. */
  function QuickRate(compound: string, trackTemp: real): real {
    0.002 * CompoundMultiplier(compound) * (1.0 + (trackTemp - 25.0) * 0.01)
  }

  /** `calculate_degradation`: a degradation fraction capped at 10%. */
  function CalculateDegradation(tireAge: int, compound: string, trackTemp: real): (r: real)
    ensures r <= 0.1
    ensures tireAge == 0 ==> r == 0.0
    ensures r < 0.1 ==> r == QuickRate(compound, trackTemp) * tireAge as real
    ensures r == 0.1 ==> QuickRate(compound, trackTemp) * tireAge as real >= 0.1
  {
    Min(QuickRate(compound, trackTemp) * tireAge as real, 0.1)
  }

  /** At a track temperature of at least -75 degrees the rate is nonnegative,
      so the estimate never decreases as the tyre ages. */
  lemma CalculateDegradationMonotoneInAge(a1: int, a2: int, compound: string, trackTemp: real)
    requires a1 <= a2 && trackTemp >= -75.0
    ensures CalculateDegradation(a1, compound, trackTemp) <= CalculateDegradation(a2, compound, trackTemp)
  {
    var q := QuickRate(compound, trackTemp);
    QuickRateNonnegative(compound, trackTemp);
    MulMono(q, a1 as real, a2 as real);
    CappedMonotone(q * a1 as real, q * a2 as real);
  }

  /** Capping at 10% keeps the order. */
  lemma CappedMonotone(x: real, y: real)
    requires x <= y
    ensures Min(x, 0.1) <= Min(y, 0.1)
  {
  }

  /** From -75 degrees up the quick rate is nonnegative. */
  lemma QuickRateNonnegative(compound: string, trackTemp: real)
    requires trackTemp >= -75.0
    ensures QuickRate(compound, trackTemp) >= 0.0
  {
    MulNonneg(0.002 * CompoundMultiplier(compound), 1.0 + (trackTemp - 25.0) * 0.01);
  }

  /** For a nonnegative age, hotter track never lowers the estimate. */
  lemma CalculateDegradationMonotoneInTemp(age: int, compound: string, t1: real, t2: real)
    requires age >= 0 && t1 <= t2
    ensures CalculateDegradation(age, compound, t1) <= CalculateDegradation(age, compound, t2)
  {
    var k := 0.002 * CompoundMultiplier(compound);
    assert k > 0.0;
    var f1, f2 := 1.0 + (t1 - 25.0) * 0.01, 1.0 + (t2 - 25.0) * 0.01;
    assert k * f1 <= k * f2;
    var d := k * f2 - k * f1;
    assert d >= 0.0;
    assert QuickRate(compound, t1) == k * f1 && QuickRate(compound, t2) == k * f2;
    assert (k * f2) * age as real - (k * f1) * age as real == d * age as real;
    assert d * age as real >= 0.0;
  }
}

=== FILE: traffic.dfy ===
/** Traffic density per sector and the time it costs (grracing/traffic.py). */
module Traffic {
  import opened Wrappers
  import opened Numerics

  /** The fields of a driver record the density model reads. */
  datatype CarState = CarState(sector: Option<string>, position: Option<int>)

  function InSector(drivers: seq<CarState>, sector: string): (r: seq<CarState>)
    ensures |r| <= |drivers|
    ensures forall c :: c in r ==> c in drivers && c.sector == Some(sector)
    ensures forall c :: c in drivers && c.sector == Some(sector) ==> c in r
  {
    if |drivers| == 0 then []
    else
      var rest := InSector(drivers[1..], sector);
      assert forall c :: c in drivers[1..] ==> c in drivers;
      if drivers[0].sector == Some(sector) then [drivers[0]] + rest else rest
  }

  function PositionOf(c: CarState): int {
    c.position.GetOr(0)
  }

  function MaxPosition(cars: seq<CarState>): (m: int)
    requires |cars| > 0
    ensures forall i :: 0 <= i < |cars| ==> PositionOf(cars[i]) <= m
    ensures exists i :: 0 <= i < |cars| && PositionOf(cars[i]) == m
  {
    if |cars| == 1 then PositionOf(cars[0])
    else
      var rest := MaxPosition(cars[1..]);
      assert forall i :: 1 <= i < |cars| ==> cars[i] == cars[1..][i - 1];
      if PositionOf(cars[0]) >= rest then PositionOf(cars[0]) else rest
  }

  function MinPosition(cars: seq<CarState>): (m: int)
    requires |cars| > 0
    ensures forall i :: 0 <= i < |cars| ==> m <= PositionOf(cars[i])
    ensures exists i :: 0 <= i < |cars| && PositionOf(cars[i]) == m
  {
    if |cars| == 1 then PositionOf(cars[0])
    else
      var rest := MinPosition(cars[1..]);
      assert forall i :: 1 <= i < |cars| ==> cars[i] == cars[1..][i - 1];
      if PositionOf(cars[0]) <= rest then PositionOf(cars[0]) else rest
  }

  /** `1 / (1 + spread / 5)`: closer cars give a factor nearer one. */
  function ProximityFactor(spread: int): (f: real)
    requires spread >= 0
    ensures 0.0 < f <= 1.0
    ensures spread == 0 ==> f == 1.0
  {
    1.0 / (1.0 + spread as real / 5.0)
  }

  /** Share of the field in the sector, `count / max(n, 1)`. */
  function Share(drivers: seq<CarState>, sector: string): (s: real)
    ensures 0.0 <= s <= 1.0
    ensures |InSector(drivers, sector)| == 0 ==> s == 0.0
    ensures |InSector(drivers, sector)| == 1 ==> s == 1.0 / |drivers| as real
  {
    var c := |InSector(drivers, sector)| as real;
    var n := MaxInt(|drivers|, 1) as real;
    assert 0.0 <= c <= n;
    assert c / n <= n / n;
    c / n
  }

  /** Density before the cap at 1: the share of cars in the sector, boosted
      by proximity when more than one car is there. */
  function RawDensity(drivers: seq<CarState>, sector: string): (d: real)
    ensures Share(drivers, sector) <= d <= 2.0 * Share(drivers, sector)
  {
    var inSector := InSector(drivers, sector);
    var share := Share(drivers, sector);
    if |inSector| > 1 then
      SpreadNonnegative(inSector);
      var f := ProximityFactor(MaxPosition(inSector) - MinPosition(inSector));
      Boosted(share, f)
    else share
  }

  lemma SpreadNonnegative(cars: seq<CarState>)
    requires |cars| > 0
    ensures MinPosition(cars) <= MaxPosition(cars)
  {
    assert MinPosition(cars) <= PositionOf(cars[0]) <= MaxPosition(cars);
  }

  /** `share * (1 + f)`: a boost by a factor in (0, 1] at most doubles a
      non-negative share. */
  function Boosted(share: real, f: real): (b: real)
    requires share >= 0.0 && 0.0 < f <= 1.0
    ensures share <= b <= 2.0 * share
  {
    MulNonneg(share, f);
    MulMono(share, f, 1.0);
    share * (1.0 + f)
  }

  /** `calculate_traffic_density`. */
  function TrafficDensity(drivers: seq<CarState>, sector: string): (d: real)
    ensures 0.0 <= d <= 1.0
    ensures |InSector(drivers, sector)| == 0 ==> d == 0.0
    ensures |InSector(drivers, sector)| == 1 ==> d == 1.0 / |drivers| as real
    ensures d <= 2.0 * Share(drivers, sector)
  {
    Min(1.0, RawDensity(drivers, sector))
  }

  /** When every driver is in the queried sector (as the race twin arranges),
      a nonempty field has density 1. */
  lemma AllInSectorIsSaturated(drivers: seq<CarState>, sector: string)
    requires |drivers| > 0
    requires forall i :: 0 <= i < |drivers| ==> drivers[i].sector == Some(sector)
    ensures TrafficDensity(drivers, sector) == 1.0
  {
    AllInSectorKeepsAll(drivers, sector);
    assert Share(drivers, sector) == 1.0;
  }

  lemma {:induction false} AllInSectorKeepsAll(drivers: seq<CarState>, sector: string)
    requires forall i :: 0 <= i < |drivers| ==> drivers[i].sector == Some(sector)
    ensures InSector(drivers, sector) == drivers
  {
    if |drivers| > 0 {
      AllInSectorKeepsAll(drivers[1..], sector);
    }
  }

  /** Time-loss base per sector: S1 0.3, S2 0.5, S3 0.4, otherwise 0.4. */
  function SectorLossBase(sector: string): (b: real)
    ensures sector == "S1" ==> b == 0.3
    ensures sector == "S2" ==> b == 0.5
    ensures sector != "S1" && sector != "S2" ==> b == 0.4
  {
    if sector == "S1" then 0.3 else if sector == "S2" then 0.5 else 0.4
  }

  /** `estimate_time_lost`: `base(sector) * density^1.5`, with the real
      power supplied as `pow`. */
  function EstimateTimeLost(density: real, sector: string, pow: (real, real) -> real): (t: real)
    ensures pow(density, 1.5) == 0.0 ==> t == 0.0
    ensures pow(density, 1.5) >= 0.0 ==> 0.0 <= t <= 0.5 * pow(density, 1.5)
  {
    SectorLossBase(sector) * pow(density, 1.5)
  }
}

=== FILE: traffic_loss.dfy ===
/** The rule-based traffic-loss model of grracing/models/traffic_loss.py:
    time lost per lap to the cars ahead, the sector, the density and the
    running position, with a random ±10% variation (a parameter here); its
    stint-long projection; and the clean-air bonus by position. */
module TrafficLoss {
  import opened Wrappers
  import opened Numerics

  /** Seconds lost per car directly ahead. */
  const BasePenaltyPerCar := 0.1

  /** Sector multipliers; unknown sectors use 1.0. */
  function SectorMultiplier(sector: string): (m: real)
    ensures 1.0 <= m <= 1.2
    ensures sector !in {"S1", "S2", "S3"} ==> m == 1.0
  {
    if sector == "S1" then 1.0
    else if sector == "S2" then 1.2
    else if sector == "S3" then 1.1
    else 1.0
  }

  /** The `calculate_traffic_loss` breakdown. */
  datatype Breakdown = Breakdown(carsAhead: int, cleanAirDelta: real, basePenalty: real, sectorPenalty: real,
                                 densityPenalty: real, positionPenalty: real, totalTrafficLoss: real,
                                 sector: string, trafficDensity: real)

  /** The loss before the random variation. */
  function RawLoss(carsAhead: int, sector: string, density: real, position: int, totalCars: int): real
    requires totalCars != 0
  {
    carsAhead as real * BasePenaltyPerCar * SectorMultiplier(sector) + density * 0.3 +
    (position as real / totalCars as real) * 0.2
  }

  /** `calculate_traffic_loss`, with `u` the draw of `np.random.uniform(-0.1,
      0.1)`. Python's true division by `total_cars` raises for an empty
      field. */
  function CalculateTrafficLoss(carsAhead: int, sector: string, density: real, position: int, totalCars: int,
                                u: real): (r: Result<Breakdown, PyError>)
    ensures r.Failure? <==> totalCars == 0
    ensures r.Failure? ==> r.error == ZeroDivisionError
    ensures r.Success? ==> r.value.totalTrafficLoss >= 0.0
    ensures r.Success? ==> (r.value.cleanAirDelta == 0.0 <==> carsAhead == 0)
    ensures r.Success? ==> (carsAhead != 0 ==> r.value.cleanAirDelta == -0.2)
    ensures r.Success? ==> r.value.sectorPenalty == r.value.basePenalty * SectorMultiplier(sector)
    ensures r.Success? ==> r.value.totalTrafficLoss == Varied(RawLoss(carsAhead, sector, density, position, totalCars), u)
  {
    if totalCars == 0 then Failure(ZeroDivisionError)
    else
      var cleanAir := if carsAhead == 0 then 0.0 else -0.2;
      var basePenalty := carsAhead as real * BasePenaltyPerCar;
      var sectorPenalty := basePenalty * SectorMultiplier(sector);
      var densityPenalty := density * 0.3;
      var positionPenalty := (position as real / totalCars as real) * 0.2;
      var total := sectorPenalty + densityPenalty + positionPenalty;
      Success(Breakdown(carsAhead, cleanAir, basePenalty, sectorPenalty, densityPenalty, positionPenalty,
                        Varied(total, u), sector, density))
  }

  /** `total + u * total`, floored at zero (lines 71-75). */
  function Varied(total: real, u: real): (v: real)
    ensures v >= 0.0
  {
    Max(0.0, total + u * total)
  }

  /** A draw within ±10% keeps a nonnegative loss within ±10% of itself. */
  lemma VariationWithinTenPercent(total: real, u: real)
    requires -0.1 <= u <= 0.1 && total >= 0.0
    ensures 0.9 * total <= Varied(total, u) <= 1.1 * total
  {
    MulMono(total, -0.1, u);
    MulMono(total, u, 0.1);
    assert total * -0.1 == -0.1 * total && total * 0.1 == 0.1 * total;
    assert 0.9 * total <= total + u * total <= 1.1 * total;
  }

  /** The stint projection. */
  datatype StintLoss = StintLoss(stintLaps: int, lossPerLap: real, totalTrafficLoss: real,
                                 averageCarsAhead: real, trafficTrend: string)

  /** Trend multipliers; unknown trends use 1.0. */
  function TrendMultiplier(trend: string): (m: real)
    ensures 0.8 <= m <= 1.2
    ensures trend !in {"improving", "stable", "degrading"} ==> m == 1.0
  {
    if trend == "improving" then 0.8
    else if trend == "stable" then 1.0
    else if trend == "degrading" then 1.2
    else 1.0
  }

  /** The share of the lap spent in a sector; 0.33 when not given. */
  function SectorShare(distribution: map<string, real>, sector: string): real {
    if sector in distribution then distribution[sector] else 0.33
  }

  /** The sector-weighted multiplier of lines 112-115. */
  function WeightedMultiplier(distribution: map<string, real>): (m: real)
    ensures distribution == map[] ==> m == 0.33 * (1.0 + 1.2 + 1.1)
  {
    SectorShare(distribution, "S1") * SectorMultiplier("S1") +
    SectorShare(distribution, "S2") * SectorMultiplier("S2") +
    SectorShare(distribution, "S3") * SectorMultiplier("S3")
  }

  /** `predict_stint_traffic_loss`. */
  function PredictStintTrafficLoss(laps: int, averageCarsAhead: real, distribution: map<string, real>,
                                   trend: string): (s: StintLoss)
    ensures s.totalTrafficLoss == s.lossPerLap * laps as real
    ensures s.lossPerLap == averageCarsAhead * BasePenaltyPerCar * WeightedMultiplier(distribution) * TrendMultiplier(trend)
    ensures s.stintLaps == laps && s.trafficTrend == trend
  {
    var baseLoss := averageCarsAhead * BasePenaltyPerCar;
    var perLap := baseLoss * WeightedMultiplier(distribution) * TrendMultiplier(trend);
    StintLoss(laps, perLap, perLap * laps as real, averageCarsAhead, trend)
  }

  /** With traffic ahead and a nonnegative sector weighting, an improving
      trend projects less loss per lap than a stable one, and a degrading
      trend more. */
  lemma TrendOrdersStintLoss(laps: int, averageCarsAhead: real, distribution: map<string, real>)
    requires averageCarsAhead > 0.0 && WeightedMultiplier(distribution) > 0.0
    ensures PredictStintTrafficLoss(laps, averageCarsAhead, distribution, "improving").lossPerLap <
            PredictStintTrafficLoss(laps, averageCarsAhead, distribution, "stable").lossPerLap <
            PredictStintTrafficLoss(laps, averageCarsAhead, distribution, "degrading").lossPerLap
  {
    var b := averageCarsAhead * BasePenaltyPerCar * WeightedMultiplier(distribution);
    assert b > 0.0 by {
      MulStrict(averageCarsAhead * BasePenaltyPerCar, 0.0, WeightedMultiplier(distribution));
    }
    MulStrict(b, 0.8, 1.0);
    MulStrict(b, 1.0, 1.2);
  }

  /** `calculate_clean_air_delta`: 0.2 for the leader, 0.1 for P2-P3 (and
      any smaller number), nothing further back. */
  function CleanAirDelta(position: int): (d: real)
    ensures d == 0.2 <==> position == 1
    ensures d == 0.1 <==> position != 1 && position <= 3
    ensures d == 0.0 <==> position > 3
  {
    if position == 1 then 0.2
    else if position <= 3 then 0.1
    else 0.0
  }
}

=== FILE: weather.dfy ===
/** Weather effects on pace and tyre wear (grracing/weather.py). */
module Weather {
  import opened Wrappers
  import opened Numerics

  datatype Condition = Dry | Damp | Wet | Mixed

  /** `determine_condition`, first match wins: heavy rain is wet, light rain
      or high humidity is damp, extreme track temperatures are mixed. */
  function DetermineCondition(trackTemp: real, ambientTemp: real, humidity: real, rainfall: real): (c: Condition)
    ensures c == Wet <==> rainfall > 0.5
    ensures c == Damp <==> rainfall <= 0.5 && (rainfall > 0.1 || humidity > 80.0)
    ensures c == Mixed <==> rainfall <= 0.1 && humidity <= 80.0 && (trackTemp < 15.0 || trackTemp > 50.0)
    ensures c == Dry <==> rainfall <= 0.1 && humidity <= 80.0 && 15.0 <= trackTemp <= 50.0
  {
    if rainfall > 0.5 then Wet
    else if rainfall > 0.1 || humidity > 80.0 then Damp
    else if trackTemp < 15.0 || trackTemp > 50.0 then Mixed
    else Dry
  }

  /** Lap-time multiplier per condition. */
  function BasePaceModifier(c: Condition): (m: real)
    ensures m >= 1.0
  {
    match c
    case Dry => 1.0
    case Wet => 1.15
    case Damp => 1.08
    case Mixed => 1.12
  }

  /** Wear multiplier per condition. */
  function BaseDegradationModifier(c: Condition): (m: real)
    ensures 0.7 <= m <= 1.0
  {
    match c
    case Dry => 1.0
    case Wet => 0.7
    case Damp => 0.85
    case Mixed => 0.9
  }

  /** `calculate_pace_modifier`: the condition's base times 0.2% per degree
      away from 27.5. */
  function PaceModifier(trackTemp: real, ambientTemp: real, humidity: real, rainfall: real): (m: real)
    ensures var base := BasePaceModifier(DetermineCondition(trackTemp, ambientTemp, humidity, rainfall));
      1.0 <= base <= m && (trackTemp == 27.5 ==> m == base)
  {
    var base := BasePaceModifier(DetermineCondition(trackTemp, ambientTemp, humidity, rainfall));
    var tempModifier := 1.0 + Abs(trackTemp - 27.5) * 0.002;
    assert base * tempModifier - base == base * (Abs(trackTemp - 27.5) * 0.002);
    base * tempModifier
  }

  /** Temperature effect on wear: 1% per degree above 25, clipped to [0.5, 2]. */
  function TempWearEffect(trackTemp: real): (e: real)
    ensures 0.5 <= e <= 2.0
  {
    Clamp(1.0 + (trackTemp - 25.0) * 0.01, 0.5, 2.0)
  }

  /** `calculate_degradation_modifier`: base wear modifier times the clipped
      temperature effect, so always within [0.35, 2.0]. */
  function DegradationModifier(trackTemp: real, ambientTemp: real, humidity: real, rainfall: real): (m: real)
    ensures 0.35 <= m <= 2.0
    ensures m == BaseDegradationModifier(DetermineCondition(trackTemp, ambientTemp, humidity, rainfall)) * TempWearEffect(trackTemp)
  {
    var base := BaseDegradationModifier(DetermineCondition(trackTemp, ambientTemp, humidity, rainfall));
    var e := TempWearEffect(trackTemp);
    assert base * e >= 0.7 * 0.5;
    assert base * e <= 1.0 * 2.0;
    base * e
  }

  /** `adjust_lap_time`: a nonnegative lap time is never made faster. */
  function AdjustLapTime(baseLapTime: real, trackTemp: real, ambientTemp: real, humidity: real, rainfall: real): (t: real)
    ensures t == baseLapTime * PaceModifier(trackTemp, ambientTemp, humidity, rainfall)
    ensures baseLapTime >= 0.0 ==> t >= baseLapTime
  {
    var m := PaceModifier(trackTemp, ambientTemp, humidity, rainfall);
    assert baseLapTime * m - baseLapTime == baseLapTime * (m - 1.0);
    baseLapTime * m
  }

  /** `adjust_degradation_rate`: scales the rate by at most a factor 2. */
  function AdjustDegradationRate(baseRate: real, trackTemp: real, ambientTemp: real, humidity: real, rainfall: real): (r: real)
    ensures r == baseRate * DegradationModifier(trackTemp, ambientTemp, humidity, rainfall)
    ensures baseRate >= 0.0 ==> 0.35 * baseRate <= r <= 2.0 * baseRate
  {
    var m := DegradationModifier(trackTemp, ambientTemp, humidity, rainfall);
    ScaleBounds(baseRate, m);
    baseRate * m
  }

  lemma ScaleBounds(a: real, m: real)
    requires 0.35 <= m <= 2.0
    ensures a >= 0.0 ==> 0.35 * a <= a * m <= 2.0 * a
  {
    if a >= 0.0 {
      MulMono(a, 0.35, m);
      MulMono(a, m, 2.0);
    }
  }

  /** Current weather as given; missing fields take the defaults 25 / 0 / 25 / 50. */
  datatype WeatherData = WeatherData(trackTemp: Option<real>, rainfall: Option<real>, ambientTemp: Option<real>, humidity: Option<real>)

  datatype Forecast = Forecast(trackTemp: real, ambientTemp: real, humidity: real, rainfall: real, condition: Condition)

  /** `predict_weather_evolution`: the track cools 0.1 degrees a lap down to
      15, rain eases 0.05 a lap down to 0, ambient cools 0.05 a lap. */
  function PredictWeatherEvolution(w: WeatherData, lapsAhead: int): (f: Forecast)
    ensures f.trackTemp >= 15.0 && f.rainfall >= 0.0
    ensures f.humidity == w.humidity.GetOr(50.0)
    ensures lapsAhead >= 0 ==> f.trackTemp <= Max(15.0, w.trackTemp.GetOr(25.0))
    ensures f.condition == DetermineCondition(f.trackTemp, f.ambientTemp, f.humidity, f.rainfall)
  {
    var temp := Max(15.0, w.trackTemp.GetOr(25.0) - lapsAhead as real * 0.1);
    var rain := Max(0.0, w.rainfall.GetOr(0.0) - lapsAhead as real * 0.05);
    var ambient := w.ambientTemp.GetOr(25.0) - lapsAhead as real * 0.05;
    var humidity := w.humidity.GetOr(50.0);
    Forecast(temp, ambient, humidity, rain, DetermineCondition(temp, ambient, humidity, rain))
  }
}

=== FILE: wrappers.dfy ===
/** Optional values and error-carrying results, used wherever the Python code
    returns `None` or raises an exception. */
module Wrappers {

  /** A value that may be absent (Python `None`). */
  datatype Option<+T> = None | Some(value: T) {
    /** The wrapped value, or `default` when absent (`x if x is not None else default`). */
    function GetOr(default: T): T {
      match this
      case Some(v) => v
      case None => default
    }
  }

  /** The outcome of an operation that may raise. */
  datatype Result<+T, +E> = Success(value: T) | Failure(error: E) {
    predicate IsFailure() {
      Failure?
    }

    function PropagateFailure<U>(): Result<U, E>
      requires Failure?
    {
      Failure(error)
    }

    function Extract(): T
      requires Success?
    {
      value
    }
  }

  /** The Python exception classes the modelled code can raise. */
  datatype PyError =
    | AttributeError(attribute: string)
    | ZeroDivisionError
    | ValueError(message: string)
    | TypeError(message: string)
    | KeyError(key: string)
    | StatisticsError(message: string)
}
